=== FILE: README.md ===
# bounce_zero in Dafny

A model of the game logic of bounce_zero, a PSP port of the classic "Bounce"
game, together with the pure parts of its platform layer and its font build
tools. The model covers:

- the tile physics engine: collision tests, the per-tile rules, and one
  integer update of the ball;
- the tile grid, moving spikes, checkpoints, ring pairs, score, lives and
  the exit door;
- one game frame: steering from the controller, death and respawn, the door
  tick and the cheat key;
- the controller edge, accumulate and lock state machine;
- UTF-8 decoding, text and number measurement, and glyph lookup;
- the OTT (Nokia Smart Messaging) ringtone bit reader and parser;
- string-table parsing and `%U` placeholder substitution;
- the 16-byte save record and its update rules;
- menu cursors and word wrap;
- texture sizing, the VRAM bump allocator, the PNG memory cursor and the
  sprite corner permutation;
- the two Python font tools: glyph-file validation, T4 nibble packing, atlas
  layout, and the legacy table index to code point mapping.

Global state (`g_game`, `g_level`, the player, the input state) becomes
explicit values that are passed in and returned. C integer semantics are
written out in `CInt`:

- truncating `/`;
- arithmetic `>>`;
- 32-bit wrap-around where unsigned arithmetic can overflow.

The three collision bitmaps (small ball, large ball, ramp) are not part of
this model's sources. They are a `Masks` parameter of fixed dimensions
(12x12, 16x16, 12x12).

`testTile` can enlarge or shrink the ball, and resizing runs
`collisionDetection` again. That nesting has no bound in the code, so the
recursion is bounded by a `fuel` argument; running out of fuel yields `None`.

Behaviour of the code worth knowing:

- **Speed bound.** `clamp_speed` bounds both speeds to 150 before the ball
  moves. The jump and the gravity step come after the clamp, so the end of a
  tick is not bounded by 150. `Motion.VerticalSweep` proves the bound
  during the sweep. `Motion.PlayerUpdate` proves 152 at the end of a tick
  without the jump key. The extra 2 comes from the floating large ball.
- **Ceiling under reverse gravity.** The floor test of the vertical
  sweep accepts any blocked step with positive speed, so under reverse
  gravity a blocked step in either direction bounces and grounds the ball.
  The reversed ceiling speed of -20 is never set (`Motion.VerticalStep`).
- **Friction.** Friction does not stop at zero: a speed of 2 becomes -2
  and 1 becomes -3 (`Motion.FrictionOscillates`).
- **Glyph rows.** '#' is ink only after the first column. The comment
  test runs before a bitmap row is read, so a row whose first pixel is
  written '#' is dropped as a comment (`AtlasTool.InkFirstRowIsLost`). The
  exporter writes '0' and '1' only, so its files are not affected
  (`FontTable.ExportedGlyphReadsBack`).

## Model

| member | source | states |
|---|---|---|
| Ball.ClampComponent | src/physics.c:54-59 | a speed component keeps its value within ±150 and is cut to ±150 with its sign kept otherwise |
| Ball.ClampSpeed | src/physics.c:54-59 | after clamping both speeds are within 150, the speed magnitude never grows, an in-bound ball is unchanged, and nothing but the two speeds changes |
| Ball.ClampIdempotent | src/physics.c:54-59 | clamping twice is clamping once |
| Ball.SetDirection | src/physics.c:209-213 | setting a key adds only that direction (Down is ignored) and changes nothing else |
| Ball.ReleaseDirection | src/physics.c:217-221 | releasing a key removes only that direction and changes nothing else |
| Ball.SteeringRoundTrip | src/physics.c:209-221 | set then release removes the key, release then set adds it, and Down can never be set |
| Ball.Redirect | src/physics.c:360-398 | a rubber ramp (34-37) reflects the velocity across a diagonal: odd ids swap the components, even ids swap them and change both signs; a plain ramp (30-33) does the same to the components halved by an arithmetic shift; so each new component is no faster than the old one it swaps with, and any other id stops the ball |
| Ball.Reflect | src/physics.c:360-398 | a reflection across a diagonal swaps the magnitudes of the components and keeps the Euclidean length |
| Ball.RedirectNeverSpeedsUp | src/physics.c:360-398 | the larger speed magnitude never grows, and the rubber-ramp swaps (ids 34-37) undo themselves |
| Ball.Popped5 | src/physics.c:185-205 | popping sets the popped state with counter 5 and zeroes both speeds, the jump offset and all three bonus counters, changing nothing else |
| Ball.PoppedTick | src/physics.c:635-643 | a popped ball only counts down and becomes dead when its counter was 1 |
| Ball.DeadAfterFiveFrames | src/physics.c:635-643 | a ball stays popped for the four updates after the pop and is dead after exactly five |
| CInt.TruncDivRemainder | src/physics.c:778 | C division truncates toward zero: the remainder is smaller than the divisor and has the dividend's sign |
| CInt.Asr | src/physics.c:373-374 | an arithmetic right shift by n rounds down: it is the largest r with r·2ⁿ ≤ x |
| CInt.WrapUInt32 | src/png.c:34-67 | unsigned 32-bit arithmetic: the result is in [0, 2³²), congruent to the input, and the input itself when it already fits |
| CInt.HalvingRoundings | src/physics.c:776-778 | the bounce `v * -1 / 2` and the wall rebound `-(v >> 1)` (line 895) agree except on odd negative speeds, where the shift gives one more |
| CInt.MinusFiveHalved | src/physics.c:776-778 | on -5 the wall rebound's shift gives 3 where the bounce's division gives 2 |
| Collide.RectCollideIsSharedPoint | src/physics.c:912-915 | two rectangles with inclusive edges collide exactly when they share a point, so the test is symmetric |
| Collide.BallBox | src/physics.c:917-925 | the ball's box starts at its top-left pixel and spans its diameter |
| Collide.TileBox | src/physics.c:917-925 | a tile's box is the 12-pixel square at its grid position |
| Collide.ThinBox | src/physics.c:917-966 | the thin box is the tile box narrowed by 4 pixels on the narrowed axis, and is never inverted |
| Collide.ThinNarrowingMatchesTable | src/physics.c:926-954 | the X-narrowed group is the horizontal-thin spikes, vertical rings and floor inflators and the Y-narrowed group the rest; no tile is narrowed both ways |
| Collide.RimIsCentreSegment | src/physics.c:969-1054 | every ring rim is a one-pixel segment on the tile's centre line, perpendicular to the opening, anchored at the side the table orientation names |
| Collide.RampCornerFollowsOrientation | src/physics.c:294-329 | the corner the ramp bitmap is read from follows the table orientation of ramps 30-37 |
| Collide.RampReflectsAcrossSlope | src/physics.c:360-398 | every ramp id has a corner orientation; top-right and bottom-left ramps reflect across the rising diagonal (swap), top-left and bottom-right ramps across the falling one (swap and negate), rubber ramps at full speed and plain ramps after halving |
| Collide.RampIndexInBounds | src/physics.c:294-329 | with corners in {0, 11}, the indices `abs(b - b2)` and `abs(b5 - b1)` stay within the 12x12 ramp bitmap |
| Collide.RampProbeOf | src/physics.c:294-329 | every ramp id gives a ramp probe whose corners are inside the 12x12 ramp bitmap |
| Collide.Clip | src/physics.c:41-49 | the overlap of the ball with a tile, along one axis, runs from max(rel, 0) to min(12, rel + size) |
| Collide.ScanGrid | src/physics.c:224-281 | the pixel scan finds a hit exactly when some pixel of the clipped window is set in both masks |
| Collide.ScanColumn | src/physics.c:224-281 | one column of the pixel scan finds a hit exactly when some pixel of its row window is set in both masks |
| Collide.MaskCollide | src/physics.c:224-357 | the square and ramp mask tests report a collision exactly when some overlapping pixel is set in both bitmaps |
| Collide.TriangleCollide | src/physics.c:284-357 | the ramp test reports the mask hit, and redirects the speed only on a hit while the ball is airborne |
| Collide.MaskHitNeedsOverlap | src/physics.c:224-281 | a mask hit implies the ball's and the tile's boxes overlap |
| Collide.SpikeBox | src/physics.c:485-503 | a moving spike's box is its 24-pixel square at the object's corner plus its offset |
| Physics.PopBall | src/physics.c:185-205 | with the cheat on nothing changes; otherwise the ball pops and one life is lost, and the speed never grows |
| Physics.ScanRange | src/physics.c:401-423 | the tile range to scan is never empty |
| Physics.ScanRangeIsBallFootprint | src/physics.c:401-423 | on the map the scanned columns and rows are exactly those the ball's box overlaps |
| Physics.ScanRangeAboveMap | src/physics.c:404-410 | above the map the 12-pixel shift makes the scan include a row above row 0 |
| Physics.CollisionDetection | src/physics.c:401-436 | a probe keeps the level's shape, the steering keys and a popped state, never speeds the ball up and never kills it |
| Physics.ScanCols | src/physics.c:427-433 | the column-by-column fold keeps the probe invariant, once blocked stays blocked until the ball pops, and a popped ball is blocked only by the off-map last tile |
| Physics.ScanRows | src/physics.c:428-432 | the same facts for the rows of one column |
| Physics.TestTile | src/physics.c:439-629 | off the map the move is blocked; a popped ball passes every tile on the map; ids of 55 and above keep the running verdict; a blocked verdict stays blocked |
| Physics.ResizeTile | src/physics.c:568-583 | deflators always block and act only on a large ball; inflators block on the thin box and act only on a small ball |
| Physics.Shrink | src/physics.c:167-182 | shrinking keeps the probe invariant and leaves a small ball as it is |
| Physics.Enlarge | src/physics.c:121-164 | enlarging keeps the probe invariant and leaves a large ball as it is |
| Physics.EnlargeSearch | src/physics.c:132-163 | the free-space search for a grown ball keeps the probe invariant |
| Physics.Collect | src/physics.c:504-537 | collecting a ring changes only what `game_ring_collected` changes and leaves the ball alone |
| Physics.RingTile | src/physics.c:504-542 | ring tiles never change the ball and never unblock a move |
| Physics.SpikeBlockTile | src/physics.c:485-503 | the moving-spike tile keeps the probe invariant and never unblocks a move |
| Physics.TileEffect | src/physics.c:456-626 | every tile without a resize keeps the probe invariant and never unblocks a move |
| Physics.PlainTileEffect | src/physics.c:460-600 | ids 0-12 (bricks, spikes, moving spikes, the checkpoint and the exit) keep the probe invariant and never unblock a move |
| Physics.HoopTileEffect | src/physics.c:504-542 | every ring half keeps the probe invariant and never unblocks a move |
| Physics.BonusTileEffect | src/physics.c:561-621 | the speed, gravity and jump bonuses keep the probe invariant and never unblock a move |
| Physics.RampTile | src/physics.c:543-553 | a ramp tile keeps the probe invariant and never unblocks a move |
| Physics.RedirectShrinks | src/physics.c:360-398 | a ramp redirect never raises the speed magnitude |
| TileRules.BonusTilesBlock | src/physics.c:561-621 | speed, gravity and jump tiles always block and set their counter to 300, changing nothing else |
| TileRules.DeflatorRule | src/physics.c:568-573 | a deflator always blocks; a small ball is unchanged and a large one shrinks |
| TileRules.InflatorRule | src/physics.c:576-583 | an inflator blocks exactly on its thin box, and only a small ball that touches it grows |
| TileRules.SpikeRule | src/physics.c:479-484 | a spike tile blocks and pops the ball exactly when the ball touches its thin box |
| TileRules.BrickRule | src/physics.c:460-478 | a brick blocks on a mask hit; a miss sets the ramp flag and a blue brick hit sets the rubber flag |
| TileRules.RampVerdict | src/physics.c:543-553 | a ramp hit blocks and sets the ramp flag (and the rubber flag for ids 34-37); a miss changes nothing |
| TileRules.RampRule | src/physics.c:543-553 | ramp tiles change only the ball, and only on a hit |
| TileRules.RampRedirects | src/physics.c:543-553 | a ramp hit redirects the speed only when the ball is airborne |
| TileRules.RingRules | src/physics.c:504-542 | a large ball on a small ring is blocked, bottom halves 14 and 22 collect without a rim test, other active rings collect only off the rim, inactive rings never collect, and 25/27/28 block exactly on the rim |
| TileRules.CollectScores | src/physics.c:504-537 | a collected ring adds 500 points and one ring, and starts the door when the count reaches the level's total |
| TileRules.CheckpointRule | src/physics.c:586-589 | a checkpoint adds 200 points, moves the respawn there and marks it active without blocking |
| TileRules.ExitRule | src/physics.c:592-600 | a closed exit blocks; an open exit completes the level without blocking |
| TileRules.ExtraLifeRule | src/physics.c:603-606 | an extra life clears its own cell's id (flags kept), adds 1000 points and keeps the lives within 5 |
| TileRules.RowsBlockedOffMap | src/physics.c:427-442 | if any scanned tile of a column is off the map, the column's verdict blocks unless the ball popped |
| TileRules.ColsBlockedOffMap | src/physics.c:427-442 | if any scanned tile is off the map, the whole scan blocks unless the ball popped |
| TileRules.CeilingIsSolid | src/physics.c:404-442 | a probe above the top of the map always blocks unless the ball popped |
| TileRules.PoppedProbe | src/physics.c:401-446 | for a popped ball a probe only moves the box, and passes unless the last tile of the range is off the map |
| Tiles.MetaDb | src/tile_table.c:6-128 | the table has 55 rows; the empty tile has no sprite and the moving spikes render as a composite |
| Tiles.MetaCount | src/tile_table.c:130-132 | the count agrees with the table |
| Tiles.RingsAreHoops | src/tile_table.c:43-68 | ring ids 13-28 are hoops whose orientation cycles top, bottom, left, right |
| Tiles.RingPartnersShareOrientation | src/tile_table.c:43-68 | each active ring has its inactive partner's orientation (k and k+4) |
| Tiles.RampOrientations | src/tile_table.c:73-95 | plain and rubber ramps share the corner order TL, TR, BR, BL and the sprite transforms |
| Tiles.CompositeAndBlankSprites | src/tile_table.c:8-41 | only id 10 is composite, exactly ids 0, 11 and 12 have no sprite, and the second column is always 0 |
| LevelMap.TileAt | src/level.c:242-247 | off the map the raw tile is 1 (a wall); on the map it is the stored byte |
| LevelMap.GetId | src/level.c:619-624 | the id is the low 6 bits of the cell, and 0 off the map |
| LevelMap.IsWater | src/physics.c:656-665 | the water flag is bit 6 of the cell under the ball's centre, and false off the map |
| LevelMap.WithId | src/level.c:627-633 | the rewritten byte has the new id in its low 6 bits and keeps the two flag bits |
| LevelMap.SetId | src/level.c:627-633 | a write changes only the low 6 bits of its own cell, and nothing off the map |
| LevelMap.SetIdSameIsIdentity | src/level.c:627-633 | writing the id a cell already has changes nothing |
| LevelMap.SetIdTwice | src/level.c:627-633 | the second write to a cell wins |
| LevelMap.SetIdCommute | src/level.c:627-633 | writes to different cells commute |
| LevelMap.TwoWritesFrame | src/level.c:627-633 | two writes change only their two cells' ids and no flags |
| LevelMap.FindMovingObjectAt | src/level.c:592-603 | the result is the lowest index of a mover covering the tile, or -1 exactly when none does |
| LevelMap.GetMovingObject | src/level.c:605-610 | a mover is returned exactly for indices within the list |
| LevelMap.StepAxis | src/level.c:556-589 | one axis step moves by the direction inside the track, and clamps and reverses at either end |
| LevelMap.UpdateMovingObjects | src/level.c:556-589 | every mover steps once and nothing else in the level changes |
| LevelMap.StepMover | src/level.c:556-589 | one step changes only the offsets and directions, and keeps each offset within [0, (length - 2)·12] on a track at least 2 tiles long |
| LevelMap.MoverStaysInRange | src/level.c:556-589 | for a track at least 2 tiles long the offset always ends within [0, (length - 2)·12] |
| LevelMap.SetRespawn | src/level.c:659-662 | only the respawn tile changes |
| LevelMap.RespawnRoundTrip | src/level.c:659-668 | reading back the respawn gives what was stored, and storing what was read changes nothing |
| LevelMap.DeactivateOldCheckpoint | src/level.c:637-644 | only the respawn cell can change, and only when its id is exactly 7, to 8 with its flags kept |
| LevelMap.MarkCheckpointActive | src/level.c:647-653 | an on-map cell becomes id 8 with its flags kept; nothing else changes |
| LevelMap.SignExtend | src/level.c:228-229 | a direction byte reads as its two's-complement value in [-128, 128) |
| LevelMap.MoversSection | src/level.c:210-235 | movers are loaded exactly when the count byte is 1..16 and all records fit |
| LevelMap.HeaderOnly | src/level.c:173-195 | a rejected level keeps the eight header fields with an all-zero grid, no movers, a zero start and the old respawn |
| LevelMap.Parsed | src/level.c:197-237 | an accepted level starts at tile·12 + 6 for a small ball and + 8 otherwise, reads its grid row by row from byte 8 and its movers from the trailing section |
| LevelMap.LoadFromMemory | src/level.c:173-238 | loading fails with the old level for no data or a short header, and with a header-only level for a zero width or height or a short grid; success gives the parsed level; the respawn is never touched |
| LevelMap.LoadedCell | src/level.c:203-207 | every grid cell of a loaded level is the byte at 8 + y·width + x of the input |
| Game.AddScore | src/game.c:542-544 | only the score changes, by the points given |
| Game.AddRing | src/game.c:546-551 | 500 points and one ring are added, nothing else changes |
| Game.AddExtraLife | src/game.c:560-568 | 1000 points are always added, and a life only below 5, so at most 5 lives stay at most 5 |
| Game.CompleteLevel | src/game.c:570-579 | 5000 points are added, the level is complete and the records are updated with the new score |
| Game.ExitOpen | src/game.c:660-666 | the door starts opening; the offset resets only when it was not already opening |
| Game.ExitReset | src/game.c:669-672 | the door is closed with offset 0 |
| Game.DoorTick | src/game.c:244-250 | while opening the offset grows by 4 and stops at 24, which ends the opening |
| Game.DoorOpensInSixTicks | src/game.c:244-250 | a closed door that starts opening is open after exactly six ticks and not before |
| Game.ExitAnimOffset | src/game.c:675-677 | for any reachable door position the reported offset is a whole number of 4-pixel steps between 0 and 24 |
| Game.ExitIsOpen | src/game.c:680-682 | for any reachable door position the door reads as open exactly when it has slid the full 24 pixels |
| Game.DoorSlides | src/game.c:244-250 | an opening door slides 4 pixels per tick, stops at 24 and stops opening there, staying a reachable position |
| Game.DoorAnimation | src/game.c:675-682 | `n` ticks after opening starts the offset is min(4n, 24) and the door reads as open exactly from the sixth tick |
| Game.SetIdPreservingFlags | src/game.c:583-590 | the flag-preserving write is the level's own id write |
| Game.SetIdLowBitsOnly | src/game.c:583-590 | only the low 6 bits of the new id matter |
| Game.DeactivateRingPair | src/game.c:592-638 | deactivating a ring pair touches only the grid |
| Game.DeactivateMatchesTable | src/game.c:592-638 | each collected ring half and its partner get the inactive ids in the listed directions, and any other id is a no-op |
| Game.DeactivateIdempotent | src/game.c:592-638 | deactivating the same ring twice is deactivating it once |
| Game.DeactivateFrame | src/game.c:592-638 | only the ring's cell and its partner's cell change, with their flags kept |
| Game.PairRewriteShape | src/game.c:592-638 | the partner is a different cell and the written ids need no masking |
| Game.RingCollected | src/game.c:641-655 | a ring adds 500 points and one ring, deactivates the pair, and starts the door exactly when the total is reached |
| Game.SetRespawn | src/game.c:553-558 | the old checkpoint is deactivated, the new one is marked id 8, the respawn moves there, and no other cell or flag changes |
| Frame.SteerKey | src/game.c:180-196 | a steering direction ends set exactly when its button is held and was not released in between |
| Frame.JumpKey | src/game.c:197-204 | the jump is set only by a new press and cleared by a release or when the button is not held |
| Frame.Steering | src/game.c:180-204 | each key sets only its own direction, and the buttons and lock are unchanged |
| Frame.CheatToggle | src/game.c:253-257 | L pressed while R is held flips the invincibility cheat, and nothing else changes |
| Frame.HandleDeath | src/game.c:210-238 | with lives below zero the records are updated and the game is over with nothing else changed; otherwise the ball respawns at rest and alive, edges are reset and held buttons are locked, and a small ball is exactly a fresh ball at the respawn tile's centre |
| Frame.UpdateGame | src/game.c:174-260 | after a frame the level stays well formed, a dead ball implies game over, buttons are kept and the lock only grows; a pop's last frame either ends the game or respawns |
| Motion.FreshPlayer | src/physics.c:67-99 | a new ball is at rest, unsteered, normal, of the requested size and at the requested position |
| Motion.PlayerInit | src/physics.c:67-118 | a small ball is placed exactly as given; any result keeps the level well formed and leaves the ball at rest, unsteered and alive |
| Motion.Nudge | src/physics.c:100-117 | a nudge succeeds exactly when the probe at the nudged position does, reports that probe's verdict, and keeps the probe invariant |
| Motion.MediumGravity | src/physics.c:667-687 | gravity is the table for water and size: a large ball floats in water, and every step is smaller than its target |
| Motion.GravityBonusTick | src/physics.c:689-701 | the gravity bonus reverses gravity while more than one frame remains; the last frame ungrounds the ball |
| Motion.JumpBonusTick | src/physics.c:703-713 | the jump bonus raises a weak jump offset to 80 in gravity's direction and counts down |
| Motion.SlideTick | src/physics.c:715-719 | the slide counter cycles 0, 1, 2 |
| Motion.FrameGravity | src/physics.c:667-701 | the frame's gravity has the medium's strength and the bonus's direction |
| Motion.GravityPullsTowardTarget | src/physics.c:816-832 | gravity moves the vertical speed toward the target by at most one step and never past it, never acts on a grounded ball, and leaves a faster ball alone |
| Motion.FloatingDriftsAway | src/physics.c:816-832 | the floating large ball's rule drifts the speed away from its target |
| Motion.GravityKeepsSpeedBounded | src/physics.c:816-832 | from a clamped speed gravity ends within 152, and within 150 outside the floating case |
| Motion.Bounce | src/physics.c:775-801 | a bounce halves the speed against its direction (C truncation), snaps below 10 to ±10 along gravity, grounds the ball, and handles the rubber jump |
| Motion.BounceSpeed | src/physics.c:776-800 | a bounce speed is between 10 and the old speed, halved and reversed for speeds of 20 or more |
| Motion.Land | src/physics.c:782-791 | a rubber landing with the jump key held moves the jump offset 10 against gravity and clears the rubber flag; otherwise the offset resets unless the jump bonus is on |
| Motion.SteerBounds | src/physics.c:844-855 | steering keeps the speed below the cap plus one acceleration step and within 150; friction takes 4 off a speed of at least 4 |
| Motion.FrictionOscillates | src/physics.c:851-855 | friction overshoots zero: 1 becomes -3 and back, 2 becomes -2 and back |
| Motion.Prepare | src/physics.c:645-722 | the setup reads water under the centre, picks the frame's gravity, runs the counters and clamps the speed, without moving the ball |
| Motion.LeaveWater | src/physics.c:740-757 | leaving water only slows a floating ball's vertical speed |
| Motion.RampSlide | src/physics.c:761-772 | the sideways ramp slide keeps the probe invariant |
| Motion.VerticalStep | src/physics.c:727-812 | a one-pixel vertical step keeps the level and the keys and the speed within 150; a free step moves one pixel along the speed and leaves the ground; a blocked step bounces exactly when moving down or under reverse gravity, and the bounce is `Bounce` of the probed ball (grounded, at 10 or more); otherwise, moving up under normal gravity, it hits the ceiling and the speed becomes 20 |
| Motion.VerticalSweep | src/physics.c:727-813 | the vertical sweep keeps the speed within 150; a bounce is always its last step, and a sweep without a bounce ran as many steps as the speed it ended with allows |
| Motion.Accelerate | src/physics.c:816-865 | gravity, steering and the jump keep the position, keys, size and state; without the jump key the speed stays within 152 |
| Motion.HorizontalStep | src/physics.c:868-903 | one horizontal pixel step keeps the probe invariant |
| Motion.DiagonalSlide | src/physics.c:877-896 | the diagonal ramp slide keeps the probe invariant |
| Motion.Rebound | src/physics.c:893-902 | a wall rebound sets the speed to -(v >> 1), at most half the old speed rounded up |
| Motion.HorizontalSweep | src/physics.c:868-904 | the horizontal sweep keeps the probe invariant |
| Motion.ClampToLevel | src/physics.c:907-909 | the final x lies within [half, width·12 - half] when the level is wide enough, and an in-range x is kept |
| Motion.PlayerUpdate | src/physics.c:633-910 | a popped ball only counts down; otherwise the level keeps its shape, the keys are kept, the speed ends within 152 without the jump key and the ball ends inside the level |
| Input.Pressed | src/input.c:38-40 | a press is reported exactly when some unlocked button of the mask was pressed in the last reading, and such a button is also held |
| Input.Held | src/input.c:42-44 | a button is reported held exactly when some unlocked button of the mask is down |
| Input.Released | src/input.c:46-48 | a release is reported exactly when some button of the mask was released in the last reading, locked or not |
| Input.ReadingEdges | src/input.c:18-48 | after a reading, pressed means down now, up before and not locked; released means down before and up now; a pressed button is held |
| Input.Update | src/input.c:18-36 | a failed read changes nothing; otherwise pressed and released are the new and lost buttons, disjoint, accumulated by union, and released buttons leave the lock |
| Input.ConsumePressed | src/input.c:50-57 | a press is consumed exactly when an unlocked accumulated button of the mask is set, and then only those bits clear |
| Input.ConsumeReleased | src/input.c:59-65 | a release is consumed exactly when an accumulated release of the mask is set, and then only those bits clear |
| Input.ResetEdges | src/input.c:67-73 | all four edge sets are empty and the previous buttons are the current ones |
| Input.LockHeld | src/input.c:75-77 | the held buttons join the lock and nothing else changes |
| Input.LockHides | src/input.c:38-48 | locked buttons are never pressed or held, while releases ignore the lock |
| Input.RespawnLocksHeldButtons | src/game.c:228-234 | after a respawn a button still held is neither held nor pressable, and stays locked by the next controller read until it is released |
| Input.ConsumeOnce | src/input.c:50-65 | an edge can be consumed only once |
| Text.Decode | src/graphics.c:153-198 | ASCII decodes to itself in one byte; a valid 2-, 3- or 4-byte sequence takes its length; anything else gives a space and one byte |
| Text.DecodeEncode | src/graphics.c:153-198 | decoding the UTF-8 encoding of a code point gives it back with its length |
| Text.DecodeStaysInside | src/graphics.c:153-198 | a C string's decoder never reads past its terminator |
| Text.RemainingIsRunWidth | src/graphics.c:280-296 | the measuring loop adds the glyph widths plus one gap between neighbours, none after the last |
| Text.MeasureText | src/graphics.c:266-299 | measured with the atlas chosen for the font height: a missing text or atlas measures 0; otherwise the width of the decoded run with that height's spacing |
| Text.DigitsValue | src/graphics.c:329-350 | the printed digits read back as the number's magnitude |
| Text.Digits | src/graphics.c:330-333 | the printed digits are each below 10 with no leading zero |
| Text.MeasureNumber | src/graphics.c:329-350 | a number measures 10 for a minus sign plus its digit widths plus the digit gap after every digit but the last |
| Fonts.AtlasByHeight | src/font_atlas.c:7-15 | height 23 picks font23, 12 picks font12, and any other height font9 |
| Fonts.Lookup | src/font_atlas.c:21-34 | no atlas gives no glyph; an in-range glyph with width is returned; anything else falls back to the default code point's glyph, always from within the table |
| Fonts.LookupIsTotal | src/font_atlas.c:21-34 | with a drawable default every code point finds a glyph with width |
| Ringtone.ReverseTempo | src/sound.c:63-69 | a 5-bit tempo code maps into the table, between 25 and 900 bpm |
| Ringtone.TempoTableRises | src/sound.c:63-69 | the tempo table rises strictly from 25 to 900 |
| Ringtone.GetBits | src/sound.c:72-93 | a read gives a value below 2^bits and advances the cursor by exactly that many bits, moving at most one byte; at the end of the buffer it gives 0 and stays |
| Ringtone.GetBitsReadsStream | src/sound.c:72-93 | a read returns the next bits of the buffer, most significant first |
| Ringtone.Command | src/sound.c:145-186 | one command adds at most one note (below 1024) that copies the current settings, and only changes settings to valid codes; past the last readable byte it changes nothing |
| Ringtone.CommandReadsStream | src/sound.c:145-186 | a command starting before the last three bytes stores what the stream spells: the note's tone, length and modifier are its next 4, 3 and 2 bits, a scale code above 0 is stored one lower, a style or volume is stored as read, and a 5-bit tempo code becomes its bpm |
| Ringtone.CommandKeepsScales | src/sound.c:171-172 | after a command the current scale and every note's scale are the starting scale or a decremented scale code written in the stream |
| Ringtone.Pattern | src/sound.c:139-186 | a pattern adds at most 100 notes and every note keeps the settings it was given; for data ending before the last three bytes, every scale stays the starting one or a decremented code from the stream |
| Ringtone.SongName | src/sound.c:118-125 | the song name has the length of its 4-bit count |
| Ringtone.Patterns | src/sound.c:127-191 | the pattern loop keeps at most 1024 notes and only appends; for data ending before the last three bytes, every scale stays the starting one or a decremented code from the stream |
| Ringtone.ParseRingtone | src/sound.c:96-194 | a song type other than 1 or 2 yields no notes; at most 1024 notes, each carrying the settings current when it was read; for data ending before the last three bytes of the buffer, every note's scale is the starting scale or a scale code from the stream less one (codes above 0) |
| Ringtone.Header | src/sound.c:107-110 | the song type is the 3 bits at bit 23 and the cursor stands at byte 3, bit 2 |
| Local.Truncate | src/local.c:183-188 | a truncated string is a prefix of the stated length |
| Local.BE16 | src/local.c:108-111 | a big-endian 16-bit read lies in [0, 65536) |
| Local.CountStrings | src/local.c:104-118 | the count is the run of leading entries that lie inside the file, at most 100 |
| Local.Entry | src/local.c:120-156 | length 0 gives "", a length of 1023 or more gives "TooLong", and any other entry is its bytes up to the first NUL |
| Local.LoadCache | src/local.c:53-161 | without a file every slot is "NoLang"; otherwise the counted entries are loaded and the rest are empty |
| Local.GetText | src/local.c:164-175 | an id in [0, 32) gives its string and any other id "BadID" |
| Local.Find | src/local.c:180 | the search returns the first occurrence, or none when there is no occurrence |
| Local.Replace | src/local.c:177-216 | only the first occurrence is replaced; an absent pattern or an overlong result gives the source truncated to fit |
| Local.ReplaceOnlyFirst | src/local.c:180-213 | later occurrences survive the replacement, shifted by the length difference |
| Local.PlaceholdersDistinct | src/local.c:231-246 | the placeholders `%0U`, `%1U`, ... are pairwise different |
| Local.GetTextWithParams | src/local.c:219-251 | no parameters give the base string, one replaces "%U", the result always fits the buffer; with several parameters a base string that is a template (no '%' in its text or the parameters, no slot twice, no step out of buffer) has each `%iU` with i below min(n, 99) replaced by parameter i and every other placeholder left in place |
| Local.SubstituteParams | src/local.c:231-246 | the substitution loop fits the buffer and, on a template, fills exactly the slots numbered below min(n, 99), each with its own parameter |
| Local.SubstituteTemplate | src/local.c:240-247 | substituting parameters 0..n-1 in turn into a template gives the template with the slots below n filled and the rest still written as placeholders |
| Local.StepFills | src/local.c:244-246 | one `str_replace` step fills slot i of a template wherever it stands, or changes nothing when there is no slot i |
| Local.ReplaceFirst | src/local.c:177-216 | when the search string first occurs right after `a`, replacing in `a + search + b` gives `a + replace + b` if it fits |
| Local.PlaceholderPrefixFree | src/local.c:244 | a string that starts with one `%iU` placeholder starts with no other |
| Save.WordRoundTrip | src/save.c:112-140 | a stored 32-bit word reads back unchanged |
| Save.PackData | src/save.c:112-123 | magic, level and score go to offsets 0, 4 and 8 and the rest is zeroed; a missing or short buffer is untouched |
| Save.UnpackData | src/save.c:125-140 | a missing or short buffer fails; otherwise the three words are read |
| Save.PackUnpackRoundTrip | src/save.c:112-140 | unpacking a packed record gives it back |
| Save.UpdateRecords | src/save.c:259-281 | records never decrease and take the better of old and new, dirty is set when a record strictly improved (and kept otherwise), the new-best flag is raised only by a strictly better score, and nothing happens before initialisation |
| Save.StoreData | src/save.c:85-97 | nothing happens unless initialised and dirty; the written bytes unpack to the record and dirty clears only on success |
| Save.SaveInit | src/save.c:39-68 | an initialised save or a read error changes nothing; a loaded save keeps its dirty flag and writes nothing, adopting the stored level and score when the record is whole and has the magic number and resetting to the default record otherwise; a missing save resets to the default and is written only if already dirty |
| Save.StoredRecordReloads | src/save.c:43-53 | the bytes a store hands to the writer are adopted by the next start-up as the same record |
| Save.FirstRunIsNotWritten | src/save.c:54-62 | on the first run the default record is never written |
| Save.SaveInitFixed | src/save.c:39-68 | with the first-run write forced, a missing save writes the default record |
| Save.FirstRunIsWrittenWhenFixed | src/save.c:54-62 | the corrected first run writes the default record and is clean after a good write |
| Menu.MenuUpdate | src/menu.c:217-257 | the cursor stays in [0, 4] and never rests on an unavailable Continue; only Cross changes the screen, to the one under the cursor; with Cross pressed, New Game requests a fresh start of level 1, Continue resumes play when a game can be continued, Select Level, High Score and Instructions open their screens, and a selection outside the menu does nothing |
| Menu.GridStep | src/menu.c:373-408 | the moves of one frame leave a level in [1, 11] |
| Menu.LevelSelectUpdate | src/menu.c:359-419 | the selection stays in [1, 11], Cross starts the selected level, and Circle returns to the menu |
| Menu.GridMovesByRows | src/menu.c:373-408 | Up and Down move exactly one row when there is one, and no key keeps the level |
| Menu.LevelUnderInRow | src/menu.c:373-408 | the level under any column of a row belongs to that row |
| Menu.CentredLastRow | src/menu.c:373-408 | the short last row is centred, and every column over it selects its only level |
| Menu.InstructionsUpdate | src/menu.c:259-273 | the page stays in [0, 5] and moves by at most one; Cross, Circle or Start leave to the menu with page 0 |
| Menu.MenuTypeOf | src/menu.c:713-730 | each menu state maps to its screen and every other state to the main menu |
| Menu.MenuTypeRoundTrip | src/menu.c:713-730 | every screen is reached from its own state |
| Menu.Word | src/menu.c:74-90 | a word is a run of non-space bytes, cut below 256 bytes |
| Menu.Words | src/menu.c:74-90 | every word of a text is non-empty and shorter than a line |
| Menu.LaidAll | src/menu.c:92-130 | every laid-out line is its words joined by single spaces, fits, and could not take the next line's first word |
| Menu.PlaceWord | src/menu.c:92-130 | a word joins the line when the joined line fits, and otherwise closes the line and starts a new one |
| Menu.WrapStep | src/menu.c:74-130 | one word of the text is placed and no word is lost or reordered |
| Menu.WrapWords | src/menu.c:66-130 | the lines plus the open line are the text's words in order, unless the line budget ran out |
| Menu.CloseWrap | src/menu.c:132-144 | the closed lines are laid out, their words are a prefix of the text's words, and all of them when fewer than `max_lines` lines were used |
| Menu.WrapTextLines | src/menu.c:61-145 | no text or no budget gives no lines; at most `max_lines` lines, each its words joined by spaces, shorter than 256 bytes, fitting, and greedy; the words come in order, all of them when the budget did not run out |
| Png.TextureMemorySize | src/png.c:34-51 | the byte size is the pixel count times the bits per pixel over 8 for each format, 0 for unknown formats, in 32-bit arithmetic |
| Png.AlignUp16 | src/png.c:61-62 | alignment rounds up to the next multiple of 16 |
| Png.VramAlloc | src/png.c:54-67 | the allocator as written: a refusal keeps the offset, a grant is 16-aligned; without wrap-around it refuses exactly when the unaligned block would not fit, and a grant starts at most 15 bytes after the offset and may end up to 15 bytes past VRAM; from an aligned offset it agrees with the corrected allocator |
| Png.VramAllocOverruns | src/png.c:54-67 | the check before alignment lets a block run past the end of VRAM |
| Png.VramAllocChecked | src/png.c:54-67 | the corrected allocator grants an aligned block that fits exactly when alignment plus size fits |
| Png.AllocationsDisjoint | src/png.c:54-67 | consecutive grants never overlap |
| Png.Read | src/png.c:99-109 | a read copies at most the remaining bytes and advances the cursor by what it copied |
| Png.Skip | src/png.c:112-118 | a skip clamps the cursor to the end of the data |
| Png.ReadsConcatenate | src/png.c:99-109 | two reads equal one read of the combined length |
| Png.EndOfData | src/png.c:99-124 | the end is reached exactly when a read asked for at least what remained |
| Png.RoundUpPow2 | src/png.c:189-192 | a texture side is the smallest power of two at least the image side |
| Png.PlaceTexture | src/png.c:188-210 | texture sides are the next powers of two and the image size is kept; the VRAM block comes from the allocator as written, so it is refused exactly when the unaligned block would not fit, starts at or after the old offset and ends less than 16 bytes past VRAM, and fits in VRAM when the old offset was aligned |
| Png.TransformCodesRoundTrip | src/png.c:367-378 | transform codes and transforms convert back and forth, and unknown codes are the identity |
| Png.StepsPermute | src/png.c:382-402 | each turn or mirror step keeps the corners a permutation |
| Png.CornerOrder | src/png.c:367-403 | the corner order is a permutation of 0..3 and equals the geometric transform of the square |
| Png.TurnCorners | src/png.c:382-390 | the turn loop gives the corners turned n quarter turns |
| Png.MirrorsMatch | src/png.c:392-402 | mirroring after the turns matches the geometry |
| Png.MirrorBothIsHalfTurn | src/png.c:392-402 | flipping in X and then Y gives the same corner order as a half turn, the equivalence level.c relies on at line 67 |
| Png.IdentityKeepsCorners | src/png.c:367-403 | the identity keeps the corners in place |
| Png.MirroredThreeQuartersIsQuarter | src/png.c:367-403 | three quarter turns with both mirrors is one quarter turn |
| Png.FourTurnsRestore | src/png.c:382-390 | four quarter turns restore the corners |
| FontTable.IndexToCodepoint | tools/fontc_to_fonttxt.py:10-25 | indices 0..127 map to themselves, every table index maps into 0..0x451, and indices past the table have no code point |
| FontTable.CodepointToIndex | tools/fontc_to_fonttxt.py:10-25 | a code point maps back to a table index |
| FontTable.MappingInverse | tools/fontc_to_fonttxt.py:10-25 | the two mappings are inverse to each other |
| FontTable.MappingInjective | tools/fontc_to_fonttxt.py:10-25 | different table indices map to different code points |
| FontTable.Line | tools/fontc_to_fonttxt.py:38-46 | a line has `width` characters and column c shows bit (bit_width - 1 - c) |
| FontTable.BitsToLines | tools/fontc_to_fonttxt.py:38-46 | one line per row |
| FontTable.LineReadsBack | tools/fontc_to_fonttxt.py:38-46 | an exported line is accepted by the atlas tool's row check and reads back as the same bits |
| FontTable.ExportedGlyphReadsBack | tools/fontc_to_fonttxt.py:38-46 | the rows of an exported glyph, closed by "end", are read back by the atlas tool's row reader as exactly those rows |
| FontTable.SelectGlyphs | tools/fontc_to_fonttxt.py:49-75 | a row-count mismatch in the first 194 entries aborts; otherwise glyphs come in increasing code point order, one per used entry, with that entry's rows and width |
| AtlasTool.ParseCodepoint | tools/fonttxt_to_atlas.py:20-23 | a token is accepted exactly when it starts with "U+" followed by hex digits, which give its value |
| AtlasTool.Hex4 | tools/fontc_to_fonttxt.py:68-69 | code points print as at least four hex digits |
| AtlasTool.CodepointTokenRoundTrip | tools/fonttxt_to_atlas.py:20-23 | a printed code point parses back to itself |
| AtlasTool.RowBits | tools/fonttxt_to_atlas.py:71-74 | a line the reader takes as a row is accepted exactly when it is a non-empty run of '.', '#', '0' or '1', with '#' and '1' as ink; a line whose first character is '#' never gets here (see ReadBitmap) |
| AtlasTool.ReadBitmap | tools/fonttxt_to_atlas.py:64-74 | the reader passes over blank lines and lines starting with '#', stops after "end", returns non-empty rows of '0' and '1' only, and fails exactly when the first line that is neither passed over, nor "end", nor a row is not a bitmap row |
| AtlasTool.BinaryRowsReadBack | tools/fonttxt_to_atlas.py:64-74 | rows written in '0' and '1' and closed by "end" are read back as themselves |
| AtlasTool.InkFirstRowIsLost | tools/fonttxt_to_atlas.py:67 | a row whose first pixel is written '#' is taken for a comment: the glyph is read as if the row were not there |
| AtlasTool.InkFirstRowKeptAsOne | tools/fonttxt_to_atlas.py:67-74 | "#." then ".." reads as one row, while "1." then ".." reads as two |
| AtlasTool.NormalRow | tools/fonttxt_to_atlas.py:71 | rewriting turns ink into '1' and the rest into '0' |
| AtlasTool.AddGlyph | tools/fonttxt_to_atlas.py:75-77 | a duplicate code point aborts; otherwise the glyph is added and no other entry changes |
| AtlasTool.ValidateGlyph | tools/fonttxt_to_atlas.py:90-99 | a glyph is accepted exactly when it has `height` rows all of the declared width |
| AtlasTool.DefaultWidth | tools/fonttxt_to_atlas.py:93-99 | without a declared width the rows must share one length, which becomes the width |
| AtlasTool.PixelAt | tools/fonttxt_to_atlas.py:111-119 | a pixel reads as a value in [0, 16) |
| AtlasTool.PackPixel | tools/fonttxt_to_atlas.py:111-119 | packing a pixel changes only the byte holding it |
| AtlasTool.PackThenRead | tools/fonttxt_to_atlas.py:111-119 | a packed pixel reads back as its low 4 bits and every other pixel is unchanged |
| AtlasTool.CeilDiv | tools/fonttxt_to_atlas.py:156 | the page count is the ceiling of the cells over the cells per page |
| AtlasTool.PlanLayout | tools/fonttxt_to_atlas.py:145-156 | the layout fails exactly when a cell cannot fit the page; otherwise the grid is as wide and tall as fits and the pages hold every code point of the range |
| AtlasTool.CellInsidePage | tools/fonttxt_to_atlas.py:162-169 | every cell lies inside its 512x512 page and its page index is below the page count |
| AtlasTool.CellsDisjoint | tools/fonttxt_to_atlas.py:162-169 | cells of different code points never overlap |
| AtlasTool.DrawRow | tools/fonttxt_to_atlas.py:178-181 | drawing a row sets its ink pixels to 1 and leaves every other pixel alone |
| AtlasTool.DrawGlyph | tools/fonttxt_to_atlas.py:178-181 | drawing a glyph sets exactly its ink pixels and leaves the rest of the page alone |
| AtlasTool.BuildGlyphTable | tools/fonttxt_to_atlas.py:155-183 | the table has one entry per code point of the range, (0,0,0,0,0) for a missing glyph |
| AtlasTool.TableFeedsLookup | tools/fonttxt_to_atlas.py:155-183 | the runtime lookup of a generated table finds each drawn glyph with its width and height, in a cell inside a page that exists |

## Left out

- Rendering: `level_render_visible_area`, the HUD, camera, GPU batches, sprite drawing, the splash screen and the menu `*_render` functions. They are float and GPU calls with no game logic.
- File and device I/O: level files, the stb_image decode, the OTT file read, the PSP save utility dialog, `fopen` and language detection, and the controller read. They become parameters: the level bytes, the memory buffer, the ringtone buffer, a `LoadOutcome` and `writeOk` flag for saves, an optional file for strings, and an optional button mask for the controller.
- Audio synthesis and playback: frequency and duration math, the wavetable and the audio callback. They use floating point and run on the audio thread. The `sound_play_*` calls made from the physics and the game are no-ops here.
- The main loop in src/main.c: the kernel callbacks and the 30 ms clock are plumbing.
- tools/create_font_legacy.py is an interactive clipboard tool and is not part of this model.
- The collision bitmaps in `level_masks.inc` are not part of this model's sources. The model takes them as a parameter of fixed size and proves only what holds for every bitmap.
- The headers carry only constants and declarations. The constants used are written into the modules; the tile-id mask `TILE_CLEAN_MASK` is taken as 0x3F, in line with `level_get_id` returning the id without flags.
- The float UV coordinates of `png_draw_sprite_transform` are left out; only the corner index array is modelled.
- `parse_ringtone` returns 0 on every path; the model returns the parsed record instead of a status.
- The header, range and default lines of the glyph-file parser in tools/fonttxt_to_atlas.py, the C and header emission of both tools, and the `parse_font_c` regular expression. The model reads one glyph's bitmap lines and validates parsed glyphs.
- Physics.CollisionDetection: a `fuel` argument bounds the nesting of resizes inside probes, and the enlarge search, which the code leaves unbounded; with no fuel left the result is `None`.
- Motion.PlayerUpdate: the speed bound is 152 at the end of a tick and only without the jump key, not 150; the jump adds the jump offset after the clamp, so the code itself bounds nothing there.
- Motion.HorizontalStep: states the probe invariant only; the diagonal position after a ramp slide is not stated.
- Ringtone.Command: the 2-bit pattern id that a command 0 reads is skipped without being recorded, as in the code. The stored values are tied to the stream bits only for a command that starts before the last three bytes of the 16738-byte buffer; nearer the end the reader's zero reads mix with real bits, and only the value ranges are stated there.
- Fonts.Lookup: when the default code point lies outside the table, the code reads past the glyph array, which is undefined behaviour in C; the model returns `None` there instead of a glyph.
- Fonts.Glyph: the fields are unbounded integers, while the C record stores `x` and `y` as u16 and `w`, `h` and `page` as u8; truncation of out-of-range values is not modelled.
- Png.PlaceTexture: requires image sides of at most 16384 so that the texture byte size stays within 32 bits; the code does not check this.
- FontTable.Line: requires `width <= bit_width`; a wider glyph would shift by a negative count, which raises in Python.
- AtlasTool.PlanLayout: requires a non-zero cell width and height; Python raises on a division by zero there.
- AtlasTool.ParseCodepoint: accepts only plain hex digits after "U+"; Python's `int(_, 16)` also accepts surrounding white space, underscores, a `0x` prefix and a leading sign, so "U++41" gives 0x41 and "U+-1" gives -1, a negative code point the model's `nat` result cannot express.
- AtlasTool.RowBits: states the row check alone; a row whose first pixel is written '#' never reaches it, because the reader takes it for a comment first, which AtlasTool.ReadBitmap and AtlasTool.InkFirstRowIsLost state.
- AtlasTool.ReadBitmap: takes lines already stripped of surrounding white space, as `strip()` leaves them.
- `game_can_continue` appears only as the `Menu.CanContinue` predicate used by the main menu.

## Findings

| source | as written | input that shows it | evidently intended | confidence | as-written member | corrected member |
|---|---|---|---|---|---|---|
| src/png.c:54-67 | the fit check `offset + memSize > vramSize` is made before the offset is aligned up to 16 | offset 0x1FFFF4, size 8, VRAM 0x200000: the check passes, the block is placed at 0x200000 and ends 8 bytes past VRAM | check the aligned offset: `align16(offset) + memSize <= vramSize` | high (not executed) | Png.VramAlloc, Png.VramAllocOverruns | Png.VramAllocChecked, Png.AllocationsDisjoint |
| src/save.c:54-62 | on the first run (no save data) the default record is stored through `save_store_data`, which returns early because the record is not dirty | a fresh state with no save data: nothing is written | the first-run record is written, as the comment before the call says | high (not executed) | Save.SaveInit, Save.FirstRunIsNotWritten | Save.SaveInitFixed, Save.FirstRunIsWrittenWhenFixed |

=== FILE: ball.dfy ===
/** The ball: its record, size states, steering flags, and the pure
    velocity transforms the physics applies to it (speed clamp, ramp
    redirect, pop). */
module Ball {
  import opened CInt

  const NORMAL_SIZE: int := 12
  const HALF_NORMAL_SIZE: int := 6
  const ENLARGED_SIZE: int := 16
  const HALF_ENLARGED_SIZE: int := 8

  const JUMP_STRENGTH: int := -67
  const JUMP_BONUS_STRENGTH: int := -80

  const NORMAL_GRAVITY_ACCELL: int := 4
  const LARGE_GRAVITY_ACCELL: int := 3
  const NORMAL_MAX_GRAVITY: int := 80
  const LARGE_MAX_GRAVITY: int := 38
  const UWATER_MAX_GRAVITY: int := 42
  const UWATER_GRAVITY_ACCELL: int := 6
  const UWATER_LARGE_MAX_GRAVITY: int := -30
  const LARGE_UWATER_GRAVITY_ACCELL: int := -2
  const BASE_GRAVITY: int := 10

  const MAX_TOTAL_SPEED: int := 150
  const HORZ_ACCELL: int := 6
  const FRICTION_DECELL: int := 4
  const MAX_HORZ_SPEED: int := 50
  const MAX_HORZ_BONUS_SPEED: int := 100
  const MIN_BOUNCE_SPEED: int := 10
  const ROOF_COLLISION_SPEED: int := 20
  const BONUS_DURATION: int := 300
  const POPPED_FRAMES: int := 5
  const MOVEMENT_STEP_DIVISOR: int := 10
  const STUCK_BALL_OFFSET: int := 4

  datatype BallState = Normal | Dead | Popped
  datatype SizeState = Small | Large

  /** Steering keys. The direction mask holds at most Left, Right and Up;
      falling is left to gravity. */
  datatype Dir = Left | Right | Down | Up

  /** The ball. Positions are the centre in level pixels; `globalX/Y` is
      the top-left corner of the position most recently probed by the
      collision scan. Speeds are in tenths of a pixel per frame. */
  datatype Player = Player(
    xPos: int, yPos: int,
    globalX: int, globalY: int,
    xSpeed: int, ySpeed: int,
    direction: set<Dir>,
    jumpOffset: int,
    state: BallState,
    size: SizeState,
    grounded: bool,
    rubber: bool,
    ramp: bool,
    speedBonus: int,
    gravBonus: int,
    jumpBonus: int,
    popCntr: int,
    slideCntr: int,
    inWater: bool)

  /** Sprite and collision size in pixels. */
  function BallSize(s: SizeState): (n: int)
    ensures n == NORMAL_SIZE || n == ENLARGED_SIZE
    ensures n == ENLARGED_SIZE <==> s == Large
  {
    if s == Large then ENLARGED_SIZE else NORMAL_SIZE
  }

  /** Distance from the centre to the top-left corner. */
  function Half(s: SizeState): (h: int)
    ensures 2 * h == BallSize(s)
  {
    if s == Large then HALF_ENLARGED_SIZE else HALF_NORMAL_SIZE
  }

  /** The larger of the two speed magnitudes. */
  function SpeedNorm(p: Player): (n: nat)
    ensures Abs(p.xSpeed) <= n && Abs(p.ySpeed) <= n
    ensures n == Abs(p.xSpeed) || n == Abs(p.ySpeed)
  {
    if Abs(p.xSpeed) >= Abs(p.ySpeed) then Abs(p.xSpeed) else Abs(p.ySpeed)
  }

  // ------------------------------------------------------------ speed clamp

  /** Limit a speed component to 150 in magnitude, keeping its sign. */
  function ClampComponent(v: int): (c: int)
    ensures Abs(c) <= MAX_TOTAL_SPEED
    ensures Abs(v) <= MAX_TOTAL_SPEED ==> c == v
    ensures Abs(v) > MAX_TOTAL_SPEED ==> c == MAX_TOTAL_SPEED * Sign(v)
  {
    if v < -MAX_TOTAL_SPEED then -MAX_TOTAL_SPEED
    else if v > MAX_TOTAL_SPEED then MAX_TOTAL_SPEED
    else v
  }

  /** Both speed components limited to 150; nothing else changes. */
  function ClampSpeed(p: Player): (p': Player)
    ensures SpeedNorm(p') <= MAX_TOTAL_SPEED
    ensures SpeedNorm(p') <= SpeedNorm(p)
    ensures SpeedNorm(p) <= MAX_TOTAL_SPEED ==> p' == p
    ensures p'.(xSpeed := p.xSpeed, ySpeed := p.ySpeed) == p
  {
    p.(ySpeed := ClampComponent(p.ySpeed), xSpeed := ClampComponent(p.xSpeed))
  }

  /** Clamping twice is clamping once. */
  lemma ClampIdempotent(p: Player)
    ensures ClampSpeed(ClampSpeed(p)) == ClampSpeed(p)
  {
  }

  // --------------------------------------------------------------- steering

  /** Press a steering key; Down is ignored. */
  function SetDirection(p: Player, d: Dir): (p': Player)
    ensures d != Down ==> d in p'.direction
    ensures p'.direction - {d} == p.direction - {d}
    ensures d == Down ==> p' == p
    ensures p'.(direction := p.direction) == p
  {
    if d != Down then p.(direction := p.direction + {d}) else p
  }

  /** Release a steering key; Down is ignored. */
  function ReleaseDirection(p: Player, d: Dir): (p': Player)
    ensures d != Down ==> d !in p'.direction
    ensures p'.direction - {d} == p.direction - {d}
    ensures d == Down ==> p' == p
    ensures p'.(direction := p.direction) == p
  {
    if d != Down then p.(direction := p.direction - {d}) else p
  }

  /** Press then release of the same key leaves the key released and the
      others untouched; the mask never acquires Down. */
  lemma SteeringRoundTrip(p: Player, d: Dir)
    ensures d != Down ==> ReleaseDirection(SetDirection(p, d), d).direction == p.direction - {d}
    ensures d != Down ==> SetDirection(ReleaseDirection(p, d), d).direction == p.direction + {d}
    ensures Down !in p.direction ==> Down !in SetDirection(p, d).direction
  {
  }

  // --------------------------------------------------------- ramp redirect

  /** New (xSpeed, ySpeed) after touching ramp `id` in flight. The steep
      ramps 35/37 swap the components; 31/33 swap and halve with an
      arithmetic shift; 34/36 swap and negate; 30/32 swap, halve and
      negate; any other id stops the ball. */
  function Redirect(vx: int, vy: int, id: int): (v: (int, int))
    ensures 34 <= id <= 37 ==> v == Reflect(vx, vy, id % 2 == 1)
    ensures 30 <= id <= 33 ==> v == Reflect(Asr(vx, 1), Asr(vy, 1), id % 2 == 1)
    ensures Abs(v.0) <= Abs(vy) && Abs(v.1) <= Abs(vx)
    ensures 34 <= id <= 37 ==> Abs(v.0) == Abs(vy) && Abs(v.1) == Abs(vx)
    ensures 30 <= id <= 33 ==> 2 * Abs(v.0) <= Abs(vy) + 1 && 2 * Abs(v.1) <= Abs(vx) + 1
    ensures !(30 <= id <= 37) ==> v == (0, 0)
  {
    AsrHalfShrinks(vx);
    AsrHalfShrinks(vy);
    if id == 35 || id == 37 then (vy, vx)
    else if id == 31 || id == 33 then (Asr(vy, 1), Asr(vx, 1))
    else if id == 34 || id == 36 then (-vy, -vx)
    else if id == 30 || id == 32 then (-Asr(vy, 1), -Asr(vx, 1))
    else (0, 0)
  }

  /** A velocity reflected across one of the two diagonals: across the
      rising one (`onRising`) the components swap; across the falling one
      they swap and change sign. */
  function Reflect(vx: int, vy: int, onRising: bool): (v: (int, int))
    ensures Abs(v.0) == Abs(vy) && Abs(v.1) == Abs(vx)
    ensures v.0 * v.0 + v.1 * v.1 == vx * vx + vy * vy
  {
    if onRising then (vy, vx) else (-vy, -vx)
  }

  /** Reflecting twice across the same diagonal gives the velocity back. */
  lemma ReflectTwice(vx: int, vy: int, onRising: bool)
    ensures var v := Reflect(vx, vy, onRising); Reflect(v.0, v.1, onRising) == (vx, vy)
  {
  }

  /** An arithmetic halving never grows a magnitude. */
  lemma AsrHalfShrinks(v: int)
    ensures Abs(Asr(v, 1)) <= Abs(v)
    ensures 2 * Abs(Asr(v, 1)) <= Abs(v) + 1
  {
    assert Pow2(1) == 2;
  }

  /** A redirect never increases the larger speed magnitude; the
      full-strength ramps keep it exactly and are their own inverse. */
  lemma RedirectNeverSpeedsUp(vx: int, vy: int, id: int)
    ensures var v := Redirect(vx, vy, id);
      Max(Abs(v.0), Abs(v.1)) <= Max(Abs(vx), Abs(vy))
    ensures 34 <= id <= 37 ==>
      var v := Redirect(vx, vy, id);
      Redirect(v.0, v.1, id) == (vx, vy) && Abs(v.0) == Abs(vy) && Abs(v.1) == Abs(vx)
  {
    AsrHalfShrinks(vx);
    AsrHalfShrinks(vy);
  }

  // -------------------------------------------------------------------- pop

  /** The popped ball: five frames of animation, no speed, no bonuses. */
  function Popped5(p: Player): (p': Player)
    ensures p'.state == Popped && p'.popCntr == POPPED_FRAMES
    ensures p'.xSpeed == 0 && p'.ySpeed == 0 && p'.jumpOffset == 0
    ensures p'.speedBonus == 0 && p'.gravBonus == 0 && p'.jumpBonus == 0
    ensures p'.(state := p.state, popCntr := p.popCntr, xSpeed := p.xSpeed, ySpeed := p.ySpeed,
                jumpOffset := p.jumpOffset, speedBonus := p.speedBonus,
                gravBonus := p.gravBonus, jumpBonus := p.jumpBonus) == p
  {
    p.(state := Popped, popCntr := POPPED_FRAMES, xSpeed := 0, ySpeed := 0, jumpOffset := 0,
       speedBonus := 0, gravBonus := 0, jumpBonus := 0)
  }

  /** One frame of the pop animation: the counter runs down and the ball
      dies when it reaches zero. Nothing else moves. */
  function PoppedTick(p: Player): (p': Player)
    requires p.state == Popped
    ensures p'.popCntr == p.popCntr - 1 && p'.jumpOffset == 0
    ensures p'.state == (if p.popCntr == 1 then Dead else Popped)
    ensures p'.(popCntr := p.popCntr, jumpOffset := p.jumpOffset, state := p.state) == p
  {
    var q := p.(jumpOffset := 0, popCntr := p.popCntr - 1);
    if q.popCntr == 0 then q.(state := Dead) else q
  }

  /** `n` frames of the pop animation, stopping early once dead. */
  function PoppedTicks(p: Player, n: nat): Player
    decreases n
  {
    if n == 0 || p.state != Popped then p else PoppedTicks(PoppedTick(p), n - 1)
  }

  /** A freshly popped ball is still popping for four frames and dead on
      the fifth. */
  lemma {:induction false} DeadAfterFiveFrames(p: Player)
    ensures forall n :: 0 <= n < POPPED_FRAMES ==> PoppedTicks(Popped5(p), n).state == Popped
    ensures PoppedTicks(Popped5(p), POPPED_FRAMES).state == Dead
  {
    var q := Popped5(p);
    var q1 := PoppedTick(q);
    var q2 := PoppedTick(q1);
    var q3 := PoppedTick(q2);
    var q4 := PoppedTick(q3);
    var q5 := PoppedTick(q4);
    assert q1.popCntr == 4 && q2.popCntr == 3 && q3.popCntr == 2 && q4.popCntr == 1;
    assert q5.state == Dead;
    assert PoppedTicks(q4, 1) == q5;
    assert PoppedTicks(q3, 2) == q5;
    assert PoppedTicks(q2, 3) == q5;
    assert PoppedTicks(q1, 4) == q5;
    assert PoppedTicks(q, 5) == q5;
    assert PoppedTicks(q, 0) == q;
    assert PoppedTicks(q, 1) == PoppedTicks(q1, 0) == q1;
    assert PoppedTicks(q, 2) == PoppedTicks(q1, 1) == PoppedTicks(q2, 0) == q2;
    assert PoppedTicks(q, 3) == PoppedTicks(q2, 1) == PoppedTicks(q3, 0) == q3;
    assert PoppedTicks(q, 4) == PoppedTicks(q3, 1) == PoppedTicks(q4, 0) == q4;
  }
}

=== FILE: cint.dfy ===
/** The C integer operators the game code relies on, written out over
    unbounded integers: truncating division, arithmetic right shift,
    absolute value, and two's-complement wrap-around to a fixed width. */
module CInt {

  /** Bytes as read from level files, save files and UTF-8 text. */
  type Byte = x: int | 0 <= x < 256

  const INT32_MIN: int := -0x8000_0000
  const INT32_MAX: int := 0x7FFF_FFFF

  predicate IsInt32(x: int) {
    INT32_MIN <= x <= INT32_MAX
  }

  /** C `abs`. */
  function Abs(x: int): (r: nat)
    ensures r == x || r == -x
    ensures x <= r && -x <= r
  {
    if x < 0 then -x else x
  }

  /** Sign of `x`: -1, 0 or 1. */
  function Sign(x: int): (r: int)
    ensures r * Abs(x) == x
    ensures -1 <= r <= 1
  {
    if x < 0 then -1 else if x > 0 then 1 else 0
  }

  function Max(a: int, b: int): (r: int)
    ensures a <= r && b <= r && (r == a || r == b)
  {
    if a >= b then a else b
  }

  function Min(a: int, b: int): (r: int)
    ensures r <= a && r <= b && (r == a || r == b)
  {
    if a <= b then a else b
  }

  /** C's `/` on `int`: the quotient is rounded toward zero
      (Dafny's own `/` is Euclidean). */
  function TruncDiv(a: int, b: int): int
    requires b != 0
  {
    if (a < 0) == (b < 0) then Abs(a) / Abs(b) else -(Abs(a) / Abs(b))
  }

  /** The C99 division identity: `a == (a / b) * b + a % b` where the
      remainder is smaller than the divisor and carries the sign of the
      dividend. */
  lemma TruncDivRemainder(a: int, b: int)
    requires b != 0
    ensures Abs(a - TruncDiv(a, b) * b) < Abs(b)
    ensures a - TruncDiv(a, b) * b == 0 || (a - TruncDiv(a, b) * b < 0) == (a < 0)
  {
    var aa: int := Abs(a);
    var ab: int := Abs(b);
    var q0: int := aa / ab;
    var r: int := aa % ab;
    DivMod(aa, ab);
    if a >= 0 && b > 0 {
      assert a - q0 * b == r;
    } else if a < 0 && b < 0 {
      assert a - q0 * b == -r;
    } else if a < 0 {
      assert a - (-q0) * b == -r;
    } else {
      assert a - (-q0) * b == r;
    }
  }

  lemma DivMod(aa: nat, ab: nat)
    requires ab > 0
    ensures aa == (aa / ab) * ab + aa % ab && 0 <= aa % ab < ab
  {
  }

  /** C's `>>` on a signed `int` (arithmetic shift, as the PSP compiler
      implements it): the quotient by 2^n rounded toward minus infinity. */
  function Asr(x: int, n: nat): (r: int)
    ensures r * Pow2(n) <= x < r * Pow2(n) + Pow2(n)
  {
    x / Pow2(n)
  }

  function Pow2(n: nat): (r: nat)
    ensures r >= 1
  {
    if n == 0 then 1 else 2 * Pow2(n - 1)
  }

  /** Reduce an unbounded integer to a signed 32-bit value. */
  function WrapInt32(x: int): (r: int)
    ensures IsInt32(r)
    ensures (r - x) % 0x1_0000_0000 == 0
    ensures IsInt32(x) ==> r == x
  {
    var m := x % 0x1_0000_0000;
    if m > INT32_MAX then m - 0x1_0000_0000 else m
  }

  /** Reduce an unbounded integer to an unsigned 32-bit value. */
  function WrapUInt32(x: int): (r: int)
    ensures 0 <= r < 0x1_0000_0000
    ensures (r - x) % 0x1_0000_0000 == 0
    ensures 0 <= x < 0x1_0000_0000 ==> r == x
  {
    x % 0x1_0000_0000
  }

  /** Halving a bounce speed: the legacy code uses `-(v >> 1)` on one path
      and `v * -1 / 2` on another; the two agree except for negative odd
      speeds, where the shift rounds one step further from zero. */
  lemma {:induction false} HalvingRoundings(v: int)
    ensures TruncDiv(v * -1, 2) == -TruncDiv(v, 2)
    ensures v >= 0 || v % 2 == 0 ==> -Asr(v, 1) == TruncDiv(v * -1, 2)
    ensures v < 0 && v % 2 != 0 ==> -Asr(v, 1) == TruncDiv(v * -1, 2) + 1
  {
    assert Pow2(1) == 2;
  }

  /** The concrete example the legacy code depends on. */
  lemma MinusFiveHalved()
    ensures -Asr(-5, 1) == 3
    ensures TruncDiv(-5 * -1, 2) == 2
  {
    HalvingRoundings(-5);
  }
}

=== FILE: collide.dfy ===
/** Collision geometry between the ball and one tile: closed-rectangle
    overlap, the narrowed boxes of thin tiles, the rim segments of rings,
    and the pixel-mask tests of solid squares and ramps.

    The ball and ramp bitmaps are not part of this model; they are a
    `Masks` parameter of fixed dimensions. */
module Collide {
  import opened CInt
  import opened Ball
  import LevelMap
  import Tiles

  const TILE_PX: int := 12
  const THIN_TILE_SIZE: int := 4
  const MOVING_SPIKE_PX: int := 24

  // ------------------------------------------------------------- rectangles

  /** A rectangle given by two corners; both edges count as inside. */
  datatype Box = Box(x1: int, y1: int, x2: int, y2: int)

  predicate Proper(b: Box) {
    b.x1 <= b.x2 && b.y1 <= b.y2
  }

  predicate InBox(b: Box, x: int, y: int) {
    b.x1 <= x <= b.x2 && b.y1 <= y <= b.y2
  }

  /** Overlap test of two rectangles with inclusive edges. */
  predicate RectCollide(a: Box, b: Box) {
    a.x1 <= b.x2 && a.y1 <= b.y2 && b.x1 <= a.x2 && b.y1 <= a.y2
  }

  /** Two proper rectangles collide exactly when they share a point, so
      the test is symmetric. */
  lemma RectCollideIsSharedPoint(a: Box, b: Box)
    requires Proper(a) && Proper(b)
    ensures RectCollide(a, b) <==> exists x, y :: InBox(a, x, y) && InBox(b, x, y)
    ensures RectCollide(a, b) == RectCollide(b, a)
  {
    if RectCollide(a, b) {
      var x, y := Max(a.x1, b.x1), Max(a.y1, b.y1);
      assert InBox(a, x, y) && InBox(b, x, y);
    }
  }

  /** The ball's box at the last probed position. */
  function BallBox(p: Player): (b: Box)
    ensures Proper(b) && b.x2 - b.x1 == BallSize(p.size) && b.y2 - b.y1 == BallSize(p.size)
    ensures b.x1 == p.globalX && b.y1 == p.globalY
  {
    Box(p.globalX, p.globalY, p.globalX + BallSize(p.size), p.globalY + BallSize(p.size))
  }

  /** The 12-pixel square of tile (col, row). */
  function TileBox(row: int, col: int): (b: Box)
    ensures Proper(b) && b.x2 - b.x1 == TILE_PX && b.y2 - b.y1 == TILE_PX
    ensures b.x1 == col * TILE_PX && b.y1 == row * TILE_PX
  {
    Box(col * TILE_PX, row * TILE_PX, col * TILE_PX + TILE_PX, row * TILE_PX + TILE_PX)
  }

  // -------------------------------------------------------------- thin tiles

  /** Tiles whose collision box is narrowed by 4 pixels on the left and
      right: upward and downward spikes, the exit, vertical rings, and the
      floor and ceiling inflators. */
  predicate NarrowX(id: int) {
    id in {3, 5, 9, 13, 14, 17, 18, 21, 22, 43, 45}
  }

  /** Tiles narrowed by 4 pixels at the top and bottom: sideways spikes,
      horizontal rings and the wall inflators. */
  predicate NarrowY(id: int) {
    id in {4, 6, 15, 16, 19, 20, 23, 24, 44, 46}
  }

  /** The narrowed collision box of a thin tile. */
  function ThinBox(row: int, col: int, id: int): (b: Box)
    ensures var t := TileBox(row, col);
      var dx := if NarrowX(id) then THIN_TILE_SIZE else 0;
      var dy := if NarrowY(id) then THIN_TILE_SIZE else 0;
      b == Box(t.x1 + dx, t.y1 + dy, t.x2 - dx, t.y2 - dy)
    ensures Proper(b)
  {
    var t := TileBox(row, col);
    if NarrowX(id) then Box(t.x1 + THIN_TILE_SIZE, t.y1, t.x2 - THIN_TILE_SIZE, t.y2)
    else if NarrowY(id) then Box(t.x1, t.y1 + THIN_TILE_SIZE, t.x2, t.y2 - THIN_TILE_SIZE)
    else t
  }

  /** Does the ball touch the narrowed box of tile `id`? */
  predicate ThinCollide(p: Player, row: int, col: int, id: int) {
    RectCollide(BallBox(p), ThinBox(row, col, id))
  }

  /** The narrowing agrees with the metadata table: spikes narrow along
      their thin orientation, rings along their opening, and inflators
      according to whether they lie on a floor/ceiling or on a wall. No
      tile is narrowed both ways. */
  lemma ThinNarrowingMatchesTable()
    ensures forall id :: 3 <= id <= 6 ==>
      (NarrowX(id) <==> Tiles.Meta(id).orientation == Tiles.SpikeThinHoriz) &&
      (NarrowY(id) <==> Tiles.Meta(id).orientation == Tiles.SpikeThinVert)
    ensures forall id :: 13 <= id <= 24 ==>
      (NarrowX(id) <==> Tiles.Meta(id).orientation in {Tiles.VertTop, Tiles.VertBottom}) &&
      (NarrowY(id) <==> Tiles.Meta(id).orientation in {Tiles.HorizLeft, Tiles.HorizRight})
    ensures forall id :: 43 <= id <= 46 ==>
      (NarrowX(id) <==> Tiles.Meta(id).transform in {Tiles.TfNone, Tiles.TfRot180}) &&
      (NarrowY(id) <==> Tiles.Meta(id).transform in {Tiles.TfRot90, Tiles.TfRot270})
    ensures forall id :: !(NarrowX(id) && NarrowY(id))
  {
    assert Tiles.Meta(3).orientation == Tiles.SpikeThinHoriz;
    assert Tiles.Meta(4).orientation == Tiles.SpikeThinVert;
    assert Tiles.Meta(5).orientation == Tiles.SpikeThinHoriz;
    assert Tiles.Meta(6).orientation == Tiles.SpikeThinVert;
    Tiles.RingsAreHoops();
    assert Tiles.Meta(43).transform == Tiles.TfNone;
    assert Tiles.Meta(44).transform == Tiles.TfRot90;
    assert Tiles.Meta(45).transform == Tiles.TfRot180;
    assert Tiles.Meta(46).transform == Tiles.TfRot270;
  }

  // -------------------------------------------------------------- ring rims

  /** The rim segment of a ring half: a vertical ring has its rim on the
      tile's vertical centre line (at the top edge, or one pixel above the
      tile for large rings, or at the bottom edge); a horizontal ring has
      it on the horizontal centre line at the left or right edge. Only ring
      halves, ids 13..28, have a rim. */
  function EdgeBox(row: int, col: int, id: int): (b: Box)
    requires 13 <= id <= 28
  {
    var t := TileBox(row, col);
    if id == 13 || id == 17 then Box(t.x1 + 6, t.y1, t.x2 - 6, t.y2 - 11)
    else if id == 14 || id == 18 || id == 22 || id == 26 then Box(t.x1 + 6, t.y1 + 11, t.x2 - 6, t.y2)
    else if id == 21 || id == 25 then Box(t.x1 + 6, t.y1 - 1, t.x2 - 6, t.y1)
    else if id == 15 || id == 19 || id == 23 || id == 27 then Box(t.x1, t.y1 + 6, t.x2 - 11, t.y2 - 6)
    else Box(t.x1 + 11, t.y1 + 6, t.x2, t.y2 - 6)
  }

  /** Does the ball touch the rim of ring half `id`? False for non-rings. */
  predicate EdgeCollide(p: Player, row: int, col: int, id: int) {
    13 <= id <= 28 && RectCollide(BallBox(p), EdgeBox(row, col, id))
  }

  /** Every rim is a one-pixel segment on the ring's centre line,
      perpendicular to the ring's opening as the table orients it. */
  lemma RimIsCentreSegment(row: int, col: int, id: int)
    requires 13 <= id <= 28
    ensures var b := EdgeBox(row, col, id); var t := TileBox(row, col);
      Tiles.Meta(id).orientation in {Tiles.VertTop, Tiles.VertBottom} ==>
        b.x1 == b.x2 == t.x1 + 6 && b.y2 - b.y1 == 1
    ensures var b := EdgeBox(row, col, id); var t := TileBox(row, col);
      Tiles.Meta(id).orientation in {Tiles.HorizLeft, Tiles.HorizRight} ==>
        b.y1 == b.y2 == t.y1 + 6 && b.x2 - b.x1 == 1
    ensures var b := EdgeBox(row, col, id); var t := TileBox(row, col);
      Tiles.Meta(id).orientation == Tiles.VertBottom ==> b.y2 == t.y2
    ensures var b := EdgeBox(row, col, id); var t := TileBox(row, col);
      Tiles.Meta(id).orientation == Tiles.HorizLeft ==> b.x1 == t.x1
    ensures var b := EdgeBox(row, col, id); var t := TileBox(row, col);
      Tiles.Meta(id).orientation == Tiles.HorizRight ==> b.x2 == t.x2
  {
    Tiles.RingsAreHoops();
    assert Tiles.Meta(id).orientation == Tiles.RingCycle((id - 13) % 4);
  }

  // ------------------------------------------------------------ pixel masks

  /** The ball and ramp bitmaps, which the model takes as given. */
  datatype Masks = Masks(small: seq<seq<Byte>>, large: seq<seq<Byte>>, tri: seq<seq<Byte>>)

  predicate SquareOf(m: seq<seq<Byte>>, n: int) {
    |m| == n && forall r :: 0 <= r < n ==> |m[r]| == n
  }

  /** The small ball is 12x12, the large ball 16x16 and the ramp 12x12. */
  predicate MasksOk(mk: Masks) {
    SquareOf(mk.small, NORMAL_SIZE) && SquareOf(mk.large, ENLARGED_SIZE) && SquareOf(mk.tri, TILE_PX)
  }

  function BallMask(mk: Masks, s: SizeState): (m: seq<seq<Byte>>)
    requires MasksOk(mk)
    ensures SquareOf(m, BallSize(s))
  {
    if s == Large then mk.large else mk.small
  }

  /** `a & b != 0` for non-negative integers. */
  predicate SharesBit(a: int, b: int)
    requires a >= 0 && b >= 0
    decreases a
  {
    a > 0 && b > 0 && ((a % 2 == 1 && b % 2 == 1) || SharesBit(a / 2, b / 2))
  }

  /** What a tile's pixels are tested against: the solid square, or the
      ramp bitmap read from the corner (b1, b2). */
  datatype Probe = SquareProbe | RampProbe(b1: int, b2: int)

  /** Ramp corners are 0 or 11 on each axis. */
  predicate ProbeOk(pr: Probe) {
    pr.RampProbe? ==> pr.b1 in {0, 11} && pr.b2 in {0, 11}
  }

  /** The corner from which ramp `id` reads the ramp bitmap. */
  function RampProbeOf(id: int): (pr: Probe)
    ensures pr.RampProbe? && ProbeOk(pr)
  {
    if id == 30 || id == 34 then RampProbe(11, 11)
    else if id == 31 || id == 35 then RampProbe(0, 11)
    else if id == 33 || id == 37 then RampProbe(11, 0)
    else RampProbe(0, 0)
  }

  /** The corner follows the table's orientation: the x corner is 11 for
      the left-hand corners and the y corner is 11 for the top ones. */
  lemma RampCornerFollowsOrientation()
    ensures forall id :: 30 <= id <= 37 ==>
      (RampProbeOf(id).b1 == 11 <==> Tiles.Meta(id).orientation in {Tiles.TopLeft, Tiles.BottomLeft}) &&
      (RampProbeOf(id).b2 == 11 <==> Tiles.Meta(id).orientation in {Tiles.TopLeft, Tiles.TopRight})
  {
    Tiles.RampOrientations();
  }

  /** A ramp turns a ball in flight by reflecting its velocity across the
      diagonal its slope lies on: top-right and bottom-left ramps across
      one diagonal (the components swap), top-left and bottom-right ramps
      across the other (they swap and change sign). Rubber ramps keep the
      speed; plain ramps halve both components first. */
  lemma RampReflectsAcrossSlope(vx: int, vy: int, id: int)
    requires 30 <= id <= 37
    ensures var o := Tiles.Meta(id).orientation;
      (o == Tiles.TopRight || o == Tiles.BottomLeft || o == Tiles.TopLeft || o == Tiles.BottomRight) &&
      var onRising := o == Tiles.TopRight || o == Tiles.BottomLeft;
      Redirect(vx, vy, id) ==
        (if id >= 34 then Reflect(vx, vy, onRising) else Reflect(Asr(vx, 1), Asr(vy, 1), onRising))
  {
    Tiles.RampOrientations();
  }

  /** The ramp bitmap index stays within 0..11 on both axes for every
      tile pixel. */
  lemma RampIndexInBounds(pr: Probe, x: int, y: int)
    requires pr.RampProbe? && ProbeOk(pr)
    requires 0 <= x < TILE_PX && 0 <= y < TILE_PX
    ensures 0 <= Abs(y - pr.b2) < TILE_PX && 0 <= Abs(x - pr.b1) < TILE_PX
  {
  }

  /** The per-pixel test exactly as the scan evaluates it at tile pixel
      (x, y) with the ball's corner at (k, m) relative to the tile. The
      square test indexes the ball without a guard; the ramp test guards
      the ball index first. */
  predicate RawPixel(mk: Masks, s: SizeState, pr: Probe, k: int, m: int, x: int, y: int)
    requires MasksOk(mk) && ProbeOk(pr)
    requires 0 <= x < TILE_PX && 0 <= y < TILE_PX
    requires pr.SquareProbe? ==> 0 <= x - k < BallSize(s) && 0 <= y - m < BallSize(s)
  {
    var ball := BallMask(mk, s);
    var n := BallSize(s);
    match pr
    case SquareProbe => ball[y - m][x - k] != 0
    case RampProbe(b1, b2) =>
      0 <= y - m < n && 0 <= x - k < n &&
      SharesBit(mk.tri[Abs(y - b2)][Abs(x - b1)], ball[y - m][x - k])
  }

  /** Reference meaning: tile pixel (x, y) is also a ball pixel, and the
      two bitmaps are both set there. */
  predicate HitAt(mk: Masks, s: SizeState, pr: Probe, k: int, m: int, x: int, y: int)
    requires MasksOk(mk) && ProbeOk(pr)
  {
    0 <= x < TILE_PX && 0 <= y < TILE_PX &&
    0 <= x - k < BallSize(s) && 0 <= y - m < BallSize(s) &&
    RawPixel(mk, s, pr, k, m, x, y)
  }

  /** Clip the ball's extent [rel, rel + n) to the tile's [0, 12). */
  function Clip(rel: int, n: int): (r: (int, int))
    requires n >= TILE_PX
    ensures r.0 == Max(rel, 0) && r.1 == Min(TILE_PX, rel + n)
  {
    var se := if rel >= 0 then (rel, TILE_PX) else (0, n + rel);
    (se.0, if se.1 > TILE_PX then TILE_PX else se.1)
  }

  /** Inner loop: rows y..ye-1 of tile column x. */
  function ScanColumn(mk: Masks, s: SizeState, pr: Probe, k: int, m: int, x: int, y: int, ye: int): (r: bool)
    requires MasksOk(mk) && ProbeOk(pr)
    requires 0 <= x < TILE_PX && 0 <= x - k < BallSize(s)
    requires 0 <= y && ye <= TILE_PX
    requires y < ye ==> 0 <= y - m && ye - m <= BallSize(s)
    ensures r <==> exists b :: y <= b < ye && HitAt(mk, s, pr, k, m, x, b)
    decreases ye - y
  {
    if y >= ye then false
    else
      assert HitAt(mk, s, pr, k, m, x, y) == RawPixel(mk, s, pr, k, m, x, y);
      RawPixel(mk, s, pr, k, m, x, y) || ScanColumn(mk, s, pr, k, m, x, y + 1, ye)
  }

  /** Outer loop: columns x..xe-1, each scanned over rows ys..ye-1. */
  function ScanGrid(mk: Masks, s: SizeState, pr: Probe, k: int, m: int, x: int, xe: int, ys: int, ye: int): (r: bool)
    requires MasksOk(mk) && ProbeOk(pr)
    requires 0 <= x && xe <= TILE_PX
    requires x < xe ==> 0 <= x - k && xe - k <= BallSize(s)
    requires 0 <= ys && ye <= TILE_PX
    requires ys < ye ==> 0 <= ys - m && ye - m <= BallSize(s)
    ensures r <==> exists a, b :: x <= a < xe && ys <= b < ye && HitAt(mk, s, pr, k, m, a, b)
    decreases xe - x
  {
    if x >= xe then false
    else ScanColumn(mk, s, pr, k, m, x, ys, ye) || ScanGrid(mk, s, pr, k, m, x + 1, xe, ys, ye)
  }

  /** The clipped scan finds a hit exactly when some pixel shared by the
      tile and the ball is set in both bitmaps. */
  function MaskCollide(mk: Masks, s: SizeState, pr: Probe, k: int, m: int): (r: bool)
    requires MasksOk(mk) && ProbeOk(pr)
    ensures r <==> exists x, y :: HitAt(mk, s, pr, k, m, x, y)
  {
    var n := BallSize(s);
    var xr := Clip(k, n);
    var yr := Clip(m, n);
    ScanGrid(mk, s, pr, k, m, xr.0, xr.1, yr.0, yr.1)
  }

  /** Pixel test of the ball against a solid square tile. */
  predicate SquareCollide(mk: Masks, p: Player, row: int, col: int)
    requires MasksOk(mk)
  {
    MaskCollide(mk, p.size, SquareProbe, p.globalX - col * TILE_PX, p.globalY - row * TILE_PX)
  }

  /** Pixel test of the ball against ramp `id`; on a hit an airborne ball
      is redirected. Only the speeds can change. */
  function TriangleCollide(mk: Masks, p: Player, row: int, col: int, id: int): (r: (bool, Player))
    requires MasksOk(mk)
    ensures r.0 <==> MaskCollide(mk, p.size, RampProbeOf(id), p.globalX - col * TILE_PX, p.globalY - row * TILE_PX)
    ensures r.0 && !p.grounded ==> (r.1.xSpeed, r.1.ySpeed) == Redirect(p.xSpeed, p.ySpeed, id)
    ensures !(r.0 && !p.grounded) ==> r.1 == p
    ensures r.1.(xSpeed := p.xSpeed, ySpeed := p.ySpeed) == p
  {
    var hit := MaskCollide(mk, p.size, RampProbeOf(id), p.globalX - col * TILE_PX, p.globalY - row * TILE_PX);
    if hit && !p.grounded then
      var v := Redirect(p.xSpeed, p.ySpeed, id);
      (true, p.(xSpeed := v.0, ySpeed := v.1))
    else (hit, p)
  }

  /** A square or ramp hit needs the ball's box to overlap the tile's
      pixel area: far-away tiles never report a hit. */
  lemma MaskHitNeedsOverlap(mk: Masks, p: Player, row: int, col: int, pr: Probe)
    requires MasksOk(mk) && ProbeOk(pr)
    requires MaskCollide(mk, p.size, pr, p.globalX - col * TILE_PX, p.globalY - row * TILE_PX)
    ensures p.globalX < col * TILE_PX + TILE_PX && col * TILE_PX < p.globalX + BallSize(p.size)
    ensures p.globalY < row * TILE_PX + TILE_PX && row * TILE_PX < p.globalY + BallSize(p.size)
  {
    var k, m := p.globalX - col * TILE_PX, p.globalY - row * TILE_PX;
    var x, y :| HitAt(mk, p.size, pr, k, m, x, y);
  }

  // ---------------------------------------------------------- moving spikes

  /** The 24-pixel box of a moving spike block at its current offset. */
  function SpikeBox(o: LevelMap.MovingObject): (b: Box)
    ensures Proper(b) && b.x2 - b.x1 == MOVING_SPIKE_PX && b.y2 - b.y1 == MOVING_SPIKE_PX
    ensures b.x1 == o.topLeftX * TILE_PX + o.offX && b.y1 == o.topLeftY * TILE_PX + o.offY
  {
    var x := o.topLeftX * TILE_PX + o.offX;
    var y := o.topLeftY * TILE_PX + o.offY;
    Box(x, y, x + MOVING_SPIKE_PX, y + MOVING_SPIKE_PX)
  }
}

=== FILE: font_atlas.dfy ===
/** Glyph atlases: the font chosen for a text height, and the glyph looked
    up for a code point, falling back to the atlas's default code point
    for code points outside its range and for empty glyphs. */
module Fonts {
  import opened Wrappers

  datatype FontId = Font9 | Font12 | Font23

  /** Height 23 and 12 have their own fonts; every other height uses the
      9-pixel font. */
  function AtlasByHeight(h: int): (f: FontId)
    ensures f == Font23 <==> h == 23
    ensures f == Font12 <==> h == 12
    ensures f == Font9 <==> h != 23 && h != 12
  {
    if h == 23 then Font23 else if h == 12 then Font12 else Font9
  }

  /** Placement of one glyph in the atlas pages; `w == 0` marks a code
      point without a glyph. */
  datatype Glyph = Glyph(x: int, y: int, w: int, h: int, page: int)

  /** Glyphs for code points rangeStart..rangeEnd, in order. */
  datatype Atlas = Atlas(rangeStart: nat, rangeEnd: nat, defaultCp: nat, glyphs: seq<Glyph>)

  predicate WellFormed(a: Atlas) {
    a.rangeStart <= a.rangeEnd && |a.glyphs| == a.rangeEnd - a.rangeStart + 1
  }

  predicate InRange(a: Atlas, cp: int) {
    a.rangeStart <= cp <= a.rangeEnd
  }

  /** The glyph slot for `cp`, if the table has one. Unsigned subtraction
      would wrap below the range start to an index past the table, so that
      case has no slot either. */
  function Slot(a: Atlas, cp: int): (r: Option<Glyph>)
    ensures r.Some? <==> 0 <= cp - a.rangeStart < |a.glyphs|
    ensures r.Some? ==> r.value == a.glyphs[cp - a.rangeStart]
  {
    var k := cp - a.rangeStart;
    if 0 <= k < |a.glyphs| then Some(a.glyphs[k]) else None
  }

  /** Look up a code point: no atlas gives no glyph; an out-of-range code
      point is replaced by the default; an empty glyph is replaced by the
      default's glyph. `None` also stands for a read the table does not
      cover. */
  function Lookup(atlas: Option<Atlas>, cp: nat): (r: Option<Glyph>)
    ensures atlas.None? ==> r.None?
    ensures atlas.Some? && WellFormed(atlas.value) && InRange(atlas.value, atlas.value.defaultCp) ==>
      r.Some? && exists k :: 0 <= k < |atlas.value.glyphs| && r.value == atlas.value.glyphs[k]
    ensures (atlas.Some? && WellFormed(atlas.value) && InRange(atlas.value, cp) &&
             atlas.value.glyphs[cp - atlas.value.rangeStart].w != 0) ==>
      r == Some(atlas.value.glyphs[cp - atlas.value.rangeStart])
    ensures (atlas.Some? && WellFormed(atlas.value) && InRange(atlas.value, atlas.value.defaultCp) &&
             (!InRange(atlas.value, cp) || atlas.value.glyphs[cp - atlas.value.rangeStart].w == 0)) ==>
      r == Some(atlas.value.glyphs[atlas.value.defaultCp - atlas.value.rangeStart])
  {
    match atlas
    case None => None
    case Some(a) =>
      var c := if cp < a.rangeStart || cp > a.rangeEnd then a.defaultCp else cp;
      var g :- Slot(a, c);
      if g.w == 0 then Slot(a, a.defaultCp) else Some(g)
  }

  /** With an in-range default, every lookup answers with a glyph of the
      table, and with a non-empty one whenever the default's glyph is
      non-empty. */
  lemma LookupIsTotal(a: Atlas, cp: nat)
    requires WellFormed(a) && InRange(a, a.defaultCp) && a.glyphs[a.defaultCp - a.rangeStart].w != 0
    ensures Lookup(Some(a), cp).Some? && Lookup(Some(a), cp).value.w != 0
  {
  }
}

=== FILE: font_table.dfy ===
/** The build-time exporter that turns the old compiled glyph tables (194
    entries: ASCII followed by Russian letters) into the glyph text files
    the atlas converter reads: table index to code point, bit rows to text
    rows, and which glyphs are written in which order. */
module FontTable {
  import opened Wrappers
  import opened CInt
  import AtlasTool

  /** Last code point of the exported range (CYRILLIC SMALL LETTER IO). */
  const MAP_RANGE_END: int := 0x0451

  /** Only the first 194 table entries are exported. */
  const TABLE_ENTRIES: int := 194

  // ---------------------------------------------------------------------
  // Table index <-> code point
  // ---------------------------------------------------------------------

  /** The code point of table entry `idx`: ASCII first, then the upper-
      and lower-case Russian alphabets with IO in its alphabetical place
      (after IE). */
  function IndexToCodepoint(idx: int): (r: Option<int>)
    ensures idx <= 127 ==> r == Some(idx)
    ensures 0 <= idx < TABLE_ENTRIES ==> r.Some? && 0 <= r.value <= MAP_RANGE_END
    ensures idx >= TABLE_ENTRIES ==> r.None?
  {
    if idx <= 127 then Some(idx)
    else if idx == 134 then Some(0x0401)
    else if idx == 167 then Some(0x0451)
    else if 128 <= idx <= 133 then Some(0x0410 + (idx - 128))
    else if 135 <= idx <= 160 then Some(0x0416 + (idx - 135))
    else if 161 <= idx <= 166 then Some(0x0430 + (idx - 161))
    else if 168 <= idx <= 193 then Some(0x0436 + (idx - 168))
    else None
  }

  /** Where a code point sits in the table, if it is there at all. */
  function CodepointToIndex(cp: int): (r: Option<int>)
    ensures r.Some? ==> 0 <= r.value < TABLE_ENTRIES
  {
    if 0 <= cp <= 127 then Some(cp)
    else if cp == 0x0401 then Some(134)
    else if cp == 0x0451 then Some(167)
    else if 0x0410 <= cp <= 0x0415 then Some(128 + (cp - 0x0410))
    else if 0x0416 <= cp <= 0x042F then Some(135 + (cp - 0x0416))
    else if 0x0430 <= cp <= 0x0435 then Some(161 + (cp - 0x0430))
    else if 0x0436 <= cp <= 0x044F then Some(168 + (cp - 0x0436))
    else None
  }

  /** The two maps are inverse to each other on table indices. */
  lemma MappingInverse(idx: int, cp: int)
    requires 0 <= idx
    ensures IndexToCodepoint(idx) == Some(cp) <==> CodepointToIndex(cp) == Some(idx)
  {
  }

  /** No two table entries land on the same code point, so none of the
      exported glyphs overwrites another. */
  lemma MappingInjective(i: int, j: int)
    requires 0 <= i < TABLE_ENTRIES && 0 <= j < TABLE_ENTRIES && i != j
    ensures IndexToCodepoint(i).value != IndexToCodepoint(j).value
  {
    var c := IndexToCodepoint(i).value;
    MappingInverse(i, c);
    MappingInverse(j, c);
  }

  // ---------------------------------------------------------------------
  // Bit rows
  // ---------------------------------------------------------------------

  /** Bit `k` of `row`, counting from the least significant; for negative
      rows this is bit `k` of the two's-complement form. */
  predicate Bit(row: int, k: nat) {
    (row / Pow2(k)) % 2 == 1
  }

  function BitChar(b: bool): char {
    if b then '1' else '0'
  }

  /** The first `width` columns of a row of a `bitWidth`-bit table, most
      significant bit on the left. A width above the bit width would shift
      by a negative count, which the exporter rejects. */
  function Line(row: int, width: int, bitWidth: int): (l: string)
    requires width <= bitWidth
    ensures |l| == Max(width, 0)
    ensures forall col :: 0 <= col < |l| ==> l[col] == BitChar(Bit(row, bitWidth - 1 - col))
    decreases width
  {
    if width <= 0 then []
    else Line(row, width - 1, bitWidth) + [BitChar(Bit(row, bitWidth - width))]
  }

  /** All rows of one glyph as text. */
  function BitsToLines(rows: seq<int>, width: int, bitWidth: int): (ls: seq<string>)
    requires width <= bitWidth
    ensures |ls| == |rows|
    ensures forall i :: 0 <= i < |rows| ==> ls[i] == Line(rows[i], width, bitWidth)
  {
    seq(|rows|, i requires 0 <= i < |rows| => Line(rows[i], width, bitWidth))
  }

  /** An exported row of positive width is a valid bitmap row for the atlas
      converter, is already in its normal form, and reads back as the
      table's bits. */
  lemma LineReadsBack(row: int, width: int, bitWidth: int)
    requires 1 <= width <= bitWidth
    ensures AtlasTool.RowBits(Line(row, width, bitWidth)).Some?
    ensures AtlasTool.NormalRow(Line(row, width, bitWidth)) == Line(row, width, bitWidth)
    ensures forall col :: 0 <= col < width ==>
      AtlasTool.RowBits(Line(row, width, bitWidth)).value[col] == Bit(row, bitWidth - 1 - col)
  {
    var l := Line(row, width, bitWidth);
    assert forall k :: 0 <= k < |l| ==> AtlasTool.IsBitmapChar(l[k]);
    assert AtlasTool.NormalRow(l) == l;
  }

  /** A glyph the exporter writes, closed by its "end" line, is read back
      by the atlas converter as exactly the rows written, whatever follows:
      the exporter writes '0' and '1', never the '#' that would read as a
      comment. */
  lemma ExportedGlyphReadsBack(rows: seq<int>, width: int, bitWidth: int, rest: seq<string>)
    requires 1 <= width <= bitWidth
    ensures var ls := BitsToLines(rows, width, bitWidth);
      AtlasTool.ReadBitmap(ls + ["end"] + rest) == AtlasTool.RowsRead(ls, |rows| + 1)
  {
    var ls := BitsToLines(rows, width, bitWidth);
    forall k | 0 <= k < |ls|
      ensures |ls[k]| > 0 && AtlasTool.IsBinary(ls[k])
    {
      assert ls[k] == Line(rows[k], width, bitWidth);
    }
    AtlasTool.BinaryRowsReadBack(ls, rest);
  }

  // ---------------------------------------------------------------------
  // Which glyphs are written, and in which order
  // ---------------------------------------------------------------------

  /** One compiled table entry: its bit rows and its width. */
  datatype Entry = Entry(rows: seq<int>, width: int)

  /** One glyph of the output file. */
  datatype Placed = Placed(cp: int, rows: seq<int>, width: int)

  /** Code point `cp` comes from one of the exported entries. */
  predicate Used(entries: seq<Entry>, cp: int) {
    CodepointToIndex(cp).Some? && CodepointToIndex(cp).value < |entries|
  }

  function Cps(out: seq<Placed>): (cs: seq<int>)
    ensures |cs| == |out|
    ensures forall i :: 0 <= i < |out| ==> cs[i] == out[i].cp
  {
    seq(|out|, i requires 0 <= i < |out| => out[i].cp)
  }

  /** The glyphs written to the text file, or None when one of them has
      the wrong number of rows. Every entry among the first 194 is
      written exactly once under its code point, in increasing code-point
      order, carrying that entry's rows and width. */
  method SelectGlyphs(entries: seq<Entry>, height: int) returns (r: Option<seq<Placed>>)
    ensures r.None? <==> exists k :: 0 <= k < Min(|entries|, TABLE_ENTRIES) && |entries[k].rows| != height
    ensures r.Some? ==> forall i, j :: 0 <= i < j < |r.value| ==> r.value[i].cp < r.value[j].cp
    ensures r.Some? ==> forall i :: 0 <= i < |r.value| ==>
      Used(entries, r.value[i].cp) &&
      entries[CodepointToIndex(r.value[i].cp).value] == Entry(r.value[i].rows, r.value[i].width)
    ensures r.Some? ==> forall k :: 0 <= k < Min(|entries|, TABLE_ENTRIES) ==>
      IndexToCodepoint(k).value in Cps(r.value)
  {
    var out: seq<Placed> := [];
    var cp := 0;
    while cp <= MAP_RANGE_END
      invariant 0 <= cp <= MAP_RANGE_END + 1
      invariant forall i, j :: 0 <= i < j < |out| ==> out[i].cp < out[j].cp
      invariant forall i :: 0 <= i < |out| ==> out[i].cp < cp
      invariant forall i :: 0 <= i < |out| ==>
        Used(entries, out[i].cp) &&
        entries[CodepointToIndex(out[i].cp).value] == Entry(out[i].rows, out[i].width)
      invariant forall c :: 0 <= c < cp && Used(entries, c) ==>
        c in Cps(out) && |entries[CodepointToIndex(c).value].rows| == height
    {
      var idx := CodepointToIndex(cp);
      if idx.Some? && idx.value < |entries| {
        var e := entries[idx.value];
        if |e.rows| != height {
          assert 0 <= idx.value < Min(|entries|, TABLE_ENTRIES) && |entries[idx.value].rows| != height;
          return None;
        }
        out := out + [Placed(cp, e.rows, e.width)];
        assert Cps(out) == Cps(out[..|out| - 1]) + [cp];
      }
      cp := cp + 1;
    }
    forall k | 0 <= k < Min(|entries|, TABLE_ENTRIES)
      ensures IndexToCodepoint(k).value in Cps(out) && |entries[k].rows| == height
    {
      MappingInverse(k, IndexToCodepoint(k).value);
    }
    r := Some(out);
  }
}

=== FILE: font_tools.dfy ===
/** The build-time font converter that turns a glyph text file into a
    T4 (four bits per pixel) atlas: code-point tokens, bitmap rows, glyph
    validation, nibble packing, and the placement of glyph cells on
    512x512 pages. Its glyph table is exactly what the runtime atlas
    lookup reads. */
module AtlasTool {
  import opened Wrappers
  import opened CInt
  import Fonts

  /** Side of one atlas page, in pixels. */
  const PAGE_SIZE: int := 512

  /** Bytes in one T4 page: two pixels per byte. */
  const PAGE_BYTES: int := PAGE_SIZE * PAGE_SIZE / 2

  // ---------------------------------------------------------------------
  // Code-point tokens "U+XXXX"
  // ---------------------------------------------------------------------

  predicate IsHexDigit(c: char) {
    ('0' <= c <= '9') || ('A' <= c <= 'F') || ('a' <= c <= 'f')
  }

  predicate AllHex(s: string) {
    forall k :: 0 <= k < |s| ==> IsHexDigit(s[k])
  }

  function HexDigitValue(c: char): (v: nat)
    requires IsHexDigit(c)
    ensures v < 16
  {
    if '0' <= c <= '9' then c as int - '0' as int
    else if 'A' <= c <= 'F' then c as int - 'A' as int + 10
    else c as int - 'a' as int + 10
  }

  /** The number a string of hex digits denotes, most significant first. */
  function HexValue(s: string): nat
    requires AllHex(s)
  {
    if |s| == 0 then 0 else HexValue(s[..|s| - 1]) * 16 + HexDigitValue(s[|s| - 1])
  }

  /** A token names a code point when it is "U+" followed by at least one
      hex digit; anything else is an error. */
  function ParseCodepoint(token: string): (r: Option<nat>)
    ensures r.Some? <==> |token| > 2 && token[..2] == "U+" && AllHex(token[2..])
    ensures r.Some? ==> r.value == HexValue(token[2..])
  {
    if |token| > 2 && token[..2] == "U+" && AllHex(token[2..]) then Some(HexValue(token[2..]))
    else None
  }

  /** The upper-case hex digit for `d`. */
  function HexChar(d: nat): (c: char)
    requires d < 16
    ensures IsHexDigit(c) && HexDigitValue(c) == d
    ensures ('0' <= c <= '9') || ('A' <= c <= 'F')
  {
    if d < 10 then ('0' as int + d) as char else ('A' as int + d - 10) as char
  }

  /** Upper-case hex digits of `n` without leading zeros ("0" for zero);
      they read back as `n`. */
  function HexDigits(n: nat): (s: string)
    ensures |s| >= 1 && AllHex(s)
    ensures HexValue(s) == n
    ensures n >= 16 ==> s[0] != '0'
    decreases n
  {
    if n < 16 then [HexChar(n)]
    else
      var s := HexDigits(n / 16) + [HexChar(n % 16)];
      assert s[..|s| - 1] == HexDigits(n / 16);
      s
  }

  function Zeros(k: int): (s: string)
    ensures |s| == Max(k, 0)
    ensures forall j :: 0 <= j < |s| ==> s[j] == '0'
  {
    seq(Max(k, 0), _ => '0')
  }

  /** The `{cp:04X}` format: upper-case hex, padded with zeros to four
      digits. */
  function Hex4(n: nat): (s: string)
    ensures |s| == Max(4, |HexDigits(n)|)
    ensures AllHex(s)
  {
    Zeros(4 - |HexDigits(n)|) + HexDigits(n)
  }

  lemma {:induction false} ZerosValue(k: int)
    ensures AllHex(Zeros(k)) && HexValue(Zeros(k)) == 0
    decreases Max(k, 0)
  {
    if k > 0 {
      ZerosValue(k - 1);
      assert Zeros(k)[..k - 1] == Zeros(k - 1);
    }
  }

  /** Leading zeros do not change the value of a hex string. */
  lemma {:induction false} LeadingZeros(k: int, s: string)
    requires AllHex(s)
    ensures AllHex(Zeros(k) + s) && HexValue(Zeros(k) + s) == HexValue(s)
    decreases |s|
  {
    ZerosValue(k);
    var z := Zeros(k) + s;
    if |s| == 0 {
      assert z == Zeros(k);
    } else {
      LeadingZeros(k, s[..|s| - 1]);
      assert z[..|z| - 1] == Zeros(k) + s[..|s| - 1];
    }
  }

  /** A token written by the glyph-table exporter ("U+" and the padded
      upper-case hex of the code point) parses back to that code point. */
  lemma CodepointTokenRoundTrip(cp: nat)
    ensures ParseCodepoint("U+" + Hex4(cp)) == Some(cp)
  {
    LeadingZeros(4 - |HexDigits(cp)|, HexDigits(cp));
    var t := "U+" + Hex4(cp);
    assert t[..2] == "U+";
    assert t[2..] == Hex4(cp);
  }

  // ---------------------------------------------------------------------
  // Bitmap rows
  // ---------------------------------------------------------------------

  /** Characters a bitmap row may hold: '.' and '0' are blank, '#' and
      '1' are ink. */
  predicate IsBitmapChar(c: char) {
    c == '.' || c == '#' || c == '0' || c == '1'
  }

  predicate IsInk(c: char) {
    c == '#' || c == '1'
  }

  /** A bitmap row, after '.' and '#' are rewritten to '0' and '1', must be
      a non-empty run of binary digits. */
  function RowBits(l: string): (r: Option<seq<bool>>)
    ensures r.Some? <==> |l| > 0 && forall k :: 0 <= k < |l| ==> IsBitmapChar(l[k])
    ensures r.Some? ==> |r.value| == |l| && forall k :: 0 <= k < |l| ==> r.value[k] == IsInk(l[k])
  {
    if |l| > 0 && forall k :: 0 <= k < |l| ==> IsBitmapChar(l[k]) then
      Some(seq(|l|, k requires 0 <= k < |l| => IsInk(l[k])))
    else None
  }

  /** The row as the converter stores it: '0' and '1' only. */
  function NormalRow(l: string): (n: string)
    ensures |n| == |l|
    ensures forall k :: 0 <= k < |l| ==> (n[k] == '1' <==> IsInk(l[k]))
    ensures forall k :: 0 <= k < |l| ==> (n[k] == '0' || n[k] == '1')
  {
    seq(|l|, k requires 0 <= k < |l| => if IsInk(l[k]) then '1' else '0')
  }

  predicate IsBinary(l: string) {
    forall k :: 0 <= k < |l| ==> l[k] == '0' || l[k] == '1'
  }

  /** Lines the row reader passes over: blank lines and comments. The
      comment test runs before the row is read, so a row whose first pixel
      is written '#' is passed over as a comment too. */
  predicate Skipped(l: string) {
    |l| == 0 || l[0] == '#'
  }

  /** A line that aborts the conversion: neither passed over, nor "end",
      nor a bitmap row. */
  predicate BadLine(l: string) {
    !Skipped(l) && l != "end" && RowBits(l).None?
  }

  /** A line after which the reader goes on. */
  predicate ReadOn(l: string) {
    Skipped(l) || (l != "end" && RowBits(l).Some?)
  }

  /** What the reader of one glyph's bitmap produces: the rows in normal
      form and the number of lines consumed, or a rejected row. */
  datatype RowsRead = RowsRead(rows: seq<string>, consumed: nat) | BadRow

  /** Read bitmap rows from the (stripped) lines after a glyph header
      until "end" or the end of the file: blank and comment lines are
      passed over, any other line must be a bitmap row. */
  function ReadBitmap(lines: seq<string>): (r: RowsRead)
    ensures r.RowsRead? ==> |r.rows| <= r.consumed <= |lines|
    ensures r.RowsRead? ==> forall k :: 0 <= k < |r.rows| ==> |r.rows[k]| > 0 && IsBinary(r.rows[k])
    ensures r.RowsRead? && r.consumed < |lines| ==> r.consumed > 0 && lines[r.consumed - 1] == "end"
    ensures r.BadRow? <==>
      (exists k :: 0 <= k < |lines| && BadLine(lines[k]) && forall j :: 0 <= j < k ==> ReadOn(lines[j]))
    decreases |lines|
  {
    if |lines| == 0 then RowsRead([], 0)
    else
      var l := lines[0];
      var rest := ReadBitmap(lines[1..]);
      assert forall k :: 1 <= k < |lines| ==> lines[1..][k - 1] == lines[k];
      if Skipped(l) then
        (match rest
         case RowsRead(rows, c) => RowsRead(rows, c + 1)
         case BadRow => BadRow)
      else if l == "end" then RowsRead([], 1)
      else if RowBits(l).None? then BadRow
      else
        match rest
        case RowsRead(rows, c) =>
          var n := NormalRow(l);
          assert IsBinary(n);
          RowsRead([n] + rows, c + 1)
        case BadRow => BadRow
  }

  /** Rows already written in '0' and '1', closed by "end", read back as
      themselves, whatever follows. */
  lemma {:induction false} BinaryRowsReadBack(rows: seq<string>, rest: seq<string>)
    requires forall k :: 0 <= k < |rows| ==> |rows[k]| > 0 && IsBinary(rows[k])
    ensures ReadBitmap(rows + ["end"] + rest) == RowsRead(rows, |rows| + 1)
    decreases |rows|
  {
    var lines := rows + ["end"] + rest;
    if |rows| == 0 {
      assert lines[0] == "end";
    } else {
      var l := rows[0];
      assert lines[0] == l && lines[1..] == rows[1..] + ["end"] + rest;
      BinaryRowsReadBack(rows[1..], rest);
      assert l != "end" by { assert l[0] != 'e'; }
      assert NormalRow(l) == l;
      assert [l] + rows[1..] == rows;
    }
  }

  /** A row that starts with an inked pixel written '#' is lost: the
      reader takes it for a comment, so the glyph comes out one row short. */
  lemma InkFirstRowIsLost(l: string, rest: seq<string>)
    requires |l| > 0 && l[0] == '#'
    ensures ReadBitmap([l] + rest).RowsRead? <==> ReadBitmap(rest).RowsRead?
    ensures ReadBitmap([l] + rest).RowsRead? ==> ReadBitmap([l] + rest).rows == ReadBitmap(rest).rows
  {
    assert ([l] + rest)[1..] == rest;
  }

  /** The same glyph written with '1' for its first pixel keeps the row. */
  lemma InkFirstRowKeptAsOne()
    ensures ReadBitmap(["#.", "..", "end"]) == RowsRead(["00"], 3)
    ensures ReadBitmap(["1.", "..", "end"]) == RowsRead(["10", "00"], 3)
  {
    assert ["#.", "..", "end"][1..] == ["..", "end"];
    assert ["..", "end"][1..] == ["end"];
    assert ["1.", "..", "end"][1..] == ["..", "end"];
    assert NormalRow("..") == "00";
    assert NormalRow("1.") == "10";
  }

  // ---------------------------------------------------------------------
  // Glyph validation
  // ---------------------------------------------------------------------

  /** A parsed glyph: the width its header gave, if any, and its rows. */
  datatype GlyphSource = GlyphSource(width: Option<int>, bitmap: seq<string>)

  /** The longest row; zero when there are none. */
  function MaxLen(rows: seq<string>): (m: nat)
    ensures forall k :: 0 <= k < |rows| ==> |rows[k]| <= m
    ensures |rows| > 0 ==> exists k :: 0 <= k < |rows| && |rows[k]| == m
  {
    if |rows| == 0 then 0
    else
      var m := MaxLen(rows[..|rows| - 1]);
      if |rows[|rows| - 1]| > m then |rows[|rows| - 1]| else m
  }

  /** Defining a glyph twice is an error; otherwise the new glyph joins
      the others, which stay as they were. */
  function AddGlyph(glyphs: map<int, GlyphSource>, cp: int, g: GlyphSource): (r: Option<map<int, GlyphSource>>)
    ensures r.None? <==> cp in glyphs
    ensures r.Some? ==> r.value.Keys == glyphs.Keys + {cp} && r.value[cp] == g
    ensures r.Some? ==> forall c :: c in glyphs ==> r.value[c] == glyphs[c]
  {
    if cp in glyphs then None else Some(glyphs[cp := g])
  }

  /** The width a glyph ends up with, or None when the font is rejected:
      it must have exactly `height` rows, its width defaults to its
      longest row, and every row must be exactly that wide. */
  function ValidateGlyph(g: GlyphSource, height: int): (r: Option<int>)
    ensures r.Some? ==> |g.bitmap| == height
    ensures r.Some? ==> forall k :: 0 <= k < |g.bitmap| ==> |g.bitmap[k]| == r.value
    ensures g.width.Some? ==>
      (r.Some? <==> |g.bitmap| == height && forall k :: 0 <= k < |g.bitmap| ==> |g.bitmap[k]| == g.width.value)
    ensures r.Some? && g.width.Some? ==> r.value == g.width.value
  {
    if |g.bitmap| != height then None
    else
      var w := if g.width.Some? then g.width.value else MaxLen(g.bitmap);
      if forall k :: 0 <= k < |g.bitmap| ==> |g.bitmap[k]| == w then Some(w) else None
  }

  /** Without a width in its header, a glyph of the right height is
      accepted exactly when all its rows are equally long, and then takes
      that length; a glyph without rows gets width zero. */
  lemma DefaultWidth(g: GlyphSource, height: int)
    requires g.width.None? && |g.bitmap| == height
    ensures |g.bitmap| == 0 ==> ValidateGlyph(g, height) == Some(0)
    ensures |g.bitmap| > 0 ==>
      (ValidateGlyph(g, height).Some? <==> forall k :: 0 <= k < |g.bitmap| ==> |g.bitmap[k]| == |g.bitmap[0]|)
    ensures |g.bitmap| > 0 && ValidateGlyph(g, height).Some? ==> ValidateGlyph(g, height).value == |g.bitmap[0]|
  {
    if |g.bitmap| > 0 && forall k :: 0 <= k < |g.bitmap| ==> |g.bitmap[k]| == |g.bitmap[0]| {
      var m := MaxLen(g.bitmap);
      var j :| 0 <= j < |g.bitmap| && |g.bitmap[j]| == m;
      assert m == |g.bitmap[0]|;
    }
  }

  // ---------------------------------------------------------------------
  // T4 pixels
  // ---------------------------------------------------------------------

  /** Index of pixel (x, y) on a page `pageW` pixels wide. */
  function PixelIndex(pageW: int, x: int, y: int): int {
    y * pageW + x
  }

  /** The four-bit pixel `idx`: even pixels in the low nibble of their
      byte, odd pixels in the high nibble. */
  function PixelAt(buf: seq<Byte>, idx: int): (v: int)
    requires 0 <= idx && idx / 2 < |buf|
    ensures 0 <= v < 16
  {
    if idx % 2 == 1 then buf[idx / 2] / 16 else buf[idx / 2] % 16
  }

  /** Writes the low four bits of `value` into pixel (x, y), keeping the
      other pixel that shares its byte. */
  function PackPixel(buf: seq<Byte>, pageW: int, x: int, y: int, value: int): (r: seq<Byte>)
    requires 0 <= PixelIndex(pageW, x, y) && PixelIndex(pageW, x, y) / 2 < |buf|
    ensures |r| == |buf|
    ensures forall k :: 0 <= k < |buf| && k != PixelIndex(pageW, x, y) / 2 ==> r[k] == buf[k]
  {
    var idx := PixelIndex(pageW, x, y);
    var b := idx / 2;
    var nb: Byte :=
      if idx % 2 == 1 then buf[b] % 16 + (value % 16) * 16
      else (buf[b] / 16) * 16 + value % 16;
    buf[b := nb]
  }

  /** Reading a packed pixel back gives the low four bits of the value
      written, and every other pixel keeps its value. */
  lemma PackThenRead(buf: seq<Byte>, pageW: int, x: int, y: int, value: int, j: int)
    requires 0 <= PixelIndex(pageW, x, y) && PixelIndex(pageW, x, y) / 2 < |buf|
    requires 0 <= j && j / 2 < |buf|
    ensures j == PixelIndex(pageW, x, y) ==> PixelAt(PackPixel(buf, pageW, x, y, value), j) == value % 16
    ensures j != PixelIndex(pageW, x, y) ==> PixelAt(PackPixel(buf, pageW, x, y, value), j) == PixelAt(buf, j)
  {
    var idx := PixelIndex(pageW, x, y);
    var r := PackPixel(buf, pageW, x, y, value);
    if j / 2 == idx / 2 && j != idx {
      if idx % 2 == 1 {
        assert j % 2 == 0;
        assert r[j / 2] % 16 == buf[j / 2] % 16;
      } else {
        assert j % 2 == 1;
        assert r[j / 2] / 16 == buf[j / 2] / 16;
      }
    }
  }

  // ---------------------------------------------------------------------
  // Cells and pages
  // ---------------------------------------------------------------------

  /** `ceil(a / b)` for a positive divisor. */
  function CeilDiv(a: int, b: int): (q: int)
    requires b > 0
    ensures (q - 1) * b < a <= q * b
  {
    -((-a) / b)
  }

  /** How the converter cuts pages into cells: one cell per code point,
      as wide as the widest glyph and as high as the font. */
  datatype Layout = Layout(cellW: int, cellH: int, cols: int, rows: int,
                           perPage: int, total: int, pageCount: int)

  predicate LayoutOk(l: Layout) {
    && 1 <= l.cellW && 1 <= l.cellH
    && 1 <= l.cols && l.cols * l.cellW <= PAGE_SIZE
    && 1 <= l.rows && l.rows * l.cellH <= PAGE_SIZE
    && l.perPage == l.cols * l.rows
    && (l.pageCount - 1) * l.perPage < l.total <= l.pageCount * l.perPage
  }

  /** The widest glyph, or one when there are none. */
  function MaxWidth(widths: seq<int>): (m: int)
    ensures |widths| == 0 ==> m == 1
    ensures forall k :: 0 <= k < |widths| ==> widths[k] <= m
    ensures |widths| > 0 ==> exists k :: 0 <= k < |widths| && widths[k] == m
  {
    if |widths| == 0 then 1
    else if |widths| == 1 then widths[0]
    else
      var m := MaxWidth(widths[..|widths| - 1]);
      if widths[|widths| - 1] > m then widths[|widths| - 1] else m
  }

  lemma DivBounds(a: int, b: int)
    requires b > 0
    ensures (a / b) * b <= a < (a / b + 1) * b
  {
  }

  /** The page layout for code points start..end, or None when a cell does
      not fit on a page. A zero cell side divides by zero in the converter
      and is excluded. */
  function PlanLayout(start: int, end: int, maxW: int, height: int): (r: Option<Layout>)
    requires maxW != 0 && height != 0
    ensures r.None? <==> !(1 <= maxW <= PAGE_SIZE && 1 <= height <= PAGE_SIZE)
    ensures r.Some? ==> LayoutOk(r.value)
    ensures r.Some? ==> r.value.cellW == maxW && r.value.cellH == height
    ensures r.Some? ==> r.value.total == end - start + 1
    ensures r.Some? ==> PAGE_SIZE < (r.value.cols + 1) * maxW && PAGE_SIZE < (r.value.rows + 1) * height
  {
    // A negative side gives a negative floor quotient: no columns or rows.
    if maxW < 0 || height < 0 then None
    else
      var cols := PAGE_SIZE / maxW;
      var rows := PAGE_SIZE / height;
      DivBounds(PAGE_SIZE, maxW);
      DivBounds(PAGE_SIZE, height);
      if cols <= 0 || rows <= 0 then None
      else
        var perPage := cols * rows;
        var total := end - start + 1;
        Some(Layout(maxW, height, cols, rows, perPage, total, CeilDiv(total, perPage)))
  }

  /** Position and page of the cell of the `idx`-th code point. */
  function CellOf(l: Layout, idx: int): (c: (int, int, int))
    requires LayoutOk(l)
  {
    var page := idx / l.perPage;
    var cell := idx % l.perPage;
    var col := cell % l.cols;
    var row := cell / l.cols;
    (col * l.cellW, row * l.cellH, page)
  }

  lemma MulMono(a: int, b: int, c: int)
    requires 0 <= c && a <= b
    ensures a * c <= b * c
  {
  }

  /** Column `cell % cols` of a row of `cols` cells of width `w` ends
      inside the page. */
  lemma ColumnFits(cell: int, cols: int, w: int)
    requires 0 <= cell && 1 <= cols && 1 <= w && cols * w <= PAGE_SIZE
    ensures 0 <= (cell % cols) * w && (cell % cols) * w + w <= PAGE_SIZE
  {
    MulMono(cell % cols + 1, cols, w);
  }

  /** Row `cell / cols` of a page of `rows` rows of height `h` ends inside
      the page, for a cell of that page. */
  lemma RowFits(cell: int, cols: int, rows: int, h: int)
    requires 0 <= cell < cols * rows && 1 <= cols && 1 <= h && rows * h <= PAGE_SIZE
    ensures 0 <= (cell / cols) * h && (cell / cols) * h + h <= PAGE_SIZE
  {
    var row := cell / cols;
    assert row < rows by {
      if row >= rows {
        MulMono(rows, row, cols);
        DivBounds(cell, cols);
      }
    }
    MulMono(row + 1, rows, h);
  }

  lemma PageBelow(idx: int, perPage: int, pageCount: int)
    requires 0 <= idx < pageCount * perPage && 1 <= perPage
    ensures 0 <= idx / perPage < pageCount
  {
    if idx / perPage >= pageCount {
      MulMono(pageCount, idx / perPage, perPage);
      DivBounds(idx, perPage);
    }
  }

  /** Every code point of the range gets a whole cell on an existing page. */
  lemma CellInsidePage(l: Layout, idx: int)
    requires LayoutOk(l) && 0 <= idx < l.total
    ensures 0 <= CellOf(l, idx).0 && CellOf(l, idx).0 + l.cellW <= PAGE_SIZE
    ensures 0 <= CellOf(l, idx).1 && CellOf(l, idx).1 + l.cellH <= PAGE_SIZE
    ensures 0 <= CellOf(l, idx).2 < l.pageCount
  {
    var cell := idx % l.perPage;
    ColumnFits(cell, l.cols, l.cellW);
    RowFits(cell, l.cols, l.rows, l.cellH);
    PageBelow(idx, l.perPage, l.pageCount);
  }

  /** Two different cells of one page, numbered row by row, do not
      overlap. */
  lemma CellsApart(ci: int, cj: int, cols: int, w: int, h: int)
    requires 0 <= ci && 0 <= cj && ci != cj && 1 <= cols && 1 <= w && 1 <= h
    ensures var xi, yi := (ci % cols) * w, (ci / cols) * h;
            var xj, yj := (cj % cols) * w, (cj / cols) * h;
            xi + w <= xj || xj + w <= xi || yi + h <= yj || yj + h <= yi
  {
    var coli, colj := ci % cols, cj % cols;
    var rowi, rowj := ci / cols, cj / cols;
    assert coli != colj || rowi != rowj by {
      DivBounds(ci, cols);
      DivBounds(cj, cols);
    }
    if coli < colj {
      MulMono(coli + 1, colj, w);
    } else if colj < coli {
      MulMono(colj + 1, coli, w);
    } else if rowi < rowj {
      MulMono(rowi + 1, rowj, h);
    } else {
      MulMono(rowj + 1, rowi, h);
    }
  }

  /** Cells of two different code points never overlap: they are on
      different pages, or side by side, or one above the other. */
  lemma CellsDisjoint(l: Layout, i: int, j: int)
    requires LayoutOk(l) && 0 <= i && 0 <= j && i != j
    ensures var (xi, yi, pi) := CellOf(l, i);
            var (xj, yj, pj) := CellOf(l, j);
            pi != pj || xi + l.cellW <= xj || xj + l.cellW <= xi || yi + l.cellH <= yj || yj + l.cellH <= yi
  {
    if i / l.perPage == j / l.perPage {
      assert i % l.perPage != j % l.perPage by {
        DivBounds(i, l.perPage);
        DivBounds(j, l.perPage);
      }
      CellsApart(i % l.perPage, j % l.perPage, l.cols, l.cellW, l.cellH);
    }
  }

  // ---------------------------------------------------------------------
  // Drawing a glyph into its cell
  // ---------------------------------------------------------------------

  /** Page pixel (x, y) with x inside the page splits back into x and y. */
  lemma PixelIndexSplit(x: int, y: int)
    requires 0 <= x < PAGE_SIZE && 0 <= y
    ensures PixelIndex(PAGE_SIZE, x, y) % PAGE_SIZE == x
    ensures PixelIndex(PAGE_SIZE, x, y) / PAGE_SIZE == y
  {
  }

  /** Pixel `idx` is on line `y`, among the first `n` characters of `row`
      drawn from column `x0`, and that character is ink. */
  predicate RowInk(x0: int, y: int, row: string, n: int, idx: int)
    requires 0 <= n <= |row|
  {
    var x := idx % PAGE_SIZE - x0;
    idx / PAGE_SIZE == y && 0 <= x < n && row[x] == '1'
  }

  /** Pixel `idx` is ink of one of the first `m` rows of a glyph drawn at
      (x0, y0). */
  predicate GlyphInk(x0: int, y0: int, bitmap: seq<string>, m: int, idx: int)
    requires 0 <= m <= |bitmap|
  {
    var y := idx / PAGE_SIZE - y0;
    0 <= y < m && RowInk(x0, y0 + y, bitmap[y], |bitmap[y]|, idx)
  }

  /** Draws one bitmap row: every '1' sets its pixel to 1, and nothing
      else on the page changes. */
  method DrawRow(buf: seq<Byte>, x0: int, y: int, row: string) returns (r: seq<Byte>)
    requires |buf| == PAGE_BYTES
    requires 0 <= x0 && x0 + |row| <= PAGE_SIZE && 0 <= y < PAGE_SIZE
    ensures |r| == |buf|
    ensures forall idx :: 0 <= idx < 2 * |buf| ==>
      PixelAt(r, idx) == (if RowInk(x0, y, row, |row|, idx) then 1 else PixelAt(buf, idx))
  {
    r := buf;
    var x := 0;
    while x < |row|
      invariant 0 <= x <= |row| && |r| == |buf|
      invariant forall idx :: 0 <= idx < 2 * |buf| ==>
        PixelAt(r, idx) == (if RowInk(x0, y, row, x, idx) then 1 else PixelAt(buf, idx))
    {
      PixelIndexSplit(x0 + x, y);
      var p := PixelIndex(PAGE_SIZE, x0 + x, y);
      if row[x] == '1' {
        var r' := PackPixel(r, PAGE_SIZE, x0 + x, y, 1);
        forall idx | 0 <= idx < 2 * |buf|
          ensures PixelAt(r', idx) == (if RowInk(x0, y, row, x + 1, idx) then 1 else PixelAt(buf, idx))
        {
          PackThenRead(r, PAGE_SIZE, x0 + x, y, 1, idx);
        }
        r := r';
      } else {
        assert forall idx :: 0 <= idx < 2 * |buf| ==> (RowInk(x0, y, row, x + 1, idx) <==> RowInk(x0, y, row, x, idx));
      }
      x := x + 1;
    }
  }

  /** Draws a glyph with its top-left corner at (x0, y0): exactly the ink
      pixels of its bitmap become 1 and the rest of the page is kept, so
      a glyph drawn into its own cell leaves every other cell alone. */
  method DrawGlyph(page: seq<Byte>, x0: int, y0: int, bitmap: seq<string>) returns (r: seq<Byte>)
    requires |page| == PAGE_BYTES
    requires 0 <= x0 && 0 <= y0 && y0 + |bitmap| <= PAGE_SIZE
    requires forall k :: 0 <= k < |bitmap| ==> x0 + |bitmap[k]| <= PAGE_SIZE
    ensures |r| == |page|
    ensures forall idx :: 0 <= idx < 2 * |page| ==>
      PixelAt(r, idx) == (if GlyphInk(x0, y0, bitmap, |bitmap|, idx) then 1 else PixelAt(page, idx))
  {
    r := page;
    var y := 0;
    while y < |bitmap|
      invariant 0 <= y <= |bitmap| && |r| == |page|
      invariant forall idx :: 0 <= idx < 2 * |page| ==>
        PixelAt(r, idx) == (if GlyphInk(x0, y0, bitmap, y, idx) then 1 else PixelAt(page, idx))
    {
      var r' := DrawRow(r, x0, y0 + y, bitmap[y]);
      assert forall idx :: 0 <= idx < 2 * |page| ==>
        (GlyphInk(x0, y0, bitmap, y + 1, idx) <==>
         GlyphInk(x0, y0, bitmap, y, idx) || RowInk(x0, y0 + y, bitmap[y], |bitmap[y]|, idx));
      r := r';
      y := y + 1;
    }
  }

  /** The glyph-table entry for one code point: its cell, width, the font
      height and its page when the font defines it, all zeros otherwise. */
  function EntryFor(l: Layout, start: int, height: int, widths: map<int, int>, cp: int): Fonts.Glyph
    requires LayoutOk(l)
  {
    if cp in widths then
      var (x0, y0, page) := CellOf(l, cp - start);
      Fonts.Glyph(x0, y0, widths[cp], height, page)
    else Fonts.Glyph(0, 0, 0, 0, 0)
  }

  /** The glyph table, one entry per code point of start..end in order. */
  method BuildGlyphTable(l: Layout, start: int, end: int, height: int, widths: map<int, int>)
    returns (table: seq<Fonts.Glyph>)
    requires LayoutOk(l) && l.total == end - start + 1
    ensures |table| == Max(0, l.total)
    ensures forall k :: 0 <= k < |table| ==> table[k] == EntryFor(l, start, height, widths, start + k)
  {
    table := [];
    var cp := start;
    while cp <= end
      invariant start <= cp <= Max(start, end + 1)
      invariant |table| == cp - start
      invariant forall k :: 0 <= k < |table| ==> table[k] == EntryFor(l, start, height, widths, start + k)
      decreases end - cp
    {
      table := table + [EntryFor(l, start, height, widths, cp)];
      cp := cp + 1;
    }
  }

  /** The generated table is a well-formed runtime atlas, and looking up a
      defined glyph of non-zero width finds its cell, inside its page. */
  lemma TableFeedsLookup(l: Layout, start: nat, end: nat, defaultCp: nat, height: int,
                         widths: map<int, int>, table: seq<Fonts.Glyph>, cp: nat)
    requires LayoutOk(l) && start <= end && l.total == end - start + 1
    requires |table| == l.total
    requires forall k :: 0 <= k < |table| ==> table[k] == EntryFor(l, start, height, widths, start + k)
    requires start <= cp <= end && cp in widths && widths[cp] != 0
    ensures Fonts.WellFormed(Fonts.Atlas(start, end, defaultCp, table))
    ensures var g := Fonts.Lookup(Some(Fonts.Atlas(start, end, defaultCp, table)), cp);
            g.Some? && g.value.w == widths[cp] && g.value.h == height &&
            0 <= g.value.x && g.value.x + l.cellW <= PAGE_SIZE &&
            0 <= g.value.y && g.value.y + l.cellH <= PAGE_SIZE &&
            0 <= g.value.page < l.pageCount
  {
    assert table[cp - start] == EntryFor(l, start, height, widths, cp);
    CellInsidePage(l, cp - start);
  }
}

=== FILE: frame.dfy ===
/** One frame of play: steering keys from the controller, the ball's
    update, death (game over or respawn at the checkpoint), the moving
    spikes, the exit door, and the invincibility cheat. */
module Frame {
  import opened Wrappers
  import opened LevelMap
  import opened Ball
  import opened Collide
  import opened Physics
  import opened Motion
  import opened Input
  import Game
  import Save

  /** One steering key: pressed or held sets it, released or not held
      clears it. */
  function SteerKey(p: Player, s: InputState, btn: int, d: Dir): (r: (Player, InputState))
    requires d != Down
    ensures d in r.0.direction <==> Held(s, {btn}) && btn !in s.releasedAccum
    ensures r.0.direction - {d} == p.direction - {d}
    ensures r.0.(direction := p.direction) == p
    ensures r.1.buttons == s.buttons && r.1.lock == s.lock && r.1.pressedFrame == s.pressedFrame
    ensures r.1.pressedAccum == s.pressedAccum - (if btn !in s.lock then {btn} else {})
    ensures r.1.releasedAccum == s.releasedAccum - {btn}
  {
    var (c1, s1) := ConsumePressed(s, {btn});
    var p1 := if c1 || Held(s1, {btn}) then SetDirection(p, d) else p;
    var (c2, s2) := ConsumeReleased(s1, {btn});
    var p2 := if c2 || !Held(s2, {btn}) then ReleaseDirection(p1, d) else p1;
    (p2, s2)
  }

  /** The jump key: only a new press sets it; released or not held clears
      it. Holding the key through a landing does not jump again unless the
      key was still set. */
  function JumpKey(p: Player, s: InputState): (r: (Player, InputState))
    ensures Up in r.0.direction <==>
      Held(s, {BTN_CROSS}) && BTN_CROSS !in s.releasedAccum && (Up in p.direction || BTN_CROSS in s.pressedAccum)
    ensures r.0.direction - {Up} == p.direction - {Up}
    ensures r.0.(direction := p.direction) == p
    ensures r.1.buttons == s.buttons && r.1.lock == s.lock
  {
    var (c1, s1) := ConsumePressed(s, {BTN_CROSS});
    var p1 := if c1 then SetDirection(p, Up) else p;
    var (c2, s2) := ConsumeReleased(s1, {BTN_CROSS});
    var p2 := if c2 || !Held(s2, {BTN_CROSS}) then ReleaseDirection(p1, Up) else p1;
    (p2, s2)
  }

  /** Left, right, then jump. */
  function Steering(p: Player, s: InputState): (r: (Player, InputState))
    ensures Left in r.0.direction <==> Held(s, {BTN_LEFT}) && BTN_LEFT !in s.releasedAccum
    ensures Right in r.0.direction <==> Held(s, {BTN_RIGHT}) && BTN_RIGHT !in s.releasedAccum
    ensures Up in r.0.direction <==>
      Held(s, {BTN_CROSS}) && BTN_CROSS !in s.releasedAccum && (Up in p.direction || BTN_CROSS in s.pressedAccum)
    ensures (Down in r.0.direction) == (Down in p.direction)
    ensures r.0.(direction := p.direction) == p
    ensures r.1.buttons == s.buttons && r.1.lock == s.lock
  {
    var (p1, s1) := SteerKey(p, s, BTN_LEFT, Left);
    var (p2, s2) := SteerKey(p1, s1, BTN_RIGHT, Right);
    var r := JumpKey(p2, s2);
    DirectionsApart(p.direction, p1.direction, p2.direction, r.0.direction);
    r
  }

  /** Each key of the steering touches only its own direction. */
  lemma DirectionsApart(d0: set<Dir>, d1: set<Dir>, d2: set<Dir>, d3: set<Dir>)
    requires d1 - {Left} == d0 - {Left} && d2 - {Right} == d1 - {Right} && d3 - {Up} == d2 - {Up}
    ensures (Left in d3 <==> Left in d1) && (Right in d3 <==> Right in d2) && (Down in d3 <==> Down in d0)
  {
    Apart(d3, d2, Up, Left);
    Apart(d2, d1, Right, Left);
    Apart(d3, d2, Up, Right);
    Apart(d3, d2, Up, Down);
    Apart(d2, d1, Right, Down);
    Apart(d1, d0, Left, Down);
  }

  lemma Apart(a: set<Dir>, b: set<Dir>, d: Dir, x: Dir)
    requires a - {d} == b - {d} && x != d
    ensures x in a <==> x in b
  {
    assert x in a <==> x in a - {d};
    assert x in b <==> x in b - {d};
  }

  /** L pressed while R is held toggles invincibility. */
  function CheatToggle(g: Game.Game, s: InputState): (r: (Game.Game, InputState))
    ensures r.0.invincible <==> (g.invincible != (ConsumePressed(s, {BTN_LTRIGGER}).0 && Held(s, {BTN_RTRIGGER})))
    ensures r.0.(invincible := g.invincible) == g
    ensures r.1 == ConsumePressed(s, {BTN_LTRIGGER}).1
  {
    var (c, s1) := ConsumePressed(s, {BTN_LTRIGGER});
    if c && Held(s1, {BTN_RTRIGGER}) then (g.(invincible := !g.invincible), s1) else (g, s1)
  }

  /** A dead ball: with lives below zero the records are updated and the
      game is over; otherwise a fresh ball of the same size is placed at
      the centre of the respawn tile and held buttons are locked. */
  function HandleDeath(mk: Masks, w: World, s: InputState, fuel: nat): (r: Option<(World, InputState)>)
    requires MasksOk(mk) && Valid(w.l) && w.p.state == Dead
    ensures w.g.numLives < 0 ==>
      (r.Some? && r.value.1 == s &&
       r.value.0 == w.(g := r.value.0.g) &&
       r.value.0.g.state == Game.GameOver && r.value.0.g.savedGame == Game.SavedNone &&
       (r.value.0.g.save, r.value.0.g.newBestScore) ==
         Save.UpdateRecords(w.g.save, w.g.selectedLevel, w.g.score, w.g.newBestScore))
    ensures w.g.numLives >= 0 && r.Some? ==>
      Evolves(w.l, r.value.0.l) && r.value.0.p.state != Dead && SpeedNorm(r.value.0.p) == 0 &&
      r.value.1 == LockHeld(ResetEdges(s))
    ensures w.g.numLives >= 0 && w.p.size == Small ==>
      r == Some((w.(p := FreshPlayer(w.l.respawnX * TILE_SIZE + HALF_NORMAL_SIZE,
                                     w.l.respawnY * TILE_SIZE + HALF_NORMAL_SIZE, Small)),
                 LockHeld(ResetEdges(s))))
  {
    if w.g.numLives < 0 then
      var (sv, nb) := Save.UpdateRecords(w.g.save, w.g.selectedLevel, w.g.score, w.g.newBestScore);
      Some((w.(g := w.g.(save := sv, newBestScore := nb, savedGame := Game.SavedNone, state := Game.GameOver)), s))
    else
      var size := w.p.size;
      var (rx, ry) := GetRespawn(w.l);
      var half := Half(size);
      var w' :- PlayerInit(mk, w, rx * TILE_SIZE + half, ry * TILE_SIZE + half, size, fuel);
      Some((w', LockHeld(ResetEdges(s))))
  }

  /** One frame of play. A ball that is dead after its update is either
      replaced (lives left) or ends the game; so the frame never leaves a
      dead ball behind outside the game-over state. */
  method UpdateGame(mk: Masks, w: World, s: InputState, fuel: nat) returns (r: Option<(World, InputState)>)
    requires MasksOk(mk) && Valid(w.l)
    ensures r.Some? ==> Valid(r.value.0.l)
    ensures r.Some? && r.value.0.p.state == Dead ==> r.value.0.g.state == Game.GameOver
    ensures r.Some? ==> r.value.1.buttons == s.buttons && s.lock <= r.value.1.lock
    ensures w.p.state == Popped && w.p.popCntr == 1 && w.g.numLives < 0 ==>
      r.Some? && r.value.0.g.state == Game.GameOver && r.value.0.g.savedGame == Game.SavedNone
    ensures w.p.state == Popped && w.p.popCntr == 1 && w.g.numLives >= 0 && w.p.size == Small ==>
      r.Some? && r.value.0.p == FreshPlayer(w.l.respawnX * TILE_SIZE + HALF_NORMAL_SIZE,
                                            w.l.respawnY * TILE_SIZE + HALF_NORMAL_SIZE, Small) &&
      s.buttons <= r.value.1.lock && r.value.1.pressedFrame == {} && r.value.1.releasedAccum == {}
    ensures w.p.state == Popped && w.p.popCntr != 1 ==>
      r.Some? && r.value.0.p == PoppedTick(Steering(w.p, s).0) && r.value.0.l == UpdateMovingObjects(w.l)
  {
    var (p, s1) := Steering(w.p, s);
    var w1 :- PlayerUpdate(mk, w.(p := p), fuel);
    var w2 := w1;
    var s2 := s1;
    if w1.p.state == Dead {
      var d :- HandleDeath(mk, w1, s1, fuel);
      w2 := d.0;
      s2 := d.1;
    }
    var w3 := w2.(l := UpdateMovingObjects(w2.l), g := Game.DoorTick(w2.g));
    var (g4, s4) := CheatToggle(w3.g, s2);
    return Some((w3.(g := g4), s4));
  }
}

=== FILE: game.dfy ===
/** Game-wide counters and the event handlers the physics calls back into:
    score, rings, lives, the exit door animation, checkpoints and the ring
    pair rewrite that turns a collected ring into its inactive image. */
module Game {
  import opened Wrappers
  import opened CInt
  import opened LevelMap
  import Tiles
  import Save

  const RING_POINTS: int := 500
  const GEM_POINTS: int := 200
  const LIFE_POINTS: int := 1000
  const EXIT_POINTS: int := 5000
  const MAX_LIVES: int := 5
  const START_LIVES: int := 3
  const DOOR_STEP: int := 4
  const DOOR_OPEN_OFFSET: int := 24

  datatype GameState =
    | SplashNokia | Splash | Menu | LevelSelect | Playing
    | HighScore | Instructions | LevelComplete | GameOver | Exit

  datatype SavedGame = SavedNone | InProgress | Completed

  /** Game-wide state; `save` is the save subsystem, which the level-end
      handlers update. */
  datatype Game = Game(
    state: GameState,
    menuSelection: int,
    selectedLevel: int,
    numRings: int,
    score: int,
    numLives: int,
    invincible: bool,
    savedGame: SavedGame,
    instructionPart: int,
    newBestScore: bool,
    doorOffset: int,
    doorOpening: bool,
    save: Save.SaveState)

  function AddScore(g: Game, points: int): (g': Game)
    ensures g'.score == g.score + points
    ensures g'.(score := g.score) == g
  {
    g.(score := g.score + points)
  }

  /** A ring is worth 500 points and counts towards opening the exit. */
  function AddRing(g: Game): (g': Game)
    ensures g'.score == g.score + RING_POINTS && g'.numRings == g.numRings + 1
    ensures g'.(score := g.score, numRings := g.numRings) == g
  {
    AddScore(g, RING_POINTS).(numRings := g.numRings + 1)
  }

  /** 1000 points, and one more life unless five are already banked. */
  function AddExtraLife(g: Game): (g': Game)
    ensures g'.score == g.score + LIFE_POINTS
    ensures g'.numLives == (if g.numLives < MAX_LIVES then g.numLives + 1 else g.numLives)
    ensures g.numLives <= MAX_LIVES ==> g'.numLives <= MAX_LIVES
    ensures g'.(score := g.score, numLives := g.numLives) == g
  {
    var g1 := AddScore(g, LIFE_POINTS);
    if g1.numLives < MAX_LIVES then g1.(numLives := g1.numLives + 1) else g1
  }

  /** Reaching the open exit: 5000 points, record update, level-complete
      screen. */
  function CompleteLevel(g: Game): (g': Game)
    ensures g'.score == g.score + EXIT_POINTS
    ensures g'.state == LevelComplete
    ensures (g'.save, g'.newBestScore) ==
      Save.UpdateRecords(g.save, g.selectedLevel, g.score + EXIT_POINTS, g.newBestScore)
    ensures g'.(score := g.score, state := g.state, save := g.save, newBestScore := g.newBestScore) == g
  {
    var g1 := AddScore(g, EXIT_POINTS);
    var (sv, nb) := Save.UpdateRecords(g1.save, g1.selectedLevel, g1.score, g1.newBestScore);
    g1.(save := sv, newBestScore := nb, state := LevelComplete)
  }

  // -------------------------------------------------------------- exit door

  /** Start opening the door; a door already opening keeps its offset. */
  function ExitOpen(g: Game): (g': Game)
    ensures g'.doorOpening
    ensures g.doorOpening ==> g' == g
    ensures !g.doorOpening ==> g'.doorOffset == 0
    ensures g'.(doorOpening := g.doorOpening, doorOffset := g.doorOffset) == g
  {
    if !g.doorOpening then g.(doorOpening := true, doorOffset := 0) else g
  }

  function ExitReset(g: Game): (g': Game)
    ensures !g'.doorOpening && g'.doorOffset == 0
    ensures g'.(doorOpening := g.doorOpening, doorOffset := g.doorOffset) == g
  {
    g.(doorOffset := 0, doorOpening := false)
  }

  /** A door position the animation can reach: a whole number of 4-pixel
      steps between closed and fully open. */
  predicate DoorValid(g: Game) {
    0 <= g.doorOffset <= DOOR_OPEN_OFFSET && g.doorOffset % DOOR_STEP == 0
  }

  /** How far the door has slid, for drawing it. */
  function ExitAnimOffset(g: Game): (r: int)
    ensures DoorValid(g) ==> 0 <= r <= DOOR_OPEN_OFFSET && r % DOOR_STEP == 0
  {
    g.doorOffset
  }

  /** The door counts as open once its animation has reached 24 pixels,
      that is, once it has slid all the way. */
  function ExitIsOpen(g: Game): (open: bool)
    ensures DoorValid(g) ==> (open <==> ExitAnimOffset(g) == DOOR_OPEN_OFFSET)
  {
    g.doorOffset >= DOOR_OPEN_OFFSET
  }

  /** One frame of the door animation: 4 pixels per frame while opening,
      stopping at 24. */
  function DoorTick(g: Game): (g': Game)
    ensures !g.doorOpening ==> g' == g
    ensures g.doorOpening ==>
      g'.doorOffset == (if g.doorOffset + DOOR_STEP >= DOOR_OPEN_OFFSET then DOOR_OPEN_OFFSET else g.doorOffset + DOOR_STEP)
    ensures g.doorOpening ==> (g'.doorOpening <==> g.doorOffset + DOOR_STEP < DOOR_OPEN_OFFSET)
    ensures g'.doorOpening ==> g.doorOpening
    ensures 0 <= g.doorOffset <= DOOR_OPEN_OFFSET ==> 0 <= g'.doorOffset <= DOOR_OPEN_OFFSET
    ensures g'.(doorOpening := g.doorOpening, doorOffset := g.doorOffset) == g
  {
    if g.doorOpening then
      var o := g.doorOffset + DOOR_STEP;
      if o >= DOOR_OPEN_OFFSET then g.(doorOffset := DOOR_OPEN_OFFSET, doorOpening := false)
      else g.(doorOffset := o)
    else g
  }

  function DoorTicks(g: Game, n: nat): Game
    decreases n
  {
    if n == 0 then g else DoorTicks(DoorTick(g), n - 1)
  }

  /** A door that is not opening stays put. */
  lemma {:induction false} IdleDoorStays(g: Game, n: nat)
    requires !g.doorOpening
    ensures DoorTicks(g, n) == g
    decreases n
  {
    if n > 0 {
      IdleDoorStays(DoorTick(g), n - 1);
    }
  }

  /** An opening door slides 4 pixels a frame until it reaches 24, where
      it stops. */
  lemma {:induction false} DoorSlides(g: Game, n: nat)
    requires g.doorOpening && DoorValid(g) && g.doorOffset < DOOR_OPEN_OFFSET
    ensures DoorValid(DoorTicks(g, n))
    ensures DoorTicks(g, n).doorOffset == Min(g.doorOffset + DOOR_STEP * n, DOOR_OPEN_OFFSET)
    ensures DoorTicks(g, n).doorOpening <==> g.doorOffset + DOOR_STEP * n < DOOR_OPEN_OFFSET
    decreases n
  {
    if n > 0 {
      var g1 := DoorTick(g);
      if g1.doorOpening {
        DoorSlides(g1, n - 1);
      } else {
        IdleDoorStays(g1, n - 1);
      }
    }
  }

  /** What the renderer and the exit tile see while the door opens: after
      `n` frames the door has slid min(4n, 24) pixels, and it reads as open
      from the sixth frame on. */
  lemma DoorAnimation(g: Game, n: nat)
    requires !g.doorOpening
    ensures ExitAnimOffset(DoorTicks(ExitOpen(g), n)) == Min(DOOR_STEP * n, DOOR_OPEN_OFFSET)
    ensures ExitIsOpen(DoorTicks(ExitOpen(g), n)) <==> n >= 6
  {
    DoorSlides(ExitOpen(g), n);
  }

  /** Six frames after the door starts opening it is open and idle. */
  lemma {:induction false} DoorOpensInSixTicks(g: Game)
    requires !g.doorOpening
    ensures ExitIsOpen(DoorTicks(ExitOpen(g), 6))
    ensures !DoorTicks(ExitOpen(g), 6).doorOpening
    ensures forall n :: 0 <= n < 6 ==> !ExitIsOpen(DoorTicks(ExitOpen(g), n))
  {
    var g0 := ExitOpen(g);
    assert DoorTicks(g0, 0).doorOffset == 0;
    assert DoorTicks(g0, 1).doorOffset == 4;
    assert DoorTicks(g0, 2).doorOffset == 8;
    assert DoorTicks(g0, 3).doorOffset == 12;
    assert DoorTicks(g0, 4).doorOffset == 16;
    assert DoorTicks(g0, 5).doorOffset == 20;
    assert DoorTicks(g0, 6).doorOffset == 24;
  }

  // ------------------------------------------------------------- tile writes

  /** Give a cell a new id, reading its flag bits through the wall-default
      accessor and OR-ing them into the id before the flag-keeping write.
      The OR-ed bits are discarded by that write, so the net effect is the
      plain flag-keeping write. */
  function SetIdPreservingFlags(l: Level, x: int, y: int, newId: Byte): (l': Level)
    requires Valid(l)
    ensures l' == SetId(l, x, y, newId)
  {
    var id := OrFlags(newId, TileAt(l, x, y));
    SetIdLowBitsOnly(l, x, y, id, newId);
    SetId(l, x, y, id)
  }

  /** `newId | (cell & ~0x3F)` on bytes: the low six bits come from
      `newId` alone, bits 6 and 7 are the OR of both. */
  function OrFlags(newId: Byte, cell: Byte): (r: Byte)
    ensures r % 64 == newId % 64
    ensures r / 64 == BitOr2(newId / 64, cell / 64)
  {
    newId % 64 + 64 * BitOr2(newId / 64, cell / 64)
  }

  /** Bitwise OR of two 2-bit values. */
  function BitOr2(a: int, b: int): (r: int)
    requires 0 <= a < 4 && 0 <= b < 4
    ensures 0 <= r < 4
  {
    (if a % 2 == 1 || b % 2 == 1 then 1 else 0) + (if a / 2 == 1 || b / 2 == 1 then 2 else 0)
  }

  /** Only the low six bits of the id matter to the write. */
  lemma SetIdLowBitsOnly(l: Level, x: int, y: int, a: Byte, b: Byte)
    requires Valid(l) && a % 64 == b % 64
    ensures SetId(l, x, y, a) == SetId(l, x, y, b)
  {
    if InMap(l, x, y) {
      assert WithId(l.grid[y][x], a) == WithId(l.grid[y][x], b);
    }
  }

  /** Reference table for the ring-pair rewrite: for a ring id, the offset
      of the partner cell, the new id of the hit cell and the new id of the
      partner. Vertical halves pair up and down, horizontal halves left and
      right; any id whose table orientation is horizontal-left or
      horizontal-right and that is not a large active ring takes the small
      inactive images 19/20. */
  datatype PairRewrite = PairRewrite(dx: int, dy: int, selfId: Byte, partnerId: Byte)

  function RingPair(id: int): Option<PairRewrite> {
    if id == 13 then Some(PairRewrite(0, 1, 17, 18))
    else if id == 14 then Some(PairRewrite(0, -1, 18, 17))
    else if id == 21 then Some(PairRewrite(0, 1, 25, 26))
    else if id == 22 then Some(PairRewrite(0, -1, 26, 25))
    else if id == 23 then Some(PairRewrite(1, 0, 27, 28))
    else if id == 24 then Some(PairRewrite(-1, 0, 28, 27))
    else if id in {15, 19, 27} then Some(PairRewrite(1, 0, 19, 20))
    else if id in {16, 20, 28} then Some(PairRewrite(-1, 0, 20, 19))
    else None
  }

  /** Replace a collected ring half and its partner by the inactive images,
      keeping both cells' flags, following the C dispatch on id ranges and
      table orientation. */
  function DeactivateRingPair(l: Level, x: int, y: int, id: Byte): (l': Level)
    requires Valid(l)
    ensures Valid(l') && l'.(grid := l.grid) == l
  {
    if id >= Tiles.MetaCount() then l
    else
      var o := Tiles.Meta(id).orientation;
      if 13 <= id <= 14 then
        if o == Tiles.VertTop then
          SetIdPreservingFlags(SetIdPreservingFlags(l, x, y, id + 4), x, y + 1, id + 5)
        else if o == Tiles.VertBottom then
          SetIdPreservingFlags(SetIdPreservingFlags(l, x, y, id + 4), x, y - 1, id + 3)
        else l
      else if 21 <= id <= 22 then
        if id == 21 then SetIdPreservingFlags(SetIdPreservingFlags(l, x, y, 25), x, y + 1, 26)
        else SetIdPreservingFlags(SetIdPreservingFlags(l, x, y, 26), x, y - 1, 25)
      else if 23 <= id <= 24 then
        if id == 23 then SetIdPreservingFlags(SetIdPreservingFlags(l, x, y, 27), x + 1, y, 28)
        else SetIdPreservingFlags(SetIdPreservingFlags(l, x, y, 28), x - 1, y, 27)
      else if o == Tiles.HorizLeft then
        SetIdPreservingFlags(SetIdPreservingFlags(l, x, y, 19), x + 1, y, 20)
      else if o == Tiles.HorizRight then
        SetIdPreservingFlags(SetIdPreservingFlags(l, x, y, 20), x - 1, y, 19)
      else l
  }

  /** The rewrite as the reference table states it: ids without an entry
      (including every id of 55 or more) leave the level untouched; the
      others write the hit cell, then the partner cell. */
  lemma DeactivateMatchesTable(l: Level, x: int, y: int, id: Byte)
    requires Valid(l)
    ensures RingPair(id).None? ==> DeactivateRingPair(l, x, y, id) == l
    ensures RingPair(id).Some? ==>
      var p := RingPair(id).value;
      DeactivateRingPair(l, x, y, id) == SetId(SetId(l, x, y, p.selfId), x + p.dx, y + p.dy, p.partnerId)
  {
    if id >= 55 {
    } else if 13 <= id <= 28 {
      Tiles.RingsAreHoops();
      var o := Tiles.Meta(id).orientation;
      assert o == Tiles.RingCycle((id - 13) % 4);
      if id == 13 || id == 14 {
      } else if 21 <= id <= 24 {
      } else if id in {15, 19, 27} {
        assert o == Tiles.HorizLeft;
      } else if id in {16, 20, 28} {
        assert o == Tiles.HorizRight;
      } else {
        assert id in {17, 18, 25, 26};
        assert o == Tiles.VertTop || o == Tiles.VertBottom;
      }
    } else {
      NoOtherHorizontal(id);
    }
  }

  /** Outside 13..28 no tile has a horizontal ring orientation. */
  lemma NoOtherHorizontal(id: int)
    requires 0 <= id < Tiles.TILE_COUNT && !(13 <= id <= 28)
    ensures Tiles.Meta(id).orientation != Tiles.HorizLeft
    ensures Tiles.Meta(id).orientation != Tiles.HorizRight
  {
    if id < 13 {
      assert Tiles.Meta(id) == Tiles.PLAIN_ROWS[id];
    } else if id < 38 {
      assert Tiles.Meta(id) == Tiles.RAMP_ROWS[id - 29];
    } else {
      assert Tiles.Meta(id) == Tiles.BONUS_ROWS[id - 38];
    }
  }

  /** Collecting the same ring twice changes nothing the second time. */
  lemma DeactivateIdempotent(l: Level, x: int, y: int, id: Byte)
    requires Valid(l)
    ensures DeactivateRingPair(DeactivateRingPair(l, x, y, id), x, y, id) == DeactivateRingPair(l, x, y, id)
  {
    var l1 := DeactivateRingPair(l, x, y, id);
    DeactivateMatchesTable(l, x, y, id);
    DeactivateMatchesTable(l1, x, y, id);
    if RingPair(id).Some? {
      var p := RingPair(id).value;
      var px, py := x + p.dx, y + p.dy;
      var la := SetId(l, x, y, p.selfId);
      assert l1 == SetId(la, px, py, p.partnerId);
      calc {
        SetId(l1, x, y, p.selfId);
        { SetIdCommute(la, px, py, p.partnerId, x, y, p.selfId); }
        SetId(SetId(la, x, y, p.selfId), px, py, p.partnerId);
        { SetIdTwice(l, x, y, p.selfId, p.selfId); }
        l1;
      }
      SetIdTwice(la, px, py, p.partnerId, p.partnerId);
    }
  }

  /** The rewrite touches only the hit cell and its partner, keeps every
      cell's flag bits, and gives the two cells the table's ids. */
  lemma DeactivateFrame(l: Level, x: int, y: int, id: Byte)
    requires Valid(l) && RingPair(id).Some?
    ensures var p := RingPair(id).value;
      var l' := DeactivateRingPair(l, x, y, id);
      (forall j, i :: InMap(l, i, j) && (i, j) != (x, y) && (i, j) != (x + p.dx, y + p.dy) ==>
         l'.grid[j][i] == l.grid[j][i]) &&
      (forall j, i :: InMap(l, i, j) ==> l'.grid[j][i] / 64 == l.grid[j][i] / 64) &&
      (InMap(l, x + p.dx, y + p.dy) ==> GetId(l', x + p.dx, y + p.dy) == p.partnerId) &&
      (InMap(l, x, y) ==> GetId(l', x, y) == p.selfId)
  {
    DeactivateMatchesTable(l, x, y, id);
    var p := RingPair(id).value;
    PairRewriteShape(id);
    TwoWritesFrame(l, x, y, p.selfId, x + p.dx, y + p.dy, p.partnerId);
  }

  /** Every rewrite moves to a neighbouring cell and writes plain ids. */
  lemma PairRewriteShape(id: int)
    requires RingPair(id).Some?
    ensures var p := RingPair(id).value;
      (p.dx, p.dy) != (0, 0) && p.selfId % 64 == p.selfId && p.partnerId % 64 == p.partnerId
  {
  }

  /** A ring pair was passed through: retire it, score it, and start the
      door once every ring of the level is collected. */
  function RingCollected(l: Level, g: Game, x: int, y: int, id: Byte): (r: (Level, Game))
    requires Valid(l)
    ensures Valid(r.0)
    ensures r.0 == DeactivateRingPair(l, x, y, id)
    ensures r.1.score == g.score + RING_POINTS && r.1.numRings == g.numRings + 1
    ensures r.1.doorOpening <==> g.doorOpening || g.numRings + 1 >= l.totalRings
    ensures !g.doorOpening && g.numRings + 1 >= l.totalRings ==> r.1.doorOffset == 0
    ensures !(!g.doorOpening && g.numRings + 1 >= l.totalRings) ==> r.1.doorOffset == g.doorOffset
    ensures r.1.(score := g.score, numRings := g.numRings, doorOpening := g.doorOpening,
                 doorOffset := g.doorOffset) == g
  {
    var l1 := DeactivateRingPair(l, x, y, id);
    var g1 := AddRing(g);
    if g1.numRings >= l.totalRings then (l1, ExitOpen(g1)) else (l1, g1)
  }

  /** Touching a checkpoint gem: the previous gem becomes the active
      marker, the respawn tile moves here, and this tile is marked active. */
  function SetRespawn(l: Level, x: int, y: int): (l': Level)
    requires Valid(l)
    ensures Valid(l')
    ensures l'.(grid := l.grid, respawnX := l.respawnX, respawnY := l.respawnY) == l
    ensures GetRespawn(l') == (x, y)
    ensures InMap(l, x, y) ==> GetId(l', x, y) == TILE_CHECKPOINT_ON
    ensures InMap(l, l.respawnX, l.respawnY) && GetId(l, l.respawnX, l.respawnY) == TILE_CHECKPOINT ==>
      GetId(l', l.respawnX, l.respawnY) == TILE_CHECKPOINT_ON
    ensures forall j, i :: InMap(l, i, j) ==> l'.grid[j][i] / 64 == l.grid[j][i] / 64
    ensures forall j, i :: InMap(l, i, j) && (i, j) != (x, y) && (i, j) != (l.respawnX, l.respawnY) ==>
      l'.grid[j][i] == l.grid[j][i]
  {
    var l1 := DeactivateOldCheckpoint(l);
    var l2 := LevelMap.SetRespawn(l1, x, y);
    MarkCheckpointActive(l2, x, y)
  }
}

=== FILE: input.dfy ===
/** Controller input: a snapshot of the held buttons, the edges seen in the
    last read, edges accumulated until a consumer takes them, and a lock
    that hides buttons still held from before a respawn. A 32-bit button
    mask is modelled as the set of its set bit positions, so `a & ~b` is
    `a - b`, `a | b` is `a + b` and `(a & b) != 0` is `a * b != {}`. */
module Input {
  import opened Wrappers

  /** Bit positions of the controller buttons. */
  const BTN_SELECT: int := 0
  const BTN_START: int := 3
  const BTN_UP: int := 4
  const BTN_RIGHT: int := 5
  const BTN_DOWN: int := 6
  const BTN_LEFT: int := 7
  const BTN_LTRIGGER: int := 8
  const BTN_RTRIGGER: int := 9
  const BTN_TRIANGLE: int := 12
  const BTN_CIRCLE: int := 13
  const BTN_CROSS: int := 14
  const BTN_SQUARE: int := 15

  type Mask = set<int>

  datatype InputState = InputState(
    buttons: Mask,
    prev: Mask,
    pressedFrame: Mask,
    releasedFrame: Mask,
    pressedAccum: Mask,
    releasedAccum: Mask,
    lock: Mask)

  const INITIAL: InputState := InputState({}, {}, {}, {}, {}, {}, {})

  /** Take a controller reading; `None` is a failed read, which leaves
      everything as it was. Released buttons leave the lock. */
  function Update(s: InputState, read: Option<Mask>): (s': InputState)
    ensures read.None? ==> s' == s
    ensures read.Some? ==>
      s'.buttons == read.value && s'.prev == read.value &&
      s'.pressedFrame == read.value - s.prev && s'.releasedFrame == s.prev - read.value
    ensures read.Some? ==> s'.pressedFrame * s'.releasedFrame == {}
    ensures read.Some? ==> s'.pressedFrame <= s'.buttons && s'.releasedFrame <= s.prev
    ensures s.pressedAccum <= s'.pressedAccum && s.releasedAccum <= s'.releasedAccum
    ensures read.Some? ==> s'.pressedAccum == s.pressedAccum + s'.pressedFrame
    ensures read.Some? ==> s'.releasedAccum == s.releasedAccum + s'.releasedFrame
    ensures s'.lock <= s.lock && (read.Some? ==> s'.lock == s.lock - s'.releasedFrame)
  {
    match read
    case None => s
    case Some(cur) =>
      var pressed := cur - s.prev;
      var released := s.prev - cur;
      InputState(cur, cur, pressed, released, s.pressedAccum + pressed, s.releasedAccum + released,
                 s.lock - released)
  }

  /** Pressed in the last reading, unless locked. A press seen by a
      reading is of a button that reading found held. */
  function Pressed(s: InputState, b: Mask): (r: bool)
    ensures r <==> exists x :: x in b && x in s.pressedFrame && x !in s.lock
    ensures r && s.pressedFrame <= s.buttons ==> Held(s, b)
  {
    var m := (s.pressedFrame * b) - s.lock;
    assert forall x :: x in m <==> x in b && x in s.pressedFrame && x !in s.lock;
    Occupied(m);
    m != {}
  }

  /** Held now, unless locked. */
  function Held(s: InputState, b: Mask): (r: bool)
    ensures r <==> exists x :: x in b && x in s.buttons && x !in s.lock
  {
    var m := (s.buttons * b) - s.lock;
    assert forall x :: x in m <==> x in b && x in s.buttons && x !in s.lock;
    Occupied(m);
    m != {}
  }

  /** Released in the last reading; the lock does not apply, so a locked
      button still reports its release. */
  function Released(s: InputState, b: Mask): (r: bool)
    ensures r <==> exists x :: x in b && x in s.releasedFrame
  {
    var m := s.releasedFrame * b;
    assert forall x :: x in m <==> x in b && x in s.releasedFrame;
    Occupied(m);
    m != {}
  }

  /** A mask is non-zero exactly when some bit is set. */
  lemma Occupied(m: Mask)
    ensures m != {} <==> exists x :: x in m
  {
    if forall x :: x !in m {
      assert m == {};
    }
  }

  /** Take an accumulated, unlocked press of any button of `b`; a taken
      press clears every accumulated press of `b`. */
  function ConsumePressed(s: InputState, b: Mask): (r: (bool, InputState))
    ensures r.0 <==> exists x :: x in b && x in s.pressedAccum && x !in s.lock
    ensures r.0 ==> r.1 == s.(pressedAccum := s.pressedAccum - b)
    ensures !r.0 ==> r.1 == s
  {
    var m := (s.pressedAccum - s.lock) * b;
    assert forall x :: x in m <==> x in b && x in s.pressedAccum && x !in s.lock;
    Occupied(m);
    if m != {} then
      (true, s.(pressedAccum := s.pressedAccum - b))
    else (false, s)
  }

  /** Take an accumulated release of any button of `b`. */
  function ConsumeReleased(s: InputState, b: Mask): (r: (bool, InputState))
    ensures r.0 <==> exists x :: x in b && x in s.releasedAccum
    ensures r.0 ==> r.1 == s.(releasedAccum := s.releasedAccum - b)
    ensures !r.0 ==> r.1 == s
  {
    var m := s.releasedAccum * b;
    assert forall x :: x in m <==> x in b && x in s.releasedAccum;
    Occupied(m);
    if m != {} then
      (true, s.(releasedAccum := s.releasedAccum - b))
    else (false, s)
  }

  /** Forget every edge; the current buttons become the previous ones. */
  function ResetEdges(s: InputState): (s': InputState)
    ensures s'.pressedFrame == {} && s'.releasedFrame == {} && s'.pressedAccum == {} && s'.releasedAccum == {}
    ensures s'.prev == s.buttons && s'.buttons == s.buttons && s'.lock == s.lock
  {
    s.(pressedAccum := {}, releasedAccum := {}, pressedFrame := {}, releasedFrame := {}, prev := s.buttons)
  }

  /** Lock every button held now. */
  function LockHeld(s: InputState): (s': InputState)
    ensures s'.lock == s.lock + s.buttons
    ensures s'.(lock := s.lock) == s
  {
    s.(lock := s.lock + s.buttons)
  }

  /** What a reading reports: a button of `b` counts as pressed when this
      reading holds it, the previous one did not, and it is not locked; as
      released when the previous reading held it and this one does not. */
  lemma ReadingEdges(s: InputState, cur: Mask, b: Mask)
    ensures var u := Update(s, Some(cur));
      Pressed(u, b) <==> exists x :: x in b && x in cur && x !in s.prev && x !in s.lock
    ensures var u := Update(s, Some(cur));
      Released(u, b) <==> exists x :: x in b && x in s.prev && x !in cur
    ensures var u := Update(s, Some(cur));
      Pressed(u, b) ==> Held(u, b)
  {
    var u := Update(s, Some(cur));
    if Pressed(u, b) {
      var x :| x in b && x in u.pressedFrame && x !in u.lock;
      assert x !in s.lock;
    }
  }

  /** Locked buttons are never reported pressed or held, while releases
      ignore the lock. */
  lemma LockHides(s: InputState, b: Mask)
    requires b <= s.lock
    ensures !Pressed(s, b) && !Held(s, b)
    ensures Released(s, b) <==> s.releasedFrame * b != {}
  {
    assert (s.pressedFrame * b) - s.lock == {};
    assert (s.buttons * b) - s.lock == {};
  }

  /** After a respawn (edges reset, held buttons locked), no button held
      at that moment counts as held or can be consumed as a press until it
      is released; its release unlocks it. */
  lemma {:induction false} RespawnLocksHeldButtons(s: InputState, x: int, read: Mask)
    requires x in s.buttons
    ensures var t := LockHeld(ResetEdges(s));
      !Held(t, {x}) && !ConsumePressed(t, {x}).0
    ensures var t := LockHeld(ResetEdges(s));
      x in read ==> x in Update(t, Some(read)).lock && !Held(Update(t, Some(read)), {x})
    ensures var t := LockHeld(ResetEdges(s));
      x !in read ==> x !in Update(t, Some(read)).lock
  {
    var t := LockHeld(ResetEdges(s));
    assert x in t.lock;
    assert (t.buttons * {x}) - t.lock == {};
    var u := Update(t, Some(read));
    if x in read {
      assert x !in u.releasedFrame;
      assert (u.buttons * {x}) - u.lock == {};
    } else {
      assert x in u.releasedFrame;
    }
  }

  /** A press is taken at most once: a second consume of the same buttons
      finds nothing until a new reading brings a new press. */
  lemma ConsumeOnce(s: InputState, b: Mask)
    ensures !ConsumePressed(ConsumePressed(s, b).1, b).0
    ensures !ConsumeReleased(ConsumeReleased(s, b).1, b).0
  {
  }
}

=== FILE: level.dfy ===
/** The loaded level: a row-major grid of tile bytes (low 6 bits are the tile
    id, bit 6 is the water flag), the moving-spike objects, and the respawn
    tile that survives level loads. */
module LevelMap {
  import opened Wrappers
  import opened CInt

  const TILE_SIZE: int := 12
  const TILE_ID_MASK: int := 0x3F
  const TILE_FLAG_WATER: int := 0x40
  const MAX_LEVEL_WIDTH: int := 255
  const MAX_LEVEL_HEIGHT: int := 255
  const MAX_MOVING_OBJECTS: int := 16
  const HEADER_SIZE: int := 8
  const MOVER_SIZE: int := 8
  const TILE_CHECKPOINT: int := 7
  const TILE_CHECKPOINT_ON: int := 8

  /** A moving spike: the tile rectangle it travels in (bottom-right
      exclusive), its per-axis direction and its pixel offset. */
  datatype MovingObject = MovingObject(
    topLeftX: int, topLeftY: int,
    botRightX: int, botRightY: int,
    dirX: int, dirY: int,
    offX: int, offY: int)

  datatype Level = Level(
    width: int, height: int,
    startPosX: int, startPosY: int,
    startTileX: int, startTileY: int,
    ballSize: int,
    exitPosX: int, exitPosY: int,
    totalRings: int,
    movers: seq<MovingObject>,
    grid: seq<seq<Byte>>,
    respawnX: int, respawnY: int)

  /** The grid holds `height` rows of `width` bytes and at most 16 movers. */
  ghost predicate Valid(l: Level) {
    0 <= l.width && 0 <= l.height &&
    |l.grid| == l.height &&
    (forall y :: 0 <= y < l.height ==> |l.grid[y]| == l.width) &&
    |l.movers| <= MAX_MOVING_OBJECTS
  }

  predicate InMap(l: Level, x: int, y: int) {
    0 <= x < l.width && 0 <= y < l.height
  }

  /** Everything but the grid cell (x, y) is as in `l`. */
  ghost predicate OnlyCellChanged(l: Level, l': Level, x: int, y: int)
    requires Valid(l) && Valid(l')
  {
    l'.(grid := l.grid) == l &&
    forall j, i :: 0 <= j < l.height && 0 <= i < l.width && (i, j) != (x, y) ==>
      l'.grid[j][i] == l.grid[j][i]
  }

  /** Raw cell value; off the map every cell reads as a wall (1). */
  function TileAt(l: Level, x: int, y: int): (t: int)
    requires Valid(l)
    ensures !InMap(l, x, y) ==> t == 1
    ensures InMap(l, x, y) ==> t == l.grid[y][x] && 0 <= t < 256
  {
    if InMap(l, x, y) then l.grid[y][x] else 1
  }

  /** Tile id without flags; off the map it reads as empty (0). */
  function GetId(l: Level, x: int, y: int): (id: int)
    requires Valid(l)
    ensures 0 <= id <= TILE_ID_MASK
    ensures !InMap(l, x, y) ==> id == 0
    ensures InMap(l, x, y) ==> id == l.grid[y][x] % 64
  {
    if InMap(l, x, y) then l.grid[y][x] % 64 else 0
  }

  /** True when the cell is on the map and carries the water flag. */
  function IsWater(l: Level, x: int, y: int): (w: bool)
    requires Valid(l)
    ensures w ==> InMap(l, x, y)
    ensures InMap(l, x, y) ==> (w <==> (l.grid[y][x] / 64) % 2 == 1)
  {
    InMap(l, x, y) && (l.grid[y][x] / TILE_FLAG_WATER) % 2 == 1
  }

  /** Replace the id bits of a cell value, keeping bits 6 and 7. */
  function WithId(cell: Byte, id: Byte): (c: Byte)
    ensures c % 64 == id % 64
    ensures c / 64 == cell / 64
  {
    cell / 64 * 64 + id % 64
  }

  /** Write a new id into a cell, keeping its flag bits. Off the map this
      does nothing. */
  function SetId(l: Level, x: int, y: int, id: Byte): (l': Level)
    requires Valid(l)
    ensures Valid(l')
    ensures OnlyCellChanged(l, l', x, y)
    ensures !InMap(l, x, y) ==> l' == l
    ensures InMap(l, x, y) ==>
      l'.grid[y][x] % 64 == id % 64 && l'.grid[y][x] / 64 == l.grid[y][x] / 64
  {
    if InMap(l, x, y) then
      var row: seq<Byte> := l.grid[y][x := WithId(l.grid[y][x], id)];
      l.(grid := l.grid[y := row])
    else
      l
  }

  /** Writing the id a cell already has changes nothing. */
  lemma SetIdSameIsIdentity(l: Level, x: int, y: int, id: Byte)
    requires Valid(l) && InMap(l, x, y) && l.grid[y][x] % 64 == id % 64
    ensures SetId(l, x, y, id) == l
  {
    var l' := SetId(l, x, y, id);
    assert l'.grid[y] == l.grid[y];
    assert l'.grid == l.grid;
  }

  /** Two writes to the same cell: the last one wins. */
  lemma SetIdTwice(l: Level, x: int, y: int, a: Byte, b: Byte)
    requires Valid(l)
    ensures SetId(SetId(l, x, y, a), x, y, b) == SetId(l, x, y, b)
  {
    if InMap(l, x, y) {
      var c := l.grid[y][x];
      var c1 := WithId(c, a);
      assert WithId(c1, b) == WithId(c, b) by {
        assert c1 / 64 == c / 64;
      }
      var l1 := SetId(SetId(l, x, y, a), x, y, b);
      var l2 := SetId(l, x, y, b);
      assert l1.grid[y] == l2.grid[y];
      assert l1.grid == l2.grid;
    }
  }

  /** Writes to two different cells commute. */
  lemma SetIdCommute(l: Level, x1: int, y1: int, a: Byte, x2: int, y2: int, b: Byte)
    requires Valid(l) && (x1, y1) != (x2, y2)
    ensures SetId(SetId(l, x1, y1, a), x2, y2, b) == SetId(SetId(l, x2, y2, b), x1, y1, a)
  {
    var p := SetId(SetId(l, x1, y1, a), x2, y2, b);
    var q := SetId(SetId(l, x2, y2, b), x1, y1, a);
    forall j | 0 <= j < l.height
      ensures p.grid[j] == q.grid[j]
    {
      forall i | 0 <= i < l.width
        ensures p.grid[j][i] == q.grid[j][i]
      {
        var c, d := p.grid[j][i], q.grid[j][i];
        assert c % 64 == d % 64 && c / 64 == d / 64;
      }
    }
    assert p.grid == q.grid;
  }

  /** Two writes to different cells: only those cells change, every flag
      bit survives, and each cell ends with its own new id. */
  lemma TwoWritesFrame(l: Level, x1: int, y1: int, a: Byte, x2: int, y2: int, b: Byte)
    requires Valid(l) && (x1, y1) != (x2, y2)
    ensures var l' := SetId(SetId(l, x1, y1, a), x2, y2, b);
      Valid(l') && l'.(grid := l.grid) == l &&
      (forall j, i :: InMap(l, i, j) && (i, j) != (x1, y1) && (i, j) != (x2, y2) ==>
         l'.grid[j][i] == l.grid[j][i]) &&
      (forall j, i :: InMap(l, i, j) ==> l'.grid[j][i] / 64 == l.grid[j][i] / 64) &&
      (InMap(l, x1, y1) ==> GetId(l', x1, y1) == a % 64) &&
      (InMap(l, x2, y2) ==> GetId(l', x2, y2) == b % 64)
  {
    var l1 := SetId(l, x1, y1, a);
    var l2 := SetId(l1, x2, y2, b);
    assert forall j, i :: InMap(l, i, j) ==> l1.grid[j][i] / 64 == l.grid[j][i] / 64;
    assert forall j, i :: InMap(l, i, j) ==> l2.grid[j][i] / 64 == l1.grid[j][i] / 64;
  }

  // ---------------------------------------------------------------- movers

  /** The mover's rectangle covers tile (tx, ty). */
  predicate Covers(o: MovingObject, tx: int, ty: int) {
    o.topLeftX <= tx < o.botRightX && o.topLeftY <= ty < o.botRightY
  }

  /** Index of the first mover from `k` on covering (tx, ty), or -1. */
  function FindFrom(ms: seq<MovingObject>, k: nat, tx: int, ty: int): (i: int)
    requires k <= |ms|
    ensures i == -1 || k <= i < |ms|
    ensures i >= 0 ==> Covers(ms[i], tx, ty) && forall j :: k <= j < i ==> !Covers(ms[j], tx, ty)
    ensures i == -1 <==> forall j :: k <= j < |ms| ==> !Covers(ms[j], tx, ty)
    decreases |ms| - k
  {
    if k == |ms| then -1
    else if Covers(ms[k], tx, ty) then k
    else FindFrom(ms, k + 1, tx, ty)
  }

  /** Index of the lowest mover covering (tx, ty), or -1 when none does. */
  function FindMovingObjectAt(l: Level, tx: int, ty: int): (i: int)
    ensures -1 <= i < |l.movers|
    ensures i >= 0 ==> Covers(l.movers[i], tx, ty) && forall j :: 0 <= j < i ==> !Covers(l.movers[j], tx, ty)
    ensures i == -1 <==> forall j :: 0 <= j < |l.movers| ==> !Covers(l.movers[j], tx, ty)
  {
    FindFrom(l.movers, 0, tx, ty)
  }

  /** The mover at `index`, or nothing for an index outside the list. */
  function GetMovingObject(l: Level, index: int): (r: Option<MovingObject>)
    ensures r.Some? <==> 0 <= index < |l.movers|
    ensures r.Some? ==> r.value == l.movers[index]
  {
    if 0 <= index < |l.movers| then Some(l.movers[index]) else None
  }

  /** One axis of the spike motion: advance by the direction, then stop at
      0 or at `max`, reversing the direction there. */
  function StepAxis(offset: int, dir: int, max: int): (r: (int, int))
    ensures r.1 == dir || r.1 == -dir
    ensures max >= 0 ==> 0 <= r.0 <= max
    ensures 0 < offset + dir < max ==> r == (offset + dir, dir)
    ensures r.1 == -dir <==> (offset + dir <= 0 || offset + dir >= max) || dir == 0
  {
    var o := offset + dir;
    if o <= 0 then (0, -dir)
    else if o >= max then (max, -dir)
    else (o, dir)
  }

  /** Travel range of a mover along one axis, in pixels. */
  function MaxOffset(tl: int, br: int): int {
    (br - tl - 2) * TILE_SIZE
  }

  function StepMover(o: MovingObject): (o': MovingObject)
    ensures o'.(dirX := o.dirX, dirY := o.dirY, offX := o.offX, offY := o.offY) == o
    ensures o.botRightX - o.topLeftX >= 2 ==> 0 <= o'.offX <= MaxOffset(o.topLeftX, o.botRightX)
    ensures o.botRightY - o.topLeftY >= 2 ==> 0 <= o'.offY <= MaxOffset(o.topLeftY, o.botRightY)
  {
    var (ox, dx) := StepAxis(o.offX, o.dirX, MaxOffset(o.topLeftX, o.botRightX));
    var (oy, dy) := StepAxis(o.offY, o.dirY, MaxOffset(o.topLeftY, o.botRightY));
    o.(offX := ox, dirX := dx, offY := oy, dirY := dy)
  }

  /** Advance every moving spike by one step. */
  function UpdateMovingObjects(l: Level): (l': Level)
    requires Valid(l)
    ensures Valid(l')
    ensures l'.(movers := l.movers) == l
    ensures |l'.movers| == |l.movers|
    ensures forall i :: 0 <= i < |l.movers| ==> l'.movers[i] == StepMover(l.movers[i])
  {
    l.(movers := seq(|l.movers|, i requires 0 <= i < |l.movers| => StepMover(l.movers[i])))
  }

  /** A mover whose rectangle is at least two tiles wide and high keeps
      both offsets inside its travel range. */
  lemma MoverStaysInRange(o: MovingObject)
    requires o.botRightX - o.topLeftX >= 2 && o.botRightY - o.topLeftY >= 2
    ensures 0 <= StepMover(o).offX <= MaxOffset(o.topLeftX, o.botRightX)
    ensures 0 <= StepMover(o).offY <= MaxOffset(o.topLeftY, o.botRightY)
  {
  }

  // ----------------------------------------------------- respawn, checkpoints

  function SetRespawn(l: Level, tx: int, ty: int): (l': Level)
    ensures l'.(respawnX := l.respawnX, respawnY := l.respawnY) == l
  {
    l.(respawnX := tx, respawnY := ty)
  }

  function GetRespawn(l: Level): (int, int) {
    (l.respawnX, l.respawnY)
  }

  /** Reading the respawn tile back gives what was stored. */
  lemma RespawnRoundTrip(l: Level, tx: int, ty: int)
    ensures GetRespawn(SetRespawn(l, tx, ty)) == (tx, ty)
    ensures SetRespawn(l, GetRespawn(l).0, GetRespawn(l).1) == l
  {
  }

  /** Turn the checkpoint gem at the current respawn tile into the active
      marker; any other content of that tile is left alone. */
  function DeactivateOldCheckpoint(l: Level): (l': Level)
    requires Valid(l)
    ensures Valid(l')
    ensures OnlyCellChanged(l, l', l.respawnX, l.respawnY)
    ensures l' != l ==> InMap(l, l.respawnX, l.respawnY) && GetId(l, l.respawnX, l.respawnY) == TILE_CHECKPOINT
    ensures InMap(l, l.respawnX, l.respawnY) && GetId(l, l.respawnX, l.respawnY) == TILE_CHECKPOINT ==>
      GetId(l', l.respawnX, l.respawnY) == TILE_CHECKPOINT_ON &&
      l'.grid[l.respawnY][l.respawnX] / 64 == l.grid[l.respawnY][l.respawnX] / 64
  {
    if InMap(l, l.respawnX, l.respawnY) && GetId(l, l.respawnX, l.respawnY) == TILE_CHECKPOINT then
      SetId(l, l.respawnX, l.respawnY, TILE_CHECKPOINT_ON)
    else
      l
  }

  /** Mark the tile as the active checkpoint (id 8), keeping its flags. */
  function MarkCheckpointActive(l: Level, tx: int, ty: int): (l': Level)
    requires Valid(l)
    ensures Valid(l')
    ensures OnlyCellChanged(l, l', tx, ty)
    ensures InMap(l, tx, ty) ==>
      GetId(l', tx, ty) == TILE_CHECKPOINT_ON && l'.grid[ty][tx] / 64 == l.grid[ty][tx] / 64
    ensures !InMap(l, tx, ty) ==> l' == l
  {
    SetId(l, tx, ty, TILE_CHECKPOINT_ON)
  }

  // ------------------------------------------------------------------ loading

  /** A level with every field zeroed, as after clearing the record. */
  function Cleared(respawnX: int, respawnY: int): Level {
    Level(0, 0, 0, 0, 0, 0, 0, 0, 0, 0, [], [], respawnX, respawnY)
  }

  /** Two's-complement reading of a byte. */
  function SignExtend(b: Byte): (v: int)
    ensures -128 <= v < 128
    ensures (v - b) % 256 == 0
  {
    if b >= 128 then b - 256 else b
  }

  /** `h` rows of `w` bytes taken row-major from `d` starting at `off`. */
  function GridFrom(d: seq<Byte>, off: nat, w: nat, h: nat): (g: seq<seq<Byte>>)
    requires off + w * h <= |d|
    ensures |g| == h
    ensures forall y :: 0 <= y < h ==> |g[y]| == w
    decreases h
  {
    if h == 0 then []
    else
      assert w * h == w + w * (h - 1);
      [d[off .. off + w]] + GridFrom(d, off + w, w, h - 1)
  }

  /** Row `y` of the grid is the `w` bytes starting at `off + y*w`. */
  lemma {:induction false} GridFromRow(d: seq<Byte>, off: nat, w: nat, h: nat, y: nat)
    requires off + w * h <= |d|
    requires y < h
    ensures off + y * w + w <= off + w * h
    ensures GridFrom(d, off, w, h)[y] == d[off + y * w .. off + y * w + w]
    decreases h
  {
    MulPred(w, h);
    if y == 0 {
      MulMonotone(1, h, w);
    } else {
      MulPred(w, y);
      assert off + w + w * (h - 1) <= |d|;
      GridFromRow(d, off + w, w, h - 1, y - 1);
      assert GridFrom(d, off, w, h)[y] == GridFrom(d, off + w, w, h - 1)[y - 1];
    }
  }

  lemma MulMonotone(a: int, b: int, c: nat)
    requires a <= b
    ensures a * c <= b * c
  {
  }

  /** `w * h == w + w * (h - 1)` and the commuted forms. */
  lemma MulPred(w: int, h: int)
    ensures w * h == w + w * (h - 1)
    ensures h * w == w * h && (h - 1) * w == w * (h - 1)
  {
  }

  /** `n` movers of eight bytes each, starting at `off`. */
  function MoversFrom(d: seq<Byte>, off: nat, n: nat): (ms: seq<MovingObject>)
    requires off + MOVER_SIZE * n <= |d|
    ensures |ms| == n
    ensures forall i :: 0 <= i < n ==> ms[i] == MoverAt(d, off + MOVER_SIZE * i)
    decreases n
  {
    if n == 0 then [] else [MoverAt(d, off)] + MoversFrom(d, off + MOVER_SIZE, n - 1)
  }

  /** One mover record: top-left x, y, bottom-right x, y, signed direction
      x, y, starting offset x, y. */
  function MoverAt(d: seq<Byte>, p: nat): MovingObject
    requires p + MOVER_SIZE <= |d|
  {
    MovingObject(d[p], d[p + 1], d[p + 2], d[p + 3],
                 SignExtend(d[p + 4]), SignExtend(d[p + 5]), d[p + 6], d[p + 7])
  }

  /** Half the ball's size for the ball-size header byte. */
  function StartHalf(ballSize: int): int {
    if ballSize == 0 then 6 else 8
  }

  /** The optional trailing mover block: a count byte, then that many
      records if the count is 1..16 and they all fit. */
  function MoversSection(d: seq<Byte>, off: nat): (ms: seq<MovingObject>)
    requires off <= |d|
    ensures |ms| <= MAX_MOVING_OBJECTS
    ensures ms != [] <==>
      off < |d| && 1 <= d[off] <= MAX_MOVING_OBJECTS && |d| - (off + 1) >= MOVER_SIZE * d[off]
    ensures ms != [] ==> ms == MoversFrom(d, off + 1, d[off])
  {
    if |d| - off >= 1 then
      var n := d[off];
      if 0 < n <= MAX_MOVING_OBJECTS && |d| - (off + 1) >= MOVER_SIZE * n then
        MoversFrom(d, off + 1, n)
      else []
    else []
  }

  datatype LoadResult = LoadResult(ok: bool, level: Level)

  /** The record after clearing it and reading the header fields that are
      stored before the size checks. */
  function HeaderOnly(d: seq<Byte>, prev: Level): (l: Level)
    requires |d| >= HEADER_SIZE
    ensures Valid(l)
    ensures l.ballSize == d[2] && l.exitPosX == d[3] && l.exitPosY == d[4]
    ensures l.totalRings == d[5] && l.width == d[6] && l.height == d[7]
    ensures l.movers == [] && l.startPosX == 0 && l.startPosY == 0
    ensures l.startTileX == 0 && l.startTileY == 0
    ensures (l.respawnX, l.respawnY) == (prev.respawnX, prev.respawnY)
    ensures forall y :: 0 <= y < l.height ==> l.grid[y] == seq(l.width, _ => 0)
  {
    var w: int := d[6];
    var h: int := d[7];
    var zeroRow: seq<Byte> := seq(w, _ => 0);
    Cleared(prev.respawnX, prev.respawnY).(
      ballSize := d[2], exitPosX := d[3], exitPosY := d[4], totalRings := d[5],
      width := w, height := h, grid := seq(h, _ => zeroRow))
  }

  /** The level once the map fits: start position, grid and movers. */
  function Parsed(d: seq<Byte>, prev: Level): (l: Level)
    requires |d| >= HEADER_SIZE && HEADER_SIZE + (d[6] as int) * d[7] <= |d|
    ensures Valid(l)
    ensures l.(startPosX := 0, startPosY := 0, startTileX := 0, startTileY := 0,
               grid := HeaderOnly(d, prev).grid, movers := []) == HeaderOnly(d, prev)
    ensures l.startTileX == d[0] && l.startTileY == d[1]
    ensures l.startPosX == d[0] * TILE_SIZE + StartHalf(d[2])
    ensures l.startPosY == d[1] * TILE_SIZE + StartHalf(d[2])
    ensures l.movers == MoversSection(d, HEADER_SIZE + (d[6] as int) * d[7])
    ensures l.grid == GridFrom(d, HEADER_SIZE, d[6], d[7])
  {
    PopulateKeepsHeader(HeaderOnly(d, prev), d);
    Populate(HeaderOnly(d, prev), d)
  }

  /** Filling in the level leaves the other header fields alone. */
  lemma PopulateKeepsHeader(base: Level, d: seq<Byte>)
    requires |d| >= HEADER_SIZE && base.width == d[6] && base.height == d[7]
    requires HEADER_SIZE + (d[6] as int) * d[7] <= |d|
    requires base.movers == [] && base.startPosX == 0 && base.startPosY == 0
    requires base.startTileX == 0 && base.startTileY == 0
    ensures Populate(base, d).(startPosX := 0, startPosY := 0, startTileX := 0, startTileY := 0,
                               grid := base.grid, movers := []) == base
  {
  }

  /** The header record with the start position, grid and movers filled
      in from the stream. */
  function Populate(base: Level, d: seq<Byte>): (l: Level)
    requires |d| >= HEADER_SIZE && base.width == d[6] && base.height == d[7]
    requires HEADER_SIZE + (d[6] as int) * d[7] <= |d|
    requires base.movers == [] && base.startPosX == 0 && base.startPosY == 0
    requires base.startTileX == 0 && base.startTileY == 0
    ensures Valid(l)
    ensures l.startTileX == d[0] && l.startTileY == d[1]
    ensures l.startPosX == d[0] * TILE_SIZE + StartHalf(d[2])
    ensures l.startPosY == d[1] * TILE_SIZE + StartHalf(d[2])
    ensures l.movers == MoversSection(d, HEADER_SIZE + (d[6] as int) * d[7])
    ensures l.grid == GridFrom(d, HEADER_SIZE, d[6], d[7])
  {
    var w: int := d[6];
    var h: int := d[7];
    var half := StartHalf(d[2]);
    base.(startPosX := d[0] * TILE_SIZE + half, startPosY := d[1] * TILE_SIZE + half,
          startTileX := d[0], startTileY := d[1],
          grid := GridFrom(d, HEADER_SIZE, w, h),
          movers := MoversSection(d, HEADER_SIZE + w * h))
  }

  /** Parse a level byte stream; `None` stands for a NULL buffer. Failing
      checks before the record is cleared leave `prev` untouched; the size
      checks after it leave it cleared apart from the header fields already
      read. The respawn tile always survives. */
  function LoadFromMemory(data: Option<seq<Byte>>, prev: Level): (r: LoadResult)
    requires Valid(prev)
    ensures Valid(r.level)
    ensures (r.level.respawnX, r.level.respawnY) == (prev.respawnX, prev.respawnY)
    ensures data.None? || |data.value| < HEADER_SIZE ==> !r.ok && r.level == prev
    ensures data.Some? && |data.value| >= HEADER_SIZE ==>
      (r.ok <==> 1 <= data.value[6] && 1 <= data.value[7] &&
                 HEADER_SIZE + (data.value[6] as int) * data.value[7] <= |data.value|)
    ensures data.Some? && |data.value| >= HEADER_SIZE && !r.ok ==>
      r.level == HeaderOnly(data.value, prev)
    ensures r.ok ==> r.level == Parsed(data.value, prev)
  {
    if data.None? || |data.value| < HEADER_SIZE then LoadResult(false, prev)
    else
      var d := data.value;
      var w: int := d[6];
      var h: int := d[7];
      if w <= 0 || h <= 0 || w > MAX_LEVEL_WIDTH || h > MAX_LEVEL_HEIGHT then
        LoadResult(false, HeaderOnly(d, prev))
      else if HEADER_SIZE + w * h > |d| then
        LoadResult(false, HeaderOnly(d, prev))
      else
        LoadResult(true, Parsed(d, prev))
  }

  /** Cell (x, y) of a loaded level is byte 8 + y*width + x of the stream. */
  lemma LoadedCell(data: Option<seq<Byte>>, prev: Level, x: int, y: int)
    requires Valid(prev)
    requires LoadFromMemory(data, prev).ok
    requires InMap(LoadFromMemory(data, prev).level, x, y)
    ensures var l := LoadFromMemory(data, prev).level;
      HEADER_SIZE + y * l.width + x < |data.value| &&
      l.grid[y][x] == data.value[HEADER_SIZE + y * l.width + x]
  {
    var d := data.value;
    assert LoadFromMemory(data, prev).level == Parsed(d, prev);
    GridFromRow(d, HEADER_SIZE, d[6], d[7], y);
  }
}

=== FILE: local.dfy ===
/** Localised strings: the string table read from a language file (a
    big-endian offset per entry, each pointing at a big-endian length and
    that many bytes), lookup by id, and placeholder substitution. Strings
    are C strings, modelled as their bytes before the terminator. */
module Local {
  import opened Wrappers
  import opened CInt
  import Text

  /** Ids the cache holds. */
  const MAX_STRING_ID: int := 32
  /** Size of every string buffer, terminator included. */
  const MAX_STRING_LENGTH: int := 1024
  /** Entries the counting pass inspects at most. */
  const MAX_PROBED: int := 100
  /** Placeholders numbered from 0 up to this bound are substituted. */
  const MAX_PARAMS: int := 99

  type Str = seq<Byte>

  const BAD_ID: Str := [66, 97, 100, 73, 68]                  // "BadID"
  const TOO_LONG: Str := [84, 111, 111, 76, 111, 110, 103]     // "TooLong"
  const ERR: Str := [69, 114, 114]                            // "Err"
  const NO_LANG: Str := [78, 111, 76, 97, 110, 103]           // "NoLang"
  const PERCENT: Byte := 37
  const LETTER_U: Byte := 85

  predicate NoNul(s: Str) {
    forall k :: 0 <= k < |s| ==> s[k] != 0
  }

  /** The C string held in a buffer: its bytes before the first NUL. */
  function UpToNul(s: Str): (r: Str)
    ensures r <= s && NoNul(r)
    ensures |r| < |s| ==> s[|r|] == 0
  {
    if |s| == 0 || s[0] == 0 then [] else [s[0]] + UpToNul(s[1..])
  }

  /** `n` bytes from `s`, as `memcpy` of a clamped length copies them. */
  function Truncate(s: Str, n: int): (r: Str)
    ensures r <= s && |r| == Min(|s|, Max(n, 0))
  {
    if |s| <= n then s else if n <= 0 then [] else s[..n]
  }

  // ---- The string table ----

  /** Big-endian 16-bit value at byte `k`. */
  function BE16(buf: Str, k: int): (v: int)
    requires 0 <= k && k + 2 <= |buf|
    ensures 0 <= v < 0x10000
  {
    (buf[k] as int) * 256 + buf[k + 1] as int
  }

  /** Entry `i` lies inside the file: its offset slot, its length field and
      its bytes. */
  predicate EntryOk(buf: Str, i: nat) {
    2 * i + 2 <= |buf| &&
    BE16(buf, 2 * i) + 2 <= |buf| &&
    BE16(buf, 2 * i) + 2 + BE16(buf, BE16(buf, 2 * i)) <= |buf|
  }

  /** The number of strings in the file: the length of the run of entries,
      from the first, that lie inside it, looking at no more than 100. */
  method CountStrings(buf: Str) returns (count: nat)
    ensures count <= MAX_PROBED
    ensures forall i :: 0 <= i < count ==> EntryOk(buf, i)
    ensures count < MAX_PROBED ==> !EntryOk(buf, count)
  {
    count := 0;
    var id := 0;
    while id < MAX_PROBED
      invariant 0 <= id <= MAX_PROBED && count == id
      invariant forall i :: 0 <= i < id ==> EntryOk(buf, i)
    {
      var offset := id * 2;
      if offset + 2 > |buf| {
        break;
      }
      var stringOffset := BE16(buf, offset);
      if stringOffset + 2 > |buf| {
        break;
      }
      var length := BE16(buf, stringOffset);
      if stringOffset + 2 + length > |buf| {
        break;
      }
      count := id + 1;
      id := id + 1;
    }
  }

  /** The cache entry for string `i`: empty for length 0, "TooLong" for a
      string that would not fit its buffer, "Err" for an entry outside the
      file, and otherwise the stored bytes up to any NUL among them. */
  function Entry(buf: Str, i: nat): (s: Str)
    ensures !EntryOk(buf, i) ==> s == ERR
    ensures EntryOk(buf, i) ==>
      var len := BE16(buf, BE16(buf, 2 * i));
      var start := BE16(buf, 2 * i) + 2;
      (len == 0 ==> s == []) &&
      (len >= MAX_STRING_LENGTH - 1 ==> s == TOO_LONG) &&
      (0 < len < MAX_STRING_LENGTH - 1 ==> s == UpToNul(buf[start..start + len]))
    ensures |s| < MAX_STRING_LENGTH
  {
    if 2 * i + 2 > |buf| then ERR
    else
      var offset := BE16(buf, 2 * i);
      if offset + 2 > |buf| then ERR
      else
        var length := BE16(buf, offset);
        if offset + 2 + length > |buf| then ERR
        else if 0 < length < MAX_STRING_LENGTH - 1 then UpToNul(buf[offset + 2..offset + 2 + length])
        else if length == 0 then []
        else TOO_LONG
  }

  /** Fill the cache from a language file. A missing file fills every slot
      with "NoLang"; otherwise slot `i` holds entry `i` exactly when entries
      0..i all lie inside the file, and stays empty otherwise. */
  method LoadCache(file: Option<Str>) returns (cache: seq<Str>)
    ensures |cache| == MAX_STRING_ID
    ensures file.None? ==> forall i :: 0 <= i < MAX_STRING_ID ==> cache[i] == NO_LANG
    ensures file.Some? ==> forall i :: 0 <= i < MAX_STRING_ID ==>
      cache[i] == (if forall j :: 0 <= j <= i ==> EntryOk(file.value, j) then Entry(file.value, i) else [])
    ensures forall i :: 0 <= i < MAX_STRING_ID ==> |cache[i]| < MAX_STRING_LENGTH
  {
    if file.None? {
      return seq(MAX_STRING_ID, _ => NO_LANG);
    }
    var buf := file.value;
    var count := CountStrings(buf);
    cache := seq(MAX_STRING_ID, _ => []);
    var id := 0;
    while id < MAX_STRING_ID && id < count
      invariant 0 <= id <= MAX_STRING_ID && id <= count && |cache| == MAX_STRING_ID
      invariant forall i :: 0 <= i < id ==> cache[i] == Entry(buf, i) && EntryOk(buf, i)
      invariant forall i :: id <= i < MAX_STRING_ID ==> cache[i] == []
    {
      cache := cache[id := Entry(buf, id)];
      id := id + 1;
    }
    forall i | 0 <= i < MAX_STRING_ID
      ensures cache[i] == (if forall j :: 0 <= j <= i ==> EntryOk(buf, j) then Entry(buf, i) else [])
    {
      if i >= id {
        assert !EntryOk(buf, count);
      }
    }
  }

  /** The string for an id; ids outside the cache give "BadID". */
  function GetText(cache: seq<Str>, id: int): (s: Str)
    requires |cache| == MAX_STRING_ID
    ensures 0 <= id < MAX_STRING_ID ==> s == cache[id]
    ensures !(0 <= id < MAX_STRING_ID) ==> s == BAD_ID
  {
    if id < 0 || id >= MAX_STRING_ID then BAD_ID else cache[id]
  }

  // ---- Substitution ----

  predicate OccursAt(src: Str, search: Str, i: int) {
    0 <= i && i + |search| <= |src| && src[i..i + |search|] == search
  }

  /** An occurrence past the first byte is an occurrence in the rest. */
  lemma OccursShift(src: Str, search: Str, j: int)
    requires |src| > 0 && j > 0
    ensures OccursAt(src, search, j) <==> OccursAt(src[1..], search, j - 1)
  {
    if j + |search| <= |src| {
      assert src[1..][j - 1..j - 1 + |search|] == src[j..j + |search|];
    }
  }

  /** `strstr`: the first position where `search` occurs. */
  function Find(src: Str, search: Str): (r: Option<nat>)
    ensures r.Some? ==> OccursAt(src, search, r.value)
    ensures r.Some? ==> forall j :: 0 <= j < r.value ==> !OccursAt(src, search, j)
    ensures r.None? ==> forall j :: !OccursAt(src, search, j)
    decreases |src|
  {
    if |search| > |src| then None
    else if src[..|search|] == search then Some(0)
    else
      match Find(src[1..], search)
      case None =>
        assert forall j :: j > 0 ==> !OccursAt(src, search, j) by {
          forall j | j > 0 ensures !OccursAt(src, search, j) { OccursShift(src, search, j); }
        }
        None
      case Some(k) =>
        assert forall j :: 0 < j <= k + 1 ==> (OccursAt(src, search, j) <==> OccursAt(src[1..], search, j - 1)) by {
          forall j | 0 < j <= k + 1
            ensures OccursAt(src, search, j) <==> OccursAt(src[1..], search, j - 1)
          {
            OccursShift(src, search, j);
          }
        }
        Some(k + 1)
  }

  /** Replace the first occurrence of `search` in `src`, into a buffer of
      `destSize` bytes. Without an occurrence, or when the result would not
      fit, the source is copied as far as it fits. */
  function Replace(destSize: int, src: Str, search: Str, replace: Str): (r: Str)
    requires destSize >= 1
    ensures |r| < destSize
    ensures Find(src, search).None? ==> r == Truncate(src, destSize - 1)
    ensures Find(src, search).Some? ==>
      var i := Find(src, search).value;
      if i + |replace| + (|src| - i - |search|) >= destSize then r == Truncate(src, destSize - 1)
      else
        |r| == |src| - |search| + |replace| &&
        r[..i] == src[..i] && r[i..i + |replace|] == replace && r[i + |replace|..] == src[i + |search|..]
  {
    match Find(src, search)
    case None => Truncate(src, destSize - 1)
    case Some(pos) =>
      var suffix := src[pos + |search|..];
      if pos + |replace| + |suffix| >= destSize then Truncate(src, destSize - 1)
      else
        var r := src[..pos] + replace + suffix;
        assert r[..pos] == src[..pos];
        assert r[pos..pos + |replace|] == replace;
        assert r[pos + |replace|..] == suffix;
        r
  }

  /** Only the first occurrence is replaced: a later, separate occurrence
      survives, shifted by the change in length. */
  lemma {:induction false} ReplaceOnlyFirst(destSize: int, src: Str, search: Str, replace: Str, j: int)
    requires destSize >= 1
    requires Find(src, search).Some? && OccursAt(src, search, j)
    requires Find(src, search).value + |search| <= j
    requires |src| - |search| + |replace| < destSize
    ensures OccursAt(Replace(destSize, src, search, replace), search, j - |search| + |replace|)
  {
    var i := Find(src, search).value;
    var r := Replace(destSize, src, search, replace);
    assert r[i + |replace|..] == src[i + |search|..];
    SameTailWindow(r, src, i + |replace|, i + |search|, j - i - |search|, |search|);
  }

  /** Sequences whose tails from `a` and from `b` agree also agree on every
      window of those tails. */
  lemma SameTailWindow<T>(r: seq<T>, s: seq<T>, a: int, b: int, lo: int, len: int)
    requires 0 <= a <= |r| && 0 <= b <= |s| && r[a..] == s[b..]
    requires 0 <= lo && 0 <= len && lo + len <= |s| - b
    ensures r[a + lo..a + lo + len] == s[b + lo..b + lo + len]
  {
    assert r[a..][lo..lo + len] == r[a + lo..a + lo + len];
    assert s[b..][lo..lo + len] == s[b + lo..b + lo + len];
  }

  /** "%iU": the placeholder for parameter `i`. */
  function Placeholder(i: nat): (p: Str)
    ensures |p| >= 3 && p[0] == PERCENT && p[|p| - 1] == LETTER_U
    ensures forall k :: 0 < k < |p| - 1 ==> IsDigit(p[k])
  {
    var ds := DigitChars(Text.Digits(i));
    var p := [PERCENT] + ds + [LETTER_U];
    assert forall k :: 0 < k < |p| - 1 ==> p[k] == ds[k - 1];
    p
  }

  predicate IsDigit(b: Byte) {
    48 <= b <= 57
  }

  function DigitChars(ds: seq<nat>): (cs: Str)
    requires forall k :: 0 <= k < |ds| ==> ds[k] < 10
    ensures |cs| == |ds|
    ensures forall k :: 0 <= k < |ds| ==> cs[k] == 48 + ds[k]
  {
    if |ds| == 0 then [] else [48 + ds[0] as int] + DigitChars(ds[1..])
  }

  /** Different parameters have different placeholders, so one parameter's
      substitution never consumes another's slot by accident of naming. */
  lemma {:induction false} PlaceholdersDistinct(i: nat, j: nat)
    requires i != j
    ensures Placeholder(i) != Placeholder(j)
  {
    var pi := Placeholder(i);
    var pj := Placeholder(j);
    if pi == pj {
      var di := Text.Digits(i);
      var dj := Text.Digits(j);
      assert |di| == |dj|;
      forall k | 0 <= k < |di|
        ensures di[k] == dj[k]
      {
        assert pi[k + 1] == 48 + di[k];
        assert pj[k + 1] == 48 + dj[k];
      }
      assert di == dj;
      Text.DigitsValue(i);
      Text.DigitsValue(j);
    }
  }

  /** Substitute parameters 0..n-1 into `s`, one placeholder after another. */
  function SubstituteFrom(s: Str, params: seq<Str>, n: nat, i: nat): (r: Str)
    requires n <= |params| && |s| < MAX_STRING_LENGTH
    ensures |r| < MAX_STRING_LENGTH
    decreases n - i
  {
    if i >= n then s
    else SubstituteFrom(Replace(MAX_STRING_LENGTH, s, Placeholder(i), params[i]), params, n, i + 1)
  }

  /** A string with parameters: none (or no array) gives the base string;
      a single parameter replaces "%U"; several replace "%0U", "%1U", ...
      for the first 99 at most. The base string is first cut to fit the
      result buffer. */
  function GetTextWithParams(cache: seq<Str>, id: int, params: Option<seq<Str>>, count: int): (r: Str)
    requires |cache| == MAX_STRING_ID
    requires params.Some? && count > 0 ==> Min(count, MAX_PARAMS) <= |params.value|
    ensures count <= 0 || params.None? ==> r == GetText(cache, id)
    ensures count == 1 && params.Some? ==>
      r == Replace(MAX_STRING_LENGTH, Truncate(GetText(cache, id), MAX_STRING_LENGTH - 1),
                   [PERCENT, LETTER_U], params.value[0])
    ensures count > 0 && params.Some? ==> |r| < MAX_STRING_LENGTH
    ensures count > 1 && params.Some? ==>
      var n := Min(count, MAX_PARAMS);
      forall parts ::
        (Template(parts, params.value, n) && Fits(parts, params.value, n) &&
         Fill(parts, params.value, 0) == GetText(cache, id)) ==> r == Fill(parts, params.value, n)
  {
    var base := GetText(cache, id);
    if count <= 0 || params.None? then base
    else
      var start := Truncate(base, MAX_STRING_LENGTH - 1);
      if count == 1 then Replace(MAX_STRING_LENGTH, start, [PERCENT, LETTER_U], params.value[0])
      else
        var n := Min(count, MAX_PARAMS);
        assert forall parts ::
          (Template(parts, params.value, n) && Fits(parts, params.value, n) && Fill(parts, params.value, 0) == base) ==>
            SubstituteFrom(start, params.value, n, 0) == Fill(parts, params.value, n) by {
          forall parts | Template(parts, params.value, n) && Fits(parts, params.value, n) && Fill(parts, params.value, 0) == base
            ensures SubstituteFrom(start, params.value, n, 0) == Fill(parts, params.value, n)
          {
            SubstituteTemplate(parts, params.value, n, 0);
          }
        }
        SubstituteFrom(start, params.value, n, 0)
  }

  /** Substitution with several parameters runs the placeholder loop:
      parameter `i` goes into the result of substituting parameters before
      it. */
  method SubstituteParams(base: Str, params: seq<Str>, count: int) returns (r: Str)
    requires count > 1 && Min(count, MAX_PARAMS) <= |params|
    ensures r == SubstituteFrom(Truncate(base, MAX_STRING_LENGTH - 1), params, Min(count, MAX_PARAMS), 0)
    ensures |r| < MAX_STRING_LENGTH
    ensures var n := Min(count, MAX_PARAMS);
      forall parts ::
        (Template(parts, params, n) && Fits(parts, params, n) && Fill(parts, params, 0) == base) ==>
          r == Fill(parts, params, n)
  {
    r := Truncate(base, MAX_STRING_LENGTH - 1);
    var n := Min(count, MAX_PARAMS);
    var i := 0;
    while i < count && i < MAX_PARAMS
      invariant 0 <= i <= n && |r| < MAX_STRING_LENGTH
      invariant SubstituteFrom(r, params, n, i) == SubstituteFrom(Truncate(base, MAX_STRING_LENGTH - 1), params, n, 0)
    {
      var next := Replace(MAX_STRING_LENGTH, r, Placeholder(i), params[i]);
      SubstituteStep(r, params, n, i, next);
      r, i := next, i + 1;
    }
    forall parts | Template(parts, params, n) && Fits(parts, params, n) && Fill(parts, params, 0) == base
      ensures r == Fill(parts, params, n)
    {
      SubstituteTemplate(parts, params, n, 0);
    }
  }

  lemma SubstituteStep(s: Str, params: seq<Str>, n: nat, i: nat, next: Str)
    requires i < n <= |params| && |s| < MAX_STRING_LENGTH
    requires next == Replace(MAX_STRING_LENGTH, s, Placeholder(i), params[i])
    ensures |next| < MAX_STRING_LENGTH
    ensures SubstituteFrom(next, params, n, i + 1) == SubstituteFrom(s, params, n, i)
  {
  }

  // ---- Placeholder templates ----

  /** A string read as literal text and numbered parameter slots. */
  datatype Part = Lit(text: Str) | Slot(index: nat)

  /** The template with the slots below `m` filled from `params` and every
      other slot still written as its placeholder; `Fill(parts, params, 0)`
      is the template string itself. */
  function Fill(parts: seq<Part>, params: seq<Str>, m: nat): Str
    requires m <= |params|
    decreases |parts|
  {
    if |parts| == 0 then [] else FillPart(parts[0], params, m) + Fill(parts[1..], params, m)
  }

  function FillPart(q: Part, params: seq<Str>, m: nat): Str
    requires m <= |params|
  {
    match q
    case Lit(t) => t
    case Slot(k) => if k < m then params[k] else Placeholder(k)
  }

  predicate NoPercent(s: Str) {
    forall k :: 0 <= k < |s| ==> s[k] != PERCENT
  }

  /** The shape substitution is meant for: literal text and the first `n`
      parameters hold no '%', and no slot number appears twice. */
  predicate Template(parts: seq<Part>, params: seq<Str>, n: nat) {
    n <= |params| &&
    (forall a :: 0 <= a < |parts| && parts[a].Lit? ==> NoPercent(parts[a].text)) &&
    (forall k :: 0 <= k < n ==> NoPercent(params[k])) &&
    (forall a, b :: 0 <= a < b < |parts| && parts[a].Slot? && parts[b].Slot? ==> parts[a].index != parts[b].index)
  }

  /** No step of the substitution runs out of buffer. */
  predicate Fits(parts: seq<Part>, params: seq<Str>, n: nat)
    requires n <= |params|
  {
    forall m :: 0 <= m <= n ==> |Fill(parts, params, m)| < MAX_STRING_LENGTH
  }

  /** Substituting the first `n` parameters into a template fills exactly
      the slots numbered below `n`, each with its parameter, wherever it
      stands, and leaves the placeholders numbered `n` and above in place. */
  lemma {:induction false} SubstituteTemplate(parts: seq<Part>, params: seq<Str>, n: nat, i: nat)
    requires Template(parts, params, n) && Fits(parts, params, n) && i <= n
    ensures SubstituteFrom(Fill(parts, params, i), params, n, i) == Fill(parts, params, n)
    decreases n - i
  {
    if i < n {
      StepFills(parts, params, i);
      SubstituteTemplate(parts, params, n, i + 1);
    }
  }

  /** One substitution step fills slot `i` of the template. */
  lemma StepFills(parts: seq<Part>, params: seq<Str>, i: nat)
    requires i < |params|
    requires forall a :: 0 <= a < |parts| && parts[a].Lit? ==> NoPercent(parts[a].text)
    requires forall k :: 0 <= k < i ==> NoPercent(params[k])
    requires forall a, b :: 0 <= a < b < |parts| && parts[a].Slot? && parts[b].Slot? ==> parts[a].index != parts[b].index
    requires |Fill(parts, params, i)| < MAX_STRING_LENGTH && |Fill(parts, params, i + 1)| < MAX_STRING_LENGTH
    ensures Replace(MAX_STRING_LENGTH, Fill(parts, params, i), Placeholder(i), params[i]) == Fill(parts, params, i + 1)
  {
    if Slot(i) !in parts {
      StepSkipsAbsentSlot(parts, params, i);
    } else {
      var p :| 0 <= p < |parts| && parts[p] == Slot(i);
      var pre, post := parts[..p], parts[p + 1..];
      assert parts == pre + [Slot(i)] + post;
      assert Slot(i) !in pre && Slot(i) !in post by {
        forall a | 0 <= a < |pre| ensures pre[a] != Slot(i) { assert pre[a] == parts[a]; }
        forall a | 0 <= a < |post| ensures post[a] != Slot(i) { assert post[a] == parts[p + 1 + a]; }
      }
      assert forall a :: 0 <= a < |pre| && pre[a].Lit? ==> NoPercent(pre[a].text) by {
        forall a | 0 <= a < |pre| && pre[a].Lit? ensures NoPercent(pre[a].text) { assert pre[a] == parts[a]; }
      }
      StepFillsSlot(pre, post, params, i);
    }
  }

  /** Without slot `i` there is no placeholder `i` to replace. */
  lemma StepSkipsAbsentSlot(parts: seq<Part>, params: seq<Str>, i: nat)
    requires i < |params| && Slot(i) !in parts
    requires forall a :: 0 <= a < |parts| && parts[a].Lit? ==> NoPercent(parts[a].text)
    requires forall k :: 0 <= k < i ==> NoPercent(params[k])
    requires |Fill(parts, params, i)| < MAX_STRING_LENGTH
    ensures Replace(MAX_STRING_LENGTH, Fill(parts, params, i), Placeholder(i), params[i]) == Fill(parts, params, i + 1)
  {
    var s := Fill(parts, params, i);
    var ph := Placeholder(i);
    NoEarlyOccurrence(parts, params, i, i, []);
    assert s + [] == s;
    FillSkips(parts, params, i);
  }

  /** With slot `i` standing between `pre` and `post`, the step replaces
      exactly that slot. */
  lemma StepFillsSlot(pre: seq<Part>, post: seq<Part>, params: seq<Str>, i: nat)
    requires i < |params| && Slot(i) !in pre && Slot(i) !in post
    requires forall a :: 0 <= a < |pre| && pre[a].Lit? ==> NoPercent(pre[a].text)
    requires forall k :: 0 <= k < i ==> NoPercent(params[k])
    requires |Fill(pre + [Slot(i)] + post, params, i + 1)| < MAX_STRING_LENGTH
    ensures Replace(MAX_STRING_LENGTH, Fill(pre + [Slot(i)] + post, params, i), Placeholder(i), params[i]) ==
      Fill(pre + [Slot(i)] + post, params, i + 1)
  {
    var ph := Placeholder(i);
    FillSplit(pre, i, post, params, i);
    FillSplit(pre, i, post, params, i + 1);
    FillSkips(pre, params, i);
    FillSkips(post, params, i);
    var a, b := Fill(pre, params, i), Fill(post, params, i);
    NoEarlyOccurrence(pre, params, i, i, ph + b);
    ReplaceFirst(a, ph, b, params[i]);
  }

  /** Replacing in `a + search + b`, where `search` starts nowhere inside
      `a`, swaps exactly that occurrence when the result fits. */
  lemma ReplaceFirst(a: Str, search: Str, b: Str, replace: Str)
    requires forall j :: 0 <= j < |a| ==> !OccursAt(a + (search + b), search, j)
    requires |a| + |replace| + |b| < MAX_STRING_LENGTH
    ensures Replace(MAX_STRING_LENGTH, a + search + b, search, replace) == a + replace + b
  {
    var s := a + search + b;
    assert s == a + (search + b);
    assert OccursAt(s, search, |a|) by { assert s[|a|..|a| + |search|] == search; }
    assert Find(s, search) == Some(|a|);
    assert s[|a| + |search|..] == b;
  }

  /** Filling distributes over a template split around one slot. */
  lemma FillSplit(pre: seq<Part>, k: nat, post: seq<Part>, params: seq<Str>, m: nat)
    requires m <= |params|
    ensures Fill(pre + [Slot(k)] + post, params, m) ==
      Fill(pre, params, m) + FillPart(Slot(k), params, m) + Fill(post, params, m)
  {
    FillAppend(pre, [Slot(k)] + post, params, m);
    assert pre + [Slot(k)] + post == pre + ([Slot(k)] + post);
    assert ([Slot(k)] + post)[1..] == post;
  }

  lemma {:induction false} FillAppend(a: seq<Part>, b: seq<Part>, params: seq<Str>, m: nat)
    requires m <= |params|
    ensures Fill(a + b, params, m) == Fill(a, params, m) + Fill(b, params, m)
    decreases |a|
  {
    if |a| == 0 {
      assert a + b == b;
    } else {
      assert (a + b)[1..] == a[1..] + b;
      FillAppend(a[1..], b, params, m);
    }
  }

  /** A template without slot `m` reads the same before and after step `m`. */
  lemma {:induction false} FillSkips(parts: seq<Part>, params: seq<Str>, m: nat)
    requires m < |params| && Slot(m) !in parts
    ensures Fill(parts, params, m) == Fill(parts, params, m + 1)
    decreases |parts|
  {
    if |parts| > 0 {
      assert parts[0] != Slot(m);
      assert FillPart(parts[0], params, m) == FillPart(parts[0], params, m + 1);
      assert Slot(m) !in parts[1..];
      FillSkips(parts[1..], params, m);
      assert Fill(parts, params, m) == FillPart(parts[0], params, m) + Fill(parts[1..], params, m);
      assert Fill(parts, params, m + 1) == FillPart(parts[0], params, m + 1) + Fill(parts[1..], params, m + 1);
    }
  }

  lemma OccursAppend(x: Str, y: Str, p: Str, j: int)
    requires j >= |x|
    ensures OccursAt(x + y, p, j) <==> OccursAt(y, p, j - |x|)
  {
    if j + |p| <= |x + y| {
      assert (x + y)[j..j + |p|] == y[j - |x|..j - |x| + |p|];
    }
  }

  /** Placeholders are prefix-free: a string that starts with one
      placeholder starts with no other. */
  lemma PlaceholderPrefixFree(i: nat, k: nat, x: Str)
    requires Placeholder(k) <= x && OccursAt(x, Placeholder(i), 0)
    ensures i == k
  {
    var pi, pk := Placeholder(i), Placeholder(k);
    var last := Min(|pi|, |pk|) - 1;
    assert pi[last] == x[last] == pk[last];
    assert (pi[last] == LETTER_U) == (last == |pi| - 1);
    assert (pk[last] == LETTER_U) == (last == |pk| - 1);
    assert pi == x[..|pi|] == pk;
    if i != k {
      PlaceholdersDistinct(i, k);
    }
  }

  /** Within the filled text of a template lacking slot `i`, followed by
      anything, placeholder `i` starts nowhere: the only '%' there opens a
      different placeholder. */
  lemma {:induction false} NoEarlyOccurrence(parts: seq<Part>, params: seq<Str>, m: nat, i: nat, tail: Str)
    requires m <= |params| && Slot(i) !in parts
    requires forall a :: 0 <= a < |parts| && parts[a].Lit? ==> NoPercent(parts[a].text)
    requires forall k :: 0 <= k < m ==> NoPercent(params[k])
    ensures forall j :: 0 <= j < |Fill(parts, params, m)| ==> !OccursAt(Fill(parts, params, m) + tail, Placeholder(i), j)
    decreases |parts|
  {
    if |parts| > 0 {
      var h := FillPart(parts[0], params, m);
      var rest := Fill(parts[1..], params, m);
      assert Slot(i) !in parts[1..];
      assert forall a :: 0 <= a < |parts[1..]| && parts[1..][a].Lit? ==> NoPercent(parts[1..][a].text) by {
        forall a | 0 <= a < |parts[1..]| && parts[1..][a].Lit?
          ensures NoPercent(parts[1..][a].text)
        {
          assert parts[1..][a] == parts[a + 1];
        }
      }
      NoEarlyOccurrence(parts[1..], params, m, i, tail);
      var s := Fill(parts, params, m) + tail;
      assert s == h + (rest + tail);
      forall j | 0 <= j < |Fill(parts, params, m)|
        ensures !OccursAt(s, Placeholder(i), j)
      {
        if j >= |h| {
          OccursAppend(h, rest + tail, Placeholder(i), j);
          assert rest + tail == Fill(parts[1..], params, m) + tail;
        } else if OccursAt(s, Placeholder(i), j) {
          assert s[j] == Placeholder(i)[0] == PERCENT;
          assert h[j] == PERCENT;
          match parts[0]
          case Lit(t) =>
            assert false;
          case Slot(k) =>
            if k < m {
              assert false;
            } else {
              assert h == Placeholder(k);
              assert j == 0;
              assert Placeholder(k) <= s;
              PlaceholderPrefixFree(i, k, s);
              assert false;
            }
        }
      }
    }
  }
}

=== FILE: menu.dfy ===
/** The menu screens: main-menu cursor, the level-select grid, the
    instruction pages, the screen type for a game state, and the greedy
    word wrap used to lay out instruction text. Starting a level loads a
    level file, so the screens return a request to start one instead of
    doing it. */
module Menu {
  import opened Wrappers
  import opened CInt
  import opened Input
  import Game

  // ---- Main menu ----

  const MENU_CONTINUE: int := 0
  const MENU_NEW_GAME: int := 1
  const MENU_SELECT_LEVEL: int := 2
  const MENU_HIGH_SCORE: int := 3
  const MENU_INSTRUCTIONS: int := 4
  const MENU_ITEMS_COUNT: int := 5

  datatype StartMode = StartFresh | StartSelected | StartNext

  /** A level start the screen asks for. */
  datatype StartRequest = StartRequest(level: int, mode: StartMode)

  function CanContinue(g: Game.Game): bool {
    g.savedGame == Game.InProgress
  }

  /** Move the cursor off Continue when there is no game to continue. */
  function SkipContinue(g: Game.Game, sel: int): int {
    if sel == MENU_CONTINUE && !CanContinue(g) then MENU_NEW_GAME else sel
  }

  /** One frame of the main menu: Up and Down move the cursor (never onto
      an unavailable Continue), Cross activates the item under it. */
  function MenuUpdate(g: Game.Game, s: InputState): (r: (Game.Game, Option<StartRequest>))
    ensures 0 <= g.menuSelection < MENU_ITEMS_COUNT ==> 0 <= r.0.menuSelection < MENU_ITEMS_COUNT
    ensures !CanContinue(g) && 0 <= g.menuSelection ==> r.0.menuSelection != MENU_CONTINUE
    ensures !Pressed(s, {BTN_CROSS}) ==> r.1.None? && r.0.state == g.state
    ensures r.1.Some? ==> r.1.value == StartRequest(1, StartFresh) && r.0.menuSelection == MENU_NEW_GAME
    ensures r.0.(menuSelection := g.menuSelection, state := g.state) == g
    ensures r.0.state != g.state ==>
      Pressed(s, {BTN_CROSS}) &&
      (r.0.state == Game.Playing <==> r.0.menuSelection == MENU_CONTINUE) &&
      (r.0.state == Game.LevelSelect <==> r.0.menuSelection == MENU_SELECT_LEVEL) &&
      (r.0.state == Game.HighScore <==> r.0.menuSelection == MENU_HIGH_SCORE) &&
      (r.0.state == Game.Instructions <==> r.0.menuSelection == MENU_INSTRUCTIONS)
    ensures Pressed(s, {BTN_CROSS}) && r.0.menuSelection == MENU_CONTINUE ==>
      r.1.None? && r.0.state == (if CanContinue(g) then Game.Playing else g.state)
    ensures Pressed(s, {BTN_CROSS}) && r.0.menuSelection == MENU_NEW_GAME ==>
      r.1 == Some(StartRequest(1, StartFresh)) && r.0.state == g.state
    ensures Pressed(s, {BTN_CROSS}) && r.0.menuSelection == MENU_SELECT_LEVEL ==>
      r.0.state == Game.LevelSelect && r.1.None?
    ensures Pressed(s, {BTN_CROSS}) && r.0.menuSelection == MENU_HIGH_SCORE ==>
      r.0.state == Game.HighScore && r.1.None?
    ensures Pressed(s, {BTN_CROSS}) && r.0.menuSelection == MENU_INSTRUCTIONS ==>
      r.0.state == Game.Instructions && r.1.None?
    ensures Pressed(s, {BTN_CROSS}) && !(0 <= r.0.menuSelection < MENU_ITEMS_COUNT) ==>
      r.0.state == g.state && r.1.None?
  {
    var sel0 := SkipContinue(g, g.menuSelection);
    var sel1 := if Pressed(s, {BTN_UP}) && sel0 > 0 then SkipContinue(g, sel0 - 1) else sel0;
    var sel := if Pressed(s, {BTN_DOWN}) && sel1 < MENU_ITEMS_COUNT - 1 then sel1 + 1 else sel1;
    var g1 := g.(menuSelection := sel);
    if !Pressed(s, {BTN_CROSS}) then (g1, None)
    else if sel == MENU_CONTINUE then
      (if CanContinue(g) then g1.(state := Game.Playing) else g1, None)
    else if sel == MENU_NEW_GAME then (g1, Some(StartRequest(1, StartFresh)))
    else if sel == MENU_SELECT_LEVEL then (g1.(state := Game.LevelSelect), None)
    else if sel == MENU_HIGH_SCORE then (g1.(state := Game.HighScore), None)
    else if sel == MENU_INSTRUCTIONS then (g1.(state := Game.Instructions), None)
    else (g1, None)
  }

  // ---- Level select ----

  const MAX_LEVEL: int := 11
  const LEVEL_GRID_COLUMNS: int := 5
  const LEVEL_GRID_ROWS: int := (MAX_LEVEL + LEVEL_GRID_COLUMNS - 1) / LEVEL_GRID_COLUMNS

  /** Levels in a grid row; a short last row is centred. */
  function RowItems(row: int): int {
    var remaining := MAX_LEVEL - row * LEVEL_GRID_COLUMNS;
    if remaining < LEVEL_GRID_COLUMNS then remaining else LEVEL_GRID_COLUMNS
  }

  function RowOffset(row: int): int {
    TruncDiv(LEVEL_GRID_COLUMNS - RowItems(row), 2)
  }

  /** The level on `row` under visual column `visualCol`, clamped to the
      row's levels. */
  function LevelUnder(row: int, visualCol: int): int {
    var items := RowItems(row);
    var col := visualCol - RowOffset(row);
    var col1 := if col < 0 then 0 else col;
    var col2 := if col1 >= items then items - 1 else col1;
    row * LEVEL_GRID_COLUMNS + 1 + col2
  }

  /** The grid row of level `l`. */
  function RowOf(l: int): int {
    TruncDiv(l - 1, LEVEL_GRID_COLUMNS)
  }

  /** The screen column of level `l`, counting the centring offset. */
  function VisualCol(l: int): int {
    l - (RowOf(l) * LEVEL_GRID_COLUMNS + 1) + RowOffset(RowOf(l))
  }

  /** The level selected after one frame's moves from level `l0`. */
  function GridStep(l0: int, s: InputState): (l: int)
    ensures 1 <= l <= MAX_LEVEL
  {
    var row := RowOf(l0);
    var visualCol := VisualCol(l0);
    var l1 := if Pressed(s, {BTN_LEFT}) && l0 > 1 then l0 - 1 else l0;
    var l2 := if Pressed(s, {BTN_RIGHT}) && l1 < MAX_LEVEL then l1 + 1 else l1;
    var l3 := if Pressed(s, {BTN_UP}) && row > 0 then LevelUnder(row - 1, visualCol) else l2;
    var l4 := if Pressed(s, {BTN_DOWN}) && row < LEVEL_GRID_ROWS - 1 then LevelUnder(row + 1, visualCol) else l3;
    if l4 < 1 then 1 else if l4 > MAX_LEVEL then MAX_LEVEL else l4
  }

  /** One frame of the level grid: Left and Right step through the levels,
      Up and Down move to the level under the same screen column in the
      neighbouring row, the result is clamped to 1..11, Cross asks to start
      the selected level and Circle goes back to the menu. */
  function LevelSelectUpdate(g: Game.Game, s: InputState): (r: (Game.Game, Option<StartRequest>))
    ensures 1 <= r.0.selectedLevel <= MAX_LEVEL
    ensures Pressed(s, {BTN_CROSS}) <==> r.1 == Some(StartRequest(r.0.selectedLevel, StartSelected))
    ensures !Pressed(s, {BTN_CROSS}) ==> r.1.None?
    ensures r.0.state == (if Pressed(s, {BTN_CIRCLE}) then Game.Menu else g.state)
    ensures r.0.(selectedLevel := g.selectedLevel, state := g.state) == g
  {
    var l := GridStep(g.selectedLevel, s);
    var g1 := g.(selectedLevel := l);
    var req := if Pressed(s, {BTN_CROSS}) then Some(StartRequest(l, StartSelected)) else None;
    (if Pressed(s, {BTN_CIRCLE}) then g1.(state := Game.Menu) else g1, req)
  }

  /** With neither Left nor Right pressed, Up alone moves the selection
      to the row above, Down alone to the row below, and neither keeps the
      selection where it is. */
  lemma {:induction false} GridMovesByRows(g: Game.Game, s: InputState)
    requires 1 <= g.selectedLevel <= MAX_LEVEL
    requires !Pressed(s, {BTN_LEFT}) && !Pressed(s, {BTN_RIGHT})
    ensures var row := RowOf(g.selectedLevel);
      var row' := RowOf(LevelSelectUpdate(g, s).0.selectedLevel);
      (Pressed(s, {BTN_UP}) && !Pressed(s, {BTN_DOWN}) && row > 0 ==> row' == row - 1) &&
      (Pressed(s, {BTN_DOWN}) && !Pressed(s, {BTN_UP}) && row < LEVEL_GRID_ROWS - 1 ==> row' == row + 1) &&
      (!Pressed(s, {BTN_UP}) && !Pressed(s, {BTN_DOWN}) ==> LevelSelectUpdate(g, s).0.selectedLevel == g.selectedLevel)
  {
    var l := g.selectedLevel;
    var row := RowOf(l);
    RowOfBounds(l);
    assert LevelSelectUpdate(g, s).0.selectedLevel == GridStep(l, s);
    if Pressed(s, {BTN_UP}) && !Pressed(s, {BTN_DOWN}) && row > 0 {
      LevelUnderInRow(row - 1, VisualCol(l));
      assert GridStep(l, s) == LevelUnder(row - 1, VisualCol(l));
    }
    if Pressed(s, {BTN_DOWN}) && !Pressed(s, {BTN_UP}) && row < LEVEL_GRID_ROWS - 1 {
      GridDown(l, s, row, VisualCol(l));
    }
  }

  lemma GridDown(l: int, s: InputState, row: int, visualCol: int)
    requires 1 <= l <= MAX_LEVEL && row == RowOf(l) && visualCol == VisualCol(l) && 0 <= row < LEVEL_GRID_ROWS - 1
    requires !Pressed(s, {BTN_LEFT}) && !Pressed(s, {BTN_RIGHT}) && !Pressed(s, {BTN_UP}) && Pressed(s, {BTN_DOWN})
    ensures GridStep(l, s) == LevelUnder(row + 1, visualCol)
  {
    LevelUnderInRow(row + 1, visualCol);
  }

  lemma RowOfBounds(l: int)
    requires 1 <= l <= MAX_LEVEL
    ensures 0 <= RowOf(l) < LEVEL_GRID_ROWS
  {
  }

  /** Whatever the screen column, the level under it on a row lies on that
      row. */
  lemma LevelUnderInRow(row: int, visualCol: int)
    requires 0 <= row < LEVEL_GRID_ROWS
    ensures 1 <= LevelUnder(row, visualCol) <= MAX_LEVEL
    ensures RowOf(LevelUnder(row, visualCol)) == row
  {
    assert LEVEL_GRID_ROWS == 3;
  }

  /** The centred last row: level 11 sits under the middle column, so Up
      from it reaches level 8, and Down from level 6 or 8 or 10 reaches 11. */
  lemma CentredLastRow()
    ensures LevelUnder(1, 2) == 8
    ensures RowOffset(2) == 2 && RowItems(2) == 1
    ensures LevelUnder(2, 0) == 11 && LevelUnder(2, 4) == 11
  {
  }

  // ---- Instructions ----

  const INSTRUCTIONS_TOTAL_PAGES: int := 6

  /** Left and Right page through the instructions; Cross, Circle or Start
      leaves to the menu and rewinds to the first page. */
  function InstructionsUpdate(g: Game.Game, s: InputState): (r: Game.Game)
    ensures 0 <= g.instructionPart < INSTRUCTIONS_TOTAL_PAGES ==> 0 <= r.instructionPart < INSTRUCTIONS_TOTAL_PAGES
    ensures Pressed(s, {BTN_CROSS}) || Pressed(s, {BTN_CIRCLE}) || Pressed(s, {BTN_START}) ==>
      r.state == Game.Menu && r.instructionPart == 0
    ensures !(Pressed(s, {BTN_CROSS}) || Pressed(s, {BTN_CIRCLE}) || Pressed(s, {BTN_START})) ==>
      r.state == g.state && Abs(r.instructionPart - g.instructionPart) <= 1
    ensures r.(instructionPart := g.instructionPart, state := g.state) == g
  {
    var p0 := g.instructionPart;
    var p1 := if Pressed(s, {BTN_LEFT}) && p0 > 0 then p0 - 1 else p0;
    var p2 := if Pressed(s, {BTN_RIGHT}) && p1 < INSTRUCTIONS_TOTAL_PAGES - 1 then p1 + 1 else p1;
    if Pressed(s, {BTN_CROSS}) || Pressed(s, {BTN_CIRCLE}) || Pressed(s, {BTN_START}) then
      g.(instructionPart := 0, state := Game.Menu)
    else g.(instructionPart := p2)
  }

  // ---- Screen type ----

  datatype MenuType = MainMenu | LevelSelectMenu | HighScoreMenu | GameOverMenu | LevelCompleteMenu | InstructionsMenu

  /** The screen drawn and updated for a game state; states without a
      screen of their own fall back to the main menu. */
  function MenuTypeOf(state: Game.GameState): (t: MenuType)
    ensures t == LevelSelectMenu <==> state == Game.LevelSelect
    ensures t == HighScoreMenu <==> state == Game.HighScore
    ensures t == GameOverMenu <==> state == Game.GameOver
    ensures t == LevelCompleteMenu <==> state == Game.LevelComplete
    ensures t == InstructionsMenu <==> state == Game.Instructions
    ensures t == MainMenu <==> !state.LevelSelect? && !state.HighScore? && !state.GameOver? &&
                               !state.LevelComplete? && !state.Instructions?
  {
    match state
    case Menu => MainMenu
    case LevelSelect => LevelSelectMenu
    case HighScore => HighScoreMenu
    case GameOver => GameOverMenu
    case LevelComplete => LevelCompleteMenu
    case Instructions => InstructionsMenu
    case _ => MainMenu
  }

  /** The state each screen belongs to. */
  function StateOf(t: MenuType): Game.GameState {
    match t
    case MainMenu => Game.Menu
    case LevelSelectMenu => Game.LevelSelect
    case HighScoreMenu => Game.HighScore
    case GameOverMenu => Game.GameOver
    case LevelCompleteMenu => Game.LevelComplete
    case InstructionsMenu => Game.Instructions
  }

  /** Every screen is reached from its own state. */
  lemma MenuTypeRoundTrip(t: MenuType)
    ensures MenuTypeOf(StateOf(t)) == t
  {
  }

  // ---- Word wrap ----

  const SPACE: Byte := 32
  /** Line buffers hold 255 bytes and a terminator. */
  const LINE_CAPACITY: int := 256

  predicate NoNul(s: seq<Byte>) {
    forall k :: 0 <= k < |s| ==> s[k] != 0
  }

  /** The leading run of non-space bytes of `t`. */
  function Run(t: seq<Byte>): (w: seq<Byte>)
    ensures w <= t
    ensures forall k :: 0 <= k < |w| ==> w[k] != SPACE
    ensures |w| < |t| ==> t[|w|] == SPACE
  {
    if |t| == 0 || t[0] == SPACE then [] else [t[0]] + Run(t[1..])
  }

  /** The word at the front of `t`: its leading run of non-space bytes, cut
      at 255. The rest of a longer run becomes the next word. */
  function Word(t: seq<Byte>): (w: seq<Byte>)
    ensures w <= t && |w| < LINE_CAPACITY
    ensures forall k :: 0 <= k < |w| ==> w[k] != SPACE
    ensures |t| > 0 && t[0] != SPACE ==> |w| > 0
  {
    var r := Run(t);
    if |r| < LINE_CAPACITY then r else r[..LINE_CAPACITY - 1]
  }

  /** The words of `t`, in order: runs of spaces separate them. */
  function Words(t: seq<Byte>): (ws: seq<seq<Byte>>)
    ensures forall i :: 0 <= i < |ws| ==> 0 < |ws[i]| < LINE_CAPACITY
    decreases |t|
  {
    if |t| == 0 then []
    else if t[0] == SPACE then Words(t[1..])
    else
      var w := Word(t);
      [w] + Words(t[|w|..])
  }

  /** Words joined with single spaces. */
  function JoinSpace(ws: seq<seq<Byte>>): seq<Byte> {
    if |ws| == 0 then []
    else if |ws| == 1 then ws[0]
    else JoinSpace(ws[..|ws| - 1]) + [SPACE] + ws[|ws| - 1]
  }

  function Flatten(groups: seq<seq<seq<Byte>>>): seq<seq<Byte>> {
    if |groups| == 0 then [] else Flatten(groups[..|groups| - 1]) + groups[|groups| - 1]
  }

  /** A line of words fits: under 256 bytes, and within `maxWidth` when it
      joins more than one word. */
  predicate Fits(line: seq<seq<Byte>>, maxWidth: int, measure: seq<Byte> -> int) {
    |JoinSpace(line)| < LINE_CAPACITY &&
    (|line| > 1 ==> measure(JoinSpace(line)) <= maxWidth)
  }

  lemma JoinLength(ws: seq<seq<Byte>>, w: seq<Byte>)
    requires |ws| > 0
    ensures JoinSpace(ws + [w]) == JoinSpace(ws) + [SPACE] + w
  {
    assert (ws + [w])[..|ws|] == ws;
  }

  lemma FlattenSnoc(groups: seq<seq<seq<Byte>>>, g: seq<seq<Byte>>)
    ensures Flatten(groups + [g]) == Flatten(groups) + g
  {
    assert (groups + [g])[..|groups|] == groups;
  }

  lemma WordsSkipSpace(t: seq<Byte>, p: nat)
    requires p < |t| && t[p] == SPACE
    ensures Words(t[p..]) == Words(t[p + 1..])
  {
    assert t[p..][1..] == t[p + 1..];
  }

  lemma WordsTakeWord(t: seq<Byte>, p: nat)
    requires p < |t| && t[p] != SPACE
    ensures Words(t[p..]) == [Word(t[p..])] + Words(t[p + |Word(t[p..])|..])
  {
    var w := Word(t[p..]);
    assert t[p..][|w|..] == t[p + |w|..];
  }

  lemma AppendAssoc<T>(a: seq<T>, b: seq<T>, c: seq<T>)
    ensures a + (b + c) == (a + b) + c
  {
  }

  lemma Shift<T>(a: seq<T>, w: T, rest: seq<T>, whole: seq<T>)
    requires a + ([w] + rest) == whole
    ensures (a + [w]) + rest == whole
  {
    AppendAssoc(a, [w], rest);
  }

  /** Placing the word at `p` moves it from the unread words to the
      placed ones. */
  lemma TakeStep(done: seq<seq<Byte>>, t: seq<Byte>, p: nat, word: seq<Byte>, next: nat)
    requires p < |t| && t[p] != SPACE && done + Words(t[p..]) == Words(t)
    requires word == Word(t[p..]) && next == p + |word|
    ensures p < next <= |t|
    ensures (done + [word]) + Words(t[next..]) == Words(t)
  {
    WordsTakeWord(t, p);
    Shift(done, Word(t[p..]), Words(t[p + |Word(t[p..])|..]), Words(t));
  }

  /** The word that did not fit goes back to the unread words. */
  lemma Unplaced<T>(a: seq<T>, b: seq<T>, w: T, rest: seq<T>, whole: seq<T>)
    requires ((a + b) + [w]) + rest == whole
    ensures (a + b) + ([w] + rest) == whole
  {
    AppendAssoc(a + b, [w], rest);
  }

  /** The placed words grew by the word just taken. */
  lemma Placed<T>(placed: seq<T>, done: seq<T>, w: T, rest: seq<T>, whole: seq<T>)
    requires placed == done + [w] && (done + [w]) + rest == whole
    ensures placed + rest == whole
  {
  }

  /** Nothing is left unread: the placed words are all the words. */
  lemma AllPlaced<T>(placed: seq<T>, done: seq<T>, rest: seq<T>, whole: seq<T>)
    requires placed == done && done + rest == whole && rest == []
    ensures placed == whole && placed <= whole
  {
    assert done + rest == done;
  }

  lemma PrefixOfSum<T>(a: seq<T>, b: seq<T>, c: seq<T>, whole: seq<T>)
    requires (a + b) + c == whole
    ensures a <= whole
  {
    assert whole[..|a|] == a;
  }

  /** Line `i` of a wrap could not have taken the first word of line
      `i + 1`. */
  predicate Refuses(groups: seq<seq<seq<Byte>>>, i: int, maxWidth: int, measure: seq<Byte> -> int) {
    0 <= i < |groups| - 1 && |groups[i + 1]| > 0 && !Fits(groups[i] + [groups[i + 1][0]], maxWidth, measure)
  }

  /** Lines laid out so far: each is its words joined by spaces, fits, and
      could not have taken the first word of the line after it. Stated line
      by line from the last one back; `LaidAll` gives the same facts for
      every line at once. */
  predicate Laid(lines: seq<seq<Byte>>, groups: seq<seq<seq<Byte>>>, maxWidth: int, measure: seq<Byte> -> int)
    decreases |lines|
  {
    |lines| == |groups| &&
    (|lines| > 0 ==>
      var n := |lines| - 1;
      Laid(lines[..n], groups[..n], maxWidth, measure) &&
      lines[n] == JoinSpace(groups[n]) && |groups[n]| > 0 &&
      0 < |lines[n]| < LINE_CAPACITY && Fits(groups[n], maxWidth, measure) &&
      (n > 0 ==> Refuses(groups, n - 1, maxWidth, measure)))
  }

  /** A laid layout, line by line. */
  lemma {:induction false} LaidAll(lines: seq<seq<Byte>>, groups: seq<seq<seq<Byte>>>, maxWidth: int, measure: seq<Byte> -> int)
    requires Laid(lines, groups, maxWidth, measure)
    ensures |lines| == |groups|
    ensures forall i :: 0 <= i < |lines| ==>
      lines[i] == JoinSpace(groups[i]) && |groups[i]| > 0 &&
      0 < |lines[i]| < LINE_CAPACITY && Fits(groups[i], maxWidth, measure)
    ensures forall i :: 0 <= i < |lines| - 1 ==> Refuses(groups, i, maxWidth, measure)
    decreases |lines|
  {
    if |lines| > 0 {
      var n := |lines| - 1;
      LaidAll(lines[..n], groups[..n], maxWidth, measure);
      forall i | 0 <= i < n - 1
        ensures Refuses(groups, i, maxWidth, measure)
      {
        assert Refuses(groups[..n], i, maxWidth, measure);
        assert groups[..n][i] == groups[i] && groups[..n][i + 1] == groups[i + 1];
      }
      forall i | 0 <= i < n
        ensures lines[i] == JoinSpace(groups[i]) && |groups[i]| > 0
        ensures 0 < |lines[i]| < LINE_CAPACITY && Fits(groups[i], maxWidth, measure)
      {
        assert lines[..n][i] == lines[i] && groups[..n][i] == groups[i];
      }
    }
  }

  /** Emitting a fitting line that the previous line could not absorb keeps
      the layout laid. */
  lemma LaidSnoc(lines: seq<seq<Byte>>, groups: seq<seq<seq<Byte>>>, line: seq<seq<Byte>>,
                 maxWidth: int, measure: seq<Byte> -> int)
    requires Laid(lines, groups, maxWidth, measure)
    requires |line| > 0 && |JoinSpace(line)| > 0 && Fits(line, maxWidth, measure)
    requires |lines| > 0 ==> !Fits(groups[|lines| - 1] + [line[0]], maxWidth, measure)
    ensures Laid(lines + [JoinSpace(line)], groups + [line], maxWidth, measure)
  {
    var lines', groups' := lines + [JoinSpace(line)], groups + [line];
    assert lines'[..|lines|] == lines && groups'[..|lines|] == groups;
    if |lines| > 0 {
      assert groups'[|lines| - 1] == groups[|lines| - 1] && groups'[|lines|] == line;
      assert Refuses(groups', |lines| - 1, maxWidth, measure);
    }
  }

  /** The wrap in progress: the emitted lines are laid, and the open line
      fits, has non-empty text when it has words, and begins with a word
      that the last emitted line could not take. */
  predicate Open(lines: seq<seq<Byte>>, groups: seq<seq<seq<Byte>>>, line: seq<seq<Byte>>,
                 maxWidth: int, measure: seq<Byte> -> int) {
    Laid(lines, groups, maxWidth, measure) &&
    (|lines| > 0 ==> |line| > 0 && !Fits(groups[|lines| - 1] + [line[0]], maxWidth, measure)) &&
    Fits(line, maxWidth, measure) && (|line| > 0 ==> |JoinSpace(line)| > 0)
  }

  lemma OpenStart(groups: seq<seq<seq<Byte>>>, word: seq<Byte>, maxWidth: int, measure: seq<Byte> -> int)
    requires 0 < |word| < LINE_CAPACITY
    ensures Open([], [], [word], maxWidth, measure)
  {
  }

  lemma OpenJoin(lines: seq<seq<Byte>>, groups: seq<seq<seq<Byte>>>, line: seq<seq<Byte>>, word: seq<Byte>,
                 maxWidth: int, measure: seq<Byte> -> int)
    requires Open(lines, groups, line, maxWidth, measure)
    requires |line| > 0 && Fits(line + [word], maxWidth, measure)
    ensures Open(lines, groups, line + [word], maxWidth, measure)
  {
    JoinLength(line, word);
    assert (line + [word])[0] == line[0];
  }

  lemma OpenEmit(lines: seq<seq<Byte>>, groups: seq<seq<seq<Byte>>>, line: seq<seq<Byte>>, word: seq<Byte>,
                 maxWidth: int, measure: seq<Byte> -> int)
    requires Open(lines, groups, line, maxWidth, measure)
    requires |line| > 0 && !Fits(line + [word], maxWidth, measure) && 0 < |word| < LINE_CAPACITY
    ensures Open(lines + [JoinSpace(line)], groups + [line], [word], maxWidth, measure)
  {
    LaidSnoc(lines, groups, line, maxWidth, measure);
    assert (groups + [line])[|lines|] == line;
  }

  /** One word of the greedy wrap: it joins the open line when the joined
      line still fits, and otherwise the open line is emitted and the word
      starts the next one -- unless `maxLines` lines are already out, which
      reports `full` and changes nothing. */
  method PlaceWord(lines: seq<seq<Byte>>, groups: seq<seq<seq<Byte>>>, line: seq<seq<Byte>>, word: seq<Byte>,
                   maxWidth: int, measure: seq<Byte> -> int, maxLines: int)
    returns (lines': seq<seq<Byte>>, groups': seq<seq<seq<Byte>>>, line': seq<seq<Byte>>, full: bool)
    requires |lines| <= maxLines && Open(lines, groups, line, maxWidth, measure)
    requires 0 < |word| < LINE_CAPACITY
    ensures full ==> |lines| >= maxLines && lines' == lines && groups' == groups && line' == line
    ensures full ==> |line| > 0 && !Fits(line + [word], maxWidth, measure)
    ensures !full ==> |lines'| <= maxLines && Open(lines', groups', line', maxWidth, measure) && |line'| > 0
    ensures !full ==> Flatten(groups') + line' == Flatten(groups) + line + [word]
    ensures !full && |line| > 0 && Fits(line + [word], maxWidth, measure) ==> lines' == lines && line' == line + [word]
  {
    lines', groups', line', full := lines, groups, line, false;
    if line == [] {
      OpenStart(groups, word, maxWidth, measure);
      line' := [word];
      return;
    }
    JoinLength(line, word);
    AppendAssoc(Flatten(groups), line, [word]);
    var candidate := JoinSpace(line) + [SPACE] + word;
    if |candidate| < LINE_CAPACITY && measure(candidate) <= maxWidth {
      OpenJoin(lines, groups, line, word, maxWidth, measure);
      line' := line + [word];
    } else if |lines| >= maxLines {
      full := true;
    } else {
      FlattenSnoc(groups, line);
      OpenEmit(lines, groups, line, word, maxWidth, measure);
      lines', groups', line' := lines + [JoinSpace(line)], groups + [line], [word];
    }
  }

  /** One pass of the word loop at position `p`: a space is skipped, and
      otherwise the word there is placed. The placed words followed by
      `unread` are the words of `t`; unless the lines ran out (`full`),
      `unread` is the words from the new position on. */
  method WrapStep(t: seq<Byte>, p: nat, lines: seq<seq<Byte>>, groups: seq<seq<seq<Byte>>>, line: seq<seq<Byte>>,
                  maxWidth: int, measure: seq<Byte> -> int, maxLines: int)
    returns (p': nat, lines': seq<seq<Byte>>, groups': seq<seq<seq<Byte>>>, line': seq<seq<Byte>>, full: bool,
             ghost unread: seq<seq<Byte>>)
    requires p < |t| && |lines| <= maxLines && Open(lines, groups, line, maxWidth, measure)
    requires Flatten(groups) + line + Words(t[p..]) == Words(t)
    ensures p < p' <= |t| && |lines'| <= maxLines && Open(lines', groups', line', maxWidth, measure)
    ensures Flatten(groups') + line' + unread == Words(t)
    ensures full ==> |lines'| == maxLines
    ensures !full ==> unread == Words(t[p'..])
  {
    if t[p] == SPACE {
      WordsSkipSpace(t, p);
      return p + 1, lines, groups, line, false, Words(t[p + 1..]);
    }
    ghost var done := Flatten(groups) + line;
    var word := Word(t[p..]);
    p' := p + |word|;
    TakeStep(done, t, p, word, p');
    var placed;
    lines', groups', line', placed := PlaceWord(lines, groups, line, word, maxWidth, measure, maxLines);
    if placed {
      Unplaced(Flatten(groups), line, word, Words(t[p'..]), Words(t));
      return p', lines, groups, line, true, [word] + Words(t[p'..]);
    }
    Placed(Flatten(groups') + line', done, word, Words(t[p'..]), Words(t));
    full, unread := false, Words(t[p'..]);
  }

  /** The word loop of the wrap over `t`: the placed words followed by
      `unread` are the words of `t`, and `unread` is empty unless the lines
      ran out (`full`). */
  method WrapWords(t: seq<Byte>, maxWidth: int, measure: seq<Byte> -> int, maxLines: int)
    returns (lines: seq<seq<Byte>>, groups: seq<seq<seq<Byte>>>, line: seq<seq<Byte>>, full: bool,
             ghost unread: seq<seq<Byte>>)
    requires maxLines > 0
    ensures |lines| <= maxLines && Open(lines, groups, line, maxWidth, measure)
    ensures Flatten(groups) + line + unread == Words(t)
    ensures full ==> |lines| == maxLines
    ensures !full ==> unread == []
  {
    lines, groups, line, full := [], [], [], false;
    var p := 0;
    unread := Words(t);
    while p < |t|
      invariant 0 <= p <= |t| && |lines| <= maxLines
      invariant Open(lines, groups, line, maxWidth, measure)
      invariant unread == Words(t[p..])
      invariant Flatten(groups) + line + unread == Words(t)
    {
      p, lines, groups, line, full, unread := WrapStep(t, p, lines, groups, line, maxWidth, measure, maxLines);
      if full {
        return;
      }
    }
    assert t[p..] == [];
  }

  /** The end of the wrap: unless the lines ran out, a non-empty open line
      is emitted as the last line. The emitted lines hold a prefix of the
      words, and all of them when fewer than `maxLines` lines are out. */
  method CloseWrap(lines: seq<seq<Byte>>, groups: seq<seq<seq<Byte>>>, line: seq<seq<Byte>>, full: bool,
                   ghost unread: seq<seq<Byte>>, ghost whole: seq<seq<Byte>>,
                   maxWidth: int, measure: seq<Byte> -> int, maxLines: int)
    returns (lines': seq<seq<Byte>>, groups': seq<seq<seq<Byte>>>)
    requires |lines| <= maxLines && Open(lines, groups, line, maxWidth, measure)
    requires Flatten(groups) + line + unread == whole
    requires full ==> |lines| == maxLines
    requires !full ==> unread == []
    ensures |lines'| <= maxLines && Laid(lines', groups', maxWidth, measure)
    ensures Flatten(groups') <= whole
    ensures |lines'| < maxLines ==> Flatten(groups') == whole
  {
    if !full && line != [] && |lines| < maxLines {
      FlattenSnoc(groups, line);
      LaidSnoc(lines, groups, line, maxWidth, measure);
      AllPlaced(Flatten(groups + [line]), Flatten(groups) + line, unread, whole);
      return lines + [JoinSpace(line)], groups + [line];
    }
    if !full && line == [] {
      AllPlaced(Flatten(groups), Flatten(groups) + line, unread, whole);
    } else {
      PrefixOfSum(Flatten(groups), line, unread, whole);
    }
    return lines, groups;
  }

  /** Wrap `text` greedily into at most `maxLines` lines of at most
      `maxWidth` pixels, as measured by `measure` at the text's font. A
      word starts a new line when joining it with a space would overflow
      the 256-byte line buffer or the width. Once `maxLines` lines are out,
      the next line that would be emitted ends the wrap. */
  method WrapTextLines(text: Option<seq<Byte>>, maxWidth: int, measure: seq<Byte> -> int, maxLines: int)
    returns (lines: seq<seq<Byte>>, groups: seq<seq<seq<Byte>>>)
    requires text.Some? ==> NoNul(text.value)
    ensures text.None? || maxLines <= 0 ==> lines == []
    ensures |lines| <= Max(maxLines, 0) && |lines| == |groups|
    ensures forall i :: 0 <= i < |lines| ==> lines[i] == JoinSpace(groups[i]) && |groups[i]| > 0
    ensures forall i :: 0 <= i < |lines| ==> 0 < |lines[i]| < LINE_CAPACITY && Fits(groups[i], maxWidth, measure)
    ensures forall i :: 0 <= i < |lines| - 1 ==> Refuses(groups, i, maxWidth, measure)
    ensures text.Some? ==> Flatten(groups) <= Words(text.value)
    ensures text.Some? && |lines| < maxLines ==> Flatten(groups) == Words(text.value)
  {
    lines, groups := [], [];
    if text.None? || maxLines <= 0 {
      return;
    }
    var line, full;
    ghost var unread;
    lines, groups, line, full, unread := WrapWords(text.value, maxWidth, measure, maxLines);
    lines, groups := CloseWrap(lines, groups, line, full, unread, Words(text.value), maxWidth, measure, maxLines);
    LaidAll(lines, groups, maxWidth, measure);
  }
}

=== FILE: motion.dfy ===
/** The per-frame ball update: gravity and bonus bookkeeping, the vertical
    sweep one pixel at a time with bounces and ramp slides, horizontal
    steering and friction, the jump, the horizontal sweep with diagonal
    ramp slides, and the clamp to the level's side edges. Every pixel step
    is a collision probe, so the update threads the world through the
    probes and fails (`None`) only when a probe's resize budget runs out. */
module Motion {
  import opened Wrappers
  import opened CInt
  import opened LevelMap
  import opened Ball
  import opened Collide
  import opened Physics

  // ---------------------------------------------------------------- spawn

  /** A ball at rest at centre (x, y): no speed, no keys, no flags, no
      bonuses. */
  function FreshPlayer(x: int, y: int, s: SizeState): (p: Player)
    ensures SpeedNorm(p) == 0 && p.direction == {} && p.state == Normal && p.size == s
    ensures p.xPos == x && p.yPos == y
  {
    Player(x, y, 0, 0, 0, 0, {}, 0, Normal, s, false, false, false, 0, 0, 0, 0, 0, false)
  }

  /** Place a fresh ball. A large ball that does not fit is nudged 4 pixels
      left, else up, else up-left, taking the first position that fits;
      if none fits it stays where it is. */
  function PlayerInit(mk: Masks, w: World, x: int, y: int, s: SizeState, fuel: nat): (r: Option<World>)
    requires MasksOk(mk) && Valid(w.l)
    ensures s == Small ==> r == Some(w.(p := FreshPlayer(x, y, s)))
    ensures r.Some? ==> Evolves(w.l, r.value.l)
    ensures r.Some? ==> SpeedNorm(r.value.p) == 0 && r.value.p.direction == {} && r.value.p.state != Dead
  {
    var w0 := w.(p := FreshPlayer(x, y, s));
    if s == Small then Some(w0)
    else
      var v :- Nudge(mk, w0, 0, 0, fuel);
      if v.canMove then Some(v.w)
      else
        var v1 :- Nudge(mk, v.w, -STUCK_BALL_OFFSET, 0, fuel);
        if v1.canMove then Some(v1.w)
        else
          var v2 :- Nudge(mk, v1.w, 0, -STUCK_BALL_OFFSET, fuel);
          if v2.canMove then Some(v2.w)
          else
            var v3 :- Nudge(mk, v2.w, -STUCK_BALL_OFFSET, -STUCK_BALL_OFFSET, fuel);
            Some(v3.w)
  }

  /** Probe the ball's centre moved by (dx, dy) and, when the probe allows
      it, move the ball there by (dx, dy); a blocked probe leaves the ball
      as the probe left it. */
  function Nudge(mk: Masks, w: World, dx: int, dy: int, fuel: nat): (r: Option<Verdict>)
    requires MasksOk(mk) && Valid(w.l)
    ensures r.Some? ==> Keeps(w, r.value.w)
    ensures r.Some? <==> CollisionDetection(mk, w, w.p.xPos + dx, w.p.yPos + dy, fuel).Some?
    ensures r.Some? ==> r.value.canMove == CollisionDetection(mk, w, w.p.xPos + dx, w.p.yPos + dy, fuel).value.canMove
  {
    var v :- CollisionDetection(mk, w, w.p.xPos + dx, w.p.yPos + dy, fuel);
    if v.canMove then Some(v.(w := Move(v.w, dx, dy))) else Some(v)
  }

  // -------------------------------------------------------------- gravity

  /** Terminal vertical speed `target`, the per-frame pull `step`, and
      whether the gravity bonus has turned gravity upside down. */
  datatype Gravity = Gravity(target: int, step: int, reverse: bool)

  /** Gravity for the ball's medium and size: in air both sizes fall, the
      large one more gently; under water the small ball sinks and the large
      one floats up. */
  function MediumGravity(inWater: bool, s: SizeState): (g: Gravity)
    ensures !g.reverse && g.step != 0
    ensures (g.target < 0) == (g.step < 0)
    ensures 0 < Abs(g.step) < Abs(g.target) <= NORMAL_MAX_GRAVITY
    ensures g.target < 0 <==> inWater && s == Large
    ensures !inWater ==> (s == Large <==> g.target < NORMAL_MAX_GRAVITY)
  {
    if inWater then
      if s == Large then Gravity(UWATER_LARGE_MAX_GRAVITY, LARGE_UWATER_GRAVITY_ACCELL, false)
      else Gravity(UWATER_MAX_GRAVITY, UWATER_GRAVITY_ACCELL, false)
    else if s == Large then Gravity(LARGE_MAX_GRAVITY, LARGE_GRAVITY_ACCELL, false)
    else Gravity(NORMAL_MAX_GRAVITY, NORMAL_GRAVITY_ACCELL, false)
  }

  /** One frame of the gravity bonus: while it runs, gravity is mirrored;
      on its last frame gravity is restored and the ball leaves the
      ground. */
  function GravityBonusTick(p: Player, g: Gravity): (r: (Player, Gravity))
    requires !g.reverse
    ensures r.1.reverse <==> p.gravBonus > 1
    ensures r.1 == (if p.gravBonus > 1 then Mirror(g) else g)
    ensures r.0.gravBonus == (if p.gravBonus > 0 then p.gravBonus - 1 else p.gravBonus)
    ensures r.0.grounded == (p.grounded && p.gravBonus != 1)
    ensures r.0.(gravBonus := p.gravBonus, grounded := p.grounded) == p
  {
    if p.gravBonus > 0 then
      var q := p.(gravBonus := p.gravBonus - 1);
      if q.gravBonus == 0 then (q.(grounded := false), g)
      else (q, Mirror(g))
    else (p, g)
  }

  /** One frame of the jump bonus: a jump offset weaker than 80 becomes 80
      against gravity. */
  function JumpBonusTick(p: Player, reverse: bool): (p': Player)
    ensures p.jumpBonus > 0 ==> Abs(p'.jumpOffset) >= -JUMP_BONUS_STRENGTH
    ensures p.jumpBonus > 0 && Abs(p.jumpOffset) < -JUMP_BONUS_STRENGTH ==>
      p'.jumpOffset == (if reverse then -JUMP_BONUS_STRENGTH else JUMP_BONUS_STRENGTH)
    ensures Abs(p.jumpOffset) >= -JUMP_BONUS_STRENGTH ==> p'.jumpOffset == p.jumpOffset
    ensures p.jumpBonus <= 0 ==> p' == p
    ensures p'.jumpBonus == (if p.jumpBonus > 0 then p.jumpBonus - 1 else p.jumpBonus)
    ensures p'.(jumpBonus := p.jumpBonus, jumpOffset := p.jumpOffset) == p
  {
    if p.jumpBonus > 0 then
      var q := if Abs(p.jumpOffset) < -JUMP_BONUS_STRENGTH
               then p.(jumpOffset := if reverse then -JUMP_BONUS_STRENGTH else JUMP_BONUS_STRENGTH)
               else p;
      q.(jumpBonus := q.jumpBonus - 1)
    else p
  }

  /** The ramp-slide counter cycles 0, 1, 2. */
  function SlideTick(c: int): (c': int)
    ensures 0 <= c < 3 ==> 0 <= c' < 3 && c' == (c + 1) % 3
  {
    if c + 1 == 3 then 0 else c + 1
  }

  /** Pull the vertical speed towards the gravity target after the sweep.
      The pull skips a grounded ball, except for a large ball floating up
      under water, which is pulled even when grounded. */
  function ApplyGravity(y: int, grounded: bool, g: Gravity): (y': int)
  {
    if g.reverse then
      if g.step == LARGE_UWATER_GRAVITY_ACCELL && y < g.target then
        var y1 := y + g.step;
        if y1 > g.target then g.target else y1
      else if !grounded && y > g.target then
        var y1 := y + g.step;
        if y1 < g.target then g.target else y1
      else y
    else
      if g.step == LARGE_UWATER_GRAVITY_ACCELL && y > g.target then
        var y1 := y + g.step;
        if y1 < g.target then g.target else y1
      else if !grounded && y < g.target then
        var y1 := y + g.step;
        if y1 > g.target then g.target else y1
      else y
  }

  /** Gravity turned upside down by the gravity bonus. */
  function Mirror(g: Gravity): (m: Gravity)
    ensures m.reverse && m.target == -g.target && m.step == -g.step
  {
    Gravity(-g.target, -g.step, true)
  }

  /** The gravity a frame runs under. */
  function FrameGravity(inWater: bool, s: SizeState, reverse: bool): (g: Gravity)
    ensures g.reverse == reverse
    ensures Abs(g.target) == Abs(MediumGravity(inWater, s).target)
  {
    if reverse then Mirror(MediumGravity(inWater, s)) else MediumGravity(inWater, s)
  }

  /** The speed lies on the closed segment from `a` to `b`. */
  predicate Between(v: int, a: int, b: int) {
    Min(a, b) <= v <= Max(a, b)
  }

  /** Outside the case of a large ball under water, gravity moves the
      speed towards its target by at most one step and never past it, never
      acts on a grounded ball, and always acts on an airborne ball slower
      than the target in gravity's direction. A ball faster than the target
      keeps its speed. */
  lemma GravityPullsTowardTarget(y: int, grounded: bool, inWater: bool, s: SizeState, reverse: bool)
    requires !(inWater && s == Large)
    ensures var g := FrameGravity(inWater, s, reverse);
      var y' := ApplyGravity(y, grounded, g);
      Between(y', y, g.target) &&
      Abs(y' - y) <= Abs(g.step) &&
      (grounded ==> y' == y) &&
      (!grounded && (if reverse then y > g.target else y < g.target) ==> y' != y) &&
      ((if reverse then y <= g.target else y >= g.target) ==> y' == y)
  {
  }

  /** A large ball under water floats towards a rising speed of 30, but one
      already rising faster is pushed further still; under mirrored gravity
      the same holds for sinking faster than 30. */
  lemma FloatingDriftsAway()
    ensures ApplyGravity(-50, false, FrameGravity(true, Large, false)) == -52
    ensures FrameGravity(true, Large, true) == Gravity(30, 2, true)
    ensures ApplyGravity(40, false, FrameGravity(true, Large, true)) == 42
  {
  }

  /** From within the clamp, gravity leaves the speed within the clamp plus
      the floating ball's step of 2. */
  lemma GravityKeepsSpeedBounded(y: int, grounded: bool, inWater: bool, s: SizeState, reverse: bool)
    requires Abs(y) <= MAX_TOTAL_SPEED
    ensures Abs(ApplyGravity(y, grounded, FrameGravity(inWater, s, reverse))) <= SETTLED_SPEED
    ensures !(inWater && s == Large) ==> Abs(ApplyGravity(y, grounded, FrameGravity(inWater, s, reverse))) <= MAX_TOTAL_SPEED
  {
  }

  // ------------------------------------------------------------- bouncing

  /** Blocked while falling towards the floor: reverse and halve the
      vertical speed (C division), land, spend a rubber jump if the up key
      is held, else drop the jump offset (unless the jump bonus runs), and
      keep at least 10 of speed, pointing down the gravity. */
  function Bounce(p: Player, reverse: bool): (p': Player)
    ensures p'.grounded
    ensures Abs(p'.ySpeed) >= MIN_BOUNCE_SPEED
    ensures Abs(p'.ySpeed) <= Max(MIN_BOUNCE_SPEED, Abs(p.ySpeed))
    ensures Abs(p.ySpeed) >= 2 * MIN_BOUNCE_SPEED ==>
      Abs(p'.ySpeed) == Abs(p.ySpeed) / 2 && (p'.ySpeed < 0 <==> p.ySpeed > 0)
    ensures Abs(p.ySpeed) < 2 * MIN_BOUNCE_SPEED ==>
      p'.ySpeed == (if reverse then -MIN_BOUNCE_SPEED else MIN_BOUNCE_SPEED)
    ensures p.rubber && Up in p.direction ==>
      !p'.rubber && p'.jumpOffset == p.jumpOffset + (if reverse then MIN_BOUNCE_SPEED else -MIN_BOUNCE_SPEED)
    ensures !(p.rubber && Up in p.direction) ==>
      p'.rubber == p.rubber && p'.jumpOffset == (if p.jumpBonus == 0 then 0 else p.jumpOffset)
    ensures p'.(ySpeed := p.ySpeed, grounded := p.grounded, rubber := p.rubber, jumpOffset := p.jumpOffset) == p
  {
    Land(p, reverse).(ySpeed := BounceSpeed(p.ySpeed, reverse), grounded := true)
  }

  /** The vertical speed after a bounce: reversed and halved (C division),
      but at least 10, pointing down the gravity when the halving would
      fall short. */
  function BounceSpeed(ySpeed: int, reverse: bool): (y: int)
    ensures MIN_BOUNCE_SPEED <= Abs(y) <= Max(MIN_BOUNCE_SPEED, Abs(ySpeed))
    ensures Abs(ySpeed) >= 2 * MIN_BOUNCE_SPEED ==> Abs(y) == Abs(ySpeed) / 2 && (y < 0 <==> ySpeed > 0)
    ensures Abs(ySpeed) < 2 * MIN_BOUNCE_SPEED ==> y == (if reverse then -MIN_BOUNCE_SPEED else MIN_BOUNCE_SPEED)
  {
    var y := TruncDiv(-ySpeed, 2);
    HalfTowardZero(-ySpeed);
    if y < MIN_BOUNCE_SPEED && y > -MIN_BOUNCE_SPEED then (if reverse then -MIN_BOUNCE_SPEED else MIN_BOUNCE_SPEED)
    else y
  }

  /** The jump state after landing: a rubber bounce with the up key held
      spends the rubber flag on a jump offset of 10 against the gravity;
      otherwise the offset is dropped unless the jump bonus runs. */
  function Land(p: Player, reverse: bool): (p': Player)
    ensures p.rubber && Up in p.direction ==>
      !p'.rubber && p'.jumpOffset == p.jumpOffset + (if reverse then MIN_BOUNCE_SPEED else -MIN_BOUNCE_SPEED)
    ensures !(p.rubber && Up in p.direction) ==>
      p'.rubber == p.rubber && p'.jumpOffset == (if p.jumpBonus == 0 then 0 else p.jumpOffset)
    ensures p'.(rubber := p.rubber, jumpOffset := p.jumpOffset) == p
  {
    if p.rubber && Up in p.direction then
      p.(rubber := false, jumpOffset := p.jumpOffset + (if reverse then MIN_BOUNCE_SPEED else -MIN_BOUNCE_SPEED))
    else if p.jumpBonus == 0 then p.(jumpOffset := 0)
    else p
  }

  /** C division by two keeps the sign and halves the magnitude. */
  lemma HalfTowardZero(a: int)
    ensures Abs(TruncDiv(a, 2)) == Abs(a) / 2
    ensures a >= 2 ==> TruncDiv(a, 2) > 0
    ensures a <= -2 ==> TruncDiv(a, 2) < 0
  {
  }

  // ------------------------------------------------------------- steering

  /** Steering and friction: accelerate by 6 towards a held direction while
      under the speed limit (right wins over left), otherwise slow by 4. */
  function Steer(x: int, dir: set<Dir>, maxSpeed: int): (x': int)
  {
    if Right in dir && x < maxSpeed then x + HORZ_ACCELL
    else if Left in dir && x > -maxSpeed then x - HORZ_ACCELL
    else if x > 0 then x - FRICTION_DECELL
    else if x < 0 then x + FRICTION_DECELL
    else x
  }

  /** A speed within the limit plus one acceleration step stays there;
      within the clamp it stays within the clamp; without keys, friction
      takes 4 off a speed of at least 4 and leaves a smaller one below 4. */
  lemma SteerBounds(x: int, dir: set<Dir>, maxSpeed: int)
    requires 0 <= maxSpeed <= MAX_HORZ_BONUS_SPEED
    ensures Abs(x) < maxSpeed + HORZ_ACCELL ==> Abs(Steer(x, dir, maxSpeed)) < maxSpeed + HORZ_ACCELL
    ensures Abs(x) <= MAX_TOTAL_SPEED ==> Abs(Steer(x, dir, maxSpeed)) <= MAX_TOTAL_SPEED
    ensures Left !in dir && Right !in dir && Abs(x) < FRICTION_DECELL ==> Abs(Steer(x, dir, maxSpeed)) < FRICTION_DECELL
    ensures Left !in dir && Right !in dir && Abs(x) >= FRICTION_DECELL ==>
      Abs(Steer(x, dir, maxSpeed)) == Abs(x) - FRICTION_DECELL
  {
  }

  /** Friction alone never brings a speed of 1 or 2 to rest: it overshoots
      zero and cycles (1, -3, 1, ...; 2, -2, 2, ...). */
  lemma FrictionOscillates()
    ensures Steer(1, {}, MAX_HORZ_SPEED) == -3 && Steer(-3, {}, MAX_HORZ_SPEED) == 1
    ensures Steer(2, {}, MAX_HORZ_SPEED) == -2 && Steer(-2, {}, MAX_HORZ_SPEED) == 2
  {
  }

  /** The vertical jump speed: 67 against gravity, plus the jump offset. */
  function JumpSpeed(jumpOffset: int, reverse: bool): (y: int)
    ensures y - jumpOffset == (if reverse then -JUMP_STRENGTH else JUMP_STRENGTH)
  {
    if reverse then -JUMP_STRENGTH + jumpOffset else JUMP_STRENGTH + jumpOffset
  }

  // ---------------------------------------------------------- the frame

  /** The tile column and row holding the ball's centre, by C division. */
  function CentreTile(p: Player): (t: (int, int))
    ensures p.xPos >= 0 && p.yPos >= 0 ==>
      TILE_PX * t.0 <= p.xPos < TILE_PX * t.0 + TILE_PX && TILE_PX * t.1 <= p.yPos < TILE_PX * t.1 + TILE_PX
  {
    (TruncDiv(p.xPos, TILE_PX), TruncDiv(p.yPos, TILE_PX))
  }

  /** The speed magnitude the update may leave without a jump: the clamp
      plus one step of mirrored floating gravity. */
  const SETTLED_SPEED: int := MAX_TOTAL_SPEED - LARGE_UWATER_GRAVITY_ACCELL

  /** Everything before the vertical sweep: record the probed corner on
      the first frame, read the water flag under the centre, choose and
      maybe mirror gravity, run the bonus counters, cycle the slide counter
      and clamp the speed. */
  function Prepare(w: World): (r: (World, Gravity))
    requires Valid(w.l)
    ensures r.0.l == w.l && r.0.g == w.g
    ensures SpeedNorm(r.0.p) <= MAX_TOTAL_SPEED
    ensures r.0.p.direction == w.p.direction && r.0.p.size == w.p.size && r.0.p.state == w.p.state
    ensures r.0.p.xPos == w.p.xPos && r.0.p.yPos == w.p.yPos
    ensures r.0.p.inWater == IsWater(w.l, CentreTile(w.p).0, CentreTile(w.p).1)
    ensures r.1 == FrameGravity(r.0.p.inWater, w.p.size, w.p.gravBonus > 1)
    ensures 0 <= w.p.slideCntr < 3 ==> 0 <= r.0.p.slideCntr < 3
  {
    var p := w.p;
    var half := Half(p.size);
    var p0 := if p.globalX == 0 && p.globalY == 0 then p.(globalX := p.xPos - half, globalY := p.yPos - half) else p;
    var c := CentreTile(p0);
    var inWater := IsWater(w.l, c.0, c.1);
    var p1 := p0.(inWater := inWater);
    var g0 := MediumGravity(inWater, p1.size);
    var p2 := if inWater && p1.size == Large && p1.grounded then p1.(ySpeed := -BASE_GRAVITY) else p1;
    var (p3, g) := GravityBonusTick(p2, g0);
    var p4 := JumpBonusTick(p3, g.reverse);
    var p5 := p4.(slideCntr := SlideTick(p4.slideCntr));
    (w.(p := ClampSpeed(p5)), g)
  }

  /** A large ball floating up that has just left the water (the cell in
      its frame-start column and current row has no water flag) halves its
      rising speed, and stops within 10 of rest. */
  function LeaveWater(w: World, col: int, g: Gravity): (w': World)
    requires Valid(w.l)
    ensures w'.(p := w.p) == w && w'.p.(ySpeed := w.p.ySpeed) == w.p
    ensures Abs(w'.p.ySpeed) <= Abs(w.p.ySpeed)
    ensures w'.p.ySpeed != w.p.ySpeed ==> g.target == UWATER_LARGE_MAX_GRAVITY
  {
    if g.target == UWATER_LARGE_MAX_GRAVITY then
      var row := TruncDiv(w.p.yPos, TILE_PX);
      if InMap(w.l, col, row) && !IsWater(w.l, col, row) then
        var y := Asr(w.p.ySpeed, 1);
        AsrHalfShrinks(w.p.ySpeed);
        w.(p := w.p.(ySpeed := if -MIN_BOUNCE_SPEED <= y <= MIN_BOUNCE_SPEED then 0 else y))
      else w
    else w
  }

  /** What a sweep step preserves: the level's shape, the steering keys
      and a popped ball staying popped. A ceiling hit may raise the speed
      to 20, so the magnitude is not among them. */
  ghost predicate Steady(w: World, w': World) {
    Evolves(w.l, w'.l) && w'.p.direction == w.p.direction &&
    (w.p.state == Popped ==> w'.p.state == Popped)
  }

  /** A blocked ball on a ramp tries to slide one pixel right, then one
      pixel left, leaving the ramp when it does. */
  method RampSlide(mk: Masks, w: World, yStep: int, fuel: nat) returns (r: Option<World>)
    requires MasksOk(mk) && Valid(w.l)
    ensures r.Some? ==> Keeps(w, r.value)
  {
    var s1 :- CollisionDetection(mk, w, w.p.xPos + 1, w.p.yPos + yStep, fuel);
    if s1.canMove {
      var moved := Move(s1.w, 1, yStep);
      return Some(moved.(p := moved.p.(ramp := false)));
    }
    var s2 :- CollisionDetection(mk, s1.w, s1.w.p.xPos - 1, s1.w.p.yPos + yStep, fuel);
    if s2.canMove {
      var moved := Move(s2.w, -1, yStep);
      return Some(moved.(p := moved.p.(ramp := false)));
    }
    return Some(s2.w);
  }

  /** How one pixel of the vertical sweep ended: the ball moved, bounced
      off the floor, hit the ceiling, or was blocked with no vertical
      speed, so that neither the floor nor the ceiling case applies. */
  datatype VerticalEnd = Moved | Bounced | HitCeiling | Blocked

  /** One pixel of the vertical sweep. The ball moves when the probe
      allows it (and may slow down on leaving the water); otherwise it may
      slide one pixel sideways off a ramp, and then either bounces off the
      floor or hits the ceiling. `probed` is the ball as the probe and the
      ramp slide left it. Any blocked step under reverse gravity takes the
      floor case, so the ceiling is only ever hit under normal gravity. */
  method VerticalStep(mk: Masks, w: World, g: Gravity, col: int, fuel: nat)
    returns (r: Option<(World, VerticalEnd)>, probed: World)
    requires MasksOk(mk) && Valid(w.l)
    ensures r.Some? ==> Steady(w, r.value.0)
    ensures r.Some? && SpeedNorm(w.p) <= MAX_TOTAL_SPEED ==> SpeedNorm(r.value.0.p) <= MAX_TOTAL_SPEED
    ensures r.Some? && r.value.1 != Moved ==>
      (r.value.1 == Bounced <==> w.p.ySpeed > 0 || (g.reverse && w.p.ySpeed < 0)) &&
      (r.value.1 == HitCeiling <==> !g.reverse && w.p.ySpeed < 0)
    ensures r.Some? && r.value.1 == Moved ==>
      !r.value.0.p.grounded && r.value.0.p.xPos == probed.p.xPos &&
      r.value.0.p.yPos == probed.p.yPos + Sign(w.p.ySpeed)
    ensures r.Some? && r.value.1 == Bounced ==>
      Steady(w, probed) && r.value.0 == probed.(p := Bounce(probed.p, g.reverse))
    ensures r.Some? && r.value.1 == Bounced ==>
      r.value.0.p.grounded && Abs(r.value.0.p.ySpeed) >= MIN_BOUNCE_SPEED
    ensures r.Some? && r.value.1 == HitCeiling ==>
      r.value.0 == probed.(p := probed.p.(ySpeed := ROOF_COLLISION_SPEED))
    ensures r.Some? && r.value.1 == Blocked ==> r.value.0 == probed
  {
    probed := w;
    var yStep := Sign(w.p.ySpeed);
    var v :- CollisionDetection(mk, w, w.p.xPos, w.p.yPos + yStep, fuel);
    probed := v.w;
    if v.canMove {
      var moved := Move(v.w, 0, yStep);
      return Some((LeaveWater(moved.(p := moved.p.(grounded := false)), col, g), Moved)), probed;
    }
    var cur := v.w;
    if cur.p.ramp && cur.p.xSpeed < 10 && cur.p.slideCntr == 0 {
      cur :- RampSlide(mk, cur, yStep, fuel);
    }
    probed := cur;
    if yStep > 0 || (g.reverse && yStep < 0) {
      return Some((cur.(p := Bounce(cur.p, g.reverse)), Bounced)), probed;
    }
    if yStep < 0 || (g.reverse && yStep > 0) {
      cur := cur.(p := cur.p.(ySpeed := if g.reverse then -ROOF_COLLISION_SPEED else ROOF_COLLISION_SPEED));
      return Some((cur, HitCeiling)), probed;
    }
    return Some((cur, Blocked)), probed;
  }

  /** The vertical sweep: one step per 10 units of vertical speed, the
      speed re-read after every step. `steps` lists how each step ended: a
      bounce can only be the last one, and a sweep that did not end in a
      bounce ran until the step count reached the current speed's. */
  method VerticalSweep(mk: Masks, w: World, g: Gravity, col: int, fuel: nat)
    returns (r: Option<World>, steps: seq<VerticalEnd>)
    requires MasksOk(mk) && Valid(w.l) && SpeedNorm(w.p) <= MAX_TOTAL_SPEED
    ensures r.Some? ==> Steady(w, r.value) && SpeedNorm(r.value.p) <= MAX_TOTAL_SPEED
    ensures r.Some? ==> forall k :: 0 <= k < |steps| - 1 ==> steps[k] != Bounced
    ensures r.Some? && |steps| > 0 && steps[|steps| - 1] == Bounced ==>
      r.value.p.grounded && Abs(r.value.p.ySpeed) >= MIN_BOUNCE_SPEED
    ensures r.Some? && (|steps| == 0 || steps[|steps| - 1] != Bounced) ==>
      |steps| >= Abs(r.value.p.ySpeed) / MOVEMENT_STEP_DIVISOR
  {
    var cur := w;
    steps := [];
    while |steps| < Abs(cur.p.ySpeed) / MOVEMENT_STEP_DIVISOR
      invariant |steps| <= 16
      invariant Steady(w, cur) && SpeedNorm(cur.p) <= MAX_TOTAL_SPEED
      invariant forall k :: 0 <= k < |steps| ==> steps[k] != Bounced
      decreases 16 - |steps|
    {
      var st, _ :- VerticalStep(mk, cur, g, col, fuel);
      cur := st.0;
      steps := steps + [st.1];
      if st.1 == Bounced {
        return Some(cur), steps;
      }
    }
    return Some(cur), steps;
  }

  /** Between the sweeps: gravity, the large ball's growing jump offset,
      the speed bonus, steering and friction, and the jump off the
      ground. */
  function Accelerate(p: Player, g: Gravity): (p': Player)
    ensures p'.direction == p.direction && p'.size == p.size && p'.state == p.state
    ensures p'.xPos == p.xPos && p'.yPos == p.yPos
    ensures Up !in p.direction && Abs(p.xSpeed) <= MAX_TOTAL_SPEED &&
            Abs(ApplyGravity(p.ySpeed, p.grounded, g)) <= SETTLED_SPEED ==>
              SpeedNorm(p') <= SETTLED_SPEED
    ensures p.grounded && Up in p.direction ==> !p'.grounded && p'.ySpeed == JumpSpeed(p'.jumpOffset, g.reverse)
    ensures p.speedBonus > 0 ==> p'.speedBonus == p.speedBonus - 1
    ensures p.speedBonus <= 0 ==> p'.speedBonus == p.speedBonus
  {
    var p1 := p.(ySpeed := ApplyGravity(p.ySpeed, p.grounded, g));
    var p2 := if p1.size == Large && p1.jumpBonus == 0
              then p1.(jumpOffset := p1.jumpOffset + (if g.reverse then 5 else -5)) else p1;
    var maxSpeed := if p2.speedBonus > 0 then MAX_HORZ_BONUS_SPEED else MAX_HORZ_SPEED;
    var p3 := if p2.speedBonus > 0 then p2.(speedBonus := p2.speedBonus - 1) else p2;
    SteerBounds(p3.xSpeed, p3.direction, maxSpeed);
    var p4 := p3.(xSpeed := Steer(p3.xSpeed, p3.direction, maxSpeed));
    if p4.grounded && Up in p4.direction then p4.(ySpeed := JumpSpeed(p4.jumpOffset, g.reverse), grounded := false)
    else p4
  }

  /** One pixel of the horizontal sweep. The ball moves when the probe
      allows it; after touching a ramp it tries the two diagonals, against
      gravity first; otherwise it rebounds at half its speed. */
  method HorizontalStep(mk: Masks, w: World, g: Gravity, fuel: nat) returns (r: Option<World>)
    requires MasksOk(mk) && Valid(w.l)
    ensures r.Some? ==> Keeps(w, r.value)
  {
    var xStep := Sign(w.p.xSpeed);
    var v :- Nudge(mk, w, xStep, 0, fuel);
    if v.canMove {
      return Some(v.w);
    }
    if v.w.p.ramp {
      var s :- DiagonalSlide(mk, v.w, xStep, if g.reverse then 1 else -1, fuel);
      KeepsTrans(w, v.w, s);
      return Some(s);
    }
    if v.w.p.xSpeed != 0 {
      var s := Rebound(v.w);
      KeepsTrans(w, v.w, s);
      return Some(s);
    }
    return Some(v.w);
  }

  /** After a ramp blocked the horizontal move: clear the ramp flag, try the
      diagonal one pixel toward `d`, then the one away from it, and rebound
      when both are blocked. */
  function DiagonalSlide(mk: Masks, w: World, xStep: int, d: int, fuel: nat): (r: Option<World>)
    requires MasksOk(mk) && Valid(w.l)
    ensures r.Some? ==> Keeps(w, r.value)
  {
    var cur := w.(p := w.p.(ramp := false));
    var d1 :- Nudge(mk, cur, xStep, d, fuel);
    if d1.canMove then Some(d1.w)
    else
      var d2 :- Nudge(mk, d1.w, xStep, -d, fuel);
      KeepsTrans(cur, d1.w, d2.w);
      if d2.canMove then Some(d2.w)
      else
        var s := Rebound(d2.w);
        KeepsTrans(cur, d2.w, s);
        Some(s)
  }

  /** Reverse the horizontal speed at half its magnitude, rounding toward
      minus infinity as the arithmetic shift does. */
  function Rebound(w: World): (w': World)
    requires Valid(w.l)
    ensures Keeps(w, w')
    ensures w'.p.xSpeed == -Asr(w.p.xSpeed, 1) && 2 * Abs(w'.p.xSpeed) <= Abs(w.p.xSpeed) + 1
  {
    AsrHalfShrinks(w.p.xSpeed);
    w.(p := w.p.(xSpeed := -Asr(w.p.xSpeed, 1)))
  }

  lemma KeepsTrans(a: World, b: World, c: World)
    requires Keeps(a, b) && Keeps(b, c)
    ensures Keeps(a, c)
  {
  }

  /** The horizontal sweep: one step per 10 units of horizontal speed, the
      speed re-read after every step. */
  method HorizontalSweep(mk: Masks, w: World, g: Gravity, fuel: nat) returns (r: Option<World>)
    requires MasksOk(mk) && Valid(w.l)
    ensures r.Some? ==> Keeps(w, r.value)
  {
    var cur := w;
    ghost var bound := SpeedNorm(w.p);
    var i := 0;
    while i < Abs(cur.p.xSpeed) / MOVEMENT_STEP_DIVISOR
      invariant 0 <= i <= bound / MOVEMENT_STEP_DIVISOR
      invariant Keeps(w, cur)
      decreases bound / MOVEMENT_STEP_DIVISOR - i
    {
      cur :- HorizontalStep(mk, cur, g, fuel);
      i := i + 1;
    }
    return Some(cur);
  }

  /** Pull the centre back inside the level's side edges. */
  function ClampToLevel(w: World): (w': World)
    ensures w'.(p := w.p) == w && w'.p.(xPos := w.p.xPos) == w.p
    ensures w'.p.xPos <= w.l.width * TILE_PX - Half(w.p.size)
    ensures w.l.width * TILE_PX >= BallSize(w.p.size) ==> Half(w.p.size) <= w'.p.xPos
    ensures Half(w.p.size) <= w.p.xPos <= w.l.width * TILE_PX - Half(w.p.size) ==> w' == w
  {
    var half := Half(w.p.size);
    var levelW := w.l.width * TILE_PX;
    var x1 := if w.p.xPos < half then half else w.p.xPos;
    var x2 := if x1 > levelW - half then levelW - half else x1;
    w.(p := w.p.(xPos := x2))
  }

  /** Run one frame of the ball. A popped ball only advances its pop
      animation. Otherwise the level keeps its shape and the steering keys
      are untouched; without the up key the speed ends within the clamp
      plus one gravity step; and the centre ends inside the level's side
      edges. */
  method PlayerUpdate(mk: Masks, w: World, fuel: nat) returns (r: Option<World>)
    requires MasksOk(mk) && Valid(w.l)
    ensures w.p.state == Popped ==> r == Some(w.(p := PoppedTick(w.p)))
    ensures r.Some? ==> Evolves(w.l, r.value.l) && r.value.p.direction == w.p.direction
    ensures r.Some? && w.p.state != Popped && Up !in w.p.direction ==> SpeedNorm(r.value.p) <= SETTLED_SPEED
    ensures r.Some? && w.p.state != Popped ==>
      r.value.p.xPos <= r.value.l.width * TILE_PX - Half(r.value.p.size)
    ensures r.Some? && w.p.state != Popped && r.value.l.width * TILE_PX >= BallSize(r.value.p.size) ==>
      Half(r.value.p.size) <= r.value.p.xPos
  {
    if w.p.state == Popped {
      return Some(w.(p := PoppedTick(w.p)));
    }
    var prep := Prepare(w);
    var g := prep.1;
    var col := CentreTile(w.p).0;
    var cur, _ :- VerticalSweep(mk, prep.0, g, col, fuel);
    GravityKeepsSpeedBounded(cur.p.ySpeed, cur.p.grounded, prep.0.p.inWater, w.p.size, w.p.gravBonus > 1);
    cur := cur.(p := Accelerate(cur.p, g));
    cur :- HorizontalSweep(mk, cur, g, fuel);
    return Some(ClampToLevel(cur));
  }
}

=== FILE: physics.dfy ===
/** The collision scan: a candidate ball centre becomes a range of tiles,
    and each tile of the range is tested in turn (columns outer, rows
    inner, no early exit). A tile test may block the move and may act on
    the world: pop the ball, resize it, set bonus counters, collect rings,
    move the checkpoint, finish the level or take an extra life.

    Resizing searches for room by probing positions with the same scan, so
    the scan, the tile test and the resize operations are mutually
    recursive; a `fuel` budget bounds that nesting and the otherwise
    unbounded enlarge search, and an exhausted budget yields `None`. */
module Physics {
  import opened Wrappers
  import opened CInt
  import opened LevelMap
  import opened Ball
  import opened Collide
  import Tiles
  import Game

  /** Everything the physics reads and writes. */
  datatype World = World(p: Player, l: Level, g: Game.Game)

  /** Outcome of a probe: may the ball move there, and the world as the
      probe left it. */
  datatype Verdict = Verdict(canMove: bool, w: World)

  /** The level only changes in its cells and its respawn tile. */
  ghost predicate Evolves(l: Level, l': Level) {
    Valid(l') && l'.(grid := l.grid, respawnX := l.respawnX, respawnY := l.respawnY) == l
  }

  /** What every probe preserves: the level's shape, the steering keys, a
      non-increasing speed magnitude, a popped ball staying popped, and a
      live ball not dying (a pop only starts the animation). */
  ghost predicate Keeps(w: World, w': World) {
    Evolves(w.l, w'.l) &&
    w'.p.direction == w.p.direction &&
    SpeedNorm(w'.p) <= SpeedNorm(w.p) &&
    (w.p.state == Popped ==> w'.p.state == Popped) &&
    (w'.p.state == Dead ==> w.p.state == Dead)
  }

  function Move(w: World, dx: int, dy: int): (w': World)
    ensures w'.p.xPos == w.p.xPos + dx && w'.p.yPos == w.p.yPos + dy
    ensures w'.(p := w.p) == w && w'.p.(xPos := w.p.xPos, yPos := w.p.yPos) == w.p
  {
    w.(p := w.p.(xPos := w.p.xPos + dx, yPos := w.p.yPos + dy))
  }

  // -------------------------------------------------------------------- pop

  /** Pop the ball and take a life, unless the invincibility cheat is on. */
  function PopBall(w: World): (w': World)
    ensures w.g.invincible ==> w' == w
    ensures !w.g.invincible ==>
      w'.p == Popped5(w.p) && w'.g == w.g.(numLives := w.g.numLives - 1) && w'.l == w.l
    ensures SpeedNorm(w'.p) <= SpeedNorm(w.p)
  {
    if w.g.invincible then w
    else w.(p := Popped5(w.p), g := w.g.(numLives := w.g.numLives - 1))
  }

  // ------------------------------------------------------------- tile range

  /** Columns [i, k) and rows [j, m) scanned for a probe. */
  datatype TileRange = TileRange(i: int, k: int, j: int, m: int)

  /** The tile range for a probe centred at (tx, ty), using C division.
      Above the top edge the rows are shifted up by one tile so that the
      row above the map is included. */
  function ScanRange(half: int, tx: int, ty: int): (r: TileRange)
    requires half > 0
    ensures r.i < r.k && r.j < r.m
  {
    var b := if ty < 0 then TILE_PX else 0;
    var r := TileRange(TruncDiv(tx - half, TILE_PX), TruncDiv(tx - 1 + half, TILE_PX) + 1,
                       TruncDiv(ty - b - half, TILE_PX), TruncDiv(ty - b - 1 + half, TILE_PX) + 1);
    assert r.i < r.k by { TruncDivMonotone(tx - half, tx - 1 + half); }
    assert r.j < r.m by { TruncDivMonotone(ty - b - half, ty - b - 1 + half); }
    r
  }

  lemma TruncDivMonotone(a: int, b: int)
    requires a <= b
    ensures TruncDiv(a, TILE_PX) <= TruncDiv(b, TILE_PX)
  {
  }

  /** On the map's non-negative quadrant the range is exactly the set of
      tiles that the ball's pixels [tx-half, tx+half) x [ty-half, ty+half)
      touch. */
  lemma ScanRangeIsBallFootprint(half: int, tx: int, ty: int, c: int, q: int)
    requires half > 0 && tx - half >= 0 && ty - half >= 0
    ensures var r := ScanRange(half, tx, ty);
      (r.i <= c < r.k <==> TILE_PX * c < tx + half && tx - half < TILE_PX * c + TILE_PX) &&
      (r.j <= q < r.m <==> TILE_PX * q < ty + half && ty - half < TILE_PX * q + TILE_PX)
  {
    var r := ScanRange(half, tx, ty);
    assert r.i == (tx - half) / TILE_PX && r.k == (tx - 1 + half) / TILE_PX + 1;
    assert r.j == (ty - half) / TILE_PX && r.m == (ty - 1 + half) / TILE_PX + 1;
  }

  /** Above the map the first scanned row is off the map; without the
      shift, truncation toward zero would start the scan at row 0 for a
      ball centre just above the top edge. */
  lemma ScanRangeAboveMap(half: int, tx: int, ty: int)
    requires 0 < half <= HALF_ENLARGED_SIZE && ty < 0
    ensures ScanRange(half, tx, ty).j <= -1
    ensures -TILE_PX < ty - half ==> TruncDiv(ty - half, TILE_PX) == 0
  {
  }

  // ------------------------------------------------------- the scan itself

  /** Probe the ball at centre (tx, ty): record the probed corner and fold
      the tile test over the range, starting from "can move". */
  function CollisionDetection(mk: Masks, w: World, tx: int, ty: int, fuel: nat): (r: Option<Verdict>)
    requires MasksOk(mk) && Valid(w.l)
    ensures r.Some? ==> Keeps(w, r.value.w)
    decreases fuel, 5, 0
  {
    var half := Half(w.p.size);
    var rg := ScanRange(half, tx, ty);
    var w1 := w.(p := w.p.(globalX := tx - half, globalY := ty - half));
    ScanCols(mk, w1, rg.i, rg.k, rg.j, rg.m, true, fuel)
  }

  /** Columns n..k-1, each over rows j..m-1. */
  function ScanCols(mk: Masks, w: World, n: int, k: int, j: int, m: int, canMove: bool, fuel: nat): (r: Option<Verdict>)
    requires MasksOk(mk) && Valid(w.l)
    ensures r.Some? ==> Keeps(w, r.value.w)
    ensures r.Some? && !canMove && r.value.w.p.state != Popped ==> !r.value.canMove
    ensures w.p.state == Popped ==>
      r == Some(Verdict(if n < k && j < m then InMap(w.l, k - 1, m - 1) else canMove, w))
    decreases fuel, 4, k - n
  {
    if n >= k then Some(Verdict(canMove, w))
    else
      var v :- ScanRows(mk, w, n, j, m, canMove, fuel);
      ScanCols(mk, v.w, n + 1, k, j, m, v.canMove, fuel)
  }

  /** Rows i1..m-1 of column n. */
  function ScanRows(mk: Masks, w: World, n: int, i1: int, m: int, canMove: bool, fuel: nat): (r: Option<Verdict>)
    requires MasksOk(mk) && Valid(w.l)
    ensures r.Some? ==> Keeps(w, r.value.w)
    ensures r.Some? && !canMove && r.value.w.p.state != Popped ==> !r.value.canMove
    ensures w.p.state == Popped ==>
      r == Some(Verdict(if i1 < m then InMap(w.l, n, m - 1) else canMove, w))
    decreases fuel, 3, m - i1
  {
    if i1 >= m then Some(Verdict(canMove, w))
    else
      var v :- TestTile(mk, w, i1, n, canMove, fuel);
      ScanRows(mk, v.w, n, i1 + 1, m, v.canMove, fuel)
  }

  /** Deflators 39..42 and inflators 43..46: the only tiles whose test
      needs the fuel budget. */
  predicate Resizer(id: int) {
    39 <= id <= 46
  }

  /** Test one tile. Off the map the move is blocked; a popped ball passes
      through every tile; ids without metadata leave the running verdict
      as it is. */
  function TestTile(mk: Masks, w: World, ty: int, tx: int, canMove: bool, fuel: nat): (r: Option<Verdict>)
    requires MasksOk(mk) && Valid(w.l)
    ensures r.Some? ==> Keeps(w, r.value.w)
    ensures !InMap(w.l, tx, ty) ==> r == Some(Verdict(false, w))
    ensures InMap(w.l, tx, ty) && w.p.state == Popped ==> r == Some(Verdict(true, w))
    ensures InMap(w.l, tx, ty) && w.p.state != Popped && GetId(w.l, tx, ty) >= Tiles.TILE_COUNT ==>
      r == Some(Verdict(canMove, w))
    ensures r.Some? && !canMove && w.p.state != Popped ==> !r.value.canMove
    ensures !(InMap(w.l, tx, ty) && Resizer(GetId(w.l, tx, ty))) ==> r.Some?
    decreases fuel, 2, 0
  {
    if !InMap(w.l, tx, ty) then Some(Verdict(false, w))
    else if w.p.state == Popped then Some(Verdict(true, w))
    else
      var id := GetId(w.l, tx, ty);
      if id >= Tiles.MetaCount() then Some(Verdict(canMove, w))
      else if Resizer(id) then ResizeTile(mk, w, ty, tx, id, canMove, fuel)
      else Some(TileEffect(mk, w, ty, tx, id, canMove))
  }

  /** A deflator always blocks and shrinks a large ball; an inflator blocks
      when its narrowed box is touched and then enlarges a small ball. */
  function ResizeTile(mk: Masks, w: World, ty: int, tx: int, id: int, canMove: bool, fuel: nat): (r: Option<Verdict>)
    requires MasksOk(mk) && Valid(w.l) && Resizer(id)
    ensures r.Some? ==> Keeps(w, r.value.w)
    ensures r.Some? && id <= 42 ==> !r.value.canMove
    ensures r.Some? && id >= 43 ==> (r.value.canMove <==> canMove && !ThinCollide(w.p, ty, tx, id))
    ensures id <= 42 && w.p.size == Small ==> r == Some(Verdict(false, w))
    ensures id >= 43 && !(ThinCollide(w.p, ty, tx, id) && w.p.size == Small) ==>
      r == Some(Verdict(canMove && !ThinCollide(w.p, ty, tx, id), w))
    decreases fuel, 1, 0
  {
    if id <= 42 then
      if w.p.size == Large then
        var w' :- Shrink(mk, w, fuel);
        Some(Verdict(false, w'))
      else Some(Verdict(false, w))
    else if ThinCollide(w.p, ty, tx, id) then
      if w.p.size == Small then
        var w' :- Enlarge(mk, w, fuel);
        Some(Verdict(false, w'))
      else Some(Verdict(false, w))
    else Some(Verdict(canMove, w))
  }

  /** Shrink a large ball, then nudge it 2 pixels down, else 2 up, if the
      nudged position is free. */
  function Shrink(mk: Masks, w: World, fuel: nat): (r: Option<World>)
    requires MasksOk(mk) && Valid(w.l)
    ensures r.Some? ==> Keeps(w, r.value)
    ensures w.p.size == Small ==> r == Some(w)
    decreases fuel, 0, 0
  {
    if w.p.size == Small then Some(w)
    else if fuel == 0 then None
    else
      var w0 := w.(p := w.p.(size := Small));
      var v1 :- CollisionDetection(mk, w0, w0.p.xPos, w0.p.yPos + 2, fuel - 1);
      if v1.canMove then Some(Move(v1.w, 0, 2))
      else
        var v2 :- CollisionDetection(mk, v1.w, v1.w.p.xPos, v1.w.p.yPos - 2, fuel - 1);
        if v2.canMove then Some(Move(v2.w, 0, -2)) else Some(v2.w)
  }

  /** Enlarge a small ball, then search rings of growing radius for room. */
  function Enlarge(mk: Masks, w: World, fuel: nat): (r: Option<World>)
    requires MasksOk(mk) && Valid(w.l)
    ensures r.Some? ==> Keeps(w, r.value)
    ensures w.p.size == Large ==> r == Some(w)
    decreases fuel, 0, 8
  {
    if w.p.size == Large then Some(w)
    else EnlargeSearch(mk, w.(p := w.p.(size := Large)), 2, fuel)
  }

  /** The six nudge directions of the enlarge search, in priority order:
      up, up-left, up-right, down, down-left, down-right. */
  const ENLARGE_STEPS: seq<(int, int)> := [(0, -1), (-1, -1), (1, -1), (0, 1), (-1, 1), (1, 1)]

  /** One round of the search at radius `off`; each failed round widens
      the radius by one pixel and costs one unit of fuel. */
  function EnlargeSearch(mk: Masks, w: World, off: int, fuel: nat): (r: Option<World>)
    requires MasksOk(mk) && Valid(w.l)
    ensures r.Some? ==> Keeps(w, r.value)
    decreases fuel, 0, 7
  {
    if fuel == 0 then None
    else
      var v :- TryNudges(mk, w, off, 0, fuel);
      if v.canMove then Some(v.w) else EnlargeSearch(mk, v.w, off + 1, fuel - 1)
  }

  /** Try directions s..5 at radius `off`; the verdict says whether one was
      free (the ball has then moved there). */
  function TryNudges(mk: Masks, w: World, off: int, s: nat, fuel: nat): (r: Option<Verdict>)
    requires MasksOk(mk) && Valid(w.l) && fuel > 0 && s <= |ENLARGE_STEPS|
    ensures r.Some? ==> Keeps(w, r.value.w)
    decreases fuel, 0, |ENLARGE_STEPS| - s
  {
    if s == |ENLARGE_STEPS| then Some(Verdict(false, w))
    else
      var d := ENLARGE_STEPS[s];
      var v :- CollisionDetection(mk, w, w.p.xPos + d.0 * off, w.p.yPos + d.1 * off, fuel - 1);
      if v.canMove then Some(Verdict(true, Move(v.w, d.0 * off, d.1 * off)))
      else TryNudges(mk, v.w, off, s + 1, fuel)
  }

  // ------------------------------------------------------ tile side effects

  /** Collect ring half `id` at (x, y): retire the pair, score it, maybe
      start the door. */
  function Collect(w: World, x: int, y: int, id: int): (w': World)
    requires Valid(w.l) && 0 <= id < 256
    ensures Evolves(w.l, w'.l) && w'.p == w.p
    ensures (w'.l, w'.g) == Game.RingCollected(w.l, w.g, x, y, id)
  {
    var r := Game.RingCollected(w.l, w.g, x, y, id);
    w.(l := r.0, g := r.1)
  }

  /** Ring halves 13..24 once the narrowed box is touched: a large ball is
      stopped by small rings; the lower halves 14 and 22 collect without a
      rim test and 18 lets the ball through; the other halves block on
      their rim and otherwise collect if active. */
  function RingTile(w: World, ty: int, tx: int, id: int, canMove: bool): (v: Verdict)
    requires Valid(w.l) && 13 <= id <= 24
    ensures Keeps(w, v.w) && v.w.p == w.p
    ensures !canMove ==> !v.canMove
  {
    if !ThinCollide(w.p, ty, tx, id) then Verdict(canMove, w)
    else if 13 <= id <= 20 && w.p.size == Large then Verdict(false, w)
    else if id == 14 || id == 22 then Verdict(canMove, Collect(w, tx, ty, id))
    else if id == 18 then Verdict(canMove, w)
    else if EdgeCollide(w.p, ty, tx, id) then Verdict(false, w)
    else if 13 <= id <= 16 || 21 <= id <= 24 then Verdict(canMove, Collect(w, tx, ty, id))
    else Verdict(canMove, w)
  }

  /** Moving spikes: the spike block covering this tile pops the ball when
      its 24-pixel box touches the ball. */
  function SpikeBlockTile(w: World, ty: int, tx: int, canMove: bool): (v: Verdict)
    requires Valid(w.l)
    ensures Keeps(w, v.w)
    ensures !canMove ==> !v.canMove
  {
    var idx := FindMovingObjectAt(w.l, tx, ty);
    if idx == -1 then Verdict(canMove, w)
    else
      match GetMovingObject(w.l, idx)
      case None => Verdict(canMove, w)
      case Some(o) =>
        if RectCollide(BallBox(w.p), SpikeBox(o)) then Verdict(false, PopBall(w)) else Verdict(canMove, w)
  }

  /** Every known tile other than the resizers, for an unpopped ball on an
      on-map tile. */
  function TileEffect(mk: Masks, w: World, ty: int, tx: int, id: int, canMove: bool): (v: Verdict)
    requires MasksOk(mk) && Valid(w.l) && 0 <= id < Tiles.TILE_COUNT && !Resizer(id)
    ensures Keeps(w, v.w)
    ensures !canMove ==> !v.canMove
  {
    if id <= 12 then PlainTileEffect(mk, w, ty, tx, id, canMove)
    else if id <= 28 then HoopTileEffect(w, ty, tx, id, canMove)
    else if id <= 37 then
      if id == Tiles.ID_EXTRA_LIFE then
        Verdict(canMove, w.(g := Game.AddExtraLife(w.g), l := SetId(w.l, tx, ty, Tiles.ID_EMPTY)))
      else RampTile(mk, w, ty, tx, id, canMove)
    else BonusTileEffect(w, id, canMove)
  }

  function PlainTileEffect(mk: Masks, w: World, ty: int, tx: int, id: int, canMove: bool): (v: Verdict)
    requires MasksOk(mk) && Valid(w.l) && 0 <= id <= 12
    ensures Keeps(w, v.w)
    ensures !canMove ==> !v.canMove
  {
    var p := w.p;
    if id == Tiles.ID_BRICK_RED then
      if SquareCollide(mk, p, ty, tx) then Verdict(false, w) else Verdict(canMove, w.(p := p.(ramp := true)))
    else if id == Tiles.ID_BRICK_BLUE then
      if SquareCollide(mk, p, ty, tx) then Verdict(false, w.(p := p.(rubber := true)))
      else Verdict(canMove, w.(p := p.(ramp := true)))
    else if 3 <= id <= 6 then
      if ThinCollide(p, ty, tx, id) then Verdict(false, PopBall(w)) else Verdict(canMove, w)
    else if id == Tiles.ID_MOVING_SPIKES then SpikeBlockTile(w, ty, tx, canMove)
    else if id == Tiles.ID_RESPAWN_GEM then
      Verdict(canMove, w.(g := Game.AddScore(w.g, Game.GEM_POINTS), l := Game.SetRespawn(w.l, tx, ty)))
    else if id == Tiles.ID_EXIT then
      if Game.ExitIsOpen(w.g) then Verdict(canMove, w.(g := Game.CompleteLevel(w.g))) else Verdict(false, w)
    else Verdict(canMove, w)
  }

  function HoopTileEffect(w: World, ty: int, tx: int, id: int, canMove: bool): (v: Verdict)
    requires Valid(w.l) && 13 <= id <= 28
    ensures Keeps(w, v.w)
    ensures !canMove ==> !v.canMove
  {
    if id <= 24 then RingTile(w, ty, tx, id, canMove)
    else if id == 25 || id == 27 || id == 28 then
      if EdgeCollide(w.p, ty, tx, id) then Verdict(false, w) else Verdict(canMove, w)
    else Verdict(canMove, w)
  }

  function BonusTileEffect(w: World, id: int, canMove: bool): (v: Verdict)
    requires Valid(w.l) && 38 <= id < Tiles.TILE_COUNT && !Resizer(id)
    ensures Keeps(w, v.w)
    ensures !canMove ==> !v.canMove
  {
    var p := w.p;
    if id == Tiles.ID_SPEED then Verdict(false, w.(p := p.(speedBonus := BONUS_DURATION)))
    else if 47 <= id <= 50 then Verdict(false, w.(p := p.(gravBonus := BONUS_DURATION)))
    else Verdict(false, w.(p := p.(jumpBonus := BONUS_DURATION)))
  }

  /** A ramp blocks on a pixel hit, raising the ramp flag (and the rubber
      flag for 34..37); an airborne ball is redirected. */
  function RampTile(mk: Masks, w: World, ty: int, tx: int, id: int, canMove: bool): (v: Verdict)
    requires MasksOk(mk) && Valid(w.l)
    ensures Keeps(w, v.w)
    ensures !canMove ==> !v.canMove
  {
    var t := TriangleCollide(mk, w.p, ty, tx, id);
    RedirectShrinks(w.p, id);
    if t.0 then Verdict(false, w.(p := t.1.(ramp := true, rubber := t.1.rubber || id >= 34)))
    else Verdict(canMove, w)
  }

  /** A ramp redirect keeps the speed magnitude bounded by the old one. */
  lemma RedirectShrinks(p: Player, id: int)
    ensures var v := Redirect(p.xSpeed, p.ySpeed, id);
      SpeedNorm(p.(xSpeed := v.0, ySpeed := v.1)) <= SpeedNorm(p)
  {
    RedirectNeverSpeedsUp(p.xSpeed, p.ySpeed, id);
  }
}

=== FILE: png.dfy ===
/** Texture bookkeeping of the PNG loader: the byte size of a texture in
    each GU pixel format, the bump allocator that hands out 16-byte-aligned
    VRAM offsets, the in-memory read cursor the image decoder pulls bytes
    through, the power-of-two rounding of texture dimensions, and the
    corner permutation that rotates and mirrors a sprite. */
module Png {
  import opened Wrappers
  import opened CInt

  const UINT32_LIMIT: int := 0x1_0000_0000

  // ---- Texture sizes ----

  /** GU pixel storage modes; `OtherPsm` is any code the size table does
      not list. */
  datatype Psm = Psm5650 | Psm5551 | Psm4444 | Psm8888 | PsmT4 | PsmT8 | PsmT16 | PsmT32 | OtherPsm

  /** Bits one pixel takes in each mode: the independent reference for
      the size table. */
  function BitsPerPixel(psm: Psm): nat {
    match psm
    case PsmT4 => 4
    case PsmT8 => 8
    case Psm5650 | Psm5551 | Psm4444 | PsmT16 => 16
    case Psm8888 | PsmT32 => 32
    case OtherPsm => 0
  }

  /** Bytes a `w` by `h` texture needs, computed in unsigned 32-bit
      arithmetic. Whenever even the 32-bit formats cannot wrap it is the
      pixel count times the bits per pixel over eight, rounded down for an
      odd 4-bit texture. */
  function TextureMemorySize(w: nat, h: nat, psm: Psm): (r: nat)
    requires w < UINT32_LIMIT && h < UINT32_LIMIT
    ensures r < UINT32_LIMIT
    ensures w * h * 4 < UINT32_LIMIT ==> r == w * h * BitsPerPixel(psm) / 8
    ensures psm == OtherPsm ==> r == 0
  {
    var area := w * h;
    match psm
    case PsmT4 => WrapUInt32(area) / 2
    case PsmT8 => WrapUInt32(area)
    case Psm5650 | Psm5551 | Psm4444 | PsmT16 => WrapUInt32(2 * area)
    case Psm8888 | PsmT32 => WrapUInt32(4 * area)
    case OtherPsm => 0
  }

  // ---- VRAM bump allocator ----

  const VRAM_BUFFER_WIDTH: int := 512
  const VRAM_BUFFER_HEIGHT: int := 272
  const FRAMEBUFFER_BPP: int := 4
  /** Textures start after the two 32-bit frame buffers. */
  const VRAM_TEXTURE_START: int := VRAM_BUFFER_WIDTH * VRAM_BUFFER_HEIGHT * FRAMEBUFFER_BPP * 2

  /** `x` rounded up to a multiple of 16, in unbounded arithmetic. */
  function AlignUp16(x: nat): (r: nat)
    ensures r % 16 == 0 && x <= r < x + 16
  {
    (x + 15) / 16 * 16
  }

  /** The allocator as written: it checks that the unaligned block fits,
      in wrapping 32-bit arithmetic, and only then aligns the offset. The
      result is the block's offset, if any, and the next free offset. */
  function VramAlloc(offset: nat, memSize: nat, vramSize: nat): (r: (Option<nat>, nat))
    requires offset < UINT32_LIMIT && memSize < UINT32_LIMIT && vramSize < UINT32_LIMIT
    ensures r.0.None? ==> r.1 == offset
    ensures r.0.Some? ==> r.0.value % 16 == 0 && r.1 < UINT32_LIMIT
    ensures offset % 16 == 0 && offset + memSize < UINT32_LIMIT ==> r == VramAllocChecked(offset, memSize, vramSize)
    ensures offset + memSize < UINT32_LIMIT ==> (r.0.None? <==> offset + memSize > vramSize)
    ensures r.0.Some? && offset + memSize + 16 <= UINT32_LIMIT ==>
      offset <= r.0.value < offset + 16 && r.0.value + memSize < vramSize + 16 && r.1 == r.0.value + memSize
  {
    if WrapUInt32(offset + memSize) > vramSize then (None, offset)
    else
      var aligned := WrapUInt32(offset + 15) / 16 * 16;
      (Some(aligned), WrapUInt32(aligned + memSize))
  }

  /** Overrun of the allocator as written: four bytes short of a 16-byte
      boundary near the end of VRAM, an 8-byte block passes the check but
      is placed on the boundary, so it ends 8 bytes past VRAM. */
  lemma VramAllocOverruns()
    ensures var r := VramAlloc(0x1F_FFF4, 8, 0x20_0000);
      r.0 == Some(0x20_0000) && r.0.value + 8 > 0x20_0000
  {
  }

  /** The allocator with the check made after alignment and without
      wrap-around: a block is handed out exactly when its aligned placement
      ends inside VRAM. */
  function VramAllocChecked(offset: nat, memSize: nat, vramSize: nat): (r: (Option<nat>, nat))
    ensures r.0.None? <==> AlignUp16(offset) + memSize > vramSize
    ensures r.0.None? ==> r.1 == offset
    ensures r.0.Some? ==> var a := r.0.value;
      a % 16 == 0 && offset <= a < offset + 16 && a + memSize <= vramSize && r.1 == a + memSize
  {
    var aligned := AlignUp16(offset);
    if aligned + memSize > vramSize then (None, offset) else (Some(aligned), aligned + memSize)
  }

  /** Successive blocks from the checked allocator never overlap: the
      second starts at or after the end of the first. */
  lemma AllocationsDisjoint(offset: nat, m1: nat, m2: nat, vramSize: nat)
    requires VramAllocChecked(offset, m1, vramSize).0.Some?
    ensures var (a1, next) := VramAllocChecked(offset, m1, vramSize);
      var (a2, _) := VramAllocChecked(next, m2, vramSize);
      a2.Some? ==> a1.value + m1 <= a2.value
  {
  }

  // ---- Memory read cursor ----

  /** The whole file in memory and the decoder's read position. */
  datatype MemoryBuffer = MemoryBuffer(data: seq<Byte>, pos: int)

  predicate Valid(b: MemoryBuffer) {
    0 <= b.pos <= |b.data|
  }

  /** Read up to `n` bytes: the request is cut to what remains, and a
      request of nothing or past the end copies nothing. */
  function Read(b: MemoryBuffer, n: int): (r: (seq<Byte>, MemoryBuffer))
    requires Valid(b)
    ensures Valid(r.1) && r.1.data == b.data
    ensures |r.0| == Max(0, Min(n, |b.data| - b.pos))
    ensures r.1.pos == b.pos + |r.0|
    ensures r.0 == b.data[b.pos..r.1.pos]
  {
    var size := if b.pos + n > |b.data| then |b.data| - b.pos else n;
    if size <= 0 then ([], b)
    else (b.data[b.pos..b.pos + size], b.(pos := b.pos + size))
  }

  /** Skip `n` bytes, stopping at the end of the data. A negative `n` moves
      back without a lower bound. */
  function Skip(b: MemoryBuffer, n: int): (r: MemoryBuffer)
    ensures r.data == b.data
    ensures r.pos == Min(b.pos + n, |b.data|)
    ensures Valid(b) && n >= 0 ==> Valid(r) && b.pos <= r.pos
  {
    var p := b.pos + n;
    b.(pos := if p > |b.data| then |b.data| else p)
  }

  predicate Eof(b: MemoryBuffer) {
    b.pos >= |b.data|
  }

  /** Two reads in a row return the same bytes, and leave the same cursor,
      as one read of the combined length. */
  lemma {:induction false} ReadsConcatenate(b: MemoryBuffer, n1: nat, n2: nat)
    requires Valid(b)
    ensures var (s1, b1) := Read(b, n1);
      var (s2, b2) := Read(b1, n2);
      s1 + s2 == Read(b, n1 + n2).0 && b2 == Read(b, n1 + n2).1
  {
    var (s1, b1) := Read(b, n1);
    var (s2, b2) := Read(b1, n2);
    var (s, b') := Read(b, n1 + n2);
    assert b'.pos == b2.pos;
    assert s1 + s2 == b.data[b.pos..b2.pos];
  }

  /** A read of everything that remains, or a skip past it, reaches the
      end; a read that stops short does not. */
  lemma EndOfData(b: MemoryBuffer, n: int)
    requires Valid(b)
    ensures Eof(Read(b, n).1) <==> Eof(b) || n >= |b.data| - b.pos
    ensures n >= |b.data| - b.pos ==> Eof(Skip(b, n))
  {
  }

  // ---- Power-of-two texture dimensions ----

  predicate IsPow2(p: int)
    decreases p
  {
    p == 1 || (p > 1 && p % 2 == 0 && IsPow2(p / 2))
  }

  lemma {:induction false} Pow2Below(q: int, p: int)
    requires IsPow2(q) && IsPow2(p) && q < p
    ensures q <= p / 2
    decreases p
  {
    if q > 1 {
      Pow2Below(q / 2, p / 2);
    }
  }

  /** The texture side for an image side of `n`: doubling from 1 until it
      reaches `n`. Doubling past 2^30 would overflow the C `int`. */
  method RoundUpPow2(n: int) returns (p: int)
    requires n <= 0x4000_0000
    ensures IsPow2(p) && n <= p
    ensures forall q :: IsPow2(q) && n <= q ==> p <= q
  {
    p := 1;
    while p < n
      invariant IsPow2(p) && (p == 1 || p / 2 < n)
      decreases n - p
    {
      p := p * 2;
    }
    forall q | IsPow2(q) && n <= q
      ensures p <= q
    {
      if q < p {
        Pow2Below(q, p);
      }
    }
  }

  /** A decoded image laid into a texture of power-of-two sides. */
  datatype Texture = Texture(width: int, height: int, actualWidth: int, actualHeight: int, vramOffset: Option<nat>)

  /** Place a `width` by `height` image: power-of-two sides, 32-bit pixels,
      VRAM when the allocator as written grants a block and main memory
      otherwise. The allocator tests the unaligned block, so a granted block
      starts at most 15 bytes after `offset` and ends less than 16 bytes
      past VRAM; it lies wholly inside VRAM when `offset` was aligned. */
  method PlaceTexture(width: int, height: int, offset: nat, vramSize: nat) returns (tex: Texture, next: nat)
    requires 1 <= width <= 0x4000 && 1 <= height <= 0x4000
    requires offset < UINT32_LIMIT && vramSize < UINT32_LIMIT
    ensures IsPow2(tex.width) && width <= tex.width < 2 * width
    ensures IsPow2(tex.height) && height <= tex.height < 2 * height
    ensures tex.actualWidth == width && tex.actualHeight == height
    ensures tex.vramOffset.None? ==> next == offset
    ensures var size := tex.width * tex.height * 4;
      offset + size < UINT32_LIMIT ==> (tex.vramOffset.None? <==> offset + size > vramSize)
    ensures tex.vramOffset.Some? ==> tex.vramOffset.value % 16 == 0
    ensures var size := tex.width * tex.height * 4;
      tex.vramOffset.Some? && offset + size + 16 <= UINT32_LIMIT ==>
        var a := tex.vramOffset.value;
        offset <= a < offset + 16 && a + size < vramSize + 16 && next == a + size
    ensures var size := tex.width * tex.height * 4;
      tex.vramOffset.Some? && offset % 16 == 0 && offset + size < UINT32_LIMIT ==>
        tex.vramOffset.value + size <= vramSize
  {
    var w := RoundUpPow2(width);
    var h := RoundUpPow2(height);
    SideBound(width, w);
    SideBound(height, h);
    var size := w * h * 4;
    AreaBound(w, h);
    var (block, after) := VramAlloc(offset, size, vramSize);
    tex := Texture(w, h, width, height, block);
    next := after;
  }

  lemma AreaBound(w: int, h: int)
    requires 0 <= w <= 0x4000 && 0 <= h <= 0x4000
    ensures 0 <= w * h * 4 <= 0x4000_0000
  {
    assert w * h <= 0x4000 * h <= 0x4000 * 0x4000;
  }

  /** The power-of-two side for a side of at most 16384 is at most 16384. */
  lemma SideBound(n: int, p: int)
    requires n <= 0x4000 && forall q :: IsPow2(q) && n <= q ==> p <= q
    ensures p <= 0x4000
  {
    assert IsPow2(0x4000) by {
      assert IsPow2(1) && IsPow2(2) && IsPow2(4) && IsPow2(8) && IsPow2(16) && IsPow2(32);
      assert IsPow2(64) && IsPow2(128) && IsPow2(256) && IsPow2(512) && IsPow2(1024);
      assert IsPow2(2048) && IsPow2(4096) && IsPow2(8192);
    }
  }

  // ---- Sprite corner permutation ----

  /** Transform codes in declaration order; unknown codes draw untransformed. */
  datatype Transform = Identity | Rot90 | Rot180 | Rot270 | FlipX | FlipY
                     | Rot270FlipX | Rot270FlipY | Rot270FlipXY

  function TransformOf(code: int): (t: Transform)
    ensures (code < 0 || code > 8) ==> t == Identity
  {
    if code == 1 then Rot90 else if code == 2 then Rot180 else if code == 3 then Rot270
    else if code == 4 then FlipX else if code == 5 then FlipY
    else if code == 6 then Rot270FlipX else if code == 7 then Rot270FlipY
    else if code == 8 then Rot270FlipXY else Identity
  }

  function CodeOf(t: Transform): (code: int)
    ensures 0 <= code <= 8
  {
    match t
    case Identity => 0 case Rot90 => 1 case Rot180 => 2 case Rot270 => 3
    case FlipX => 4 case FlipY => 5
    case Rot270FlipX => 6 case Rot270FlipY => 7 case Rot270FlipXY => 8
  }

  /** Codes and transforms correspond one to one on 0..8. */
  lemma TransformCodesRoundTrip(t: Transform, code: int)
    ensures TransformOf(CodeOf(t)) == t
    ensures 0 <= code <= 8 ==> CodeOf(TransformOf(code)) == code
  {
  }

  /** A transform as quarter turns followed by optional mirrors. */
  datatype Steps = Steps(turns: nat, mirrorX: bool, mirrorY: bool)

  function StepsOf(t: Transform): Steps {
    match t
    case Identity => Steps(0, false, false)
    case Rot90 => Steps(1, false, false)
    case Rot180 => Steps(2, false, false)
    case Rot270 => Steps(3, false, false)
    case FlipX => Steps(0, true, false)
    case FlipY => Steps(0, false, true)
    case Rot270FlipX => Steps(3, true, false)
    case Rot270FlipY => Steps(3, false, true)
    case Rot270FlipXY => Steps(3, true, true)
  }

  /** Corners are numbered 0 top-left, 1 top-right, 2 bottom-left,
      3 bottom-right; a `Corners` value says which source corner each
      screen corner shows. */
  datatype Corners = Corners(tl: int, tr: int, bl: int, br: int)

  const IDENTITY_ORDER: Corners := Corners(0, 1, 2, 3)

  /** Each of the four corners shown exactly once. */
  predicate Permutation(q: Corners) {
    {q.tl, q.tr, q.bl, q.br} == {0, 1, 2, 3}
  }

  /** One quarter-turn step of the corner array. */
  function TurnStep(q: Corners): Corners {
    Corners(q.tr, q.br, q.tl, q.bl)
  }

  /** Swap left and right. */
  function MirrorXStep(q: Corners): Corners {
    Corners(q.tr, q.tl, q.br, q.bl)
  }

  /** Swap top and bottom. */
  function MirrorYStep(q: Corners): Corners {
    Corners(q.bl, q.br, q.tl, q.tr)
  }

  // Geometric reference: corners as (row, column) points of the unit square.

  function Turn(c: (int, int)): (int, int) {
    (c.1, 1 - c.0)
  }

  /** `n` quarter turns. */
  function TurnN(c: (int, int), n: nat): (int, int)
    decreases n
  {
    if n == 0 then c else Turn(TurnN(c, n - 1))
  }

  /** Turning first and turning last agree. */
  lemma {:induction false} TurnNStep(c: (int, int), n: nat)
    ensures TurnN(c, n + 1) == TurnN(Turn(c), n)
    decreases n
  {
    if n > 0 {
      TurnNStep(c, n - 1);
    }
  }

  function MirrorX(c: (int, int)): (int, int) {
    (c.0, 1 - c.1)
  }

  function MirrorY(c: (int, int)): (int, int) {
    (1 - c.0, c.1)
  }

  function Index(c: (int, int)): int {
    2 * c.0 + c.1
  }

  /** The source point shown at screen point `c`: mirrors undone first,
      then the turns. */
  function SourceOf(t: Transform, c: (int, int)): (int, int) {
    var s := StepsOf(t);
    var c1 := if s.mirrorY then MirrorY(c) else c;
    var c2 := if s.mirrorX then MirrorX(c1) else c1;
    TurnN(c2, s.turns)
  }

  /** The corner order of a transform, read off the geometry. */
  function Geometric(t: Transform): Corners {
    Corners(Index(SourceOf(t, (0, 0))), Index(SourceOf(t, (0, 1))),
            Index(SourceOf(t, (1, 0))), Index(SourceOf(t, (1, 1))))
  }

  /** Every step of the array keeps it a permutation. */
  lemma StepsPermute(q: Corners)
    ensures Permutation(q) ==> Permutation(TurnStep(q)) && Permutation(MirrorXStep(q)) && Permutation(MirrorYStep(q))
  {
    assert {q.tr, q.br, q.tl, q.bl} == {q.tl, q.tr, q.bl, q.br};
    assert {q.tr, q.tl, q.br, q.bl} == {q.tl, q.tr, q.bl, q.br};
    assert {q.bl, q.br, q.tl, q.tr} == {q.tl, q.tr, q.bl, q.br};
  }

  /** The identity order after `n` quarter-turn steps of the array. */
  function Turned(n: nat): (r: Corners)
    ensures r.tl == Index(TurnN((0, 0), n)) && r.tr == Index(TurnN((0, 1), n))
    ensures r.bl == Index(TurnN((1, 0), n)) && r.br == Index(TurnN((1, 1), n))
  {
    if n == 0 then IDENTITY_ORDER
    else
      TurnNStep((0, 0), n - 1); TurnNStep((0, 1), n - 1);
      TurnNStep((1, 0), n - 1); TurnNStep((1, 1), n - 1);
      TurnStep(Turned(n - 1))
  }

  /** The corner order a transform draws with: the identity order turned
      `turns` times, then mirrored left-right, then top-bottom. It is a
      permutation of the four corners and the order the geometry of the
      transform prescribes. */
  method CornerOrder(t: Transform) returns (idx: Corners)
    ensures Permutation(idx)
    ensures idx == Geometric(t)
  {
    var s := StepsOf(t);
    var turned := TurnCorners(s.turns);
    idx := Mirrored(turned, s);
    MirrorsMatch(t, turned, idx);
    MirroredPermutes(turned, s);
  }

  lemma MirroredPermutes(q: Corners, s: Steps)
    requires Permutation(q)
    ensures Permutation(Mirrored(q, s))
  {
  }

  /** The mirror steps of a transform: left-right, then top-bottom. */
  function Mirrored(q: Corners, s: Steps): (r: Corners)
    ensures Permutation(q) ==> Permutation(r)
  {
    StepsPermute(q);
    var m := if s.mirrorX then MirrorXStep(q) else q;
    StepsPermute(m);
    if s.mirrorY then MirrorYStep(m) else m
  }

  /** The rotation loop: `turns` quarter-turn steps of the identity order,
      each keeping it a permutation. */
  method TurnCorners(turns: nat) returns (idx: Corners)
    ensures idx == Turned(turns) && Permutation(idx)
  {
    idx := IDENTITY_ORDER;
    var r := 0;
    while r < turns
      invariant 0 <= r <= turns && idx == Turned(r) && Permutation(idx)
    {
      StepsPermute(idx);
      idx := TurnStep(idx);
      r := r + 1;
    }
  }

  /** The mirrors of the array agree with the mirrors of the square. */
  lemma MirrorsMatch(t: Transform, turned: Corners, idx: Corners)
    requires turned == Turned(StepsOf(t).turns) && idx == Mirrored(turned, StepsOf(t))
    ensures idx == Geometric(t)
  {
  }

  /** Mirroring left-right and then top-bottom draws the same corners as
      the half turn; the tile renderer maps its both-ways mirror onto
      ROT_180 for this reason. */
  lemma MirrorBothIsHalfTurn()
    ensures MirrorYStep(MirrorXStep(IDENTITY_ORDER)) == Geometric(Rot180)
  {
  }

  /** The identity transform draws the corners in place. */
  lemma IdentityKeepsCorners()
    ensures Geometric(Identity) == IDENTITY_ORDER
  {
  }

  /** Three quarter turns with both mirrors show every corner where one
      quarter turn does. */
  lemma MirroredThreeQuartersIsQuarter(c: (int, int))
    ensures SourceOf(Rot270FlipXY, c) == SourceOf(Rot90, c)
    ensures Geometric(Rot270FlipXY) == Geometric(Rot90)
  {
    forall p: (int, int)
      ensures SourceOf(Rot270FlipXY, p) == SourceOf(Rot90, p)
    {
      var m := MirrorX(MirrorY(p));
      assert TurnN(m, 3) == Turn(Turn(Turn(m)));
    }
  }

  /** Four quarter turns restore every point and every corner array. */
  lemma FourTurnsRestore(q: Corners, c: (int, int))
    ensures TurnStep(TurnStep(TurnStep(TurnStep(q)))) == q
    ensures TurnN(c, 4) == c
  {
  }
}

=== FILE: ringtone.dfy ===
/** Nokia Smart Messaging ringtones (the OTT format): a most-significant-
    bit-first reader over the fixed-size file buffer, the tempo code table,
    and the parser that turns the pattern commands into a note list. */
module Ringtone {
  import opened CInt

  /** Size of the zero-filled buffer the file is read into. */
  const OTT_BUFFER_SIZE: int := 16738
  const MAX_NOTES: int := 1024
  const MAX_PATTERN_NOTES: int := 100

  /** Beats per minute for each 5-bit tempo code. */
  const TEMPO_CODES: seq<int> := [25, 28, 31, 35, 40, 45, 50, 56, 63, 70, 80, 90, 100,
                                  112, 125, 140, 160, 180, 200, 225, 250, 285, 320,
                                  355, 400, 450, 500, 565, 635, 715, 800, 900]

  /** The tempo for a 5-bit code. */
  function ReverseTempo(l: int): (bpm: int)
    requires 0 <= l < 32
    ensures 25 <= bpm <= 900
    ensures bpm in TEMPO_CODES
  {
    TEMPO_CODES[l]
  }

  /** The tempo table rises strictly from 25 to 900, so distinct codes
      give distinct tempos and a larger code is faster. */
  lemma TempoTableRises()
    ensures |TEMPO_CODES| == 32 && TEMPO_CODES[0] == 25 && TEMPO_CODES[31] == 900
    ensures forall i, j :: 0 <= i < j < 32 ==> TEMPO_CODES[i] < TEMPO_CODES[j]
  {
    assert forall i :: 0 <= i < 31 ==> TEMPO_CODES[i] < TEMPO_CODES[i + 1];
    forall i, j | 0 <= i < j < 32
      ensures TEMPO_CODES[i] < TEMPO_CODES[j]
    {
      var k := i;
      while k < j
        invariant i <= k <= j
        invariant TEMPO_CODES[i] <= TEMPO_CODES[k]
        invariant k > i ==> TEMPO_CODES[i] < TEMPO_CODES[k]
      {
        k := k + 1;
      }
    }
  }

  /** A read position: byte `ptr` and bit `bitptr` within it, counted from
      the most significant bit. */
  datatype Cursor = Cursor(ptr: int, bitptr: int)

  predicate CursorOk(c: Cursor) {
    0 <= c.ptr && 0 <= c.bitptr <= 7
  }

  /** The 16-bit big-endian window starting at byte `ptr`. */
  function Window(buf: seq<Byte>, ptr: int): int
    requires 0 <= ptr && ptr + 1 < |buf|
  {
    (buf[ptr] as int) * 256 + buf[ptr + 1] as int
  }

  /** Bit `p` of the buffer read as one stream, most significant bit of
      each byte first. */
  function BitAt(buf: seq<Byte>, p: nat): int
    requires p / 8 < |buf|
  {
    (buf[p / 8] / Pow2(7 - p % 8)) % 2
  }

  /** The `n` stream bits from position `pos`, first bit most significant. */
  function StreamBits(buf: seq<Byte>, pos: nat, n: nat): int
    requires n == 0 || (pos + n - 1) / 8 < |buf|
  {
    if n == 0 then 0 else 2 * StreamBits(buf, pos, n - 1) + BitAt(buf, pos + n - 1)
  }

  /** Read `bits` bits at the cursor. Reading stops at the last byte pair of
      the buffer: from there on every read is zero and the cursor stays. */
  function GetBits(buf: seq<Byte>, c: Cursor, bits: int): (r: (int, Cursor))
    requires |buf| == OTT_BUFFER_SIZE && CursorOk(c) && 0 <= bits <= 8
    ensures 0 <= r.0 < Pow2(bits)
    ensures CursorOk(r.1)
    ensures c.ptr >= OTT_BUFFER_SIZE - 1 ==> r == (0, c)
    ensures c.ptr < OTT_BUFFER_SIZE - 1 ==>
      r.1.ptr * 8 + r.1.bitptr == c.ptr * 8 + c.bitptr + bits
    ensures r.1.ptr == c.ptr || r.1.ptr == c.ptr + 1
  {
    if c.ptr >= OTT_BUFFER_SIZE - 1 then (0, c)
    else
      var holding := Window(buf, c.ptr);
      var i := (holding / Pow2(16 - (bits + c.bitptr))) % Pow2(bits);
      var b := c.bitptr + bits;
      if b > 7 then (i, Cursor(c.ptr + 1, b - 8)) else (i, Cursor(c.ptr, b))
  }

  /** The reader's window arithmetic reads exactly the next `bits` bits of
      the stream. */
  lemma GetBitsReadsStream(buf: seq<Byte>, c: Cursor, bits: int)
    requires |buf| == OTT_BUFFER_SIZE && CursorOk(c) && 0 <= bits <= 8
    requires c.ptr < OTT_BUFFER_SIZE - 1
    ensures GetBits(buf, c, bits).0 == StreamBits(buf, c.ptr * 8 + c.bitptr, bits)
  {
    WindowBits(buf, c.ptr, c.bitptr, bits);
  }

  // ---- Arithmetic behind the reader ----

  lemma DivUnique(x: int, d: int, q: int, r: int)
    requires d > 0 && x == d * q + r && 0 <= r < d
    ensures x / d == q && x % d == r
  {
    var q0 := x / d;
    var r0 := x % d;
    assert d * q0 + r0 == d * q + r;
    var a := q0 - q;
    assert d * a == r - r0;
    if a > 0 {
      MulGrows(d, a);
    } else if a < 0 {
      MulGrows(d, -a);
    }
  }

  lemma MulGrows(d: int, a: int)
    requires d > 0 && a > 0
    ensures d * a >= d
  {
    assert d * a == d + d * (a - 1);
    assert d * (a - 1) >= 0;
  }

  lemma Pow2Add(a: nat, b: nat)
    ensures Pow2(a + b) == Pow2(a) * Pow2(b)
  {
    if b > 0 {
      Pow2Add(a, b - 1);
      assert Pow2(a + b) == 2 * Pow2(a + b - 1);
    }
  }

  lemma DivDiv(x: nat, p: nat, q: nat)
    requires p > 0 && q > 0
    ensures x / (p * q) == (x / p) / q
  {
    var a := x / p;
    var r := x % p;
    var b := a / q;
    var e := a % q;
    assert x == p * a + r;
    assert a == q * b + e;
    assert p * a == p * (q * b) + p * e;
    assert p * (q * b) == (p * q) * b;
    MulLe(p, e, q - 1);
    assert p * (q - 1) == p * q - p;
    DivUnique(x, p * q, b, p * e + r);
  }

  lemma MulLe(p: int, a: int, b: int)
    requires p >= 0 && a <= b
    ensures p * a <= p * b
  {
    assert p * b - p * a == p * (b - a);
  }

  /** Peel the lowest bit off a window of `n + 1` bits. */
  lemma ModHalf(y: nat, n: nat)
    ensures y % Pow2(n + 1) == 2 * ((y / 2) % Pow2(n)) + y % 2
  {
    var m := Pow2(n);
    assert Pow2(n + 1) == 2 * m;
    var h := y / 2;
    var a := h / m;
    var e := h % m;
    assert y == 2 * h + y % 2;
    assert y == (2 * m) * a + (2 * e + y % 2);
    DivUnique(y, 2 * m, a, 2 * e + y % 2);
  }

  /** Bit `j` (0 = most significant) of the 16-bit window at byte `ptr` is
      stream bit `8 * ptr + j`. */
  lemma WindowBit(buf: seq<Byte>, ptr: nat, j: nat)
    requires ptr + 1 < |buf| && j < 16
    ensures Window(buf, ptr) / Pow2(15 - j) % 2 == BitAt(buf, 8 * ptr + j)
  {
    assert (8 * ptr + j) / 8 == ptr + j / 8 && (8 * ptr + j) % 8 == j % 8 by {
      DivUnique(8 * ptr + j, 8, ptr + j / 8, j % 8);
    }
    if j < 8 {
      HighByteBit(buf[ptr], buf[ptr + 1], j);
    } else {
      LowByteBit(buf[ptr], buf[ptr + 1], j - 8);
    }
  }

  /** The high byte of a window holds its first eight bits. */
  lemma HighByteBit(b0: Byte, b1: Byte, j: nat)
    requires j < 8
    ensures (b0 as int * 256 + b1 as int) / Pow2(15 - j) == b0 as int / Pow2(7 - j)
  {
    var h := b0 as int * 256 + b1 as int;
    assert Pow2(8) == 256;
    Pow2Add(8, 7 - j);
    assert 8 + (7 - j) == 15 - j;
    DivDiv(h, 256, Pow2(7 - j));
    DivUnique(h, 256, b0 as int, b1 as int);
  }

  /** The low byte of a window holds its last eight bits. */
  lemma LowByteBit(b0: Byte, b1: Byte, i: nat)
    requires i < 8
    ensures (b0 as int * 256 + b1 as int) / Pow2(7 - i) % 2 == b1 as int / Pow2(7 - i) % 2
  {
    var k: nat := 7 - i;
    Pow2Add(k, 8 - k);
    assert Pow2(8) == 256;
    assert Pow2(8 - k) == 2 * Pow2(7 - k);
    ShiftBelowEvenMultiple(b0 as int, b1 as int, Pow2(k), Pow2(7 - k));
  }

  /** Shifting right by `d` with `d * 2p == 256` leaves an even multiple of
      the high byte above the shifted low byte. */
  lemma ShiftBelowEvenMultiple(b0: int, b1: int, d: int, p: int)
    requires d > 0 && d * (2 * p) == 256 && 0 <= b1
    ensures (b0 * 256 + b1) / d % 2 == b1 / d % 2
  {
    var q := b1 / d;
    var h := b0 * 256 + b1;
    assert b0 * 256 == d * (2 * (b0 * p)) by {
      assert b0 * (d * (2 * p)) == d * (2 * (b0 * p));
    }
    assert h == d * (2 * (b0 * p) + q) + b1 % d;
    DivUnique(h, d, 2 * (b0 * p) + q, b1 % d);
  }

  /** `n` bits of the window, ending `s` bits above its bottom, are the
      stream bits that start `16 - s - n` bits into it. */
  /** One more bit below a run of `n - 1` bits: the arithmetic half of
      WindowBits. */
  lemma BitsStep(h: nat, s: nat, n: nat, low: int, bit: int)
    requires n > 0
    requires h / Pow2(s + 1) % Pow2(n - 1) == low
    requires h / Pow2(s) % 2 == bit
    ensures h / Pow2(s) % Pow2(n) == 2 * low + bit
  {
    var y := h / Pow2(s);
    DivDiv(h, Pow2(s), 2);
    assert Pow2(s + 1) == Pow2(s) * 2;
    ModHalf(y, n - 1);
  }

  /** `n` bits of the window, ending `s` bits above its bottom, are the
      stream bits that start `16 - s - n` bits into it. */
  lemma {:induction false} WindowBits(buf: seq<Byte>, ptr: nat, bp: nat, n: nat)
    requires ptr + 1 < |buf| && bp + n <= 16
    ensures Window(buf, ptr) / Pow2(16 - (n + bp)) % Pow2(n) == StreamBits(buf, 8 * ptr + bp, n)
  {
    if n > 0 {
      var h: nat := Window(buf, ptr);
      var s: nat := 16 - (n + bp);
      WindowBits(buf, ptr, bp, n - 1);
      assert 16 - (n - 1 + bp) == s + 1;
      WindowBit(buf, ptr, bp + n - 1);
      assert 15 - (bp + n - 1) == s;
      BitsStep(h, s, n, StreamBits(buf, 8 * ptr + bp, n - 1), BitAt(buf, 8 * ptr + bp + n - 1));
    }
  }

  // ---- The parser ----

  datatype Note = Note(tone: int, length: int, modifier: int, scale: int, style: int, bpm: int, volume: int)

  /** The parser's output and the settings it carries from command to
      command. */
  datatype OttInfo = OttInfo(
    notes: seq<Note>,
    songName: seq<int>,
    loop: int,
    scale: int,
    style: int,
    bpm: int,
    volume: int)

  /** One pattern command: a pattern header (skipped), a note (stored with
      the current settings while there is room), or a new scale, style,
      tempo or volume. Unknown command codes change nothing but the
      cursor. */
  function Command(buf: seq<Byte>, c: Cursor, info: OttInfo): (r: (Cursor, OttInfo))
    requires |buf| == OTT_BUFFER_SIZE && CursorOk(c)
    ensures CursorOk(r.0) && c.ptr <= r.0.ptr
    ensures info.notes <= r.1.notes && |r.1.notes| <= |info.notes| + 1
    ensures |r.1.notes| > |info.notes| ==>
      |info.notes| < MAX_NOTES &&
      r.1.(notes := info.notes) == info &&
      var n := r.1.notes[|info.notes|];
      n.scale == info.scale && n.style == info.style && n.bpm == info.bpm && n.volume == info.volume &&
      0 <= n.tone < 16 && 0 <= n.length < 8 && 0 <= n.modifier < 4
    ensures r.1.songName == info.songName && r.1.loop == info.loop
    ensures c.ptr >= OTT_BUFFER_SIZE - 1 ==> r == (c, info)
    ensures r.1.scale != info.scale ==> 0 <= r.1.scale <= 2
    ensures r.1.style != info.style ==> 0 <= r.1.style < 4
    ensures r.1.bpm != info.bpm ==> r.1.bpm in TEMPO_CODES
    ensures r.1.volume != info.volume ==> 0 <= r.1.volume < 16
  {
    var (k, c1) := GetBits(buf, c, 3);
    if k == 0 then
      var (_, c2) := GetBits(buf, c1, 2);
      (c2, info)
    else if k == 1 then
      if |info.notes| < MAX_NOTES then
        var (tone, c2) := GetBits(buf, c1, 4);
        var (length, c3) := GetBits(buf, c2, 3);
        var (modifier, c4) := GetBits(buf, c3, 2);
        (c4, info.(notes := info.notes + [Note(tone, length, modifier, info.scale, info.style, info.bpm, info.volume)]))
      else (c1, info)
    else if k == 2 then
      var (sc, c2) := GetBits(buf, c1, 2);
      (c2, info.(scale := if sc > 0 then sc - 1 else sc))
    else if k == 3 then
      var (st, c2) := GetBits(buf, c1, 2);
      (c2, info.(style := st))
    else if k == 4 then
      var (code, c2) := GetBits(buf, c1, 5);
      (c2, info.(bpm := ReverseTempo(code)))
    else if k == 5 then
      var (vol, c2) := GetBits(buf, c1, 4);
      (c2, info.(volume := vol))
    else (c1, info)
  }

  /** A pattern command as the stream spells it: a 3-bit code and the
      fields that code announces. */
  datatype Cmd =
    | PatternHeader
    | NoteCmd(tone: int, length: int, modifier: int)
    | ScaleCmd(code: int)
    | StyleCmd(code: int)
    | TempoCmd(code: int)
    | VolumeCmd(code: int)
    | UnknownCmd

  /** The stream bit where a cursor stands. */
  function Pos(c: Cursor): int {
    8 * c.ptr + c.bitptr
  }

  /** The command starting at stream bit `pos`, read straight from the
      bits, most significant first. The longest command takes 12 bits. */
  function CommandAt(buf: seq<Byte>, pos: nat): (cmd: Cmd)
    requires |buf| == OTT_BUFFER_SIZE && pos < 8 * (OTT_BUFFER_SIZE - 3)
    ensures cmd.TempoCmd? ==> 0 <= cmd.code < 32
  {
    var k := StreamBits(buf, pos, 3);
    if k == 0 then PatternHeader
    else if k == 1 then NoteCmd(StreamBits(buf, pos + 3, 4), StreamBits(buf, pos + 7, 3), StreamBits(buf, pos + 10, 2))
    else if k == 2 then ScaleCmd(StreamBits(buf, pos + 3, 2))
    else if k == 3 then StyleCmd(StreamBits(buf, pos + 3, 2))
    else if k == 4 then
      StreamBitsBound(buf, pos + 3, 5);
      assert Pow2(5) == 32;
      TempoCmd(StreamBits(buf, pos + 3, 5))
    else if k == 5 then VolumeCmd(StreamBits(buf, pos + 3, 4))
    else UnknownCmd
  }

  /** The octave a scale code selects: codes above 0 are kept one lower. */
  function ScaleOf(code: int): int {
    if code > 0 then code - 1 else code
  }

  /** What a command does to the parser: a note is stored with the
      current settings while there is room; a scale, style, tempo or
      volume command replaces that setting (the tempo through the code
      table); the pattern header and unknown codes change nothing. */
  function Apply(info: OttInfo, cmd: Cmd): OttInfo
    requires cmd.TempoCmd? ==> 0 <= cmd.code < 32
  {
    match cmd
    case NoteCmd(tone, length, modifier) =>
      if |info.notes| < MAX_NOTES
      then info.(notes := info.notes + [Note(tone, length, modifier, info.scale, info.style, info.bpm, info.volume)])
      else info
    case ScaleCmd(code) => info.(scale := ScaleOf(code))
    case StyleCmd(code) => info.(style := code)
    case TempoCmd(code) => info.(bpm := ReverseTempo(code))
    case VolumeCmd(code) => info.(volume := code)
    case _ => info
  }

  /** `n` stream bits make a number below 2^n. */
  lemma {:induction false} StreamBitsBound(buf: seq<Byte>, pos: nat, n: nat)
    requires n == 0 || (pos + n - 1) / 8 < |buf|
    ensures 0 <= StreamBits(buf, pos, n) < Pow2(n)
  {
    if n > 0 {
      StreamBitsBound(buf, pos, n - 1);
    }
  }

  /** A command that starts before the last three bytes of the buffer
      stores exactly what the stream says: the reader's fields are the
      stream's bits, so a note gets the tone, length and modifier written
      there, a scale code above 0 is stored one lower, and a tempo code
      becomes its bpm. */
  lemma CommandReadsStream(buf: seq<Byte>, c: Cursor, info: OttInfo)
    requires |buf| == OTT_BUFFER_SIZE && CursorOk(c) && c.ptr < OTT_BUFFER_SIZE - 3
    ensures Command(buf, c, info).1 == Apply(info, CommandAt(buf, Pos(c)))
  {
    var (k, c1) := GetBits(buf, c, 3);
    ReadStep(buf, c, 3);
    if k == 1 {
      NoteCase(buf, c, info);
    } else if 2 <= k <= 5 {
      SettingCase(buf, c, info, k);
    }
  }

  /** Command code 1 read from the stream. */
  lemma NoteCase(buf: seq<Byte>, c: Cursor, info: OttInfo)
    requires |buf| == OTT_BUFFER_SIZE && CursorOk(c) && c.ptr < OTT_BUFFER_SIZE - 3
    requires StreamBits(buf, Pos(c), 3) == 1
    ensures Command(buf, c, info).1 == Apply(info, CommandAt(buf, Pos(c)))
  {
    ReadStep(buf, c, 3);
    var c1 := GetBits(buf, c, 3).1;
    NoteReadsStream(buf, c1);
    var tone, length, modifier :=
      StreamBits(buf, Pos(c) + 3, 4), StreamBits(buf, Pos(c) + 7, 3), StreamBits(buf, Pos(c) + 10, 2);
    assert CommandAt(buf, Pos(c)) == NoteCmd(tone, length, modifier);
  }

  /** Command codes 2 to 5 read from the stream: the setting takes the
      next 2, 2, 5 or 4 bits. */
  lemma SettingCase(buf: seq<Byte>, c: Cursor, info: OttInfo, k: int)
    requires |buf| == OTT_BUFFER_SIZE && CursorOk(c) && c.ptr < OTT_BUFFER_SIZE - 3
    requires StreamBits(buf, Pos(c), 3) == k && 2 <= k <= 5
    ensures Command(buf, c, info).1 == Apply(info, CommandAt(buf, Pos(c)))
  {
    ReadStep(buf, c, 3);
    var c1 := GetBits(buf, c, 3).1;
    var n := if k == 4 then 5 else if k == 5 then 4 else 2;
    ReadStep(buf, c1, n);
    var v := StreamBits(buf, Pos(c) + 3, n);
    assert Command(buf, c, info).1 == SetTo(info, k, v);
    assert CommandAt(buf, Pos(c)) == (if k == 2 then ScaleCmd(v) else if k == 3 then StyleCmd(v)
                                      else if k == 4 then TempoCmd(v) else VolumeCmd(v));
  }

  /** The setting command `k` storing the value `v`. */
  function SetTo(info: OttInfo, k: int, v: int): OttInfo
    requires k == 4 ==> 0 <= v < 32
  {
    if k == 2 then info.(scale := ScaleOf(v))
    else if k == 3 then info.(style := v)
    else if k == 4 then info.(bpm := ReverseTempo(v))
    else info.(volume := v)
  }

  /** The three note fields after the command code are the stream's
      next 4, 3 and 2 bits. */
  lemma NoteReadsStream(buf: seq<Byte>, c1: Cursor)
    requires |buf| == OTT_BUFFER_SIZE && CursorOk(c1) && c1.ptr < OTT_BUFFER_SIZE - 2
    ensures var (tone, c2) := GetBits(buf, c1, 4);
      var (length, c3) := GetBits(buf, c2, 3);
      tone == StreamBits(buf, Pos(c1), 4) &&
      length == StreamBits(buf, Pos(c1) + 4, 3) &&
      GetBits(buf, c3, 2).0 == StreamBits(buf, Pos(c1) + 7, 2)
  {
    ReadStep(buf, c1, 4);
    var c2 := GetBits(buf, c1, 4).1;
    ReadStep(buf, c2, 3);
    var c3 := GetBits(buf, c2, 3).1;
    ReadStep(buf, c3, 2);
  }

  /** A read inside the buffer returns the stream's next bits and moves
      the cursor past them, at most one byte on. */
  lemma ReadStep(buf: seq<Byte>, c: Cursor, bits: int)
    requires |buf| == OTT_BUFFER_SIZE && CursorOk(c) && 0 <= bits <= 8
    requires c.ptr < OTT_BUFFER_SIZE - 1
    ensures GetBits(buf, c, bits).0 == StreamBits(buf, Pos(c), bits)
    ensures Pos(GetBits(buf, c, bits).1) == Pos(c) + bits
    ensures GetBits(buf, c, bits).1.ptr <= c.ptr + 1
  {
    GetBitsReadsStream(buf, c, bits);
  }

  /** Stream bit `pos` starts a scale command that sets the scale to `v`. */
  ghost predicate SetsScale(buf: seq<Byte>, pos: nat, v: int)
    requires |buf| == OTT_BUFFER_SIZE
  {
    pos < 8 * (OTT_BUFFER_SIZE - 3) && CommandAt(buf, pos).ScaleCmd? && v == ScaleOf(CommandAt(buf, pos).code)
  }

  /** The current scale and every stored note's scale are the starting
      scale `s0` or one a scale command in the stream sets. */
  ghost predicate ScalesRead(buf: seq<Byte>, info: OttInfo, s0: int)
    requires |buf| == OTT_BUFFER_SIZE
  {
    (info.scale == s0 || exists pos: nat :: SetsScale(buf, pos, info.scale)) &&
    forall k :: 0 <= k < |info.notes| ==>
      (info.notes[k].scale == s0 || exists pos: nat :: SetsScale(buf, pos, info.notes[k].scale))
  }

  /** A command read from the stream keeps ScalesRead. */
  lemma CommandKeepsScales(buf: seq<Byte>, c: Cursor, info: OttInfo, s0: int)
    requires |buf| == OTT_BUFFER_SIZE && CursorOk(c) && c.ptr < OTT_BUFFER_SIZE - 3
    requires ScalesRead(buf, info, s0)
    ensures ScalesRead(buf, Command(buf, c, info).1, s0)
  {
    CommandReadsStream(buf, c, info);
    var cmd := CommandAt(buf, Pos(c));
    var info' := Command(buf, c, info).1;
    if cmd.ScaleCmd? {
      assert SetsScale(buf, Pos(c), info'.scale);
      assert info'.notes == info.notes;
    } else if cmd.NoteCmd? && |info.notes| < MAX_NOTES {
      assert info'.scale == info.scale && info'.notes[|info.notes|].scale == info.scale;
      assert forall k :: 0 <= k < |info.notes| ==> info'.notes[k] == info.notes[k];
    } else {
      assert info'.scale == info.scale && info'.notes == info.notes;
    }
  }

  /** Every note of `info` was stored under settings the parser can reach
      from `start`: the starting value or one a command can set. */
  ghost predicate NotesFrom(info: OttInfo, start: OttInfo) {
    forall k :: 0 <= k < |info.notes| ==>
      (info.notes[k].scale == start.scale || 0 <= info.notes[k].scale <= 2) &&
      (info.notes[k].bpm == start.bpm || info.notes[k].bpm in TEMPO_CODES) &&
      0 <= info.notes[k].tone < 16
  }

  ghost predicate SettingsFrom(info: OttInfo, start: OttInfo) {
    (info.scale == start.scale || 0 <= info.scale <= 2) &&
    (info.bpm == start.bpm || info.bpm in TEMPO_CODES)
  }

  /** One pattern: at most 100 of its announced commands, stopping early
      when the cursor reaches the end of the data or of the buffer. */
  method Pattern(buf: seq<Byte>, c: Cursor, dataEnd: int, info: OttInfo, count: int) returns (c': Cursor, info': OttInfo)
    requires |buf| == OTT_BUFFER_SIZE && CursorOk(c)
    ensures CursorOk(c') && c.ptr <= c'.ptr
    ensures info.notes <= info'.notes && |info'.notes| <= |info.notes| + MAX_PATTERN_NOTES
    ensures |info.notes| <= MAX_NOTES ==> |info'.notes| <= MAX_NOTES
    ensures info'.songName == info.songName && info'.loop == info.loop
    ensures forall start :: NotesFrom(info, start) && SettingsFrom(info, start) ==>
      NotesFrom(info', start) && SettingsFrom(info', start)
    ensures dataEnd <= OTT_BUFFER_SIZE - 3 ==>
      forall s0 :: ScalesRead(buf, info, s0) ==> ScalesRead(buf, info', s0)
  {
    var n := if count > MAX_PATTERN_NOTES then MAX_PATTERN_NOTES else count;
    c' := c;
    info' := info;
    var x := 0;
    while x < n
      invariant CursorOk(c') && c.ptr <= c'.ptr
      invariant 0 <= x <= Max(n, 0)
      invariant info.notes <= info'.notes && |info'.notes| <= |info.notes| + x
      invariant |info.notes| <= MAX_NOTES ==> |info'.notes| <= MAX_NOTES
      invariant info'.songName == info.songName && info'.loop == info.loop
      invariant forall start :: NotesFrom(info, start) && SettingsFrom(info, start) ==>
        NotesFrom(info', start) && SettingsFrom(info', start)
      invariant dataEnd <= OTT_BUFFER_SIZE - 3 ==>
        forall s0 :: ScalesRead(buf, info, s0) ==> ScalesRead(buf, info', s0)
    {
      if c'.ptr >= dataEnd || c'.ptr >= OTT_BUFFER_SIZE - 1 {
        break;
      }
      var before, at := info', c';
      var step := Command(buf, c', info');
      c', info' := step.0, step.1;
      assert forall k :: 0 <= k < |before.notes| ==> info'.notes[k] == before.notes[k];
      if dataEnd <= OTT_BUFFER_SIZE - 3 {
        forall s0 | ScalesRead(buf, before, s0)
          ensures ScalesRead(buf, info', s0)
        {
          CommandKeepsScales(buf, at, before, s0);
        }
      }
      x := x + 1;
    }
  }

  /** The song name: a 4-bit length, then that many 8-bit characters. */
  method SongName(buf: seq<Byte>, c: Cursor) returns (name: seq<int>, c': Cursor)
    requires |buf| == OTT_BUFFER_SIZE && CursorOk(c)
    ensures CursorOk(c')
    ensures |name| == GetBits(buf, c, 4).0 && |name| < 16
    ensures forall k :: 0 <= k < |name| ==> 0 <= name[k] < 256
  {
    var (nameLength, c1) := GetBits(buf, c, 4);
    assert Pow2(4) == 16;
    c' := c1;
    name := [];
    while |name| < nameLength
      invariant CursorOk(c') && |name| <= nameLength
      invariant forall k :: 0 <= k < |name| ==> 0 <= name[k] < 256
    {
      var (ch, c2) := GetBits(buf, c', 8);
      assert Pow2(8) == 256;
      name, c' := name + [ch], c2;
    }
  }

  /** The pattern loop: up to `patterns` patterns, each headed by a 3-bit
      and a 2-bit field (skipped), a 4-bit loop count and an 8-bit command
      count, while the cursor is inside the data and the buffer. */
  method Patterns(buf: seq<Byte>, c: Cursor, dataEnd: int, info: OttInfo, patterns: int) returns (r: OttInfo)
    requires |buf| == OTT_BUFFER_SIZE && CursorOk(c) && |info.notes| <= MAX_NOTES
    ensures |r.notes| <= MAX_NOTES && info.notes <= r.notes
    ensures r.songName == info.songName
    ensures forall start :: NotesFrom(info, start) && SettingsFrom(info, start) ==>
      NotesFrom(r, start) && SettingsFrom(r, start)
    ensures dataEnd <= OTT_BUFFER_SIZE - 3 ==>
      forall s0 :: ScalesRead(buf, info, s0) ==> ScalesRead(buf, r, s0)
  {
    r := info;
    var c' := c;
    var left := patterns;
    while c'.ptr < dataEnd && c'.ptr < OTT_BUFFER_SIZE - 1
      invariant CursorOk(c')
      invariant |r.notes| <= MAX_NOTES && info.notes <= r.notes && r.songName == info.songName
      invariant forall start :: NotesFrom(info, start) && SettingsFrom(info, start) ==>
        NotesFrom(r, start) && SettingsFrom(r, start)
      invariant dataEnd <= OTT_BUFFER_SIZE - 3 ==>
        forall s0 :: ScalesRead(buf, info, s0) ==> ScalesRead(buf, r, s0)
      decreases if left > 0 then left else 0
    {
      if left <= 0 {
        break;
      }
      var c1 := GetBits(buf, c', 3).1;
      var c2 := GetBits(buf, c1, 2).1;
      var (loop, c3) := GetBits(buf, c2, 4);
      var (count, c4) := GetBits(buf, c3, 8);
      var before := r;
      c', r := Pattern(buf, c4, dataEnd, r.(loop := loop), count);
      assert forall start :: NotesFrom(before, start) ==> NotesFrom(before.(loop := loop), start);
      assert forall s0 :: ScalesRead(buf, before, s0) ==> ScalesRead(buf, before.(loop := loop), s0);
      if c'.ptr >= dataEnd {
        break;
      }
      left := left - 1;
    }
  }

  /** Parse a ringtone whose `dataEnd` bytes sit at the front of the
      zero-filled buffer. Only song types 1 and 2 are read; any other type
      ends the parse with no notes. The settings carried into the notes
      start from those already in `info`. */
  method ParseRingtone(buf: seq<Byte>, dataEnd: int, info: OttInfo) returns (r: OttInfo)
    requires |buf| == OTT_BUFFER_SIZE
    ensures |r.notes| <= MAX_NOTES
    ensures SongType(buf) != 1 && SongType(buf) != 2 ==> r == info.(notes := [])
    ensures NotesFrom(r, info)
    ensures SettingsFrom(r, info)
    ensures SongType(buf) == 1 || SongType(buf) == 2 ==> |r.songName| == StreamBits(buf, 26, 4)
    ensures dataEnd <= OTT_BUFFER_SIZE - 3 ==> ScalesRead(buf, r, info.scale)
  {
    r := info.(notes := []);
    var (k, c) := Header(buf);
    if k != 1 && k != 2 {
      return;
    }
    var name, c1 := SongName(buf, c);
    GetBitsReadsStream(buf, c, 4);
    var (patterns, c2) := GetBits(buf, c1, 8);
    r := Patterns(buf, c2, dataEnd, r.(songName := name), patterns);
  }

  /** The two header bytes, the 7-bit command-length field and the 3-bit
      song type; reading them leaves the cursor 26 bits in. */
  function Header(buf: seq<Byte>): (r: (int, Cursor))
    requires |buf| == OTT_BUFFER_SIZE
    ensures 0 <= r.0 < 8
    ensures r.0 == StreamBits(buf, 23, 3)
    ensures r.1 == Cursor(3, 2)
  {
    var (_, c1) := GetBits(buf, Cursor(0, 0), 8);
    var (_, c2) := GetBits(buf, c1, 8);
    var (_, c3) := GetBits(buf, c2, 7);
    GetBitsReadsStream(buf, c3, 3);
    assert Pow2(3) == 8;
    GetBits(buf, c3, 3)
  }

  function SongType(buf: seq<Byte>): int
    requires |buf| == OTT_BUFFER_SIZE
  {
    Header(buf).0
  }
}

=== FILE: save.dfy ===
/** Persistent records: the best level reached and the best score, kept in
    a 16-byte record (magic, level, score as little-endian 32-bit words,
    then zero padding) and written back only when a record improved. */
module Save {
  import opened Wrappers
  import opened CInt

  const SAVE_MAGIC: int := 0x424F_554E
  const SAVE_DATA_SIZE: nat := 16

  datatype SaveData = SaveData(magic: int, bestLevel: int, bestScore: int)

  /** The save subsystem: the record plus its initialised and dirty flags. */
  datatype SaveState = SaveState(data: SaveData, initialized: bool, dirty: bool)

  /** Result of the platform read of the save slot. */
  datatype LoadOutcome = Loaded(buf: seq<Byte>) | NoData | ReadError

  /** The record used when there is no usable save. */
  const DEFAULT_DATA: SaveData := SaveData(SAVE_MAGIC, 1, 0)

  /** All three fields fit the 32-bit words they are stored in. */
  predicate Storable(d: SaveData) {
    IsInt32(d.magic) && IsInt32(d.bestLevel) && IsInt32(d.bestScore)
  }

  /** Little-endian bytes of the low 32 bits of `v`. */
  function Word(v: int): (b: seq<Byte>)
    ensures |b| == 4
  {
    var u := WrapUInt32(v);
    var q1 := u / 256;
    var q2 := q1 / 256;
    [u % 256, q1 % 256, q2 % 256, q2 / 256]
  }

  /** The signed 32-bit value of four little-endian bytes. */
  function ReadWord(b: seq<Byte>, at: nat): (v: int)
    requires at + 4 <= |b|
    ensures IsInt32(v)
  {
    var b0: int, b1: int, b2: int, b3: int := b[at], b[at + 1], b[at + 2], b[at + 3];
    WrapInt32(b0 + 256 * b1 + 65536 * b2 + 16777216 * b3)
  }

  lemma {:induction false} WordRoundTrip(v: int)
    requires IsInt32(v)
    ensures ReadWord(Word(v), 0) == v
  {
    var u := WrapUInt32(v);
    var q1 := u / 256;
    var q2 := q1 / 256;
    assert u == u % 256 + 256 * q1;
    assert q1 == q1 % 256 + 256 * q2;
    assert q2 == q2 % 256 + 256 * (q2 / 256);
    var b := Word(v);
    var b0: int, b1: int, b2: int, b3: int := b[0], b[1], b[2], b[3];
    assert b0 + 256 * b1 + 65536 * b2 + 16777216 * b3 == u;
  }

  /** Serialise into the caller's buffer (`None` is a NULL pointer). A
      buffer shorter than 16 bytes is returned untouched; otherwise it is
      zeroed and the three words written at offsets 0, 4 and 8. */
  function PackData(d: SaveData, buf: Option<seq<Byte>>): (r: Option<seq<Byte>>)
    ensures buf.None? ==> r.None?
    ensures buf.Some? && |buf.value| < SAVE_DATA_SIZE ==> r == buf
    ensures buf.Some? && |buf.value| >= SAVE_DATA_SIZE ==>
      r.Some? && |r.value| == |buf.value| &&
      r.value[0..4] == Word(d.magic) && r.value[4..8] == Word(d.bestLevel) &&
      r.value[8..12] == Word(d.bestScore) &&
      forall i :: 12 <= i < |r.value| ==> r.value[i] == 0
  {
    match buf
    case None => None
    case Some(b) =>
      if |b| < SAVE_DATA_SIZE then buf
      else
        var w0, w1, w2 := Word(d.magic), Word(d.bestLevel), Word(d.bestScore);
        var out := w0 + w1 + w2 + seq(|b| - 12, _ => 0);
        assert out[0..4] == w0 && out[4..8] == w1 && out[8..12] == w2;
        Some(out)
  }

  /** Read the three words back; fails on a NULL or short buffer. */
  function UnpackData(buf: Option<seq<Byte>>): (r: Option<SaveData>)
    ensures r.Some? <==> buf.Some? && |buf.value| >= SAVE_DATA_SIZE
    ensures r.Some? ==>
      Storable(r.value) &&
      r.value == SaveData(ReadWord(buf.value, 0), ReadWord(buf.value, 4), ReadWord(buf.value, 8))
  {
    match buf
    case None => None
    case Some(b) =>
      if |b| < SAVE_DATA_SIZE then None
      else Some(SaveData(ReadWord(b, 0), ReadWord(b, 4), ReadWord(b, 8)))
  }

  /** Unpacking a packed record gives the record back. */
  lemma PackUnpackRoundTrip(d: SaveData, buf: seq<Byte>)
    requires Storable(d) && |buf| >= SAVE_DATA_SIZE
    ensures UnpackData(PackData(d, Some(buf))) == Some(d)
  {
    var p := PackData(d, Some(buf)).value;
    WordRoundTrip(d.magic);
    WordRoundTrip(d.bestLevel);
    WordRoundTrip(d.bestScore);
    assert ReadWord(p, 0) == ReadWord(Word(d.magic), 0);
    assert ReadWord(p, 4) == ReadWord(Word(d.bestLevel), 0);
    assert ReadWord(p, 8) == ReadWord(Word(d.bestScore), 0);
  }

  /** Record a finished game or level: raise the best level and best score
      if beaten, flag a new best score, and mark the record dirty if
      anything improved. Ignored before initialisation. Returns the new
      state and the new value of the game's new-best-score flag. */
  function UpdateRecords(s: SaveState, level: int, score: int, newBest: bool): (r: (SaveState, bool))
    ensures !s.initialized ==> r == (s, newBest)
    ensures r.0.initialized == s.initialized && r.0.data.magic == s.data.magic
    ensures r.0.data.bestLevel >= s.data.bestLevel && r.0.data.bestScore >= s.data.bestScore
    ensures s.initialized ==>
      r.0.data.bestLevel == (if level > s.data.bestLevel then level else s.data.bestLevel) &&
      r.0.data.bestScore == (if score > s.data.bestScore then score else s.data.bestScore)
    ensures s.initialized ==>
      (r.0.dirty <==> s.dirty || level > s.data.bestLevel || score > s.data.bestScore)
    ensures r.1 <==> newBest || (s.initialized && score > s.data.bestScore)
  {
    if !s.initialized then (s, newBest)
    else
      var levelUp := level > s.data.bestLevel;
      var scoreUp := score > s.data.bestScore;
      var d := s.data.(bestLevel := if levelUp then level else s.data.bestLevel,
                       bestScore := if scoreUp then score else s.data.bestScore);
      (s.(data := d, dirty := s.dirty || levelUp || scoreUp), newBest || scoreUp)
  }

  /** Outcome of a store attempt: the new state and the 16 bytes handed to
      the platform writer, if any. */
  datatype StoreResult = StoreResult(state: SaveState, written: Option<seq<Byte>>)

  /** Write the record if initialised and dirty. `writeOk` is what the
      platform write reports; only a successful write clears dirty. */
  function StoreData(s: SaveState, writeOk: bool): (r: StoreResult)
    ensures !(s.initialized && s.dirty) ==> r == StoreResult(s, None)
    ensures s.initialized && s.dirty ==>
      r.written.Some? && r.state.data == s.data.(magic := SAVE_MAGIC) &&
      r.state.initialized && (r.state.dirty <==> !writeOk) &&
      (Storable(s.data) ==> UnpackData(r.written) == Some(s.data.(magic := SAVE_MAGIC)))
  {
    if !s.initialized || !s.dirty then StoreResult(s, None)
    else
      var d := s.data.(magic := SAVE_MAGIC);
      var bytes := PackData(d, Some(seq(SAVE_DATA_SIZE, _ => 0)));
      if Storable(d) then
        PackUnpackRoundTrip(d, seq(SAVE_DATA_SIZE, _ => 0));
        StoreResult(s.(data := d, dirty := !writeOk), bytes)
      else
        StoreResult(s.(data := d, dirty := !writeOk), bytes)
  }

  /** The subsystem before `SaveInit` has run. */
  const FRESH: SaveState := SaveState(SaveData(0, 0, 0), false, false)

  /** A loaded slot holds a whole record that starts with the magic word. */
  predicate ValidRecord(buf: seq<Byte>) {
    |buf| >= SAVE_DATA_SIZE && ReadWord(buf, 0) == SAVE_MAGIC
  }

  /** Start-up as written. A loaded buffer with the right magic is adopted,
      any other loaded buffer yields the default record; a missing save
      yields the default record and then a store attempt; a read error
      leaves the subsystem uninitialised. `writeOk` is what a platform
      write would report. */
  function SaveInit(s: SaveState, load: LoadOutcome, writeOk: bool): (r: StoreResult)
    ensures s.initialized ==> r == StoreResult(s, None)
    ensures !s.initialized && load.ReadError? ==> r == StoreResult(s, None)
    ensures !s.initialized && load.Loaded? ==>
      r.written.None? && r.state.initialized && r.state.dirty == s.dirty
    ensures !s.initialized && load.Loaded? && ValidRecord(load.buf) ==>
      r.state.data == SaveData(SAVE_MAGIC, ReadWord(load.buf, 4), ReadWord(load.buf, 8))
    ensures !s.initialized && load.Loaded? && !ValidRecord(load.buf) ==>
      r.state.data == DEFAULT_DATA
    ensures !s.initialized && load.NoData? ==>
      r.state.initialized && r.state.data == DEFAULT_DATA && (r.written.Some? <==> s.dirty)
  {
    if s.initialized then StoreResult(s, None)
    else match load
      case Loaded(buf) =>
        var d := UnpackData(Some(buf));
        var data := if d.Some? && d.value.magic == SAVE_MAGIC then d.value else DEFAULT_DATA;
        StoreResult(s.(data := data, initialized := true), None)
      case NoData =>
        StoreData(s.(data := DEFAULT_DATA, initialized := true), writeOk)
      case ReadError =>
        StoreResult(s.(initialized := false), None)
  }

  /** What a store hands to the writer is what the next start-up adopts:
      a record saved by one session is the record the next session loads. */
  lemma {:induction false} StoredRecordReloads(s: SaveState, writeOk: bool)
    requires s.initialized && s.dirty && Storable(s.data)
    ensures var w := StoreData(s, true).written;
      w.Some? && SaveInit(FRESH, Loaded(w.value), writeOk).state.data == s.data.(magic := SAVE_MAGIC)
  {
    var w := StoreData(s, true).written;
    assert UnpackData(w) == Some(s.data.(magic := SAVE_MAGIC));
    assert ValidRecord(w.value);
  }

  /** On a first run the default record is meant to be written, but the
      dirty flag is still clear at that point, so the store does nothing. */
  lemma FirstRunIsNotWritten(writeOk: bool)
    ensures SaveInit(FRESH, NoData, writeOk).written.None?
    ensures SaveInit(FRESH, NoData, writeOk).state == SaveState(DEFAULT_DATA, true, false)
  {
  }

  /** Start-up with the first-run store made effective: the default record
      is marked dirty before the store. */
  function SaveInitFixed(s: SaveState, load: LoadOutcome, writeOk: bool): (r: StoreResult)
    ensures !(!s.initialized && load.NoData?) ==> r == SaveInit(s, load, writeOk)
    ensures !s.initialized && load.NoData? ==>
      r.state.initialized && r.state.data == DEFAULT_DATA && (r.state.dirty <==> !writeOk) &&
      UnpackData(r.written) == Some(DEFAULT_DATA)
  {
    if !s.initialized && load.NoData? then
      StoreData(s.(data := DEFAULT_DATA, initialized := true, dirty := true), writeOk)
    else
      SaveInit(s, load, writeOk)
  }

  /** With the fix, a first run always hands the default record to the
      writer, and a successful write leaves nothing pending. */
  lemma FirstRunIsWrittenWhenFixed(writeOk: bool)
    ensures SaveInitFixed(FRESH, NoData, writeOk).written.Some?
    ensures UnpackData(SaveInitFixed(FRESH, NoData, writeOk).written) == Some(DEFAULT_DATA)
    ensures writeOk ==> !SaveInitFixed(FRESH, NoData, writeOk).state.dirty
  {
  }
}

=== FILE: text.dfy ===
/** Text on screen: UTF-8 decoding of NUL-terminated strings, the width of
    a string in one of the atlas fonts, and the width of a number drawn in
    the large digit font. A C string is modelled as its bytes before the
    terminator; every byte past them reads as NUL. */
module Text {
  import opened Wrappers
  import opened CInt
  import Fonts

  /** Gaps between glyphs; every font has its gaps built into its glyph
      widths. */
  const FONT9_SPACING: int := 0
  const FONT12_SPACING: int := 0
  const FONT23_SPACING: int := 0
  const FONT24_SPACING: int := 0

  /** Width the measurer gives a minus sign in the digit font. */
  const MINUS_WIDTH: int := 10

  /** The code point that stands in for a malformed sequence: a space. */
  const REPLACEMENT: int := 0x20

  function SpacingFor(fontHeight: int): int {
    if fontHeight == 23 then FONT23_SPACING
    else if fontHeight == 12 then FONT12_SPACING
    else FONT9_SPACING
  }

  /** Byte `k` of a C string whose bytes before the terminator are `s`. */
  function At(s: seq<Byte>, k: int): Byte {
    if 0 <= k < |s| then s[k] else 0
  }

  /** `(b & 0xC0) == 0x80`: a continuation byte. */
  predicate Cont(b: int) {
    0x80 <= b < 0xC0
  }

  /** A C string holds no NUL before its terminator. */
  predicate NoNul(s: seq<Byte>) {
    forall k :: 0 <= k < |s| ==> s[k] != 0
  }

  /** Decode the code point starting at byte `i`: its value and the number
      of bytes it took. A lead byte without enough continuation bytes, or a
      byte that cannot start a sequence, yields a space and one byte. */
  function Decode(s: seq<Byte>, i: int): (r: (nat, int))
    ensures 1 <= r.1 <= 4
    ensures At(s, i) < 0x80 ==> r == (At(s, i), 1)
    ensures forall k :: i < k < i + r.1 ==> Cont(At(s, k))
    ensures r.1 == 1 && At(s, i) >= 0x80 ==> r.0 == REPLACEMENT
    ensures r.1 == 2 ==> 0xC0 <= At(s, i) < 0xE0
    ensures r.1 == 3 ==> 0xE0 <= At(s, i) < 0xF0
    ensures r.1 == 4 ==> 0xF0 <= At(s, i) < 0xF8
    ensures r.0 < 0x200000
  {
    var c: int := At(s, i);
    if c < 0x80 then (c, 1)
    else if 0xC0 <= c < 0xE0 then
      var c2: int := At(s, i + 1);
      if c2 == 0 || !Cont(c2) then (REPLACEMENT, 1)
      else ((c % 32) * 64 + c2 % 64, 2)
    else if 0xE0 <= c < 0xF0 then
      var c2: int := At(s, i + 1);
      var c3: int := At(s, i + 2);
      if c2 == 0 || c3 == 0 then (REPLACEMENT, 1)
      else if !Cont(c2) || !Cont(c3) then (REPLACEMENT, 1)
      else ((c % 16) * 4096 + (c2 % 64) * 64 + c3 % 64, 3)
    else if 0xF0 <= c < 0xF8 then
      var c2: int := At(s, i + 1);
      var c3: int := At(s, i + 2);
      var c4: int := At(s, i + 3);
      if c2 == 0 || c3 == 0 || c4 == 0 then (REPLACEMENT, 1)
      else if !Cont(c2) || !Cont(c3) || !Cont(c4) then (REPLACEMENT, 1)
      else ((c % 8) * 262144 + (c2 % 64) * 4096 + (c3 % 64) * 64 + c4 % 64, 4)
    else (REPLACEMENT, 1)
  }

  /** The shortest UTF-8 form of a code point the decoder can produce. */
  function Encode(cp: nat): (b: seq<Byte>)
    requires cp < 0x200000
    ensures 1 <= |b| <= 4
    ensures |b| == 1 <==> cp < 0x80
    ensures forall k :: 1 <= k < |b| ==> Cont(b[k])
  {
    if cp < 0x80 then [cp]
    else if cp < 0x800 then [0xC0 + cp / 64, 0x80 + cp % 64]
    else if cp < 0x10000 then [0xE0 + cp / 4096, 0x80 + (cp / 64) % 64, 0x80 + cp % 64]
    else [0xF0 + cp / 262144, 0x80 + (cp / 4096) % 64, 0x80 + (cp / 64) % 64, 0x80 + cp % 64]
  }

  /** Decoding an encoded code point gives it back and consumes exactly its
      bytes, whatever follows. */
  lemma DecodeEncode(cp: nat, rest: seq<Byte>)
    requires cp < 0x200000
    ensures Decode(Encode(cp) + rest, 0) == (cp, |Encode(cp)|)
  {
    var b := Encode(cp);
    var s := b + rest;
    if cp < 0x80 {
      assert At(s, 0) == cp;
    } else if cp < 0x800 {
      DecodeTwo(cp, s);
    } else if cp < 0x10000 {
      DecodeThree(cp, s);
    } else {
      DecodeFour(cp, s);
    }
  }

  lemma DecodeTwo(cp: nat, s: seq<Byte>)
    requires 0x80 <= cp < 0x800 && |s| >= 2
    requires s[0] == 0xC0 + cp / 64 && s[1] == 0x80 + cp % 64
    ensures Decode(s, 0) == (cp, 2)
  {
    var c: int := At(s, 0);
    var c2: int := At(s, 1);
    assert c % 32 == cp / 64;
    assert c2 % 64 == cp % 64;
  }

  lemma DecodeThree(cp: nat, s: seq<Byte>)
    requires 0x800 <= cp < 0x10000 && |s| >= 3
    requires s[0] == 0xE0 + cp / 4096 && s[1] == 0x80 + (cp / 64) % 64 && s[2] == 0x80 + cp % 64
    ensures Decode(s, 0) == (cp, 3)
  {
    var c: int := At(s, 0);
    var c2: int := At(s, 1);
    var c3: int := At(s, 2);
    assert c % 16 == cp / 4096;
    assert c2 % 64 == (cp / 64) % 64;
    assert c3 % 64 == cp % 64;
    assert cp == (cp / 4096) * 4096 + ((cp / 64) % 64) * 64 + cp % 64;
  }

  lemma DecodeFour(cp: nat, s: seq<Byte>)
    requires 0x10000 <= cp < 0x200000 && |s| >= 4
    requires s[0] == 0xF0 + cp / 262144 && s[1] == 0x80 + (cp / 4096) % 64
    requires s[2] == 0x80 + (cp / 64) % 64 && s[3] == 0x80 + cp % 64
    ensures Decode(s, 0) == (cp, 4)
  {
    var c: int := At(s, 0);
    var c2: int := At(s, 1);
    var c3: int := At(s, 2);
    var c4: int := At(s, 3);
    assert c % 8 == cp / 262144;
    assert c2 % 64 == (cp / 4096) % 64;
    assert c3 % 64 == (cp / 64) % 64;
    assert c4 % 64 == cp % 64;
    SixBitGroups(cp);
  }

  /** A code point below 2^21 is its four six-bit groups (the top one
      three bits wide). */
  lemma SixBitGroups(cp: nat)
    requires cp < 0x200000
    ensures cp == (cp / 262144) * 262144 + ((cp / 4096) % 64) * 4096 + ((cp / 64) % 64) * 64 + cp % 64
  {
    var q1 := cp / 64;
    var q2 := q1 / 64;
    var q3 := q2 / 64;
    assert cp == q1 * 64 + cp % 64;
    assert q1 == q2 * 64 + q1 % 64;
    assert q2 == q3 * 64 + q2 % 64;
    assert cp / 4096 == q2 by {
      assert cp == q2 * 4096 + ((q1 % 64) * 64 + cp % 64);
    }
    assert cp / 262144 == q3 by {
      assert cp == q3 * 262144 + ((q2 % 64) * 4096 + (q1 % 64) * 64 + cp % 64);
    }
  }

  /** In a string without stray NULs a decoded sequence never runs past the
      terminator: its continuation bytes are non-zero, so they are in the
      string. */
  lemma DecodeStaysInside(s: seq<Byte>, i: int)
    requires 0 <= i < |s|
    ensures i + Decode(s, i).1 <= |s|
  {
  }

  /** The code points of a string from byte `i` on, as the drawing and
      measuring loops visit them. */
  function CodePoints(s: seq<Byte>, i: nat): (cps: seq<nat>)
    decreases |s| - i
  {
    if i >= |s| then []
    else [Decode(s, i).0] + CodePoints(s, i + Decode(s, i).1)
  }

  /** Width of one code point's glyph; no glyph counts zero. */
  function GlyphWidth(atlas: Fonts.Atlas, cp: nat): int {
    match Fonts.Lookup(Some(atlas), cp)
    case None => 0
    case Some(g) => g.w
  }

  function SumWidths(atlas: Fonts.Atlas, cps: seq<nat>): int {
    if |cps| == 0 then 0 else GlyphWidth(atlas, cps[0]) + SumWidths(atlas, cps[1..])
  }

  /** The width of a run of glyphs: their widths plus one gap between each
      neighbouring pair, none after the last. */
  function RunWidth(atlas: Fonts.Atlas, cps: seq<nat>, spacing: int): int {
    SumWidths(atlas, cps) + (if |cps| == 0 then 0 else spacing * (|cps| - 1))
  }

  /** What the measuring loop still adds from byte `i` on: each glyph, and a
      gap when another byte follows it. */
  function Remaining(atlas: Fonts.Atlas, s: seq<Byte>, i: nat, spacing: int): int
    decreases |s| - i
  {
    if i >= |s| then 0
    else
      var (cp, n) := Decode(s, i);
      GlyphWidth(atlas, cp) + (if At(s, i + n) != 0 then spacing else 0) + Remaining(atlas, s, i + n, spacing)
  }

  /** The loop's step-by-step sum is the run width of the decoded code
      points. */
  lemma {:induction false} RemainingIsRunWidth(atlas: Fonts.Atlas, s: seq<Byte>, i: nat, spacing: int)
    requires NoNul(s)
    ensures Remaining(atlas, s, i, spacing) == RunWidth(atlas, CodePoints(s, i), spacing)
    decreases |s| - i
  {
    if i < |s| {
      var r := Decode(s, i);
      DecodeStaysInside(s, i);
      RemainingIsRunWidth(atlas, s, i + r.1, spacing);
      var tail := CodePoints(s, i + r.1);
      assert CodePoints(s, i) == [r.0] + tail;
      assert (At(s, i + r.1) != 0) == (|tail| > 0);
      RunWidthCons(atlas, r.0, tail, spacing);
    }
  }

  /** Adding a glyph in front adds its width, and a gap when something
      follows it. */
  lemma RunWidthCons(atlas: Fonts.Atlas, cp: nat, tail: seq<nat>, spacing: int)
    ensures RunWidth(atlas, [cp] + tail, spacing) ==
      GlyphWidth(atlas, cp) + (if |tail| > 0 then spacing else 0) + RunWidth(atlas, tail, spacing)
  {
    assert ([cp] + tail)[1..] == tail;
    if |tail| > 0 {
      assert spacing * (|tail| + 1 - 1) == spacing + spacing * (|tail| - 1);
    }
  }

  /** Width in pixels of `text` drawn at `fontHeight`, measured with the
      atlas chosen for that height. `atlases` stands for the generated atlas
      data of each font, `None` for one that is missing. A missing string or
      a missing atlas measures zero. */
  method MeasureText(text: Option<seq<Byte>>, fontHeight: int, atlases: Fonts.FontId -> Option<Fonts.Atlas>)
    returns (width: int)
    requires text.Some? ==> NoNul(text.value)
    ensures var atlas := atlases(Fonts.AtlasByHeight(fontHeight));
      text.None? || atlas.None? ==> width == 0
    ensures var atlas := atlases(Fonts.AtlasByHeight(fontHeight));
      text.Some? && atlas.Some? ==>
        width == RunWidth(atlas.value, CodePoints(text.value, 0), SpacingFor(fontHeight))
  {
    if text.None? {
      return 0;
    }
    var s := text.value;
    var spacing := SpacingFor(fontHeight);
    var atlas := atlases(Fonts.AtlasByHeight(fontHeight));
    if atlas.None? {
      return 0;
    }
    var a := atlas.value;
    width := 0;
    var i: nat := 0;
    while At(s, i) != 0
      invariant i <= |s|
      invariant width + Remaining(a, s, i, spacing) == Remaining(a, s, 0, spacing)
      decreases |s| - i
    {
      var (cp, n) := Decode(s, i);
      DecodeStaysInside(s, i);
      var g := Fonts.Lookup(Some(a), cp);
      var glyphWidth := if g.Some? then g.value.w else 0;
      width := width + glyphWidth;
      var next := i + n;
      if At(s, next) != 0 {
        width := width + spacing;
      }
      i := next;
    }
    RemainingIsRunWidth(a, s, 0, spacing);
  }

  /** The decimal digits of a magnitude, most significant first, as `%d`
      prints them. */
  function Digits(m: nat): (ds: seq<nat>)
    ensures |ds| >= 1
    ensures forall k :: 0 <= k < |ds| ==> ds[k] < 10
    ensures m >= 10 ==> ds[0] != 0
  {
    if m < 10 then [m] else Digits(m / 10) + [m % 10]
  }

  /** The number a digit string denotes. */
  function Value(ds: seq<nat>): int {
    if |ds| == 0 then 0 else Value(ds[..|ds| - 1]) * 10 + ds[|ds| - 1]
  }

  /** `%d` loses nothing: the digits read back as the magnitude. */
  lemma {:induction false} DigitsValue(m: nat)
    ensures Value(Digits(m)) == m
  {
    if m >= 10 {
      DigitsValue(m / 10);
      var ds := Digits(m);
      assert ds[..|ds| - 1] == Digits(m / 10);
    }
  }

  /** The characters `%d` prints for `n`: a minus sign (as `None`) for a
      negative number, then the digits of its magnitude. */
  function Printed(n: int): (cs: seq<Option<nat>>)
    ensures |cs| == |Digits(Abs(n))| + (if n < 0 then 1 else 0)
  {
    (if n < 0 then [None] else []) + Somes(Digits(Abs(n)))
  }

  function Somes(ds: seq<nat>): (cs: seq<Option<nat>>)
    ensures |cs| == |ds|
    ensures forall k :: 0 <= k < |ds| ==> cs[k] == Some(ds[k])
  {
    if |ds| == 0 then [] else [Some(ds[0])] + Somes(ds[1..])
  }

  function SumDigitWidths(digitWidths: seq<int>, ds: seq<nat>): int
    requires |digitWidths| == 10
    requires forall k :: 0 <= k < |ds| ==> ds[k] < 10
  {
    if |ds| == 0 then 0 else digitWidths[ds[0]] + SumDigitWidths(digitWidths, ds[1..])
  }

  /** Width of a number in the large digit font, whose digit glyph widths
      are `digitWidths`: the minus sign counts ten pixels and no gap, and
      each digit its glyph with a gap before any character that follows. */
  method MeasureNumber(n: int, digitWidths: seq<int>) returns (width: int)
    requires |digitWidths| == 10
    ensures width == (if n < 0 then MINUS_WIDTH else 0) + SumDigitWidths(digitWidths, Digits(Abs(n)))
                     + FONT24_SPACING * (|Digits(Abs(n))| - 1)
  {
    var buf := Printed(n);
    var ds := Digits(Abs(n));
    var start := if n < 0 then 1 else 0;
    width := 0;
    var i := 0;
    while i < |buf|
      invariant 0 <= i <= |buf|
      invariant i <= start ==> width == (if i == 1 then MINUS_WIDTH else 0)
      invariant start <= i ==>
        width + SumDigitWidths(digitWidths, ds[i - start..]) + FONT24_SPACING * (|buf| - i - 1) ==
        (if n < 0 then MINUS_WIDTH else 0) + SumDigitWidths(digitWidths, ds) + FONT24_SPACING * (|ds| - 1)
    {
      if buf[i].Some? {
        var d := buf[i].value;
        assert d == ds[i - start];
        assert ds[i - start..][1..] == ds[i - start + 1..];
        width := width + digitWidths[d];
        if i + 1 < |buf| {
          width := width + FONT24_SPACING;
        }
      } else {
        width := width + MINUS_WIDTH;
      }
      i := i + 1;
    }
  }
}

=== FILE: tile_rules.dfy ===
/** What the tile test does, tile family by tile family, and what the
    collision scan guarantees as a whole. Each lemma is stated for an
    on-map tile and a ball that has not popped: off the map and for a
    popped ball the tile test's own contract already says everything. */
module TileRules {
  import opened Wrappers
  import opened CInt
  import opened LevelMap
  import opened Ball
  import opened Collide
  import opened Physics
  import Tiles
  import Game

  /** An on-map tile tested for a live ball. */
  ghost predicate Live(w: World, tx: int, ty: int) {
    Valid(w.l) && InMap(w.l, tx, ty) && w.p.state != Popped
  }

  /** Bonus tiles always block and start their 300-frame counter; nothing
      else changes. */
  lemma BonusTilesBlock(mk: Masks, w: World, ty: int, tx: int, canMove: bool, fuel: nat)
    requires MasksOk(mk) && Live(w, tx, ty)
    ensures var id := GetId(w.l, tx, ty); var r := TestTile(mk, w, ty, tx, canMove, fuel);
      (id == Tiles.ID_SPEED ==> r == Some(Verdict(false, w.(p := w.p.(speedBonus := BONUS_DURATION))))) &&
      (47 <= id <= 50 ==> r == Some(Verdict(false, w.(p := w.p.(gravBonus := BONUS_DURATION))))) &&
      (51 <= id <= 54 ==> r == Some(Verdict(false, w.(p := w.p.(jumpBonus := BONUS_DURATION)))))
  {
  }

  /** Deflators always block; only a large ball is shrunk. */
  lemma DeflatorRule(mk: Masks, w: World, ty: int, tx: int, canMove: bool, fuel: nat)
    requires MasksOk(mk) && Live(w, tx, ty) && 39 <= GetId(w.l, tx, ty) <= 42
    ensures var r := TestTile(mk, w, ty, tx, canMove, fuel);
      (w.p.size == Small ==> r == Some(Verdict(false, w))) &&
      (w.p.size == Large ==>
        (r.Some? <==> Shrink(mk, w, fuel).Some?) &&
        (r.Some? ==> r.value == Verdict(false, Shrink(mk, w, fuel).value)))
  {
  }

  /** Inflators block exactly when their narrowed box is touched, and then
      enlarge only a small ball. */
  lemma InflatorRule(mk: Masks, w: World, ty: int, tx: int, canMove: bool, fuel: nat)
    requires MasksOk(mk) && Live(w, tx, ty) && 43 <= GetId(w.l, tx, ty) <= 46
    ensures var id := GetId(w.l, tx, ty); var r := TestTile(mk, w, ty, tx, canMove, fuel);
      var hit := ThinCollide(w.p, ty, tx, id);
      (r.Some? ==> (r.value.canMove <==> canMove && !hit)) &&
      (!(hit && w.p.size == Small) ==> r == Some(Verdict(canMove && !hit, w))) &&
      (hit && w.p.size == Small ==>
        (r.Some? <==> Enlarge(mk, w, fuel).Some?) &&
        (r.Some? ==> r.value.w == Enlarge(mk, w, fuel).value))
  {
  }

  /** Spikes block and pop the ball exactly when their narrowed box is
      touched. */
  lemma SpikeRule(mk: Masks, w: World, ty: int, tx: int, canMove: bool, fuel: nat)
    requires MasksOk(mk) && Live(w, tx, ty) && 3 <= GetId(w.l, tx, ty) <= 6
    ensures var hit := ThinCollide(w.p, ty, tx, GetId(w.l, tx, ty));
      TestTile(mk, w, ty, tx, canMove, fuel) == Some(Verdict(canMove && !hit, if hit then PopBall(w) else w))
  {
  }

  /** Bricks block when the ball's pixels meet the square; a missed brick
      raises the ramp flag, a hit rubber brick the rubber flag. */
  lemma BrickRule(mk: Masks, w: World, ty: int, tx: int, canMove: bool, fuel: nat)
    requires MasksOk(mk) && Live(w, tx, ty) && 1 <= GetId(w.l, tx, ty) <= 2
    ensures var id := GetId(w.l, tx, ty); var hit := SquareCollide(mk, w.p, ty, tx);
      var r := TestTile(mk, w, ty, tx, canMove, fuel);
      r.Some? && r.value.w.(p := w.p) == w &&
      (r.value.canMove <==> canMove && !hit) &&
      (!hit ==> r.value.w.p == w.p.(ramp := true)) &&
      (hit && id == 1 ==> r.value.w.p == w.p) &&
      (hit && id == 2 ==> r.value.w.p == w.p.(rubber := true))
  {
  }

  /** What the tile test does on a ramp: the pixel test, and on a hit the
      ramp flag, the rubber flag for 34..37 and the redirected speeds. */
  lemma RampVerdict(mk: Masks, w: World, ty: int, tx: int, canMove: bool, fuel: nat)
    requires MasksOk(mk) && Live(w, tx, ty) && 30 <= GetId(w.l, tx, ty) <= 37
    ensures var id := GetId(w.l, tx, ty);
      var t := TriangleCollide(mk, w.p, ty, tx, id);
      TestTile(mk, w, ty, tx, canMove, fuel) ==
        Some(if t.0 then Verdict(false, w.(p := t.1.(ramp := true, rubber := t.1.rubber || id >= 34)))
             else Verdict(canMove, w))
  {
    var id := GetId(w.l, tx, ty);
    Dispatch(mk, w, ty, tx, canMove, fuel);
    RampEffect(mk, w, ty, tx, id, canMove);
  }

  lemma Dispatch(mk: Masks, w: World, ty: int, tx: int, canMove: bool, fuel: nat)
    requires MasksOk(mk) && Live(w, tx, ty) && 30 <= GetId(w.l, tx, ty) <= 37
    ensures TestTile(mk, w, ty, tx, canMove, fuel) == Some(RampTile(mk, w, ty, tx, GetId(w.l, tx, ty), canMove))
  {
    var id := GetId(w.l, tx, ty);
    PlainTile(mk, w, ty, tx, canMove, fuel, id);
    RampBranch(mk, w, ty, tx, id, canMove);
  }

  /** A known tile other than the resizers is tested by its effect. */
  lemma PlainTile(mk: Masks, w: World, ty: int, tx: int, canMove: bool, fuel: nat, id: int)
    requires MasksOk(mk) && Live(w, tx, ty) && id == GetId(w.l, tx, ty) && 0 <= id < Tiles.TILE_COUNT && !Resizer(id)
    ensures TestTile(mk, w, ty, tx, canMove, fuel) == Some(TileEffect(mk, w, ty, tx, id, canMove))
  {
  }

  lemma RampBranch(mk: Masks, w: World, ty: int, tx: int, id: int, canMove: bool)
    requires MasksOk(mk) && Valid(w.l) && 30 <= id <= 37
    ensures TileEffect(mk, w, ty, tx, id, canMove) == RampTile(mk, w, ty, tx, id, canMove)
  {
  }

  lemma RampEffect(mk: Masks, w: World, ty: int, tx: int, id: int, canMove: bool)
    requires MasksOk(mk) && Valid(w.l) && 30 <= id <= 37
    ensures var t := TriangleCollide(mk, w.p, ty, tx, id);
      RampTile(mk, w, ty, tx, id, canMove) ==
        (if t.0 then Verdict(false, w.(p := t.1.(ramp := true, rubber := t.1.rubber || id >= 34)))
         else Verdict(canMove, w))
  {
  }

  /** Ramps block on a pixel hit (the ramp's mask meets the ball's, see
      Collide.TriangleCollide) and raise the ramp flag (and the rubber
      flag for 34..37); a miss changes nothing. */
  lemma RampRule(mk: Masks, w: World, ty: int, tx: int, canMove: bool, fuel: nat)
    requires MasksOk(mk) && Live(w, tx, ty) && 30 <= GetId(w.l, tx, ty) <= 37
    ensures var id := GetId(w.l, tx, ty);
      var hit := TriangleCollide(mk, w.p, ty, tx, id).0;
      var r := TestTile(mk, w, ty, tx, canMove, fuel);
      r.Some? && r.value.w.(p := w.p) == w &&
      (!hit ==> r.value == Verdict(canMove, w)) &&
      (hit ==> !r.value.canMove && r.value.w.p.ramp && (r.value.w.p.rubber <==> w.p.rubber || id >= 34))
  {
    RampVerdict(mk, w, ty, tx, canMove, fuel);
  }

  /** A ramp hit redirects the ball only when it is airborne. */
  lemma RampRedirects(mk: Masks, w: World, ty: int, tx: int, canMove: bool, fuel: nat)
    requires MasksOk(mk) && Live(w, tx, ty) && 30 <= GetId(w.l, tx, ty) <= 37
    ensures var id := GetId(w.l, tx, ty);
      var hit := TriangleCollide(mk, w.p, ty, tx, id).0;
      var r := TestTile(mk, w, ty, tx, canMove, fuel);
      r.Some? &&
      (hit && w.p.grounded ==> (r.value.w.p.xSpeed, r.value.w.p.ySpeed) == (w.p.xSpeed, w.p.ySpeed)) &&
      (hit && !w.p.grounded ==> (r.value.w.p.xSpeed, r.value.w.p.ySpeed) == Redirect(w.p.xSpeed, w.p.ySpeed, id))
  {
    RampVerdict(mk, w, ty, tx, canMove, fuel);
  }

  /** Ring rules: small rings stop a large ball; the lower halves 14 and 22
      collect without a rim test; the rims of the other halves block;
      inactive rings never collect; 25, 27 and 28 only test their rim. */
  lemma RingRules(mk: Masks, w: World, ty: int, tx: int, canMove: bool, fuel: nat)
    requires MasksOk(mk) && Live(w, tx, ty) && 13 <= GetId(w.l, tx, ty) <= 28
    ensures var id := GetId(w.l, tx, ty); var r := TestTile(mk, w, ty, tx, canMove, fuel);
      var thin := ThinCollide(w.p, ty, tx, id); var rim := EdgeCollide(w.p, ty, tx, id);
      r.Some? && r.value.w.p == w.p &&
      (id <= 24 && !thin ==> r.value == Verdict(canMove, w)) &&
      (id <= 20 && thin && w.p.size == Large ==> r.value == Verdict(false, w)) &&
      ((id == 14 || id == 22) && thin && !(id == 14 && w.p.size == Large) ==>
        r.value == Verdict(canMove, Collect(w, tx, ty, id))) &&
      (id in {13, 15, 16, 21, 23, 24} && thin && !(id <= 20 && w.p.size == Large) ==>
        r.value == (if rim then Verdict(false, w) else Verdict(canMove, Collect(w, tx, ty, id)))) &&
      (17 <= id <= 20 || 25 <= id <= 28 ==> r.value.w == w) &&
      (id in {25, 27, 28} ==> r.value == Verdict(canMove && !rim, w)) &&
      (id == 26 ==> r.value == Verdict(canMove, w))
  {
  }

  /** Collecting a ring scores 500, counts it, and starts the door once the
      level's ring total is reached. */
  lemma CollectScores(w: World, tx: int, ty: int, id: int)
    requires Valid(w.l) && 0 <= id < 256
    ensures var w' := Collect(w, tx, ty, id);
      w'.g.score == w.g.score + Game.RING_POINTS && w'.g.numRings == w.g.numRings + 1 &&
      (w'.g.doorOpening <==> w.g.doorOpening || w.g.numRings + 1 >= w.l.totalRings)
  {
  }

  /** A checkpoint gem scores 200 and becomes the respawn tile, marked
      active; it never blocks. */
  lemma CheckpointRule(mk: Masks, w: World, ty: int, tx: int, canMove: bool, fuel: nat)
    requires MasksOk(mk) && Live(w, tx, ty) && GetId(w.l, tx, ty) == Tiles.ID_RESPAWN_GEM
    ensures var r := TestTile(mk, w, ty, tx, canMove, fuel);
      r.Some? && r.value.canMove == canMove && r.value.w.p == w.p &&
      r.value.w.g == Game.AddScore(w.g, Game.GEM_POINTS) &&
      GetRespawn(r.value.w.l) == (tx, ty) && GetId(r.value.w.l, tx, ty) == TILE_CHECKPOINT_ON
  {
  }

  /** A closed exit blocks; an open one completes the level. */
  lemma ExitRule(mk: Masks, w: World, ty: int, tx: int, canMove: bool, fuel: nat)
    requires MasksOk(mk) && Live(w, tx, ty) && GetId(w.l, tx, ty) == Tiles.ID_EXIT
    ensures var r := TestTile(mk, w, ty, tx, canMove, fuel);
      (!Game.ExitIsOpen(w.g) ==> r == Some(Verdict(false, w))) &&
      (Game.ExitIsOpen(w.g) ==> r == Some(Verdict(canMove, w.(g := Game.CompleteLevel(w.g))))) &&
      (Game.ExitIsOpen(w.g) ==> r.value.w.g.state == Game.LevelComplete)
  {
  }

  /** An extra life is taken: the cell becomes empty (flags kept), 1000
      points are scored, and the life count stays within 5. */
  lemma ExtraLifeRule(mk: Masks, w: World, ty: int, tx: int, canMove: bool, fuel: nat)
    requires MasksOk(mk) && Live(w, tx, ty) && GetId(w.l, tx, ty) == Tiles.ID_EXTRA_LIFE
    ensures var r := TestTile(mk, w, ty, tx, canMove, fuel);
      r.Some? && r.value.canMove == canMove && r.value.w.p == w.p &&
      GetId(r.value.w.l, tx, ty) == Tiles.ID_EMPTY &&
      r.value.w.l.grid[ty][tx] / 64 == w.l.grid[ty][tx] / 64 &&
      r.value.w.g.score == w.g.score + Game.LIFE_POINTS &&
      (w.g.numLives <= Game.MAX_LIVES ==> r.value.w.g.numLives <= Game.MAX_LIVES)
  {
  }

  // ----------------------------------------------------------- whole scans

  /** An off-map tile anywhere in a column blocks the scan unless the ball
      has popped by its end: no tile is skipped. */
  lemma {:induction false} RowsBlockedOffMap(mk: Masks, w: World, n: int, i1: int, m: int, canMove: bool, fuel: nat, q: int)
    requires MasksOk(mk) && Valid(w.l) && i1 <= q < m && !InMap(w.l, n, q)
    ensures var r := ScanRows(mk, w, n, i1, m, canMove, fuel);
      r.Some? && r.value.w.p.state != Popped ==> !r.value.canMove
    decreases m - i1
  {
    if ScanRows(mk, w, n, i1, m, canMove, fuel).Some? {
      var w1, c1 := ScanRowsHead(mk, w, n, i1, m, canMove, fuel);
      assert w1.l.width == w.l.width && w1.l.height == w.l.height;
      if i1 < q {
        RowsBlockedOffMap(mk, w1, n, i1 + 1, m, c1, fuel, q);
      }
    }
  }

  /** The first step of a column scan: the scan goes on from the next row
      with the world and verdict the first tile left, which for an off-map
      tile are the old world and a block. */
  lemma ScanRowsHead(mk: Masks, w: World, n: int, i1: int, m: int, canMove: bool, fuel: nat)
    returns (w1: World, c1: bool)
    requires MasksOk(mk) && Valid(w.l) && i1 < m && ScanRows(mk, w, n, i1, m, canMove, fuel).Some?
    ensures Keeps(w, w1)
    ensures ScanRows(mk, w, n, i1, m, canMove, fuel) == ScanRows(mk, w1, n, i1 + 1, m, c1, fuel)
    ensures !InMap(w.l, n, i1) ==> w1 == w && !c1
  {
    var v := TestTile(mk, w, i1, n, canMove, fuel);
    w1, c1 := v.value.w, v.value.canMove;
  }

  /** The same for the whole range: an off-map tile (c, q) of the range
      blocks the probe unless the ball has popped by its end. */
  lemma {:induction false} ColsBlockedOffMap(mk: Masks, w: World, n: int, k: int, j: int, m: int, canMove: bool, fuel: nat, c: int, q: int)
    requires MasksOk(mk) && Valid(w.l) && n <= c < k && j <= q < m && !InMap(w.l, c, q)
    ensures var r := ScanCols(mk, w, n, k, j, m, canMove, fuel);
      r.Some? && r.value.w.p.state != Popped ==> !r.value.canMove
    decreases k - n
  {
    var v := ScanRows(mk, w, n, j, m, canMove, fuel);
    if v.Some? {
      var w1 := v.value.w;
      assert w1.l.width == w.l.width && w1.l.height == w.l.height;
      if n == c {
        RowsBlockedOffMap(mk, w, n, j, m, canMove, fuel, q);
      } else {
        ColsBlockedOffMap(mk, w1, n + 1, k, j, m, v.value.canMove, fuel, c, q);
      }
    }
  }

  /** A probe whose centre is above the map is always blocked unless the
      ball pops during the probe. */
  lemma CeilingIsSolid(mk: Masks, w: World, tx: int, ty: int, fuel: nat)
    requires MasksOk(mk) && Valid(w.l) && ty < 0
    ensures var r := CollisionDetection(mk, w, tx, ty, fuel);
      r.Some? && r.value.w.p.state != Popped ==> !r.value.canMove
  {
    var half := Half(w.p.size);
    var rg := ScanRange(half, tx, ty);
    ScanRangeAboveMap(half, tx, ty);
    var w1 := w.(p := w.p.(globalX := tx - half, globalY := ty - half));
    ColsBlockedOffMap(mk, w1, rg.i, rg.k, rg.j, rg.m, true, fuel, rg.i, rg.j);
  }

  /** A popped ball's probe changes nothing but the probed corner, and its
      verdict is decided by the last tile of the range alone. */
  lemma PoppedProbe(mk: Masks, w: World, tx: int, ty: int, fuel: nat)
    requires MasksOk(mk) && Valid(w.l) && w.p.state == Popped
    ensures var half := Half(w.p.size); var rg := ScanRange(half, tx, ty);
      CollisionDetection(mk, w, tx, ty, fuel) ==
        Some(Verdict(InMap(w.l, rg.k - 1, rg.m - 1), w.(p := w.p.(globalX := tx - half, globalY := ty - half))))
  {
  }
}

=== FILE: tiles.dfy ===
/** The immutable tile metadata table: one record per tile id 0..54 saying
    how the tile is oriented, which atlas sprite draws it, which transform
    is applied to the sprite and how it is rendered. */
module Tiles {

  /** Orientation tag of a tile: spikes, ring halves and ramp corners. */
  datatype Orientation =
    | OrientNone
    | SpikeThinHoriz | SpikeThinVert
    | VertTop | VertBottom | HorizLeft | HorizRight
    | TopLeft | TopRight | BottomRight | BottomLeft

  /** Sprite transform used when drawing the tile. */
  datatype Transform = TfNone | TfRot90 | TfRot180 | TfRot270 | TfFlipX | TfFlipY

  /** How the renderer treats the tile. */
  datatype Render = RenderNormal | RenderComposite | RenderHoop

  /** One table row. `reserved` is the second column, which is 0 in every
      row of the table. */
  datatype TileMeta = TileMeta(orientation: Orientation, reserved: int, sprite: int,
                               transform: Transform, render: Render)

  /** Number of tile ids with metadata; ids at or above it are unknown. */
  const TILE_COUNT: nat := 55

  // Tile ids with gameplay meaning.
  const ID_EMPTY: int := 0
  const ID_BRICK_RED: int := 1
  const ID_BRICK_BLUE: int := 2
  const ID_RESPAWN_GEM: int := 7
  const ID_RESPAWN_INDICATOR: int := 8
  const ID_EXIT: int := 9
  const ID_MOVING_SPIKES: int := 10
  const ID_EXTRA_LIFE: int := 29
  const ID_SPEED: int := 38
  const ID_DEFLATOR_FIRST: int := 39
  const ID_INFLATOR_FIRST: int := 43
  const ID_GRAVITY_FIRST: int := 47
  const ID_JUMP_FIRST: int := 51

  function Row(o: Orientation, sprite: int, t: Transform, r: Render): TileMeta {
    TileMeta(o, 0, sprite, t, r)
  }

  /** The table, indexed by tile id. */
  const TILE_DB: seq<TileMeta> := PLAIN_ROWS + RING_ROWS + RAMP_ROWS + BONUS_ROWS

  /** Ids 0..12. */
  const PLAIN_ROWS: seq<TileMeta> := [
    Row(OrientNone, 255, TfNone, RenderNormal),        // 0 empty
    Row(OrientNone, 1, TfNone, RenderNormal),          // 1 red brick
    Row(OrientNone, 9, TfNone, RenderNormal),          // 2 blue (rubber) brick
    Row(SpikeThinHoriz, 12, TfNone, RenderNormal),     // 3 spikes up
    Row(SpikeThinVert, 12, TfRot270, RenderNormal),    // 4 spikes left
    Row(SpikeThinHoriz, 12, TfFlipY, RenderNormal),    // 5 spikes down
    Row(SpikeThinVert, 12, TfRot90, RenderNormal),     // 6 spikes right
    Row(OrientNone, 16, TfNone, RenderNormal),         // 7 checkpoint gem
    Row(OrientNone, 19, TfNone, RenderNormal),         // 8 active checkpoint
    Row(OrientNone, 14, TfNone, RenderNormal),         // 9 exit
    Row(OrientNone, 13, TfNone, RenderComposite),      // 10 moving spikes
    Row(OrientNone, 255, TfNone, RenderNormal),        // 11 unused
    Row(OrientNone, 255, TfNone, RenderNormal)         // 12 unused
  ]

  /** Ids 13..28. */
  const RING_ROWS: seq<TileMeta> := [
    Row(VertTop, 21, TfNone, RenderHoop),              // 13..16 small rings, active
    Row(VertBottom, 21, TfNone, RenderHoop),
    Row(HorizLeft, 21, TfNone, RenderHoop),
    Row(HorizRight, 21, TfNone, RenderHoop),
    Row(VertTop, 23, TfNone, RenderHoop),              // 17..20 small rings, inactive
    Row(VertBottom, 23, TfNone, RenderHoop),
    Row(HorizLeft, 23, TfNone, RenderHoop),
    Row(HorizRight, 23, TfNone, RenderHoop),
    Row(VertTop, 20, TfNone, RenderHoop),              // 21..24 large rings, active
    Row(VertBottom, 20, TfNone, RenderHoop),
    Row(HorizLeft, 20, TfNone, RenderHoop),
    Row(HorizRight, 20, TfNone, RenderHoop),
    Row(VertTop, 22, TfNone, RenderHoop),              // 25..28 large rings, inactive
    Row(VertBottom, 22, TfNone, RenderHoop),
    Row(HorizLeft, 22, TfNone, RenderHoop),
    Row(HorizRight, 22, TfNone, RenderHoop)
  ]

  /** Ids 29..37. */
  const RAMP_ROWS: seq<TileMeta> := [
    Row(OrientNone, 15, TfNone, RenderNormal),         // 29 extra life
    Row(TopLeft, 0, TfRot180, RenderNormal),           // 30..33 ramps
    Row(TopRight, 0, TfRot90, RenderNormal),
    Row(BottomRight, 0, TfNone, RenderNormal),
    Row(BottomLeft, 0, TfRot270, RenderNormal),
    Row(TopLeft, 8, TfRot180, RenderNormal),           // 34..37 rubber ramps
    Row(TopRight, 8, TfRot90, RenderNormal),
    Row(BottomRight, 8, TfNone, RenderNormal),
    Row(BottomLeft, 8, TfRot270, RenderNormal)
  ]

  /** Ids 38..54. */
  const BONUS_ROWS: seq<TileMeta> := [
    Row(OrientNone, 5, TfFlipX, RenderNormal),         // 38 speed bonus
    Row(OrientNone, 7, TfNone, RenderNormal),          // 39..42 deflators
    Row(OrientNone, 7, TfRot90, RenderNormal),
    Row(OrientNone, 7, TfRot180, RenderNormal),
    Row(OrientNone, 7, TfRot270, RenderNormal),
    Row(OrientNone, 18, TfNone, RenderNormal),         // 43..46 inflators
    Row(OrientNone, 18, TfRot90, RenderNormal),
    Row(OrientNone, 18, TfRot180, RenderNormal),
    Row(OrientNone, 18, TfRot270, RenderNormal),
    Row(OrientNone, 11, TfNone, RenderNormal),         // 47..50 gravity bonus
    Row(OrientNone, 11, TfRot90, RenderNormal),
    Row(OrientNone, 11, TfRot180, RenderNormal),
    Row(OrientNone, 11, TfRot270, RenderNormal),
    Row(OrientNone, 10, TfNone, RenderNormal),         // 51..54 jump bonus
    Row(OrientNone, 10, TfRot270, RenderNormal),
    Row(OrientNone, 10, TfRot180, RenderNormal),
    Row(OrientNone, 10, TfRot90, RenderNormal)
  ]

  /** The whole table (the C accessor returns a pointer to it). */
  function MetaDb(): (db: seq<TileMeta>)
    ensures |db| == TILE_COUNT
    ensures db[ID_EMPTY].sprite == 255 && db[ID_MOVING_SPIKES].render == RenderComposite
  {
    TILE_DB
  }

  /** Number of rows the accessor promises. */
  function MetaCount(): (n: nat)
    ensures n == |MetaDb()|
  {
    55
  }

  /** Metadata of a known id. */
  function Meta(id: int): TileMeta
    requires 0 <= id < TILE_COUNT
  {
    TILE_DB[id]
  }

  /** The orientation cycle shared by every group of four ring ids. */
  function RingCycle(k: int): Orientation
    requires 0 <= k < 4
  {
    [VertTop, VertBottom, HorizLeft, HorizRight][k]
  }

  /** Ring ids 13..28 are hoops whose orientation cycles through
      top, bottom, left, right. */
  lemma RingsAreHoops()
    ensures forall id :: 13 <= id <= 28 ==>
      Meta(id).render == RenderHoop && Meta(id).orientation == RingCycle((id - 13) % 4)
  {
  }

  /** Each active small ring has the orientation of its inactive partner,
      and likewise for large rings. */
  lemma RingPartnersShareOrientation()
    ensures forall id :: 13 <= id <= 16 ==> Meta(id).orientation == Meta(id + 4).orientation
    ensures forall id :: 21 <= id <= 24 ==> Meta(id).orientation == Meta(id + 4).orientation
  {
  }

  /** Plain ramps and rubber ramps share the corner sequence TL, TR, BR, BL
      and the sprite transform; only the sprite differs. */
  lemma RampOrientations()
    ensures [Meta(30).orientation, Meta(31).orientation, Meta(32).orientation, Meta(33).orientation]
         == [TopLeft, TopRight, BottomRight, BottomLeft]
    ensures forall id :: 30 <= id <= 33 ==>
      Meta(id + 4).orientation == Meta(id).orientation && Meta(id + 4).transform == Meta(id).transform
  {
  }

  /** Only the moving-spike tile is composite, exactly the empty and the
      two unused ids have no sprite (255), and the second column is 0 in
      every row. */
  lemma CompositeAndBlankSprites()
    ensures forall id :: 0 <= id < TILE_COUNT ==> (Meta(id).render == RenderComposite <==> id == ID_MOVING_SPIKES)
    ensures forall id :: 0 <= id < TILE_COUNT ==> (Meta(id).sprite == 255 <==> id in {0, 11, 12})
    ensures forall id :: 0 <= id < TILE_COUNT ==> Meta(id).reserved == 0
  {
    RowFactsLow();
    RowFactsHigh();
  }

  lemma RowFactsLow()
    ensures RowFactsIn(0, 29)
  {
    assert RowFactsIn(0, 13);
    assert RowFactsIn(13, 29);
  }

  lemma RowFactsHigh()
    ensures RowFactsIn(29, TILE_COUNT)
  {
    assert RowFactsIn(29, 38);
    assert RowFactsIn(38, 55);
  }

  /** The three row facts for ids in [lo, hi). */
  predicate RowFactsIn(lo: int, hi: int)
    requires 0 <= lo <= hi <= TILE_COUNT
  {
    forall id :: lo <= id < hi ==>
      (Meta(id).render == RenderComposite <==> id == ID_MOVING_SPIKES) &&
      (Meta(id).sprite == 255 <==> id in {0, 11, 12}) &&
      Meta(id).reserved == 0
  }
}

=== FILE: wrappers.dfy ===
/** Failure-compatible Option datatype used wherever the C code returns NULL,
    -1 or a "not found" marker. */
module Wrappers {

  /** Some value, or nothing (a NULL pointer, an absent record). */
  datatype Option<+T> = None | Some(value: T) {

    /** True if is None */
    predicate IsFailure() {
      None?
    }

    /** Converts a None result to an Option value with a different value type. */
    function PropagateFailure<U>(): Option<U>
      requires None?
    {
      None
    }

    /** Returns the value encapsulated in Some */
    function Extract(): T
      requires Some?
    {
      value
    }

    /** Returns the value encapsulated in Some or a default value if None */
    function GetOr(default: T): T {
      match this
      case Some(v) => v
      case None() => default
    }
  }
}
